=== FILE: README.md ===
# Aegis Arbiter — a Dafny model of the scoring, linting and gating core

Aegis Arbiter scores conversational text for pressure language (force,
urgency, certainty, hierarchy, moral leverage, identity attacks,
ultimatums, drift). It turns the findings into a seven-axis "peer tensor"
and measures the tensor's resonance against the session's spine. It gates
the session on an integrity product and answers with an IDS block
(identify / define / suggest), which a self-audit checks once.
Around this pipeline sit:

- the shelf and bookcase stores, the tensor repository, the audit log and the witness emitter;
- the `/aegis` chat commands and their handler;
- the storage settings;
- the scoring helpers: lenses, ECU, convergence, dissonance, flow, signature, finance, telemetry and trend;
- the browser's pure formatting helpers.

This project models that core as immutable data and pure functions:

- Stores are sequences or maps, and every write returns the next store.
- Collaborators whose answers cannot be computed here are parameters: the clock, fresh ids, hashes, and the resonance service's delta and snapshot.
- Each module follows one component of the program:

| module | component |
|---|---|
| `Common` | optional values, clamping, JavaScript character classes, `trim`, `join`/`split`, number printing (`String(n)`, `toFixed(2)`, `parseFloat`) |
| `Sorting` | character-by-character string order, stable insertion sort, SQL `LIMIT` |
| `PhraseScan` | the regular expressions `\b(p1\|p2\|…)\b` (with `\s+` pieces) and the global `exec` loop |
| `ServerAnalyzer` | the eight-rule `analyzeText` |
| `ModeAnalyzer` | the nine-detector, mode-weighted `analyzeText(text, flags)` |
| `VinegarLinter` | `lintVinegar`: sorted matches with whitespace-normalised excerpts |
| `Tensors` | the finding map and the two tensor factories |
| `TensorStore` | tensor repository `save`/`getSpine` and the reset purge |
| `Resonance` | the alignment snapshot |
| `Promotion` | the two promotion rules |
| `AegisRepo` | sessions, constraint documents, integrity resonance and the pause state machine |
| `Arbiter` | the flag-only arbiter |
| `Suggestion` | the suggestion engine |
| `ReplyChecks` | self-audit, reframer, response buffer, intent gate, codex review, prism gate, naming constraint |
| `Stores` | the kernel bookcase service, the bookcase and the recovery service |
| `Orchestrator` | `ArbiterOrchestrator.process`/`resume`, `AegisKernel.processTurn`, `MirrorManager.reflect` |
| `StorageSettings` | storage settings, modes and the debug switch |
| `AuditLogger` | audit `write`, `listPublic`, `safeParse` |
| `Commands` | the `/aegis` parser |
| `CommandHandler` | command dispatch with its confirmation gates |
| `Lenses` | lens monitor, ECU, convergence, dissonance, flow, signature, finance, telemetry, trend |
| `Witness` | the witness emitter |
| `CliRunner` | the server's command-line runner |
| `JsValues`, `ApiBase`, `ReportOutput`, `MirrorApp`, `MirrorUtils` | the browser helpers |

Several files in the repository disagree with one another. Each is modelled as written:

- There are two status vocabularies. The resonance service reports `stable`, `drifting` or `fractured` (server/dist/src/kernal/analysis/resonanceServices.js:35-39), while the suggestion engine tests for `aligned` (src/kernal/analysis/suggestionEngine.js:12), a word the service never produces.
- The factories use different salience values (0.2 and 0.3 without findings) and different tag de-duplication: `createPT` de-duplicates, `generate` does not. Only `generate` filters tags through the canon allowlist, so `createPT` keeps the non-canonical `UNCERTAIN` tag of an unmapped finding type.
- `maybePauseSession` pauses any session that is not already paused, a `closed` one included (src/storage/sqlite/aegisRepo.ts:139), so a closed session can become paused.

## Model

| member | source | states |
|---|---|---|
| PhraseScan.Phrases | server/src/analyzer.ts:33-40 | a rule's pattern is the ordered alternation of its phrases, one literal alternative per phrase, with the rule's word-boundary and case flags |
| PhraseScan.MatchAt | server/src/analyzer.ts:33-40 | a match at a position stays inside the text and, for a `\b…\b` pattern, starts and ends on a word boundary |
| PhraseScan.NextFrom | server/src/analyzer.ts:57 | after a match `lastIndex` moves past its start and at least to its end, so an empty match cannot repeat |
| PhraseScan.FirstMatch | server/src/analyzer.ts:50 | one `exec` returns the leftmost genuine match at or after `lastIndex`, and nothing only when no position from there on matches |
| PhraseScan.Scan | server/src/analyzer.ts:48-58 | the `exec` loop returns only genuine matches, each at or after where the previous one left `lastIndex`, and skips no match |
| PhraseScan.ScanOrdered | server/src/analyzer.ts:50-58 | the matches of one loop come strictly left to right and never overlap |
| PhraseScan.ScanFindsSomething | server/src/analyzer.ts:50-58 | if any position of the text matches, the loop from position 0 reports at least one match |
| PhraseScan.TestIff | server/src/analyzer.ts:33-40 | `test` of a pattern holds exactly when the pattern matches at some position |
| PhraseScan.PhraseMatch | server/src/analyzer.ts:33-40 | a match of a phrase alternation is one of the phrases, equal up to ASCII case, at that position |
| PhraseScan.BoundedLitMatches | server/src/analyzer.ts:33-40 | a phrase standing between two word boundaries is matched there by its `\b…\b` pattern, for its full length |
| ServerAnalyzer.AnalyzeText | server/src/analyzer.ts:43-62 | a missing input reads as empty; `text_length` is its length; the findings of each rule's type are exactly that rule's `exec` matches, in loop order, each as a finding with the rule's type, severity, matched phrase and index; findings are grouped by rule in table order and run left to right without overlap within a type |
| ServerAnalyzer.EveryMatchReported | server/src/analyzer.ts:48-58 | every match the `exec` loop finds for a rule is reported as a finding |
| ServerAnalyzer.SeverityTable | server/src/analyzer.ts:33-40 | the table's severity is 1 for `topic_drift` and 2 for every other rule |
| ServerAnalyzer.FindingSeverity | server/src/analyzer.ts:50-56 | every finding has a type from the table and carries that rule's severity |
| ServerAnalyzer.FindingIsPhrase | server/src/analyzer.ts:50-56 | every finding's evidence is one of its rule's phrases up to ASCII case, found at the finding's index |
| ModeAnalyzer.Analyze | server/dist/analyzer.js:36-134 | findings are the nine detectors' scans in detector order: the findings of each type are exactly that detector's matches in order; each type's counter is the number of its detector's matches; the score is the mode-weighted sum; `flagged` holds iff the total reaches the mode's threshold (4 arbiter, 7 rbc, 6 lint); the no-trigger note appears iff nothing was found |
| ModeAnalyzer.CountsAreScans | server/dist/analyzer.js:20-23 | when each type's findings are its detector's matches, each type's count is the number of those matches |
| ModeAnalyzer.EmptyCounts | server/dist/analyzer.js:14-19 | a zero counter for each of the nine finding types and for nothing else |
| ModeAnalyzer.Tally | server/dist/analyzer.js:102-108 | the loop over findings adds each finding's weight to its type's entry and leaves the key set alone |
| ModeAnalyzer.CountsOf | server/dist/analyzer.js:20-23 | each type's counter is the number of findings of that type |
| ModeAnalyzer.ScoreOf | server/dist/analyzer.js:102-108 | `by_type[t]` is the weight of `t` times its number of findings; `total` is the sum of all findings' weights |
| ModeAnalyzer.TotalIsSumOfByType | server/dist/analyzer.js:102-108 | `score.total` equals the sum of `by_type` over the nine types |
| ModeAnalyzer.WeightTable | server/dist/analyzer.js:91-101 | the drift types weigh 1 only when linting, identity attacks and ultimatums always weigh 5, and the others weigh less in rbc mode |
| ModeAnalyzer.DriftIgnoredWithoutLint | server/dist/analyzer.js:91-93 | without the lint flag, removing the two drift types' findings leaves the score unchanged |
| ModeAnalyzer.ArbiterFlagsAtLeastAsMuch | server/dist/analyzer.js:111-112 | turning on the arbiter flag can only lower the threshold, so a text flagged without it is flagged with it |
| ModeAnalyzer.Notes | server/dist/analyzer.js:113-122 | one note per mode flag that is set, plus the no-trigger note exactly when nothing was found |
| ModeAnalyzer.DetectorKindsDistinct | server/dist/analyzer.js:62-88 | the nine detectors report nine distinct types |
| VinegarLinter.Collapse | src/arbiter/vinegarLinter.ts:142 | `replace(/\s+/g, " ")` turns every whitespace run into one space: no two spaces in a row, no other whitespace left, and the non-whitespace text kept in order (`CollapseKeepsText`) |
| VinegarLinter.CollapseKeepsText | src/arbiter/vinegarLinter.ts:142 | collapsing whitespace keeps every other character, in order |
| VinegarLinter.TrimKeepsText | src/arbiter/vinegarLinter.ts:142 | the final `trim` shortens, keeps every non-whitespace character and creates no double space |
| VinegarLinter.WindowStart | src/arbiter/vinegarLinter.ts:140 | the window starts `radius` characters before the match, or at 0 |
| VinegarLinter.WindowEnd | src/arbiter/vinegarLinter.ts:141 | the window ends `radius` characters after the match, or at the end of the text |
| VinegarLinter.WindowCoversMatch | src/arbiter/vinegarLinter.ts:139-142 | a match inside the text lies inside its window, at the offset the window's start implies |
| VinegarLinter.MakeExcerpt | src/arbiter/vinegarLinter.ts:139-144 | the excerpt is no longer than the match plus a radius on each side, nor than the text |
| VinegarLinter.ExcerptShape | src/arbiter/vinegarLinter.ts:139-144 | the excerpt has no whitespace at either end, has no double space, and keeps exactly the window's non-whitespace characters |
| VinegarLinter.PatternMatches | src/arbiter/vinegarLinter.ts:116-131 | one expression's loop yields one record per `exec` match, record i being match i with the excerpt of radius 70 around it |
| VinegarLinter.Unsorted | src/arbiter/vinegarLinter.ts:116-132 | every collected record is a genuine match of one of the rule's expressions with its excerpt; every match of every expression is collected, and there are exactly as many records as matches |
| VinegarLinter.FindAllMatches | src/arbiter/vinegarLinter.ts:113-137 | the result is sorted by position and then by matched text, and is a permutation of all the expressions' matches |
| VinegarLinter.FoundIff | src/arbiter/vinegarLinter.ts:113-137 | some match is reported exactly when one of the expressions matches somewhere in the text |
| VinegarLinter.KindMatchesIff | src/arbiter/vinegarLinter.ts:90-92 | a rule has matches exactly when one of its expressions matches somewhere |
| VinegarLinter.FindingsOver | src/arbiter/vinegarLinter.ts:90-100 | the rule loop pushes one finding per rule that has matches, in rule order, and none for a rule without matches |
| VinegarLinter.AddCounts | src/arbiter/vinegarLinter.ts:108 | each finding adds its number of matches to the entry of its kind |
| VinegarLinter.ZeroCounts | src/arbiter/vinegarLinter.ts:102-106 | every kind starts at 0 |
| VinegarLinter.Report | src/arbiter/vinegarLinter.ts:90-110 | the findings are in rule order and are exactly the rules with matches; each kind's count equals its number of matches |
| VinegarLinter.Lint | src/arbiter/vinegarLinter.ts:34-111 | a missing text reads as empty; there is one finding per rule with matches, in rule order, holding that rule's sorted matches; each kind's count is its number of matches, or 0 |
| VinegarLinter.KindHasMatch | src/arbiter/vinegarLinter.ts:90-99 | a rule one of whose expressions matches anywhere yields a finding |
| VinegarLinter.YouMustEverywhere | src/arbiter/vinegarLinter.ts:51-84 | a word-bounded "you must" is reported under all three kinds: tone, hierarchy, and (through its "must") coercive certainty |
| VinegarLinter.HundredPercentNeedsWordAfter | src/arbiter/vinegarLinter.ts:69 | `\b100%\b` only matches when a word character follows the sign, because `%` is not a word character |
| Tensors.FindingMapSize | src/kernal/tensor/mappings.ts:5-13 | the translation table has exactly seven finding types |
| Tensors.FindingMapBounds | src/kernal/tensor/mappings.ts:6-12 | every axiom in the table is on the canon allowlist, every risk lies in [0, 0.4], and the fallback tag `UNCERTAIN` is not canonical |
| Tensors.CoherenceSigns | src/kernal/tensor/mappings.ts:6-12 | only `sovereign_logic` and `neutral_observation` raise coherence, and no table entry leaves it unchanged |
| Tensors.MappingOf | src/kernal/tensor/factory.js:11 | a known type gets its table entry; any other type gets `UNCERTAIN` with risk 0.1 and coherence 0 |
| Tensors.MappingRisk | src/kernal/tensor/factory.js:11-12 | every finding adds between 0 and 0.4 to the risk |
| Tensors.CreatePT | src/kernal/tensor/factory.js:4-51 | a `PT` tensor: drift is the summed risk capped at 1; coherence is 0.5 plus the deltas, clamped to [0,1]; salience is 0.8 with findings and 0.2 without; tags are the mapped axioms without repetition, each mapped axiom present; channel defaults to `system`; lifecycle is 3600 s, decay 0.1, unpinned |
| Tensors.UnmappedIsUncertain | src/kernal/tensor/factory.js:11-15 | a type missing from the table puts the non-canonical `UNCERTAIN` tag on the tensor |
| Tensors.PositiveCoherence | src/kernal/tensor/factory.js:11-13 | only the two constructive types can raise coherence |
| Tensors.AnalyzerCoherenceAtMostHalf | src/kernal/tensor/factory.js:8-13 | a tensor built from the eight-rule analyzer's finding types never has coherence above the 0.5 baseline |
| Tensors.Generate | server/dist/src/kernal/alignment/tensorFactory.js:16-74 | a non-array argument counts as no findings; drift is the summed severities (0.1 when one is missing), clamped to [0,1]; coherence is 0.9 without findings and 0.5 with; salience is 0.8 with findings and 0.3 without; only allowlisted tags are kept; the lifecycle depends on the type, which defaults to `PT` |
| Tensors.SevereFindingSaturates | server/dist/src/kernal/alignment/tensorFactory.js:21-25 | with non-negative severities, one finding of severity 1 or more drives drift to 1 |
| Tensors.GenerateKeepsRepeats | server/dist/src/kernal/alignment/tensorFactory.js:34-36 | a repeated canonical tag is kept twice, unlike in `createPT` |
| TensorStore.RowOf | server/dist/src/kernal/storage/tensorRepository.js:14-28 | the inserted row holds the tensor and copies its type, time and axes; it expires `ttl` seconds after the clock reading when `ttl` is positive and never otherwise; it is pinned exactly when the tensor is |
| TensorStore.Save | server/dist/src/kernal/storage/tensorRepository.js:14-29 | `save` appends one row and leaves the others untouched |
| TensorStore.SpineRows | server/dist/src/kernal/storage/tensorRepository.js:38 | exactly the rows of that session whose type is `ST` |
| TensorStore.SpineSelection | server/dist/src/kernal/storage/tensorRepository.js:33-42 | only that session's `ST` rows, newest first; exactly `limit` of them (5 by default) or all when fewer or when `limit` is negative; every spine row left out is no newer than every selected row |
| TensorStore.GetSpine | server/dist/src/kernal/storage/tensorRepository.js:33-44 | the stored tensors of the selected rows, unchanged and newest first: exactly `limit` of the session's spine tensors, or all of them when there are fewer |
| TensorStore.NewestSpineComesFirst | server/dist/src/kernal/storage/tensorRepository.js:14-44 | a spine tensor saved later than every other spine tensor of its session comes back first and unchanged |
| TensorStore.Survivors | src/kernal/storage/resetServices.ts:17-22 | a row survives exactly when it is not an unpinned `PT` of the session; survivors plus purged rows make up the table |
| TensorStore.Reset | src/kernal/storage/resetServices.ts:14-31 | always `ok`; the purged count is the number of rows removed; no purgeable row survives, and rows of other sessions, spine rows and pinned rows all stay |
| TensorStore.ResetTwice | src/kernal/storage/resetServices.ts:17-24 | resetting twice is the same as resetting once; the second reset purges nothing |
| Common.Clamp01 | server/dist/src/kernal/analysis/resonanceServices.js:1-5 | the result lies in [0,1]; a value inside is kept, one below becomes 0, one above becomes 1 |
| Common.Dedup | src/arbiter/applyArbiter.ts:225 | no repeats, exactly the same members as the input, in the order of their first occurrences |
| Common.ParseToFixed2 | src/kernal/analysis/suggestionEngine.js:16 | a non-negative number printed with `toFixed(2)` reads back as the value rounded to hundredths, within 0.005 of it |
| Resonance.StatusOf | server/dist/src/kernal/analysis/resonanceServices.js:35-39 | `fractured` iff the delta exceeds 0.7, `drifting` iff it lies in (0.4, 0.7], `stable` iff it is at most 0.4 |
| Resonance.SpineOnly | server/dist/src/kernal/analysis/resonanceServices.js:23 | exactly the spine entries of type `ST` |
| Resonance.SnapshotOf | server/dist/src/kernal/analysis/resonanceServices.js:17-55 | the baseline 0.8 is used and reported iff no `ST` entry exists, otherwise the mean clamped coherence is used; the delta is the clamped distance between coherences plus drift, lies in [0,1] and is at least the drift; the status is the delta's band; the tags are the current tensor's |
| Resonance.NonSpineIgnored | server/dist/src/kernal/analysis/resonanceServices.js:23-28 | adding a tensor of another type to the spine does not change the snapshot |
| Resonance.MatchingSpineIsStable | server/dist/src/kernal/analysis/resonanceServices.js:24-39 | with no spine, a drift-free current tensor of coherence 0.8 has delta 0 and status `stable` |
| Resonance.GetAlignmentSnapshot | server/dist/src/kernal/analysis/resonanceServices.js:15-56 | the snapshot is taken against the repository's spine for the session, at most `limit` (5 by default), and its delta lies in [0,1] |
| Promotion.AxisOr0 | src/kernal/evolution/promotionGate.ts:13-19 | `x \|\| 0`: a missing axis reads as 0, a present one as itself |
| Promotion.GateThresholds | src/kernal/evolution/promotionGate.ts:11-23 | the gate passes iff salience > 0.7, coherence > 0.8 and drift < 0.3 |
| Promotion.GateMissingAxes | src/kernal/evolution/promotionGate.ts:13-19 | a missing drift counts as low drift; a missing salience or coherence fails the gate |
| Promotion.GateExamples | src/kernal/evolution/promotionGate.ts:13-22 | every threshold is strict: salience 0.7, coherence 0.8 and drift 0.3 each fail, while (0.9, 0.95, 0.1) passes |
| Promotion.GateMonotone | src/kernal/evolution/promotionGate.ts:13-22 | raising salience or coherence, or lowering drift, keeps a tensor promoted |
| Promotion.ResonanceSuffices | src/kernal/evolution.ts:7-12 | a resonance above 0.8 promotes, whatever the tags |
| Promotion.NoTagsNeedsResonance | src/kernal/evolution.ts:7-12 | without tags, a resonance of at most 0.8 (or none) never promotes |
| Promotion.DriftyPTNotPromoted | src/kernal/evolution/promotionGate.ts:19-22 | a tensor from `createPT` whose summed risk is at least 0.3 never passes the gate |
| Promotion.QuietPTNotPromoted | src/kernal/evolution/promotionGate.ts:13-22 | a tensor from `createPT` with no findings has salience 0.2 and never passes the gate |
| AegisRepo.EnsureSessionRow | src/storage/sqlite/aegisRepo.ts:41-52 | afterwards the session exists; an existing row is untouched; a new row is active with resonance 1 for the given owner; no other session changes |
| AegisRepo.EnsureSessionRowIdempotent | src/storage/sqlite/aegisRepo.ts:41-52 | a second call changes nothing, whatever owner it names |
| AegisRepo.GetSession | src/storage/sqlite/aegisRepo.ts:54-59 | the row iff the session exists |
| AegisRepo.SetSessionStatus | src/storage/sqlite/aegisRepo.ts:61-66 | an existing row gets the status, `ended_at` becomes `now` on closing and keeps its value otherwise; a missing row is not created; no other session changes |
| AegisRepo.ReopenKeepsEndedAt | src/storage/sqlite/aegisRepo.ts:62-64 | closing and then setting another status leaves the closing time in place |
| AegisRepo.SetIntegrityResonance | src/storage/sqlite/aegisRepo.ts:68-72 | only the resonance of an existing session changes; a missing row is not created |
| AegisRepo.GetTemporalConstraints | src/storage/sqlite/aegisRepo.ts:110-117 | absent iff the scope has no row; a row whose JSON does not parse reads as empty constraints |
| AegisRepo.Coalesce | src/storage/sqlite/aegisRepo.ts:103-107 | `a ?? b ?? d`: the first present value, the default only when both are absent |
| AegisRepo.GetPauseThreshold | src/storage/sqlite/aegisRepo.ts:99-108 | the user's pause threshold if set (and a user is named), else the organisation's, else 0.999 |
| AegisRepo.ZeroThresholdHonoured | src/storage/sqlite/aegisRepo.ts:103-107 | a stored threshold of 0 is used, not replaced by the default |
| AegisRepo.GetPromotionConfig | src/storage/sqlite/aegisRepo.ts:74-97 | spacing, total and spaced count each resolve user, then organisation, then 30 / 3 / 2, independently |
| AegisRepo.PromotionDefaults | src/storage/sqlite/aegisRepo.ts:81-96 | with nothing stored, the configuration is 30 / 3 / 2 |
| AegisRepo.PromotionFieldsIndependent | src/storage/sqlite/aegisRepo.ts:81-96 | a user setting only the spacing still inherits the organisation's two totals |
| AegisRepo.ProductIsOneIff | src/storage/sqlite/aegisRepo.ts:120 | the product of 0/1 roots is 1 iff every root is 1 |
| AegisRepo.ComputeIntegrityResonance | src/storage/sqlite/aegisRepo.ts:119-123 | the resonance is 0 or 1, and 1 iff compassion-ready and every root is stable |
| AegisRepo.MaybePauseSession | src/storage/sqlite/aegisRepo.ts:125-150 | the resonance is stored first; the session is paused, with the marker ids and threshold attached, iff the resonance is below the threshold and the current status (active when missing) is not paused; otherwise the current status is reported unchanged |
| AegisRepo.PausedStaysPaused | src/storage/sqlite/aegisRepo.ts:137-149 | a paused session stays paused and gets no new pause reason |
| AegisRepo.ZeroThresholdNeverPauses | src/storage/sqlite/aegisRepo.ts:139 | with threshold 0, a non-negative resonance never pauses an active session |
| Arbiter.RootsFromLintSignals | src/arbiter/applyArbiter.ts:58-78 | seven roots in a fixed order; respect, affection and trust are 0 iff there are hierarchy, vinegar and certainty markers respectively; the other four are always 1 |
| Arbiter.RootsStableIff | src/arbiter/applyArbiter.ts:58-78 | every root is stable iff all three counts are 0 |
| Arbiter.ViolatedIds | src/arbiter/applyArbiter.ts:158-160 | an id is listed iff some root with that key is 0 |
| Arbiter.Samples | src/arbiter/applyArbiter.ts:113 | the excerpts of the first three matches, or of all when there are fewer |
| Arbiter.Summarise | src/arbiter/applyArbiter.ts:110-114 | one entry per finding, with its kind, its match count and its samples |
| Arbiter.RunGate | src/arbiter/applyArbiter.ts:119-185 | the gate runs iff there is no failure, a native handle exists and the session exists; a skipped gate changes nothing, pauses nothing and leaves a note; a run gate stores the resonance from the roots and reports the pause decision |
| Arbiter.GateResonance | src/arbiter/applyArbiter.ts:147-156 | the resonance the gate computes is 1 iff nothing was flagged, and 0 otherwise |
| Arbiter.DetailsFor | src/arbiter/applyArbiter.ts:202-223 | every mode stores the counts, the gate report and the caller's context (an empty record when none is given); minimal mode adds the kinds only, standard the summaries, verbose the full findings as well |
| Arbiter.ReasonCodes | src/arbiter/applyArbiter.ts:225 | the findings' reason codes, each exactly once, in the order of their first occurrences |
| Arbiter.LintWellShaped | src/arbiter/vinegarLinter.ts:90-110 | the linter counts every kind, and a count is positive iff a finding of that kind is reported |
| Arbiter.FlaggedIffFindings | src/arbiter/applyArbiter.ts:103-108 | the marker total is positive iff the linter reported any finding |
| Arbiter.ApplyLint | src/arbiter/applyArbiter.ts:100-248 | counts come from the linter; flagged iff the total is positive; an audit event is written iff flagged or paused, on the public channel with severity 1, the four axiom tags, the distinct reason codes and the mode's details with the caller's context |
| Arbiter.ApplyArbiterFlagOnly | src/arbiter/applyArbiter.ts:91-249 | each count is the number of matches the linter found for its kind |
| Arbiter.FlaggedPausesAtDefault | src/arbiter/applyArbiter.ts:139-190 | under the default threshold, a flagged text pauses an active session the gate reaches and requests an audit event |
| Arbiter.CleanTextLeavesActive | src/arbiter/applyArbiter.ts:139-190 | a clean text never pauses an active session and requests no audit event |
| Suggestion.NonEmptyStrings | src/kernal/analysis/suggestionEngine.js:2 | a string survives iff it occurs as a string item and is not empty; nothing is added |
| Suggestion.UniqueStrings | src/kernal/analysis/suggestionEngine.js:1-3 | the non-empty string items, each exactly once, in the order of their first occurrences among the items |
| Suggestion.NonEmptyStringsOrder | src/kernal/analysis/suggestionEngine.js:2 | the filter keeps the relative order of first occurrences |
| Suggestion.UniqueStringsOfClean | src/kernal/analysis/suggestionEngine.js:1-3 | a list of distinct non-empty strings comes back unchanged, in its order |
| Suggestion.NonEmptyStringsOfClean | src/kernal/analysis/suggestionEngine.js:2 | a list without empty strings is left unchanged by the filter |
| Suggestion.TagText | src/kernal/analysis/suggestionEngine.js:11 | `uncertain` without tags, otherwise the tags joined by `, ` |
| Suggestion.NoUsableTags | src/kernal/analysis/suggestionEngine.js:10-11 | when every item is empty or not a string, the tag text is `uncertain` |
| Suggestion.IdentifyPrefix | src/kernal/analysis/suggestionEngine.js:12-14 | the stable wording iff the status is `aligned`; otherwise the shift wording names the status |
| Suggestion.Closing | src/kernal/analysis/suggestionEngine.js:20-21 | the sentence ends in a full stop, preceded by `]` iff the baseline was used |
| Suggestion.Identify | src/kernal/analysis/suggestionEngine.js:15-21 | the status wording, `. Delta=` and the delta, then the drift, spine and current figures, each printed with `toFixed(2)`, the literal ` [baseline_used]` mark iff the baseline was used, and a full stop |
| Suggestion.Define | src/kernal/analysis/suggestionEngine.js:24-30 | the aligned explanation iff the status is `aligned`, otherwise the reduced-equilibrium one; both end with the tag text |
| Suggestion.Generate | src/kernal/analysis/suggestionEngine.js:9-38 | always a reply whose suggest part is the three fixed options, built from the snapshot's de-duplicated tags |
| ReplyChecks.SomeDisqualifyingIff | src/kernal/analysis/selfAuditService.ts:63-65 | the recursive `some` holds iff some finding is of type `hierarchy_inference` or `force_language` |
| ReplyChecks.VerdictOf | src/kernal/analysis/selfAuditService.ts:61-70 | every finding is returned, and the verdict passes iff no finding is force or hierarchy language |
| ReplyChecks.Verify | src/kernal/analysis/selfAuditService.ts:59-71 | the findings are the analyzer's on the proposed output; it passes iff none of them is force or hierarchy language |
| ReplyChecks.TypesOf | src/kernal/analysis/selfAuditService.ts:45 | the type of each finding, position by position |
| ReplyChecks.RunSelfAudit | src/kernal/analysis/selfAuditService.ts:33-52 | always ok; the count is the number of the analyzer's findings; the tensor is the PT built from their types, with `{}` metadata by default |
| ReplyChecks.PivotOf | src/kernal/analysis/reframerServices.ts:30-33 | a pivot exists iff the evidence is non-empty and its lower-cased form is a lexicon key; it is that key's entry |
| ReplyChecks.Reframe | src/kernal/analysis/reframerServices.ts:25-41 | at most one line per finding |
| ReplyChecks.ReframeAppend | src/kernal/analysis/reframerServices.ts:28-38 | reframing a concatenation is the concatenation of the reframings: lines keep finding order |
| ReplyChecks.ReframeOne | src/kernal/analysis/reframerServices.ts:30-36 | a single finding yields its sentence iff its evidence has a pivot, and nothing otherwise |
| ReplyChecks.ReframeIgnoresInput | src/kernal/analysis/reframerServices.ts:25-41 | the input text has no influence on the result |
| ReplyChecks.WholeKeyLookup | src/kernal/analysis/reframerServices.ts:5-15 | lookup matches the whole lower-cased evidence: `you need to` has no pivot, `MUST` maps to `observe a path to` |
| ReplyChecks.Stage | src/kernal/security/responseBuffer.js:12-32 | the proposed output is always released unchanged; it is marked modified iff the self-audit fails, and only then are the reframer's pivots attached |
| ReplyChecks.EvidenceOf | src/kernal/security/intentGate.ts:22-24 | exactly the evidence of the findings whose type is selected; at most one piece per finding; none iff no finding has a selected type |
| ReplyChecks.EvidenceOfOne | src/kernal/security/intentGate.ts:22-24 | a single finding gives its evidence exactly when its type is selected |
| ReplyChecks.EvidenceOfAppend | src/kernal/security/intentGate.ts:22-24 | selecting from a concatenation selects from each part, in order |
| ReplyChecks.Pressure | src/kernal/security/intentGate.ts:26 | the pressure lies in [0,1], and is below 0.6 iff there are at most two markers |
| ReplyChecks.IntentOf | src/kernal/security/intentGate.ts:22-32 | the markers are the force, urgency and hierarchy evidence; the intent is resonant iff there are at most two of them |
| ReplyChecks.EvaluateIntent | src/kernal/security/intentGate.ts:18-33 | the markers come from the analyzer's findings on the input; resonant iff at most two |
| ReplyChecks.ReviewOf | src/modules/codex/reviewService.ts:31-54 | the violations are the force and hierarchy evidence; aligned iff there is none; one suggestion when aligned, two otherwise, and the definition lists the violations joined by `; ` |
| ReplyChecks.EvaluateSubmission | src/modules/codex/reviewService.ts:28-55 | the violations come from the analyzer's findings on the content; aligned iff there are none |
| ReplyChecks.AnyMarkerIff | src/kernal/identity/namingConstraint.ts:20 | some case-insensitive marker test succeeds iff some marker occurs, case-folded, at some position of the text |
| ReplyChecks.NoMarkerInEmpty | src/kernal/identity/namingConstraint.ts:20 | no non-empty marker occurs in the empty text |
| ReplyChecks.DetectVector | server/dist/Aegis-Arbiter/src/kernal/analysis/prismGate.js:6-19 | `POSTURE` iff one of the five posture markers occurs, case-insensitively |
| ReplyChecks.LatestIsPosture | server/dist/Aegis-Arbiter/src/kernal/analysis/prismGate.js:11 | unanchored matching classes `latest` as posture, through `test` |
| ReplyChecks.VerifyNaming | src/kernal/identity/namingConstraint.ts:19-28 | rejected, with drift detected, iff one of the eight forbidden phrases occurs case-insensitively |
| ReplyChecks.EmptyOutputAccepted | src/kernal/identity/namingConstraint.ts:19-28 | the empty output is accepted |
| Stores.ShelveTensor | src/kernal/storage/bookcaseService.ts:31-38 | exactly one row is appended, carrying the session, the tensor's id, the reason and the tensor; the fresh shelf id is returned |
| Stores.FirstWithId | src/kernal/storage/bookcaseService.ts:47-48 | the first row with that id, or the table length when there is none |
| Stores.UnshelveTensor | src/kernal/storage/bookcaseService.ts:46-53 | nothing iff no row has that id; otherwise the tensor of the first such row |
| Stores.ShelveThenUnshelve | src/kernal/storage/bookcaseService.ts:31-53 | a tensor shelved under a fresh id is what unshelving that id returns |
| Stores.ShelveKeepsOtherShelves | src/kernal/storage/bookcaseService.ts:31-53 | shelving leaves what every other id unshelves to unchanged |
| Stores.ShelveItem | src/bookcase/bookcase.ts:40-66 | one item is appended and returned: shelved, never unshelved, with the given fields and the condition defaulting to empty |
| Stores.Visible | src/bookcase/bookcase.ts:22-23 | exactly the items of that session that are not purged |
| Stores.NewerItemIsPreorder | src/bookcase/bookcase.ts:24 | descending creation time is a total preorder, so sorting by it is well defined |
| Stores.List | src/bookcase/bookcase.ts:20-38 | a permutation of the visible items, newest first |
| Stores.UnshelveItem | src/bookcase/bookcase.ts:68-78 | every item with that id in that session becomes unshelved at `now`, whatever its status; all others stay as they were |
| Stores.PurgeSession | src/bookcase/bookcase.ts:80-86 | every item of the session becomes purged; nothing else changes |
| Stores.PurgedListIsEmpty | src/bookcase/bookcase.ts:20-86 | after purging a session its list is empty |
| Stores.NothingVisibleAfterPurge | src/bookcase/bookcase.ts:22-23 | after purging a session none of its items is visible |
| Stores.PurgeKeepsOtherSessions | src/bookcase/bookcase.ts:80-86 | purging one session leaves another session's visible items as they were |
| Stores.PurgedCanBeUnshelved | src/bookcase/bookcase.ts:70-77 | the update has no status filter: a purged item becomes unshelved and is listed again |
| Stores.Integrate | src/kernal/analysis/recoveryServices.ts:14-35 | every shelved item with that id becomes integrated, with the acknowledgement as its condition; it succeeds iff some row changed, and a failure changes nothing |
| Stores.IntegrateTwice | src/kernal/analysis/recoveryServices.ts:20-30 | a second integrate of the same id fails and changes nothing |
| Stores.OnlyShelvedIntegrates | src/kernal/analysis/recoveryServices.ts:20 | an item integrates iff its status is shelved |
| Orchestrator.TurnTensor | src/kernal/orchestrator.js:40-43 | every turn builds a `PT` for the input, on the user channel, threaded by the session |
| Orchestrator.Reflect | src/kernal/orchestrator.js:86-103 | identify and define are the engine's; when the self-audit of the block's full text fails, the suggestions are that text's reframes plus the self-correction note; otherwise the three options followed by the reframes of the user's input |
| Orchestrator.Promoted | src/kernal/orchestrator.js:81-84 | a spine copy is saved iff the promotion gate passes, and it is the same tensor, id included, typed `ST` |
| Orchestrator.Decide | src/kernal/orchestrator.js:45-110 | every turn saves and logs the tensor first; fractured (and shelved under the fresh id) iff delta > 0.7; co-examine iff delta ≤ 0.7 and posture; otherwise reflected with the snapshot's status, after the possible promotion; exactly the reflected turn runs one self-audit |
| Orchestrator.Process | src/kernal/orchestrator.js:34-111 | fractured iff delta > 0.7, carrying the shelf id and the fixed fracture block; co-examine iff delta ≤ 0.7 and a posture marker occurs, carrying the delta and the posture block; the self-audit runs once exactly for a reflected turn |
| Orchestrator.ProcessReflects | src/kernal/orchestrator.js:105-110 | a reflected turn reports the snapshot's status, the delta, the reflected block and the analyzer's findings |
| Orchestrator.ProcessSaves | src/kernal/orchestrator.js:45-84 | the saved tensors are the PT, then its `ST` copy only when a reflected turn passes the promotion gate |
| Orchestrator.ProcessShelves | src/kernal/orchestrator.js:45-50 | a fractured turn saves and logs the PT, then shelves it as a high-friction fracture under the shelf id, and does nothing else |
| Orchestrator.Saved | src/kernal/orchestrator.js:45-83 | a trace saves at most one tensor per effect |
| Orchestrator.SavedAppend | src/kernal/orchestrator.js:45-83 | the saves of a concatenated trace are the saves of each part, in order |
| Orchestrator.DecideSaves | src/kernal/orchestrator.js:45-84 | the PT is saved first; the only other save is the promoted spine copy of a reflected turn |
| Orchestrator.ReframeNeverNote | src/kernal/orchestrator.js:93-97 | no reframe line is the self-correction note |
| Orchestrator.CorrectionNoteLast | src/kernal/orchestrator.js:94-97 | a corrected suggestion list holds the self-correction note exactly once, last |
| Orchestrator.Resume | src/kernal/orchestrator.js:115-126 | a failed integration reports a fracture with the pause flag and the recovery message; a successful one is stable at delta 0 |
| Orchestrator.ResumeOnce | src/kernal/orchestrator.js:115-126 | a freshly shelved item resumes once; resuming it again reports a fracture |
| Orchestrator.ProcessTurn | src/kernal/index.js:13-29 | exactly one save, of the turn's PT; the report names it, carries its drift risk and passes the analysis through |
| Orchestrator.DeltaOf | src/modules/mirror/mirrorManager.ts:20 | `result.delta ?? 0`: a fracture, which carries no delta, reads as 0 |
| Orchestrator.MirrorOf | src/modules/mirror/mirrorManager.ts:20-31 | dissonance iff the delta read is above 0.5; the lenses are always empty, since no result carries telemetry |
| Orchestrator.MirrorReflect | src/modules/mirror/mirrorManager.ts:14-32 | one `process` call with the same arguments; the mirror reports dissonance iff 0.5 < delta ≤ 0.7, because a fractured turn reads as aligned; its timestamp is the clock reading taken for the reflection |
| StorageSettings.Overlay | src/settings/storageSettings.ts:78 | `{ ...base, ...parsed }`: each field is the stored one when present, else the base's |
| StorageSettings.OverlayFull | src/settings/storageSettings.ts:78 | overlaying a complete stored document yields exactly that document's settings |
| StorageSettings.GetStorageSettings | src/settings/storageSettings.ts:68-82 | the defaults when the row is missing or does not parse, otherwise the stored fields over the defaults |
| StorageSettings.StoreSettings | src/settings/storageSettings.ts:94-99 | the update writes the full settings when the row exists and changes nothing otherwise; sessions are untouched |
| StorageSettings.ForMode | src/settings/storageSettings.ts:87-92 | the new mode, public audit on, retention raised to at least 3 / 7 / 14 days and never lowered, transcripts kept only in verbose mode and only if already on, private audit unchanged |
| StorageSettings.SetStorageMode | src/settings/storageSettings.ts:84-102 | returns the mode's settings built from the current ones; when the row exists they are what is read back afterwards |
| StorageSettings.SetStorageModeIdempotent | src/settings/storageSettings.ts:84-102 | choosing the same mode twice gives the same settings and store as choosing it once |
| StorageSettings.SetDebugUnlocked | src/settings/storageSettings.ts:104-120 | only that session's flag changes; a missing session is not created; the stored settings read back with private audit equal to the flag |
| StorageSettings.DebugUnlockRoundTrip | src/settings/storageSettings.ts:104-128 | for an existing session, the flag read back is the flag written |
| StorageSettings.EnsureSession | src/settings/storageSettings.ts:26-66 | the given id or a fresh one; a new session starts with `created_at = last_seen_at = now` and debug locked, an existing one only gets `last_seen_at`; other sessions are untouched; a missing settings row is created with the defaults |
| StorageSettings.EnsureSessionSettings | src/settings/storageSettings.ts:46-66 | ensuring a session never changes the settings that are read back |
| AuditLogger.SafeParse | src/audit/auditLogger.ts:76-82 | an unparseable details document reads as `{}`, a parseable one as itself |
| AuditLogger.Write | src/audit/auditLogger.ts:18-49 | the event gets the given or fresh id and time and `{}` details by default, keeps every other field, and is appended to the public table iff its channel is `PUBLIC`, otherwise to the private one |
| AuditLogger.PublicRoundTrip | src/audit/auditLogger.ts:35-72 | a public event whose tags and reason codes are non-empty and comma-free reads back exactly as written |
| AuditLogger.Where | src/audit/auditLogger.ts:53-55 | exactly the rows of that session, created no earlier than `since` when it is given |
| AuditLogger.NewerRowIsPreorder | src/audit/auditLogger.ts:56 | descending creation time is a total preorder |
| AuditLogger.ListedRows | src/audit/auditLogger.ts:52-59 | only that session's public rows since the bound, newest first; exactly `limit` of them or all when fewer; a negative limit keeps them all; every matching row left out is no newer than every selected row |
| AuditLogger.ListPublic | src/audit/auditLogger.ts:51-73 | one public event of that session per selected row, newest first, as many as `ListedRows` selects |
| AuditLogger.PrivateNotListed | src/audit/auditLogger.ts:32-58 | writing a private event never changes a public listing |
| Commands.RunKeeps | dist/sovereign/commands/parseSovereignCommand.js:86-107 | the tokenizer loop keeps its state well formed and drops nothing but quotes and unquoted whitespace |
| Commands.Tokenize | dist/sovereign/commands/parseSovereignCommand.js:86-107 | no token is empty or holds a quote, and the tokens glued together are the input less its quotes and unquoted whitespace |
| Commands.RunWord | dist/sovereign/commands/parseSovereignCommand.js:90-103 | a run over a word without quotes or spaces only extends the current token |
| Commands.RunAppend | dist/sovereign/commands/parseSovereignCommand.js:90-103 | the tokenizer loop over a concatenation is the loop over the second part, started where the first left off |
| Commands.RunJoin | dist/sovereign/commands/parseSovereignCommand.js:90-103 | over words joined by single spaces, every word but the last is emitted and the last is current |
| Commands.TokenizeJoin | dist/sovereign/commands/parseSovereignCommand.js:86-107 | tokenizing words joined by single spaces gives back the words |
| Commands.TokenizeQuoted | dist/sovereign/commands/parseSovereignCommand.js:86-107 | a space inside double quotes stays in its token: `w1 "a b" w2` gives the three tokens `w1`, `a b`, `w2` |
| Commands.StripQuotes | dist/sovereign/commands/parseSovereignCommand.js:120 | at most the value's own characters: one leading and one trailing quote are dropped |
| Commands.ParseFlag | dist/sovereign/commands/parseSovereignCommand.js:111-121 | a token is a flag iff it starts with `--`; without `=` its value is `true` |
| Commands.ParseFlags | dist/sovereign/commands/parseSovereignCommand.js:108-124 | a key is present iff some flag token names it |
| Commands.LastFlagWins | dist/sovereign/commands/parseSovereignCommand.js:110-122 | a key's value is the one its last flag token gives |
| Commands.NonFlagIgnored | dist/sovereign/commands/parseSovereignCommand.js:111-112 | a token without `--` changes nothing |
| Commands.ClampInt | dist/sovereign/commands/parseSovereignCommand.js:125-130 | the result lies in [lo, hi]; an unparseable or non-finite value gives lo; otherwise the parsed value clamped |
| Commands.ClampIntOfNumeral | dist/sovereign/commands/parseSovereignCommand.js:125-130 | a printed number inside the range reads back as itself |
| Commands.AuditCommand | dist/sovereign/commands/parseSovereignCommand.js:17-22 | an audit request whose limit lies in [1, 200]: 50 when no limit flag is given, otherwise the given value clamped to [1, 200]; `since` as given |
| Commands.AuditNonNumericLimit | dist/sovereign/commands/parseSovereignCommand.js:125-128 | a `--limit` value that does not parse as an integer gives the limit 1 |
| Commands.AuditNumeralLimit | dist/sovereign/commands/parseSovereignCommand.js:125-130 | a `--limit` numeral inside [1, 200] is taken as given |
| Commands.BookcaseCommand | dist/sovereign/commands/parseSovereignCommand.js:24-45 | list by default; shelve iff a label and content are both non-empty; unshelve iff an item id is given; anything else is help |
| Commands.PurgeCommand | dist/sovereign/commands/parseSovereignCommand.js:50-55 | scope `all` iff the scope flag is exactly `all`; confirmed iff the confirm flag reads `YES` in any case |
| Commands.StorageCommand | dist/sovereign/commands/parseSovereignCommand.js:57-68 | status by default; `set` takes one of the three modes in any case, minimal when none is given, and anything else is help |
| Commands.DebugCommand | dist/sovereign/commands/parseSovereignCommand.js:70-80 | unlock with its confirmation flag, lock, or help |
| Commands.Dispatch | dist/sovereign/commands/parseSovereignCommand.js:12-81 | the subcommand is matched in any case, help when it is missing or unknown |
| Commands.ParseCommand | dist/sovereign/commands/parseSovereignCommand.js:2-82 | a command iff the trimmed input starts with `/` and its first token is `/aegis` in any case; then the dispatch of the remaining tokens |
| Commands.JoinEnds | dist/sovereign/commands/parseSovereignCommand.js:3-6 | words joined by single spaces start and end with a word character, so trimming keeps them |
| Commands.ParseWords | dist/sovereign/commands/parseSovereignCommand.js:2-82 | a command typed as space-separated words starting with `/` parses as the dispatch of the words after `/aegis`, and as nothing under any other name |
| Commands.AuditByDefault | dist/sovereign/commands/parseSovereignCommand.js:17-21 | plain `/aegis audit`, in any case, asks for the 50 most recent events |
| Commands.BareAegisIsHelp | dist/sovereign/commands/parseSovereignCommand.js:12-15 | a bare `/aegis` and an unknown subcommand are both help |
| CommandHandler.ChooseScope | src/sovereign/commands/handleSovereignCommand.js:40-51 | a scope iff a session is known and names a non-empty user or organisation; the user is preferred |
| CommandHandler.ScopeNamesAnOwner | src/sovereign/commands/handleSovereignCommand.js:40-51 | the chosen scope names a set owner of the session: the user whenever one is set, else the organisation |
| CommandHandler.Record | src/sovereign/commands/handleSovereignCommand.js:55-64 | writing a public event appends exactly its row to the public log; the private log, the bookcase and the settings stay as they were |
| CommandHandler.Answer | src/sovereign/commands/handleSovereignCommand.js:66-70 | a read-only command always succeeds and answers with the store it reads: the listed events, the session's bookcase items, or the settings and debug flag |
| CommandHandler.RunShelve | src/sovereign/commands/handleSovereignCommand.js:253-270 | one new item of the session is appended and returned, followed by one public event |
| CommandHandler.RunUnshelve | src/sovereign/commands/handleSovereignCommand.js:271-284 | the session's items with that id are unshelved and one public event follows; it always reports success |
| CommandHandler.RunStorageSet | src/sovereign/commands/handleSovereignCommand.js:294-311 | the settings become those of the chosen mode, and one public event follows |
| CommandHandler.RunDebug | src/sovereign/commands/handleSovereignCommand.js:312-345 | the session's debug flag is set or cleared, and one public event follows |
| CommandHandler.RunPurge | src/sovereign/commands/handleSovereignCommand.js:352-371 | a confirmed purge of everything empties both logs, the bookcase and the sessions table; a purge of the session deletes only its row |
| CommandHandler.Execute | src/sovereign/commands/handleSovereignCommand.js:65-374 | the reply fails iff the command is an unconfirmed unlock or purge |
| CommandHandler.ExecuteAppendsOnly | src/sovereign/commands/handleSovereignCommand.js:237-351 | short of a purge of everything, the public log only grows, by one event exactly for the commands that write their own |
| CommandHandler.ExecuteKeepsPrivateLog | src/sovereign/commands/handleSovereignCommand.js:255-343 | short of a purge of everything, the private log is untouched |
| CommandHandler.ExecuteReadOnly | src/sovereign/commands/handleSovereignCommand.js:66-358 | a read-only or unconfirmed command changes no store |
| CommandHandler.ExecuteKeepsSettings | src/sovereign/commands/handleSovereignCommand.js:237-371 | only the storage, debug and purge commands change the settings tables |
| CommandHandler.ExecuteKeepsBookcase | src/sovereign/commands/handleSovereignCommand.js:237-371 | only shelving, unshelving and a purge of everything change the bookcase |
| CommandHandler.PurgeAllClears | src/sovereign/commands/handleSovereignCommand.js:366-370 | a confirmed purge of everything empties both logs, the bookcase and the sessions table |
| CommandHandler.PurgeSessionDeletesOne | src/sovereign/commands/handleSovereignCommand.js:359-364 | a confirmed purge of the session deletes only its row |
| CommandHandler.Handle | src/sovereign/commands/handleSovereignCommand.js:52-375 | the command is logged publicly first; the reply fails iff it is an unconfirmed unlock or purge |
| CommandHandler.ControlEventFirst | src/sovereign/commands/handleSovereignCommand.js:55-64 | short of a purge of everything, the control event follows the existing rows, ahead of any event of the command's own; the private log is untouched |
| CommandHandler.ControlRowShape | src/sovereign/commands/handleSovereignCommand.js:55-64 | the control event is a `CONTROL_COMMAND` row of the session, with the fresh id and time and the command as details |
| CommandHandler.UnconfirmedChangesNothing | src/sovereign/commands/handleSovereignCommand.js:313-358 | an unconfirmed unlock or purge fails and changes nothing but the audit log |
| CommandHandler.UnshelveAlwaysOk | src/sovereign/commands/handleSovereignCommand.js:271-284 | unshelving reports success whether or not the item exists |
| CommandHandler.UnlockThenStatus | src/sovereign/commands/handleSovereignCommand.js:285-345 | for a known session, a confirmed unlock shows in the next storage status, and a lock clears it |
| CommandHandler.ShelveThenList | src/sovereign/commands/handleSovereignCommand.js:245-270 | a shelved item is in the next `bookcase list` of the same session |
| Lenses.FracturesDistinct | src/kernal/analysis/lensMonitor.js:22-29 | the three fracture messages are pairwise different, so each can be told apart in the list |
| Lenses.Fractures | src/kernal/analysis/lensMonitor.js:22-29 | the emotional fracture iff emotional < 0.4, the mental one iff mental < 0.4, the imbalance iff the lenses differ by more than 0.6; nothing else, in check order |
| Lenses.Evaluate | src/kernal/analysis/lensMonitor.js:10-31 | physical is 1 − 0.2·salience, emotional 1 − drift, mental and spiritual the axes or 0.5 when falsy, and the fractures are those of the emotional and mental lenses |
| Lenses.LensesBounded | src/kernal/analysis/lensMonitor.js:14-18 | for axes in [0,1] every lens lies in [0,1], the physical one in [0.8, 1] |
| Lenses.Stabilize | src/kernal/analysis/ecuService.js:10-27 | the tension is the distance between mental and emotional; paused and stabilising iff it exceeds 0.6, and only then are the three counter-weights applied |
| Lenses.StabilizeSymmetric | src/kernal/analysis/ecuService.js:12 | swapping the mental and emotional lenses does not change the result |
| Lenses.ConflictMarkers | src/modules/arbiter/convergenceEngine.ts:31-37 | the friction marker iff the emotional lenses differ by more than 0.5, the polarity marker iff the mental ones differ by more than 0.6, friction first |
| Lenses.Converge | src/modules/arbiter/convergenceEngine.ts:21-46 | each party is read by the lens monitor; the friction is the emotional distance, the equilibrium is the midpoint of the two mental lenses, and the markers are the conflict markers |
| Lenses.ConvergeSymmetric | src/modules/arbiter/convergenceEngine.ts:21-46 | swapping the parties swaps the readings and keeps friction, equilibrium and markers |
| Lenses.Analyze | src/modules/mirror/spectrograph/dissonanceDetector.ts:18-38 | the gap is the distance between coherence and inverted drift; the extremes marker iff the gap exceeds 0.5, the force marker iff drift > 0.6 and coherence > 0.7; the variance is 1 − confidence |
| Lenses.GapBounded | src/modules/mirror/spectrograph/dissonanceDetector.ts:19-25 | for axes in [0,1] the gap lies in [0,1], and full coherence at zero drift has no gap |
| Lenses.Calculate | server/dist/src/kernal/flowCalculator.js:10-22 | the flow is never negative: the product of the virtues times the remaining energy when positive, otherwise 0 |
| Lenses.ZeroVirtueZeroProduct | server/dist/src/kernal/flowCalculator.js:12-13 | one zero virtue makes the integrity product zero |
| Lenses.ProductNonNegative | server/dist/src/kernal/flowCalculator.js:12-13 | non-negative virtues have a non-negative product |
| Lenses.FlowPauses | server/dist/src/kernal/flowCalculator.js:8-21 | any zero virtue gives no flow (the deterministic pause), and so does a spent energy with non-negative virtues |
| Lenses.AllOnesFlow | server/dist/src/kernal/flowCalculator.js:12-21 | with every virtue at 1, the flow is the remaining energy when there is some |
| Lenses.Modulate | server/dist/src/kernal/identity/signatureModulator.js:10-23 | the analyst, artist, librarian and mentor voices, each exactly when its condition holds and no earlier one does |
| Lenses.NoLibrarianFromMonitor | server/dist/src/kernal/identity/signatureModulator.js:19-20 | a tensor read by the lens monitor, with salience in [0,1], never gets the librarian voice, since its physical lens is at least 0.8 |
| Lenses.Divide | server/dist/src/modules/financial/caesarsLogic.js:11 | a non-zero divisor gives the quotient; NaN iff both operands are 0; otherwise a signed infinity |
| Lenses.Sustainability | server/dist/src/modules/financial/caesarsLogic.js:13-15 | NaN stays NaN; a finite ratio gives `min(max(0, 1.3 - ratio), 1)`; an infinite ratio gives 0, a negative infinite one 1 |
| Lenses.EvaluateFinance | server/dist/src/modules/financial/caesarsLogic.js:10-22 | for a non-zero income: sustainability `min(max(0, 1.3 - ratio), 1)` of the outgoing/income ratio, the stress prediction iff the ratio exceeds 0.8, balanced iff it is at most 0.5; with no income, positive outgoings give 0 and stress, negative ones give 1 and balance, and `0 / 0` gives NaN, no stress and no balance |
| Lenses.SustainabilityMonotone | server/dist/src/modules/financial/caesarsLogic.js:11-15 | with a positive income, spending more never raises sustainability |
| Lenses.Compile | src/kernal/analysis/telemetryService.ts:19-31 | integrity is 1 iff the flow is positive and 0 otherwise; flow, lenses and tags pass through |
| Lenses.CompileTimestampOnly | src/kernal/analysis/telemetryService.ts:25 | only the timestamp depends on when the record is compiled |
| Lenses.TelemetryOfFlow | src/kernal/analysis/telemetryService.ts:27 | a calculated flow compiles to integrity 0 or 1, and to 0 exactly when the flow is 0 |
| Lenses.TrendOf | src/modules/mirror/progressService.js:16-32 | nothing for fewer than three spine tensors; otherwise newest minus oldest, for drift and coherence, and the improving observation iff drift decreased |
| Lenses.EvolutionTrend | src/modules/mirror/progressService.js:14-33 | the trend over the session's twenty newest spine tensors, from between three and twenty samples |
| Witness.Remove | src/witness.ts:19 | the handler is gone and every other stays; a duplicate-free list stays duplicate-free; an absent handler changes nothing |
| Witness.Add | src/witness.ts:11 | a new handler goes last, a known one stays where it is, so the list stays duplicate-free |
| Witness.On | src/witness.ts:9-14 | the handler is added to the event's set, other events are untouched, and the returned function unsubscribes exactly that handler from that event |
| Witness.Off | src/witness.ts:16-21 | nothing happens for an unknown event; otherwise the handler is dropped, and the event goes once nothing listens to it; other events are untouched |
| Witness.Emit | src/witness.ts:23-27 | for handlers that return normally and leave the listeners alone, exactly the event's handlers are called, each once |
| Witness.OnTwice | src/witness.ts:10-12 | registering the same handler twice is the same as registering it once |
| Witness.OnThenUnsubscribe | src/witness.ts:9-21 | a fresh registration undone by its unsubscribe function leaves the listeners as they were |
| Witness.EmitAfterOn | src/witness.ts:9-27 | after `on`, an emit of that event calls the handler exactly once; other events are unaffected |
| Witness.EmitAfterOff | src/witness.ts:16-27 | after `off`, an emit of that event no longer calls the handler |
| CliRunner.ComposeInput | server/src/cliRunner.ts:11-15 | a missing part reads as empty; the text is the two parts with twenty characters of labels and newlines, each part readable at a fixed position |
| CliRunner.ComposeInjective | server/src/cliRunner.ts:11-15 | two inputs with prompts of equal length compose to the same text only if both parts agree |
| CliRunner.ComposeAmbiguous | server/src/cliRunner.ts:14 | without the prompt's length the layout cannot be read back: a prompt holding the notepad label composes like a shorter prompt with a longer notepad |
| CliRunner.MapMode | server/src/cliRunner.ts:17-21 | `arbiter` iff the mode is `arbiter`, `lint` iff it is `lint`, `rbc` for every other mode |
| CliRunner.MapModeExclusive | server/src/cliRunner.ts:17-21 | exactly one flag holds, whatever the mode |
| CliRunner.RunAegisCli | server/src/cliRunner.ts:23-27 | the analysis of the composed text, whose length is the two parts plus twenty |
| CliRunner.RunIgnoresMode | server/src/cliRunner.ts:25-26 | the mode's flags are computed but do not change the analysis |
| CliRunner.RunFindingsInText | server/src/cliRunner.ts:23-27 | every finding lies inside the composed text and is one of its rule's phrases there |
| ApiBase.Base | ui/src/lib/apiBase.ts:1-2 | the setting, `/api` when unset, less one trailing slash: a prefix of the setting, one character shorter iff it ended in a slash |
| ApiBase.BaseDefaults | ui/src/lib/apiBase.ts:1-2 | an unset base is `/api`, and of two trailing slashes only one is dropped |
| ApiBase.Url | ui/src/lib/apiBase.ts:6-9 | the base followed by the path, with exactly one slash put in front of a path that has none |
| ApiBase.UrlNormalizes | ui/src/lib/apiBase.ts:6-9 | a path without a leading slash reaches the same URL as the same path with one |
| ApiBase.UrlPathStable | ui/src/lib/apiBase.ts:6-9 | normalising an already built path adds nothing |
| ReportOutput.LastN | ui/src/components/ReportOutput.tsx:23-25 | the last k elements, or all of them when there are fewer |
| ReportOutput.ReportData | ui/src/components/ReportOutput.tsx:27-38 | nothing iff the history is empty; otherwise a non-empty suffix of it: one entry for `single` and unknown types, up to five for `cumulative`, all for `aggregate` |
| ReportOutput.Latest | ui/src/components/ReportOutput.tsx:40-41 | a headline entry iff the history is non-empty |
| ReportOutput.LatestIsLast | ui/src/components/ReportOutput.tsx:40-41 | whatever the type, the headline is the most recent entry of the whole history |
| ReportOutput.EntryCount | ui/src/components/ReportOutput.tsx:74-79 | a count is printed iff the history is non-empty and the type is not `single`; it is the number of selected entries, 1 for an unknown type |
| ReportOutput.ReportsNest | ui/src/components/ReportOutput.tsx:27-38 | each wider report type selects a suffix that contains what the narrower ones select |
| MirrorUtils.OrDefault | mirror-utils.ts:5-7 | `v \|\| d`: always truthy; a truthy value passes, anything else becomes the default |
| MirrorUtils.ProcessEntry | mirror-utils.ts:3-9 | every part is truthy: a truthy part passes unchanged, a missing or falsy one becomes `Unknown`, `Undefined` or `No suggestion` |
| MirrorUtils.AbsentGivesDefaults | mirror-utils.ts:3-9 | a null or undefined entry gives the three default wordings |
| MirrorUtils.ProcessEntryIdempotent | mirror-utils.ts:3-9 | normalising an already normalised entry changes nothing |
| MirrorApp.BandMonotone | ui/src/MirrorApp.tsx:65-79 | with descending cut-offs, a larger number never falls in a lower band |
| MirrorApp.DescribeLevel | ui/src/MirrorApp.tsx:65-71 | `Unknown` iff the value is not a number; `High` iff ≥ 0.75, `Steady` iff in [0.45, 0.75), `Low` iff in [0.25, 0.45), `Depleted` below |
| MirrorApp.LevelTone | ui/src/MirrorApp.tsx:73-79 | `unknown` iff not a number; `strong`, `steady`, `low` and `critical` on the same cut-offs |
| MirrorApp.WordingMatchesTone | ui/src/MirrorApp.tsx:65-79 | two readings share a wording iff they share a tone |
| MirrorApp.NormalizeLenses | ui/src/MirrorApp.tsx:81-93 | the four fields iff the payload is an object (not null) and one of them is a number; nothing otherwise |
| MirrorApp.NormalizeStable | ui/src/MirrorApp.tsx:81-93 | the object rebuilt from a normalised reading normalises to the same reading |
| MirrorApp.FirstDelta | ui/src/MirrorApp.tsx:97 | the leftmost case-insensitive `delta=` followed by a digit or point, at or after the start |
| MirrorApp.DeltaRun | ui/src/MirrorApp.tsx:97 | the greedy group `[0-9.]+`: the longest leading run of digits and points |
| MirrorApp.AlignmentDelta | ui/src/MirrorApp.tsx:97-98 | `parseFloat` of the run of digits and points after the leftmost case-insensitive `delta=` followed by one of them; nothing without such a match |
| MirrorApp.FormatAlignment | ui/src/MirrorApp.tsx:95-128 | nothing iff the text is missing or empty; the delta advice by bands 0.8 / 0.55 / 0.3 when a delta is read; else the advice for a numeric emotional score; else the text itself |
| MirrorApp.DeltaTakesPrecedence | ui/src/MirrorApp.tsx:101-112 | a readable delta decides the advice whatever the emotional score |
| MirrorApp.EmotionAdviceFollowsLevel | ui/src/MirrorApp.tsx:114-125 | the emotional-score advice sits in the same band as the level wording of that score |
| MirrorApp.FixedIsDeltaRun | ui/src/MirrorApp.tsx:97 | every character of a non-negative `toFixed(2)` text is a digit or a point, the first a digit |
| MirrorApp.NoDeltaBefore | ui/src/MirrorApp.tsx:97 | no match starts inside a prefix free of `=` |
| MirrorApp.ReadsPrintedDelta | ui/src/MirrorApp.tsx:97-98 | a delta printed with `toFixed(2)` after `Delta=` reads back as the value rounded to hundredths, when nothing before it holds `=` |
| MirrorApp.ReadsRunAfterKey | ui/src/MirrorApp.tsx:97-98 | after a prefix free of `=`, the delta read is `parseFloat` of the run following the key |
| MirrorApp.KeyFoundAfter | ui/src/MirrorApp.tsx:97 | the first match is the key right after a prefix free of `=`, when a digit follows it |
| MirrorApp.IdentifyHeadPlain | src/kernal/analysis/suggestionEngine.js:12-15 | the words before `Delta=` in `identify` hold no `=` when the status holds none |
| MirrorApp.IdentifyLayout | src/kernal/analysis/suggestionEngine.js:15-21 | `identify` is its head, `Delta=`, the printed delta and the rest |
| MirrorApp.ReadsSuggestedDelta | ui/src/MirrorApp.tsx:95-112 | the advice panel reads back, to the hundredth, the delta the suggestion engine printed into `identify`, and advises by its band, whenever the delta is non-negative and the status holds no `=` |
| MirrorApp.IsReportCapableIds | ui/src/MirrorApp.tsx:131-147 | true iff the value is an object whose `peerWeights` is an array of exactly seven numbers and whose six other report fields have their types |
| MirrorApp.ResultCapable | ui/src/MirrorApp.tsx:131-147 | a serialised engine result is report-capable iff it carries seven peer weights |
| MirrorApp.VectorUnchecked | ui/src/MirrorApp.tsx:131-147 | an object without `vector` is accepted, although the test claims the full result type |
| MirrorApp.FormatRecordingTime | ui/src/MirrorApp.tsx:419-423 | whole minutes, a colon, and the seconds padded to two digits |
| MirrorApp.RecordingTimeRoundTrip | ui/src/MirrorApp.tsx:419-423 | the clock text reads back as the number of seconds it was made from |
| MirrorApp.ThreeMinutes | ui/src/MirrorApp.tsx:63-423 | the three-minute recording limit shows as `3:00` |

## Left out

- SQL and the database: the repositories' tables are sequences and maps, and a query is the function that filters them. Column types, indexes and the primary-key constraint are not modelled. The kernel's shelf (`aegis_bookcase`, written and read by src/kernal/storage/bookcaseService.ts:34 and :47) and the command handler's bookcase (`bookcase_items`) are two separate tables, modelled as `Stores.ShelfRecord` rows and `Stores.BookcaseItem` rows.
- Randomness, hashing and the clock: `randomUUID`, the SHA-256 digests and `Date.now`/`new Date()` are parameters. The model assumes nothing about their values.
- JSON: `JSON.stringify` followed by `JSON.parse` is taken as the identity on the values stored. Text that does not parse is modelled in three places, each as an explicit "not JSON" input: `AuditLogger.SafeParse` reads it as `{}`; `StorageSettings.SettingsDb` stores an empty or unparsable settings row as `Some(None)`, and `GetStorageSettings` then falls back to the defaults; `AegisRepo.GetTemporalConstraints` reads an unparsable constraints document as `NoConstraints`.
- Floating point: numbers are exact reals. There is no rounding error, no NaN or infinity and no negative zero. The finance helper is the exception, since it tests for NaN and its model carries that case. `toFixed(2)` rounds an exact half up.
- Common.Clamp01: the non-finite branch (NaN or infinity gives 0) is absent, because a real is always finite.
- MirrorApp.DescribeLevel: a NaN reading would fall through to the lowest band. Numbers are reals here, so that case does not arise.
- Case folding is ASCII only. `localeCompare`, used to break ties between linter matches at the same index, is modelled as lexicographic order by character value, not as a locale collation.
- Text is a sequence of Unicode scalar values, while JavaScript's `length`, indices and `slice` count UTF-16 code units. The two agree on text inside the Basic Multilingual Plane. On a character outside it, `text_length`, finding indices, the 70-character excerpt window and the tokenizer's positions in the model differ from the source.
- `parseInt` on a digit run of any length gives its exact value. Digit runs long enough to lose precision in a double are not modelled.
- The number text in the human-readable summaries is not modelled beyond `toFixed(2)` and `String` of a whole number.
- Object prototype keys (`constructor`, `toString`, …) in the reframer's lookup table and in field reads are not modelled. A missing key is simply undefined. An array's `length` is not readable as a field.
- Tensor fields that every factory fills with the same constant are kept as plain fields and are not constrained further. A time-to-live is a number of milliseconds, as written.
- `analyzeText`, which the kernel imports from `src/analyzeText.js` (built as server/dist/src/analyzeText.js), is not part of this model's sources. Its callers are modelled with the `server/src/analyzer.ts` table in its place.
- The resonance delta and snapshot are parameters of the orchestrator, the kernel turn and the mirror. `Resonance.SnapshotOf` models the service on its own.
- The mode analyzer's detector table is a parameter with the shape its entries have. The analyzer's contract holds for any such table.
- `auditBridge` is a call into code outside this model. It is left out, and so are the logger's console output and file handles.
- The handler's `AEGIS_STATUS` branch (src/sovereign/commands/handleSovereignCommand.js:71-236) reads the native database handle and probes the AEGIS tables. The parser never produces that kind (`/aegis status` parses to `HELP`), so the branch is unreachable from chat input and is not modelled. The `default` branch ("Unknown command.") is unreachable for the same reason.
- The session purge answers that related rows were removed as well. The model deletes the session row only, because no cascade is declared in the code.
- Fractional and negative recording seconds: the recording clock is given whole, non-negative seconds, which is all the recorder produces.
- The command-line runner computes some flags and never reads them. They are not modelled.
- Telemetry lenses: no process result carries a lens block, so the telemetry that would read one is modelled from its flow input only.
- ReplyChecks.Reframe: its own contract only bounds the number of lines. `ReplyChecks.ReframeAppend` and `ReplyChecks.ReframeOne` state what each finding contributes.
- React rendering, event handlers, the media recorder, timers, `fetch` and the WebSocket stream are left out. Only the pure helpers behind the panels are modelled.
- Witness.Emit: handlers are opaque values. A handler that throws stops the loop early, and one that subscribes or unsubscribes during `emit` changes which handlers the live `Set` iteration reaches and how often. Neither effect is modelled. The result is the list of handlers registered when `emit` starts.
- Concurrency: the model runs each operation atomically, from start to finish, before the next begins. The source's operations are async functions with several `await`s, and other requests can run between them. Interleavings at those points are not modelled. Examples: two concurrent `/aegis storage set` calls can lose an update, because `setStorageMode` reads the settings and writes them back after an `await`; `setDebugUnlocked` issues two separate UPDATEs; and `handleSovereignCommand` awaits the control-event write before running the command.

=== FILE: aegis_repo.dfy ===
/**
 * The AEGIS session store: session rows with a status and an integrity
 * resonance, and per-organisation / per-user constraint documents that
 * hold the pause threshold and the promotion settings. The database is a
 * value; every write returns the next one.
 */
module AegisRepo {
  import opened Common

  datatype Status = Active | Paused | Closed

  datatype Scope = OrgScope | UserScope

  datatype SessionRow = SessionRow(
    id: string, orgId: string, userId: string, status: Status,
    resonance: real, peerState: string, endedAt: Option<string>)

  /** The fields of a constraints document the store reads; an absent field is `None`. */
  datatype Constraints = Constraints(
    pause: Option<real>, spacingMinutes: Option<real>, minTotal: Option<real>, minSpaced: Option<real>)

  const NoConstraints := Constraints(None, None, None, None)

  /**
   * The two tables. A constraints document whose JSON does not parse is
   * stored as `None`.
   */
  datatype Db = Db(sessions: map<string, SessionRow>, temporal: map<(Scope, string), Option<Constraints>>)

  datatype PromotionConfig = PromotionConfig(spacingMinutes: real, minTotal: real, minSpaced: real)

  datatype PausedBecause = PausedBecause(markerIds: seq<string>, threshold: real)

  datatype Decision = Decision(sessionId: string, status: Status, integrityResonance: real, pausedBecause: Option<PausedBecause>)

  /** A root-stability flag: 1 stable, 0 unstable. */
  type Bit = x: int | 0 <= x <= 1

  datatype RootEntry = RootEntry(key: string, value: Bit)

  const DefaultPauseThreshold: real := 0.999

  /** Session rows other than `id` are the same in both stores. */
  ghost predicate OthersUnchanged(a: Db, b: Db, id: string) {
    && (forall s :: s != id ==> (s in a.sessions <==> s in b.sessions))
    && (forall s :: s != id && s in a.sessions ==> s in b.sessions && a.sessions[s] == b.sessions[s])
    && a.temporal == b.temporal
  }

  /** `ensureSessionRow`: an existing row is left alone; a new one starts active with resonance 1. */
  function EnsureSessionRow(db: Db, sessionId: string, orgId: string, userId: string): (r: Db)
    ensures sessionId in r.sessions
    ensures sessionId in db.sessions ==> r == db
    ensures sessionId !in db.sessions ==>
      r.sessions[sessionId] == SessionRow(sessionId, orgId, userId, Active, 1.0, "{}", None)
    ensures OthersUnchanged(db, r, sessionId)
  {
    if sessionId in db.sessions then db
    else db.(sessions := db.sessions[sessionId := SessionRow(sessionId, orgId, userId, Active, 1.0, "{}", None)])
  }

  /** Ensuring a row twice is ensuring it once, whatever owner the second call names. */
  lemma EnsureSessionRowIdempotent(db: Db, sessionId: string, orgId: string, userId: string, orgId2: string, userId2: string)
    ensures EnsureSessionRow(EnsureSessionRow(db, sessionId, orgId, userId), sessionId, orgId2, userId2)
         == EnsureSessionRow(db, sessionId, orgId, userId)
  {
  }

  function GetSession(db: Db, sessionId: string): (r: Option<SessionRow>)
    ensures r.Some? <==> sessionId in db.sessions
    ensures r.Some? ==> r.value == db.sessions[sessionId]
  {
    if sessionId in db.sessions then Some(db.sessions[sessionId]) else None
  }

  /**
   * `setSessionStatus`: an update of the row if it exists. `ended_at` is
   * set to `now` on closing and otherwise keeps its previous value.
   */
  function SetSessionStatus(db: Db, sessionId: string, status: Status, now: string): (r: Db)
    ensures sessionId in db.sessions <==> sessionId in r.sessions
    ensures sessionId in db.sessions ==>
      var old_ := db.sessions[sessionId];
      var new_ := r.sessions[sessionId];
      && new_.status == status
      && new_.endedAt == (if status == Closed then Some(now) else old_.endedAt)
      && new_.(status := old_.status, endedAt := old_.endedAt) == old_
    ensures sessionId !in db.sessions ==> r == db
    ensures OthersUnchanged(db, r, sessionId)
  {
    if sessionId !in db.sessions then db
    else
      var row := db.sessions[sessionId];
      var ended := if status == Closed then Some(now) else row.endedAt;
      db.(sessions := db.sessions[sessionId := row.(status := status, endedAt := ended)])
  }

  /** Closing a session then setting another status keeps the closing time. */
  lemma ReopenKeepsEndedAt(db: Db, sessionId: string, now: string, later: string, status: Status)
    requires sessionId in db.sessions && status != Closed
    ensures SetSessionStatus(SetSessionStatus(db, sessionId, Closed, now), sessionId, status, later)
              .sessions[sessionId].endedAt == Some(now)
  {
  }

  function SetIntegrityResonance(db: Db, sessionId: string, resonance: real): (r: Db)
    ensures sessionId in db.sessions <==> sessionId in r.sessions
    ensures sessionId in db.sessions ==>
      r.sessions[sessionId].resonance == resonance
      && r.sessions[sessionId].(resonance := db.sessions[sessionId].resonance) == db.sessions[sessionId]
    ensures sessionId !in db.sessions ==> r == db
    ensures OthersUnchanged(db, r, sessionId)
  {
    if sessionId !in db.sessions then db
    else db.(sessions := db.sessions[sessionId := db.sessions[sessionId].(resonance := resonance)])
  }

  /** The constraints of a scope: absent without a row, empty when the stored JSON does not parse. */
  function GetTemporalConstraints(db: Db, scope: Scope, scopeId: string): (r: Option<Constraints>)
    ensures r.None? <==> (scope, scopeId) !in db.temporal
    ensures r.Some? && db.temporal[(scope, scopeId)].None? ==> r.value == NoConstraints
    ensures r.Some? && db.temporal[(scope, scopeId)].Some? ==> r.value == db.temporal[(scope, scopeId)].value
  {
    if (scope, scopeId) !in db.temporal then None
    else Some(db.temporal[(scope, scopeId)].GetOr(NoConstraints))
  }

  /** The user's constraints, looked up only for a non-empty user id. */
  function UserConstraints(db: Db, userId: Option<string>): Option<Constraints> {
    if userId.Some? && userId.value != "" then GetTemporalConstraints(db, UserScope, userId.value) else None
  }

  /** The settings a constraints document can hold. */
  datatype Setting = PauseSetting | SpacingSetting | MinTotalSetting | MinSpacedSetting

  /** One setting of possibly absent constraints. */
  function Field(c: Option<Constraints>, s: Setting): Option<real> {
    if c.None? then None
    else match s
      case PauseSetting => c.value.pause
      case SpacingSetting => c.value.spacingMinutes
      case MinTotalSetting => c.value.minTotal
      case MinSpacedSetting => c.value.minSpaced
  }

  /** `v` is `a` when present, else `b` when present, else `d`. */
  predicate Resolved(v: real, a: Option<real>, b: Option<real>, d: real) {
    && (a.Some? ==> v == a.value)
    && (a.None? && b.Some? ==> v == b.value)
    && (a.None? && b.None? ==> v == d)
  }

  /** `a ?? b ?? d`: only an absent value falls through. */
  function Coalesce(a: Option<real>, b: Option<real>, d: real): (r: real)
    ensures Resolved(r, a, b, d)
  {
    if a.Some? then a.value else if b.Some? then b.value else d
  }

  /** The pause threshold: the user's, else the organisation's, else 0.999. */
  function GetPauseThreshold(db: Db, orgId: string, userId: Option<string>): (t: real)
    ensures Resolved(t, Field(UserConstraints(db, userId), PauseSetting),
                     Field(GetTemporalConstraints(db, OrgScope, orgId), PauseSetting), DefaultPauseThreshold)
  {
    Coalesce(Field(UserConstraints(db, userId), PauseSetting),
             Field(GetTemporalConstraints(db, OrgScope, orgId), PauseSetting),
             DefaultPauseThreshold)
  }

  /** A stored threshold of 0 is used as such, not replaced by the default. */
  lemma ZeroThresholdHonoured(db: Db, orgId: string, userId: string)
    requires userId != ""
    requires (UserScope, userId) in db.temporal
    requires db.temporal[(UserScope, userId)] == Some(Constraints(Some(0.0), None, None, None))
    ensures GetPauseThreshold(db, orgId, Some(userId)) == 0.0
  {
  }

  /** Each promotion setting is resolved on its own: the user's, else the organisation's, else the default. */
  function GetPromotionConfig(db: Db, orgId: string, userId: Option<string>): (c: PromotionConfig)
    ensures var u := UserConstraints(db, userId);
            var o := GetTemporalConstraints(db, OrgScope, orgId);
            && Resolved(c.spacingMinutes, Field(u, SpacingSetting), Field(o, SpacingSetting), 30.0)
            && Resolved(c.minTotal, Field(u, MinTotalSetting), Field(o, MinTotalSetting), 3.0)
            && Resolved(c.minSpaced, Field(u, MinSpacedSetting), Field(o, MinSpacedSetting), 2.0)
  {
    var u := UserConstraints(db, userId);
    var o := GetTemporalConstraints(db, OrgScope, orgId);
    PromotionConfig(
      Coalesce(Field(u, SpacingSetting), Field(o, SpacingSetting), 30.0),
      Coalesce(Field(u, MinTotalSetting), Field(o, MinTotalSetting), 3.0),
      Coalesce(Field(u, MinSpacedSetting), Field(o, MinSpacedSetting), 2.0))
  }

  /** With no constraints stored at all, the configuration is 30 / 3 / 2. */
  lemma PromotionDefaults(db: Db, orgId: string, userId: Option<string>)
    requires db.temporal == map[]
    ensures GetPromotionConfig(db, orgId, userId) == PromotionConfig(30.0, 3.0, 2.0)
  {
  }

  /** A user who sets only the spacing still gets the organisation's totals. */
  lemma PromotionFieldsIndependent(db: Db, orgId: string, userId: string, spacing: real, total: real, spaced: real)
    requires userId != ""
    requires (UserScope, userId) in db.temporal && (OrgScope, orgId) in db.temporal
    requires db.temporal[(UserScope, userId)] == Some(Constraints(None, Some(spacing), None, None))
    requires db.temporal[(OrgScope, orgId)] == Some(Constraints(None, Some(1.0), Some(total), Some(spaced)))
    ensures GetPromotionConfig(db, orgId, Some(userId)) == PromotionConfig(spacing, total, spaced)
  {
  }

  /** The product of the flags. */
  function Product(rs: seq<RootEntry>): (p: Bit) {
    if |rs| == 0 then 1 else rs[0].value * Product(rs[1..])
  }

  predicate AllStable(rs: seq<RootEntry>) {
    forall i :: 0 <= i < |rs| ==> rs[i].value == 1
  }

  lemma {:induction false} ProductIsOneIff(rs: seq<RootEntry>)
    ensures Product(rs) == 1 <==> AllStable(rs)
    decreases |rs|
  {
    if |rs| > 0 {
      ProductIsOneIff(rs[1..]);
      assert AllStable(rs) <==> rs[0].value == 1 && AllStable(rs[1..]);
    }
  }

  /**
   * `computeIntegrityResonance`: the product of the roots, times 1 when
   * compassion-ready and 0 otherwise; 1 exactly when every root is stable
   * and the input is compassion-ready, 0 in every other case.
   */
  function ComputeIntegrityResonance(roots: seq<RootEntry>, compassionReady: bool): (r: real)
    ensures r == 1.0 || r == 0.0
    ensures r == 1.0 <==> compassionReady && AllStable(roots)
  {
    ProductIsOneIff(roots);
    var co := if compassionReady then 1 else 0;
    (Product(roots) * co) as real
  }

  /** The status the pause decision reads: the row's, or active when there is no row. */
  function CurrentStatus(db: Db, sessionId: string): Status {
    if sessionId in db.sessions then db.sessions[sessionId].status else Active
  }

  /**
   * `maybePauseSession`: stores the resonance first, then pauses the session
   * when the resonance is below the threshold and it is not already paused;
   * the reason is attached only to that transition.
   */
  function MaybePauseSession(db: Db, orgId: string, userId: string, sessionId: string,
                             resonance: real, markerIds: seq<string>): (r: (Db, Decision))
    ensures var threshold := GetPauseThreshold(db, orgId, Some(userId));
            var cur := CurrentStatus(db, sessionId);
            var d := r.1;
            && d.sessionId == sessionId && d.integrityResonance == resonance
            && (d.status == Paused <==> resonance < threshold || cur == Paused)
            && (d.status != Paused ==> d.status == cur)
            && (d.pausedBecause.Some? <==> resonance < threshold && cur != Paused)
            && (d.pausedBecause.Some? ==> d.pausedBecause.value == PausedBecause(markerIds, threshold))
    ensures sessionId in db.sessions <==> sessionId in r.0.sessions
    ensures sessionId in db.sessions ==>
      && r.0.sessions[sessionId].resonance == resonance
      && r.0.sessions[sessionId].status == r.1.status
      && r.0.sessions[sessionId].endedAt == db.sessions[sessionId].endedAt
    ensures OthersUnchanged(db, r.0, sessionId)
  {
    var threshold := GetPauseThreshold(db, orgId, Some(userId));
    var db1 := SetIntegrityResonance(db, sessionId, resonance);
    var session := GetSession(db1, sessionId);
    var cur := if session.Some? then session.value.status else Active;
    if resonance < threshold && cur != Paused then
      var db2 := SetSessionStatus(db1, sessionId, Paused, "");
      (db2, Decision(sessionId, Paused, resonance, Some(PausedBecause(markerIds, threshold))))
    else
      (db1, Decision(sessionId, cur, resonance, None))
  }

  /** A paused session is never made active again by the gate. */
  lemma PausedStaysPaused(db: Db, orgId: string, userId: string, sessionId: string, resonance: real, markerIds: seq<string>)
    requires CurrentStatus(db, sessionId) == Paused
    ensures MaybePauseSession(db, orgId, userId, sessionId, resonance, markerIds).1.status == Paused
    ensures MaybePauseSession(db, orgId, userId, sessionId, resonance, markerIds).1.pausedBecause.None?
  {
  }

  /** With a zero threshold, a non-negative resonance never pauses an active session. */
  lemma ZeroThresholdNeverPauses(db: Db, orgId: string, userId: string, sessionId: string, resonance: real, markerIds: seq<string>)
    requires GetPauseThreshold(db, orgId, Some(userId)) == 0.0 && resonance >= 0.0
    requires CurrentStatus(db, sessionId) == Active
    ensures MaybePauseSession(db, orgId, userId, sessionId, resonance, markerIds).1.status == Active
  {
  }
}

=== FILE: api_base.dfy ===
/**
 * The browser client's API base and URL builder. The environment setting
 * is a parameter: absent means it was not configured.
 */
module ApiBase {
  import opened Common

  const DefaultBase: string := "/api"

  predicate EndsWithSlash(s: string) {
    |s| > 0 && s[|s| - 1] == '/'
  }

  predicate StartsWithSlash(s: string) {
    |s| > 0 && s[0] == '/'
  }

  /**
   * The configured base, `/api` when unset; one trailing slash is dropped,
   * so the base is the setting itself or the setting less its last character.
   */
  function Base(env: Option<string>): (b: string)
    ensures var raw := env.GetOr(DefaultBase);
            && IsPrefix(b, raw)
            && (EndsWithSlash(raw) ==> |b| + 1 == |raw|)
            && (!EndsWithSlash(raw) ==> b == raw)
  {
    var raw := env.GetOr(DefaultBase);
    if EndsWithSlash(raw) then raw[..|raw| - 1] else raw
  }

  /** An unset base is `/api`, and only one of several trailing slashes goes. */
  lemma BaseDefaults(s: string)
    ensures Base(None) == "/api"
    ensures Base(Some(s + "//")) == s + "/"
  {
    assert (s + "//")[..|s| + 1] == s + "/";
  }

  /**
   * `apiUrl`: the base followed by the path, with a slash put in front of a
   * path that does not already start with one.
   */
  function Url(env: Option<string>, path: string): (u: string)
    ensures IsPrefix(Base(env), u)
    ensures StartsWithSlash(u[|Base(env)|..])
    ensures StartsWithSlash(path) ==> u[|Base(env)|..] == path
    ensures !StartsWithSlash(path) ==> u[|Base(env)| + 1..] == path
  {
    var normalized := if StartsWithSlash(path) then path else "/" + path;
    Base(env) + normalized
  }

  /** A path without a leading slash reaches the same URL as the same path with one. */
  lemma UrlNormalizes(env: Option<string>, path: string)
    requires !StartsWithSlash(path)
    ensures Url(env, path) == Url(env, "/" + path)
  {
    var u1 := Url(env, path);
    var u2 := Url(env, "/" + path);
    var b := Base(env);
    assert u1 == b + ("/" + path);
    assert StartsWithSlash("/" + path);
  }

  /** Normalising twice adds nothing: a built URL's path part is left as it is. */
  lemma UrlPathStable(env: Option<string>, path: string)
    ensures var u := Url(env, path);
            Url(env, u[|Base(env)|..]) == u
  {
    var u := Url(env, path);
    var b := Base(env);
    assert u == b + u[|b|..];
  }
}

=== FILE: arbiter.dfy ===
/**
 * The flag-only arbiter: lint the text, derive the seven integrity roots
 * from the three marker counts, run the session gate (which may pause the
 * session), and describe an intervention to the audit log when anything
 * was flagged or the session was paused. The text is never rewritten.
 */
module Arbiter {
  import opened Common
  import opened VinegarLinter
  import opened AegisRepo
  import opened StorageSettings
  import opened AuditLogger
  import JsValues

  datatype MarkerCounts = MarkerCounts(vinegar: nat, certainty: nat, hierarchy: nat, total: nat)

  datatype SummaryEntry = SummaryEntry(kind: Kind, count: nat, samples: seq<string>)

  datatype ApplyResult = ApplyResult(flagged: bool, counts: MarkerCounts, findingsSummary: seq<SummaryEntry>)

  /** What the session gate did; `note` says why it was skipped. */
  datatype GateReport = GateReport(
    attempted: bool, paused: bool, integrityResonance: Option<real>,
    pausedBecause: Option<PausedBecause>, note: Option<string>)

  /** The caller's free-form context record, carried into the audit payload. */
  type Context = map<string, JsValues.Js>

  /** The audit payload, redacted according to the storage mode. */
  datatype ArbiterDetails =
    | NoDetails
    | MinimalDetails(counts: MarkerCounts, kinds: seq<Kind>, gate: GateReport, context: Context)
    | StandardDetails(counts: MarkerCounts, summary: seq<SummaryEntry>, gate: GateReport, context: Context)
    | VerboseDetails(counts: MarkerCounts, findings: seq<LintFinding>, summary: seq<SummaryEntry>, gate: GateReport,
                     context: Context)

  /**
   * The collaborators the gate reaches: whether the database wrapper
   * exposes a native handle, the AEGIS tables, and the message of an error
   * the store raises, if it raises one.
   */
  datatype GateEnv = GateEnv(hasNativeHandle: bool, aegis: AegisRepo.Db, failure: Option<string>)

  const RootKeys: seq<string> := [
    "root.honesty", "root.respect", "root.attention", "root.affection",
    "root.loyalty", "root.trust", "root.communication"
  ]

  const AxiomTags: seq<string> := ["TRANSPARENCY", "SOVEREIGNTY", "EQUILIBRIUM", "NEUTRALITY"]

  function Flag(signal: nat): Bit {
    if signal > 0 then 0 else 1
  }

  /**
   * `rootsFromLintSignals`: seven roots in a fixed order; respect, affection
   * and trust drop to 0 on hierarchy, vinegar and certainty markers, the
   * other four are always 1.
   */
  function RootsFromLintSignals(vinegar: nat, certainty: nat, hierarchy: nat): (roots: seq<RootEntry>)
    ensures |roots| == 7
    ensures forall i :: 0 <= i < 7 ==> roots[i].key == RootKeys[i]
    ensures roots[0].value == 1 && roots[2].value == 1 && roots[4].value == 1 && roots[6].value == 1
    ensures roots[1].value == 0 <==> hierarchy > 0
    ensures roots[3].value == 0 <==> vinegar > 0
    ensures roots[5].value == 0 <==> certainty > 0
  {
    [RootEntry(RootKeys[0], 1), RootEntry(RootKeys[1], Flag(hierarchy)), RootEntry(RootKeys[2], 1),
     RootEntry(RootKeys[3], Flag(vinegar)), RootEntry(RootKeys[4], 1), RootEntry(RootKeys[5], Flag(certainty)),
     RootEntry(RootKeys[6], 1)]
  }

  /** Every root is stable exactly when there is no marker at all. */
  lemma RootsStableIff(vinegar: nat, certainty: nat, hierarchy: nat)
    ensures AllStable(RootsFromLintSignals(vinegar, certainty, hierarchy))
        <==> vinegar + certainty + hierarchy == 0
  {
    var roots := RootsFromLintSignals(vinegar, certainty, hierarchy);
    if vinegar > 0 { assert roots[3].value == 0; }
    if certainty > 0 { assert roots[5].value == 0; }
    if hierarchy > 0 { assert roots[1].value == 0; }
  }

  /** `Object.entries(roots).filter(([, v]) => v === 0).map(([k]) => k)`. */
  function ViolatedIds(roots: seq<RootEntry>): (ids: seq<string>)
    ensures forall k :: k in ids <==> exists i :: 0 <= i < |roots| && roots[i].key == k && roots[i].value == 0
    ensures |ids| <= |roots|
    decreases |roots|
  {
    if |roots| == 0 then []
    else
      var rest := ViolatedIds(roots[1..]);
      assert forall i :: 0 < i < |roots| ==> roots[i] == roots[1..][i - 1];
      (if roots[0].value == 0 then [roots[0].key] else []) + rest
  }

  /** `f.matches.slice(0, 3).map((m) => m.excerpt)`. */
  function Samples(ms: seq<LintMatch>): (ss: seq<string>)
    ensures |ss| == if |ms| < 3 then |ms| else 3
    ensures forall i :: 0 <= i < |ss| ==> ss[i] == ms[i].excerpt
  {
    var n := if |ms| < 3 then |ms| else 3;
    seq(n, i requires 0 <= i < n => ms[i].excerpt)
  }

  function Summarise(fs: seq<LintFinding>): (s: seq<SummaryEntry>)
    ensures |s| == |fs|
    ensures forall i :: 0 <= i < |fs| ==>
      s[i].kind == fs[i].kind && s[i].count == |fs[i].matches| && s[i].samples == Samples(fs[i].matches)
  {
    seq(|fs|, i requires 0 <= i < |fs| => SummaryEntry(fs[i].kind, |fs[i].matches|, Samples(fs[i].matches)))
  }

  /** The session gate, including its three ways of being skipped. */
  function RunGate(env: GateEnv, sessionId: string, counts: MarkerCounts, flagged: bool): (r: (AegisRepo.Db, GateReport))
    ensures r.1.attempted <==> env.failure.None? && env.hasNativeHandle && sessionId in env.aegis.sessions
    ensures !r.1.attempted ==> !r.1.paused && r.0 == env.aegis && r.1.note.Some?
    ensures r.1.attempted ==>
      var row := env.aegis.sessions[sessionId];
      var resonance := ComputeIntegrityResonance(
        RootsFromLintSignals(counts.vinegar, counts.certainty, counts.hierarchy), !flagged);
      var m := MaybePauseSession(env.aegis, row.orgId, row.userId, sessionId, resonance,
        ViolatedIds(RootsFromLintSignals(counts.vinegar, counts.certainty, counts.hierarchy)));
      && r.0 == m.0
      && r.1 == GateReport(true, m.1.status == Paused, Some(m.1.integrityResonance), m.1.pausedBecause, None)
  {
    if env.failure.Some? then
      (env.aegis, GateReport(false, false, None, None, Some("AEGIS gate skipped due to error: " + env.failure.value)))
    else if !env.hasNativeHandle then
      (env.aegis, GateReport(false, false, None, None,
        Some("AEGIS gate skipped: native sqlite handle not available on SqliteDb wrapper.")))
    else
      match GetSession(env.aegis, sessionId)
      case None =>
        (env.aegis, GateReport(false, false, None, None, Some("AEGIS gate skipped: session not found.")))
      case Some(row) =>
        var roots := RootsFromLintSignals(counts.vinegar, counts.certainty, counts.hierarchy);
        var resonance := ComputeIntegrityResonance(roots, !flagged);
        var m := MaybePauseSession(env.aegis, row.orgId, row.userId, sessionId, resonance, ViolatedIds(roots));
        (m.0, GateReport(true, m.1.status == Paused, Some(m.1.integrityResonance), m.1.pausedBecause, None))
  }

  /** The resonance the gate computes is 1 exactly when nothing was flagged, and 0 otherwise. */
  lemma GateResonance(counts: MarkerCounts, flagged: bool)
    requires counts.total == counts.vinegar + counts.certainty + counts.hierarchy
    requires flagged <==> counts.total > 0
    ensures ComputeIntegrityResonance(RootsFromLintSignals(counts.vinegar, counts.certainty, counts.hierarchy), !flagged)
         == if counts.total == 0 then 1.0 else 0.0
  {
    RootsStableIff(counts.vinegar, counts.certainty, counts.hierarchy);
  }

  /** The payload for each storage mode; a missing context is stored as the empty record. */
  function DetailsFor(mode: StorageMode, counts: MarkerCounts, fs: seq<LintFinding>, summary: seq<SummaryEntry>,
                      gate: GateReport, context: Option<Context>): (d: ArbiterDetails)
    ensures !d.NoDetails? && d.counts == counts && d.gate == gate
    ensures context.Some? ==> d.context == context.value
    ensures context.None? ==> d.context == map[]
    ensures d.MinimalDetails? <==> mode == Minimal
    ensures mode == Minimal ==> d.kinds == KindsOf(fs)
    ensures mode == Standard ==> d.StandardDetails? && d.summary == summary
    ensures mode == Verbose ==> d.VerboseDetails? && d.findings == fs && d.summary == summary
  {
    var ctx := context.GetOr(map[]);
    match mode
    case Minimal => MinimalDetails(counts, KindsOf(fs), gate, ctx)
    case Standard => StandardDetails(counts, summary, gate, ctx)
    case Verbose => VerboseDetails(counts, fs, summary, gate, ctx)
  }

  /** A resonance as `${n}` prints it, for the values the gate produces. */
  function NumberText(x: real): string {
    if x == 1.0 then "1" else if x == 0.0 then "0" else "NaN"
  }

  function GateLine(gate: GateReport): string {
    if gate.attempted && gate.integrityResonance.Some? then
      " | integrity_resonance=" + NumberText(gate.integrityResonance.value) + (if gate.paused then " (paused)" else "")
    else ""
  }

  function SummaryLine(c: MarkerCounts, gate: GateReport): string {
    "Arbiter flag-only: " + IntToString(c.total) + " marker(s) detected (vinegar=" + IntToString(c.vinegar)
      + ", certainty=" + IntToString(c.certainty) + ", hierarchy=" + IntToString(c.hierarchy) + ")" + GateLine(gate)
  }

  /** The findings' reason codes, one per finding, repeats included. */
  function AllReasonCodes(fs: seq<LintFinding>): (all: seq<string>)
    ensures |all| == |fs| && forall i :: 0 <= i < |fs| ==> all[i] == fs[i].reasonCode
  {
    seq(|fs|, i requires 0 <= i < |fs| => fs[i].reasonCode)
  }

  /** The reason codes of the findings, each once, in first-seen order. */
  function ReasonCodes(fs: seq<LintFinding>): (codes: seq<string>)
    ensures NoDup(codes)
    ensures forall c :: c in codes <==> exists i :: 0 <= i < |fs| && fs[i].reasonCode == c
    ensures FirstSeenOrder(AllReasonCodes(fs), codes)
  {
    Dedup(AllReasonCodes(fs))
  }

  datatype ApplyOutcome = ApplyOutcome(result: ApplyResult, aegis: AegisRepo.Db, gate: GateReport,
                                       audit: Option<EventInput<ArbiterDetails>>)

  /** Every kind has a count, and a count is positive exactly when that kind has a finding. */
  ghost predicate WellShaped(lint: LintResult) {
    && (forall k: Kind :: k in lint.counts)
    && (forall k: Kind :: lint.counts[k] > 0 <==> k in KindsOf(lint.findings))
  }

  /** The linter's result always has that shape. */
  lemma LintWellShaped(text: string)
    ensures WellShaped(Lint(Some(text)))
  {
  }

  /** Some count is positive exactly when the linter reported a finding. */
  lemma FlaggedIffFindings(lint: LintResult)
    requires WellShaped(lint)
    ensures lint.counts[VinegarTone] + lint.counts[CoerciveCertainty] + lint.counts[HierarchyMarker] > 0
        <==> |lint.findings| > 0
  {
    if |lint.findings| > 0 {
      var k := lint.findings[0].kind;
      assert KindsOf(lint.findings)[0] == k;
      assert lint.counts[k] > 0;
    } else {
      assert forall k: Kind :: k !in KindsOf(lint.findings);
    }
  }

  /** The arbiter's decisions once the linter has produced `lint`. */
  function ApplyLint(settings: SettingsDb, env: GateEnv, sessionId: string, context: Option<Context>, lint: LintResult)
    : (o: ApplyOutcome)
    requires WellShaped(lint)
    ensures o.result.counts == MarkerCounts(lint.counts[VinegarTone], lint.counts[CoerciveCertainty],
              lint.counts[HierarchyMarker],
              lint.counts[VinegarTone] + lint.counts[CoerciveCertainty] + lint.counts[HierarchyMarker])
    ensures o.result.flagged <==> |lint.findings| > 0
    ensures o.result.flagged <==> o.result.counts.total > 0
    ensures o.result.findingsSummary == Summarise(lint.findings)
    ensures (o.aegis, o.gate) == RunGate(env, sessionId, o.result.counts, o.result.flagged)
    ensures o.audit.Some? <==> o.result.flagged || o.gate.paused
    ensures o.audit.Some? ==>
      var e := o.audit.value;
      && e.id.None? && e.createdAt.None?
      && e.sessionId == sessionId && e.channel == Public && e.eventType == "ARBITER_INTERVENTION"
      && e.severity == 1 && e.axiomTags == AxiomTags
      && e.reasonCodes == ReasonCodes(lint.findings)
      && e.summary == SummaryLine(o.result.counts, o.gate)
      && e.details == Some(DetailsFor(GetStorageSettings(settings).mode, o.result.counts,
                                      lint.findings, o.result.findingsSummary, o.gate, context))
  {
    var mode := GetStorageSettings(settings).mode;
    var vinegar := lint.counts[VinegarTone];
    var certainty := lint.counts[CoerciveCertainty];
    var hierarchy := lint.counts[HierarchyMarker];
    var total := vinegar + certainty + hierarchy;
    var counts := MarkerCounts(vinegar, certainty, hierarchy, total);
    FlaggedIffFindings(lint);
    var flagged := total > 0;
    var summary := Summarise(lint.findings);
    var (aegis, gate) := RunGate(env, sessionId, counts, flagged);
    var audit := if flagged || gate.paused then
      Some(EventInput(None, None, sessionId, Public, "ARBITER_INTERVENTION", 1, AxiomTags,
                      ReasonCodes(lint.findings), SummaryLine(counts, gate),
                      Some(DetailsFor(mode, counts, lint.findings, summary, gate, context))))
      else None;
    ApplyOutcome(ApplyResult(flagged, counts, summary), aegis, gate, audit)
  }

  /**
   * `applyArbiterFlagOnly`: lint the text, then decide; each count is the
   * number of matches the linter found for that kind.
   */
  function ApplyArbiterFlagOnly(settings: SettingsDb, env: GateEnv, sessionId: string, context: Option<Context>, text: string)
    : (o: ApplyOutcome)
    ensures o.result.counts.vinegar == |KindMatches(VinegarTone, text)|
    ensures o.result.counts.certainty == |KindMatches(CoerciveCertainty, text)|
    ensures o.result.counts.hierarchy == |KindMatches(HierarchyMarker, text)|
    ensures WellShaped(Lint(Some(text))) && o == ApplyLint(settings, env, sessionId, context, Lint(Some(text)))
  {
    LintWellShaped(text);
    ApplyLint(settings, env, sessionId, context, Lint(Some(text)))
  }

  /**
   * Under the default threshold, a flagged text pauses the session the
   * gate reaches (resonance 0 is below 0.999) and an audit event is requested.
   */
  lemma FlaggedPausesAtDefault(settings: SettingsDb, env: GateEnv, sessionId: string, context: Option<Context>, lint: LintResult)
    requires WellShaped(lint) && |lint.findings| > 0
    requires env.failure.None? && env.hasNativeHandle && sessionId in env.aegis.sessions
    requires var row := env.aegis.sessions[sessionId];
             GetPauseThreshold(env.aegis, row.orgId, Some(row.userId)) == DefaultPauseThreshold
    ensures ApplyLint(settings, env, sessionId, context, lint).gate.paused
    ensures ApplyLint(settings, env, sessionId, context, lint).audit.Some?
  {
    var o := ApplyLint(settings, env, sessionId, context, lint);
    GateResonance(o.result.counts, o.result.flagged);
  }

  /** A clean text never pauses an active session and requests no audit event. */
  lemma CleanTextLeavesActive(settings: SettingsDb, env: GateEnv, sessionId: string, context: Option<Context>, lint: LintResult)
    requires WellShaped(lint) && |lint.findings| == 0
    requires sessionId in env.aegis.sessions && env.aegis.sessions[sessionId].status == Active
    requires var row := env.aegis.sessions[sessionId];
             GetPauseThreshold(env.aegis, row.orgId, Some(row.userId)) <= 1.0
    ensures !ApplyLint(settings, env, sessionId, context, lint).gate.paused
    ensures ApplyLint(settings, env, sessionId, context, lint).audit.None?
  {
    var o := ApplyLint(settings, env, sessionId, context, lint);
    GateResonance(o.result.counts, o.result.flagged);
  }
}

=== FILE: audit_logger.dfy ===
/**
 * The audit log: events go to a public or a private table, tags and reason
 * codes are stored as comma-joined text, and the public events of a session
 * are listed newest first. The structured `details` payload is a type
 * parameter `D`; its JSON encoding is taken to read back what was written,
 * and a stored payload that does not parse reads back as `empty` (`{}`).
 */
module AuditLogger {
  import opened Common
  import opened Sorting

  datatype Channel = Public | Private

  datatype AuditEvent<D> = AuditEvent(
    id: string, createdAt: string, sessionId: string, channel: Channel, eventType: string,
    severity: int, axiomTags: seq<string>, reasonCodes: seq<string>, summary: string, details: D)

  /** What a caller hands to `write`: the id, the time and the details may be left out. */
  datatype EventInput<D> = EventInput(
    id: Option<string>, createdAt: Option<string>, sessionId: string, channel: Channel, eventType: string,
    severity: int, axiomTags: seq<string>, reasonCodes: seq<string>, summary: string, details: Option<D>)

  /** A stored row; `details` is `None` when the stored JSON does not parse. */
  datatype AuditRow<D> = AuditRow(
    id: string, sessionId: string, createdAt: string, eventType: string, severity: int,
    axiomTags: string, reasonCodes: string, summary: string, details: Option<D>)

  datatype AuditDb<D> = AuditDb(publicRows: seq<AuditRow<D>>, privateRows: seq<AuditRow<D>>)

  /** The row `write` inserts for a completed event. */
  function ToRow<D>(e: AuditEvent<D>): AuditRow<D> {
    AuditRow(e.id, e.sessionId, e.createdAt, e.eventType, e.severity,
             Join(e.axiomTags, ","), Join(e.reasonCodes, ","), e.summary, Some(e.details))
  }

  /** `safeParse`: the stored payload, or `{}` when it does not parse. */
  function SafeParse<D>(stored: Option<D>, empty: D): (d: D)
    ensures stored.None? ==> d == empty
    ensures stored.Some? ==> d == stored.value
  {
    stored.GetOr(empty)
  }

  /** How `listPublic` reads a row back. */
  function FromRow<D>(r: AuditRow<D>, empty: D): AuditEvent<D> {
    AuditEvent(r.id, r.createdAt, r.sessionId, Public, r.eventType, r.severity,
               NonEmpty(Split(r.axiomTags, ',')), NonEmpty(Split(r.reasonCodes, ',')),
               r.summary, SafeParse(r.details, empty))
  }

  /**
   * `write`: fills in the id, the time and `{}` details when absent, then
   * appends the row to the public table for `PUBLIC` and to the private
   * table otherwise.
   */
  function Write<D>(db: AuditDb<D>, ev: EventInput<D>, freshId: string, now: string, empty: D): (r: (AuditDb<D>, AuditEvent<D>))
    ensures var e := r.1;
            && e.id == ev.id.GetOr(freshId) && e.createdAt == ev.createdAt.GetOr(now)
            && e.details == ev.details.GetOr(empty)
            && (e.sessionId, e.channel, e.eventType, e.severity) == (ev.sessionId, ev.channel, ev.eventType, ev.severity)
            && (e.axiomTags, e.reasonCodes, e.summary) == (ev.axiomTags, ev.reasonCodes, ev.summary)
    ensures ev.channel == Public ==> r.0 == db.(publicRows := db.publicRows + [ToRow(r.1)])
    ensures ev.channel == Private ==> r.0 == db.(privateRows := db.privateRows + [ToRow(r.1)])
  {
    var full := AuditEvent(ev.id.GetOr(freshId), ev.createdAt.GetOr(now), ev.sessionId, ev.channel,
                           ev.eventType, ev.severity, ev.axiomTags, ev.reasonCodes, ev.summary,
                           ev.details.GetOr(empty));
    if full.channel == Public then (db.(publicRows := db.publicRows + [ToRow(full)]), full)
    else (db.(privateRows := db.privateRows + [ToRow(full)]), full)
  }

  /** No tag is empty or contains the separator. */
  predicate PlainTags(xs: seq<string>) {
    forall k :: 0 <= k < |xs| ==> xs[k] != "" && ',' !in xs[k]
  }

  /** A public event with plain tags and reason codes reads back exactly as it was written. */
  lemma PublicRoundTrip<D>(e: AuditEvent<D>, empty: D)
    requires e.channel == Public
    requires PlainTags(e.axiomTags) && PlainTags(e.reasonCodes)
    ensures FromRow(ToRow(e), empty) == e
  {
    JoinSplitNonEmpty(e.axiomTags, ',');
    JoinSplitNonEmpty(e.reasonCodes, ',');
  }

  /** The `since` filter applies only for a non-empty bound, and is inclusive. */
  predicate Listed<D>(r: AuditRow<D>, sessionId: string, since: Option<string>) {
    r.sessionId == sessionId && (since.Some? && since.value != "" ==> StrLe(since.value, r.createdAt))
  }

  /** The rows that pass the `WHERE` clause, in table order. */
  function Where<D(!new)>(rows: seq<AuditRow<D>>, sessionId: string, since: Option<string>): (out: seq<AuditRow<D>>)
    ensures forall r :: r in out <==> r in rows && Listed(r, sessionId, since)
    ensures multiset(out) <= multiset(rows)
    decreases |rows|
  {
    if |rows| == 0 then []
    else
      var rest := Where(rows[1..], sessionId, since);
      assert rows == [rows[0]] + rows[1..];
      if Listed(rows[0], sessionId, since) then [rows[0]] + rest else rest
  }

  /** Newest first by creation time. */
  predicate NewerRow<D>(a: AuditRow<D>, b: AuditRow<D>) {
    NewerFirst(a.createdAt, b.createdAt)
  }

  lemma NewerRowIsPreorder<D(!new)>()
    ensures TotalPreorder(NewerRow<D>)
  {
    forall a: AuditRow<D>, b: AuditRow<D>
      ensures NewerRow(a, b) || NewerRow(b, a)
    {
      StrLeTotal(a.createdAt, b.createdAt);
    }
    forall a: AuditRow<D>, b: AuditRow<D>, c: AuditRow<D> | NewerRow(a, b) && NewerRow(b, c)
      ensures NewerRow(a, c)
    {
      StrLeTrans(c.createdAt, b.createdAt, a.createdAt);
    }
  }

  /**
   * The rows `listPublic` selects: the session's `limit` newest public rows
   * from `since` on (all of them for a negative limit), newest first; every
   * matching row left out is no newer than every row listed.
   */
  function ListedRows<D(!new)>(db: AuditDb<D>, sessionId: string, limit: int, since: Option<string>): (rows: seq<AuditRow<D>>)
    ensures forall r :: r in rows ==> r in db.publicRows && Listed(r, sessionId, since)
    ensures SortedBy(NewerRow<D>, rows)
    ensures var n := |Where(db.publicRows, sessionId, since)|;
            |rows| == if limit < 0 then n else MinInt(limit, n)
    ensures multiset(rows) <= multiset(Where(db.publicRows, sessionId, since))
    ensures limit < 0 ==> multiset(rows) == multiset(Where(db.publicRows, sessionId, since))
    ensures RestAfter(NewerRow<D>, rows, multiset(Where(db.publicRows, sessionId, since)))
  {
    NewerRowIsPreorder<D>();
    var listed := Where(db.publicRows, sessionId, since);
    var sorted := SortBy(NewerRow<D>, listed);
    var rows := Limit(sorted, limit);
    PrefixFirst(NewerRow<D>, sorted, |rows|);
    assert forall r :: r in rows ==> r in multiset(listed);
    rows
  }

  /** `listPublic`: the selected rows read back as public events. */
  function ListPublic<D(!new)>(db: AuditDb<D>, sessionId: string, limit: int, since: Option<string>, empty: D): (es: seq<AuditEvent<D>>)
    ensures var rows := ListedRows(db, sessionId, limit, since);
            |es| == |rows| && forall i :: 0 <= i < |es| ==> es[i] == FromRow(rows[i], empty)
    ensures forall i :: 0 <= i < |es| ==> es[i].sessionId == sessionId && es[i].channel == Public
    ensures forall i, j :: 0 <= i < j < |es| ==> StrLe(es[j].createdAt, es[i].createdAt)
  {
    var rows := ListedRows(db, sessionId, limit, since);
    assert forall i :: 0 <= i < |rows| ==> rows[i] in rows;
    FromRows(rows, empty)
  }

  /** Each row read back, in the same order. */
  function FromRows<D>(rows: seq<AuditRow<D>>, empty: D): (es: seq<AuditEvent<D>>)
    ensures |es| == |rows| && forall i :: 0 <= i < |es| ==> es[i] == FromRow(rows[i], empty)
  {
    seq(|rows|, i requires 0 <= i < |rows| => FromRow(rows[i], empty))
  }

  /** A private event never shows up in a public listing. */
  lemma PrivateNotListed<D(!new)>(db: AuditDb<D>, ev: EventInput<D>, freshId: string, now: string, empty: D,
                            sessionId: string, limit: int, since: Option<string>)
    requires ev.channel == Private
    ensures var db1 := Write(db, ev, freshId, now, empty).0;
            ListPublic(db1, sessionId, limit, since, empty) == ListPublic(db, sessionId, limit, since, empty)
  {
  }
}

=== FILE: cli_runner.dfy ===
/**
 * The command-line entry point of the server: the prompt and the notepad
 * are laid out as one labelled text, which the analyzer scores. The mode
 * is translated into flags that nothing reads.
 */
module CliRunner {
  import opened Common
  import opened ServerAnalyzer

  const PromptLabel: string := "PROMPT:\n"
  const NotepadLabel: string := "\n\nNOTEPAD:\n"

  /**
   * `composeInput`: a missing prompt or notepad is read as empty; the text
   * is the prompt label, the prompt, the notepad label, the notepad and a
   * final newline, so each part sits at a position fixed by the prompt's length.
   */
  function ComposeInput(prompt: Option<string>, notepad: Option<string>): (text: string)
    ensures var p := prompt.GetOr(""); var n := notepad.GetOr("");
            && |text| == |p| + |n| + 20
            && text[..8] == PromptLabel
            && text[8..8 + |p|] == p
            && text[8 + |p|..19 + |p|] == NotepadLabel
            && text[19 + |p|..|text| - 1] == n
            && text[|text| - 1] == '\n'
  {
    PromptLabel + prompt.GetOr("") + NotepadLabel + notepad.GetOr("") + "\n"
  }

  /** Two inputs whose prompts have the same length compose to the same text only if they agree. */
  lemma ComposeInjective(p1: Option<string>, n1: Option<string>, p2: Option<string>, n2: Option<string>)
    requires |p1.GetOr("")| == |p2.GetOr("")|
    requires ComposeInput(p1, n1) == ComposeInput(p2, n2)
    ensures p1.GetOr("") == p2.GetOr("") && n1.GetOr("") == n2.GetOr("")
  {
  }

  /**
   * Without the prompt's length the layout cannot be read back: a prompt
   * that itself contains the notepad label composes to the same text as a
   * shorter prompt with a longer notepad.
   */
  lemma ComposeAmbiguous()
    ensures ComposeInput(Some("a" + NotepadLabel + "b"), Some("c"))
         == ComposeInput(Some("a"), Some("b" + NotepadLabel + "c"))
  {
  }

  datatype Flags = Flags(rbc: bool, arbiter: bool, lint: bool)

  /** `mapMode`: exactly one flag is set; any mode other than `arbiter` and `lint` selects `rbc`. */
  function MapMode(mode: string): (f: Flags)
    ensures f.arbiter <==> mode == "arbiter"
    ensures f.lint <==> mode == "lint"
    ensures f.rbc <==> !f.arbiter && !f.lint
  {
    if mode == "arbiter" then Flags(false, true, false)
    else if mode == "lint" then Flags(false, false, true)
    else Flags(true, false, false)
  }

  /** Exactly one of the three flags holds, whatever the mode. */
  lemma MapModeExclusive(mode: string)
    ensures var f := MapMode(mode);
            (if f.rbc then 1 else 0) + (if f.arbiter then 1 else 0) + (if f.lint then 1 else 0) == 1
  {
  }

  /**
   * `runAegisCli`: the analysis of the composed text; its length counts the
   * two parts and the twenty characters of labels and newlines.
   */
  function RunAegisCli(mode: string, prompt: Option<string>, notepad: Option<string>): (a: Analysis)
    ensures a == AnalyzeText(Some(ComposeInput(prompt, notepad)))
    ensures a.text_length == |prompt.GetOr("")| + |notepad.GetOr("")| + 20
  {
    var text := ComposeInput(prompt, notepad);
    var flags := MapMode(mode);
    AnalyzeText(Some(text))
  }

  /** The mode does not change the analysis. */
  lemma RunIgnoresMode(m1: string, m2: string, prompt: Option<string>, notepad: Option<string>)
    ensures RunAegisCli(m1, prompt, notepad) == RunAegisCli(m2, prompt, notepad)
  {
  }

  /** Every finding of a run lies inside the composed text and is one of its rule's phrases there. */
  lemma RunFindingsInText(mode: string, prompt: Option<string>, notepad: Option<string>, f: Finding)
    requires f in RunAegisCli(mode, prompt, notepad).findings
    ensures f.index + |f.evidence| <= |prompt.GetOr("")| + |notepad.GetOr("")| + 20
    ensures KindRank(Rules, f.kind) < |Rules|
    ensures FoldsToOneOf(f.evidence, Rules[KindRank(Rules, f.kind)].phrases)
  {
    var text := ComposeInput(prompt, notepad);
    assert Explained(Rules, text, f);
    ExplainedIsPhrase(Rules, text, f);
  }
}

=== FILE: command_handler.dfy ===
/**
 * The `/aegis` command handler: every parsed command is first written to
 * the public audit log as a `CONTROL_COMMAND` event, then dispatched over
 * the audit log, the bookcase and the settings tables. The destructive and
 * privileged commands (purge, debug unlock) only act when confirmed.
 *
 * The three stores are threaded through as one immutable `World`; fresh
 * ids and the clock are parameters.
 */
module CommandHandler {
  import opened Common
  import opened Commands
  import opened StorageSettings
  import opened AuditLogger
  import opened Stores

  /** The scope a session's learned markers are kept under. */
  datatype ScopeType = UserScope | OrgScope
  datatype Scope = Scope(scopeType: ScopeType, scopeId: string)

  /** The owner columns of an `aegis_sessions` row. */
  datatype SessionOwners = SessionOwners(orgId: Option<string>, userId: Option<string>)

  /** A JavaScript truthy string: present and not empty. */
  predicate Truthy(x: Option<string>) {
    x.Some? && x.value != ""
  }

  /** `chooseScope`: the user when set, else the organisation when set, else no scope. */
  function ChooseScope(session: Option<SessionOwners>): (r: Option<Scope>)
    ensures r.Some? <==> session.Some? && (Truthy(session.value.userId) || Truthy(session.value.orgId))
    ensures r.Some? && Truthy(session.value.userId) ==> r.value.scopeType == UserScope
  {
    if session.None? then None
    else if Truthy(session.value.userId) then Some(Scope(UserScope, session.value.userId.value))
    else if Truthy(session.value.orgId) then Some(Scope(OrgScope, session.value.orgId.value))
    else None
  }

  /** A chosen scope names a set owner of the session, the user before the organisation. */
  lemma ScopeNamesAnOwner(session: SessionOwners)
    requires ChooseScope(Some(session)).Some?
    ensures var s := ChooseScope(Some(session)).value;
            && s.scopeId != ""
            && (s.scopeType == UserScope <==> Truthy(session.userId))
            && (s.scopeType == UserScope ==> session.userId == Some(s.scopeId))
            && (s.scopeType == OrgScope ==> session.orgId == Some(s.scopeId))
  {
  }

  /** The structured `details` of the events the handler writes. */
  datatype Details =
    | NoDetails
    | CommandDetails(cmd: Command)
    | ShelfDetails(itemId: string, itemLabel: string, unshelveCondition: string)
    | UnshelveDetails(itemId: string)
    | ModeDetails(mode: StorageMode, next: Settings)
    | SessionDetails(sessionId: string)

  /** The audit log, the bookcase and the settings tables together. */
  datatype World = World(audit: AuditDb<Details>, items: seq<BookcaseItem>, settings: SettingsDb)

  /** The fresh values one command may consume. */
  datatype Fresh = Fresh(controlEventId: string, eventId: string, itemId: string, now: string)

  datatype Payload =
    | NoPayload
    | EventsPayload(events: seq<AuditEvent<Details>>)
    | ItemsPayload(items: seq<BookcaseItem>)
    | ItemPayload(item: BookcaseItem)
    | StoragePayload(settings: Settings, debugUnlocked: bool)
    | NextPayload(next: Settings)
    | ExportPayload(sessionId: string)

  datatype Reply = Reply(ok: bool, message: string, payload: Payload)

  /** The `kind` tag of a command. */
  function KindOf(cmd: Command): string {
    match cmd
    case Help => "HELP"
    case Audit(_, _) => "AUDIT"
    case BookcaseList => "BOOKCASE_LIST"
    case BookcaseShelve(_, _, _) => "BOOKCASE_SHELVE"
    case BookcaseUnshelve(_) => "BOOKCASE_UNSHELVE"
    case Export => "EXPORT"
    case Purge(_, _) => "PURGE"
    case StorageStatus => "STORAGE_STATUS"
    case StorageSet(_) => "STORAGE_SET"
    case DebugUnlock(_) => "DEBUG_UNLOCK"
    case DebugLock => "DEBUG_LOCK"
  }

  function ModeText(mode: StorageMode): string {
    match mode
    case Minimal => "minimal"
    case Standard => "standard"
    case Verbose => "verbose"
  }

  /** A public event with the id and time left to the logger. */
  function PublicEvent(sessionId: string, eventType: string, severity: int, tags: seq<string>,
                       codes: seq<string>, summary: string, details: Details): EventInput<Details>
  {
    EventInput(None, None, sessionId, Public, eventType, severity, tags, codes, summary, Some(details))
  }

  /** The event every command writes before it runs. */
  function ControlEvent(sessionId: string, cmd: Command): EventInput<Details> {
    PublicEvent(sessionId, "CONTROL_COMMAND", 0, ["SOVEREIGNTY", "TRANSPARENCY", "AGENCY"],
                ["CONTROL_COMMAND_EXECUTED"], "Command executed: " + KindOf(cmd), CommandDetails(cmd))
  }

  /** The world after `audit.write(ev)`. */
  function Record(w: World, ev: EventInput<Details>, id: string, now: string): (r: World)
    ensures r.audit.publicRows == w.audit.publicRows + [ToRow(Write(w.audit, ev, id, now, NoDetails).1)]
    ensures (r.audit.privateRows, r.items, r.settings) == (w.audit.privateRows, w.items, w.settings)
    requires ev.channel == Public
  {
    w.(audit := Write(w.audit, ev, id, now, NoDetails).0)
  }

  const HelpText := "Commands: /aegis help | /aegis status | /aegis audit --limit=50 --since=ISO"
    + " | /aegis bookcase list | /aegis bookcase shelve \"label\" \"content\" --unshelve=\"cond\""
    + " | /aegis bookcase unshelve <id> | /aegis storage status"
    + " | /aegis storage set minimal|standard|verbose | /aegis debug unlock --confirm=YES"
    + " | /aegis debug lock | /aegis export | /aegis purge --scope=session|all --confirm=YES"
  const UnlockHint := "To unlock deep debug: /aegis debug unlock --confirm=YES"
  const PurgeHint := "To purge: /aegis purge --scope=session|all --confirm=YES"

  /** A command that changes state only when confirmed, sent without confirmation. */
  predicate Unconfirmed(cmd: Command) {
    (cmd.DebugUnlock? && !cmd.confirm) || (cmd.Purge? && !cmd.confirm)
  }

  predicate PurgesAll(cmd: Command) {
    cmd.Purge? && cmd.confirm && cmd.scope == AllScope
  }

  /** The commands that write a second event of their own after the control event. */
  predicate WritesOwnEvent(cmd: Command) {
    cmd.BookcaseShelve? || cmd.BookcaseUnshelve? || cmd.StorageSet? || (cmd.DebugUnlock? && cmd.confirm) || cmd.DebugLock?
  }

  /** The commands that may change the settings tables. */
  predicate TouchesSettings(cmd: Command) {
    cmd.StorageSet? || (cmd.DebugUnlock? && cmd.confirm) || cmd.DebugLock? || (cmd.Purge? && cmd.confirm)
  }

  /** The commands that may change the bookcase. */
  predicate TouchesBookcase(cmd: Command) {
    cmd.BookcaseShelve? || cmd.BookcaseUnshelve? || PurgesAll(cmd)
  }

  /** The commands that only read. */
  predicate ReadOnly(cmd: Command) {
    cmd.Help? || cmd.Audit? || cmd.BookcaseList? || cmd.StorageStatus? || cmd.Export?
  }

  /** The reply of a read-only command. */
  function Answer(w: World, sessionId: string, cmd: Command): (reply: Reply)
    requires ReadOnly(cmd)
    ensures reply.ok
    ensures cmd.StorageStatus? ==>
              reply.payload == StoragePayload(GetStorageSettings(w.settings), IsDebugUnlocked(w.settings, sessionId))
    ensures cmd.BookcaseList? ==> reply.payload == ItemsPayload(List(w.items, sessionId))
    ensures cmd.Audit? ==> reply.payload == EventsPayload(ListPublic(w.audit, sessionId, cmd.limit, cmd.since, NoDetails))
  {
    match cmd
    case Help => Reply(true, HelpText, NoPayload)
    case Audit(limit, since) =>
      var events := ListPublic(w.audit, sessionId, limit, since, NoDetails);
      Reply(true, "Audit (public) returned " + NatToString(|events|) + " events.", EventsPayload(events))
    case BookcaseList =>
      var items := List(w.items, sessionId);
      Reply(true, "Bookcase returned " + NatToString(|items|) + " items.", ItemsPayload(items))
    case StorageStatus =>
      Reply(true, "Storage status loaded.",
            StoragePayload(GetStorageSettings(w.settings), IsDebugUnlocked(w.settings, sessionId)))
    case Export => Reply(true, "Export requested. (POC stub)", ExportPayload(sessionId))
  }

  /** Shelving: a new item, then a `BOOKCASE` event. */
  function RunShelve(w: World, sessionId: string, itemLabel: string, content: string, unshelve: Option<string>, f: Fresh)
    : (r: (World, Reply))
    ensures r.1.ok && r.1.payload.ItemPayload? && r.0.items == w.items + [r.1.payload.item]
    ensures r.1.payload.item.sessionId == sessionId
    ensures (r.0.settings, r.0.audit.privateRows) == (w.settings, w.audit.privateRows)
    ensures exists row :: r.0.audit.publicRows == w.audit.publicRows + [row]
  {
    var (items, item) := ShelveItem(w.items, sessionId, itemLabel, content, Some(unshelve.GetOr("")), f.itemId, f.now);
    var ev := PublicEvent(sessionId, "BOOKCASE", 0, ["SOVEREIGNTY", "TRANSPARENCY", "EQUILIBRIUM"],
                          ["BOOKCASE_SHELVED"], "Bookcase shelved: " + item.itemLabel,
                          ShelfDetails(item.id, item.itemLabel, item.unshelveCondition));
    (Record(w.(items := items), ev, f.eventId, f.now), Reply(true, "Shelved: " + item.itemLabel, ItemPayload(item)))
  }

  /** Unshelving: the matching items of the session, then a `BOOKCASE` event; always reported as done. */
  function RunUnshelve(w: World, sessionId: string, itemId: string, f: Fresh): (r: (World, Reply))
    ensures r.1.ok && r.0.items == UnshelveItem(w.items, sessionId, itemId, f.now)
    ensures (r.0.settings, r.0.audit.privateRows) == (w.settings, w.audit.privateRows)
    ensures exists row :: r.0.audit.publicRows == w.audit.publicRows + [row]
  {
    var ev := PublicEvent(sessionId, "BOOKCASE", 0, ["SOVEREIGNTY", "TRANSPARENCY", "INTEGRATION"],
                          ["BOOKCASE_UNSHELVED"], "Bookcase unshelved: " + itemId, UnshelveDetails(itemId));
    (Record(w.(items := UnshelveItem(w.items, sessionId, itemId, f.now)), ev, f.eventId, f.now),
     Reply(true, "Unshelved item " + itemId, NoPayload))
  }

  /** Choosing a storage mode, then a `SETTINGS` event. */
  function RunStorageSet(w: World, sessionId: string, mode: StorageMode, f: Fresh): (r: (World, Reply))
    ensures r.1.ok && r.0.settings == SetStorageMode(w.settings, mode).0
    ensures (r.0.items, r.0.audit.privateRows) == (w.items, w.audit.privateRows)
    ensures exists row :: r.0.audit.publicRows == w.audit.publicRows + [row]
  {
    var (settings, next) := SetStorageMode(w.settings, mode);
    var ev := PublicEvent(sessionId, "SETTINGS", 1, ["SOVEREIGNTY", "TRANSPARENCY", "EQUILIBRIUM"],
                          ["STORAGE_SETTING_CHANGED"], "Storage mode set: " + ModeText(mode), ModeDetails(mode, next));
    (Record(w.(settings := settings), ev, f.eventId, f.now),
     Reply(true, "Storage mode set to " + ModeText(mode) + ".", NextPayload(next)))
  }

  /** Setting the session's debug flag, then a `SYSTEM` event. */
  function RunDebug(w: World, sessionId: string, unlocked: bool, f: Fresh): (r: (World, Reply))
    ensures r.1.ok && r.0.settings == SetDebugUnlocked(w.settings, sessionId, unlocked)
    ensures (r.0.items, r.0.audit.privateRows) == (w.items, w.audit.privateRows)
    ensures exists row :: r.0.audit.publicRows == w.audit.publicRows + [row]
  {
    var ev := if unlocked
      then PublicEvent(sessionId, "SYSTEM", 2, ["SOVEREIGNTY", "TRANSPARENCY"], ["DEBUG_UNLOCKED"],
                       "Deep debug unlocked for this session.", SessionDetails(sessionId))
      else PublicEvent(sessionId, "SYSTEM", 1, ["SOVEREIGNTY", "TRANSPARENCY"], ["DEBUG_LOCKED"],
                       "Deep debug locked.", SessionDetails(sessionId));
    (Record(w.(settings := SetDebugUnlocked(w.settings, sessionId, unlocked)), ev, f.eventId, f.now),
     Reply(true, if unlocked then "Deep debug unlocked for this session." else "Deep debug locked.", NoPayload))
  }

  /** A confirmed purge: the session's row, or every session, log and bookcase item. */
  function RunPurge(w: World, sessionId: string, scope: PurgeScope): (r: (World, Reply))
    ensures r.1.ok
    ensures scope == AllScope ==> r.0.audit == AuditDb([], []) && r.0.items == [] && r.0.settings.sessions == map[]
    ensures scope == SessionScope ==>
              r.0 == w.(settings := w.settings.(sessions := w.settings.sessions - {sessionId}))
  {
    if scope == SessionScope then
      (w.(settings := w.settings.(sessions := w.settings.sessions - {sessionId})),
       Reply(true, "Purged current session (and cascaded logs/bookcase).", NoPayload))
    else
      (World(AuditDb([], []), [], w.settings.(sessions := map[])),
       Reply(true, "Purged ALL local sessions/logs/bookcase.", NoPayload))
  }

  /** The `switch (cmd.kind)` of the handler, run on the world after the control event is written. */
  function Execute(w: World, sessionId: string, cmd: Command, f: Fresh): (r: (World, Reply))
    ensures !r.1.ok <==> Unconfirmed(cmd)
  {
    match cmd
    case BookcaseShelve(itemLabel, content, unshelve) => RunShelve(w, sessionId, itemLabel, content, unshelve, f)
    case BookcaseUnshelve(itemId) => RunUnshelve(w, sessionId, itemId, f)
    case StorageSet(mode) => RunStorageSet(w, sessionId, mode, f)
    case DebugUnlock(confirm) =>
      if !confirm then (w, Reply(false, UnlockHint, NoPayload)) else RunDebug(w, sessionId, true, f)
    case DebugLock => RunDebug(w, sessionId, false, f)
    case Purge(scope, confirm) =>
      if !confirm then (w, Reply(false, PurgeHint, NoPayload)) else RunPurge(w, sessionId, scope)
    case _ => (w, Answer(w, sessionId, cmd))
  }

  /** Apart from a purge of everything, a command appends to the public log only, and at most its own one event. */
  lemma ExecuteAppendsOnly(w: World, sessionId: string, cmd: Command, f: Fresh)
    requires !PurgesAll(cmd)
    ensures var w1 := Execute(w, sessionId, cmd, f).0;
            && w.audit.publicRows <= w1.audit.publicRows
            && |w1.audit.publicRows| == |w.audit.publicRows| + (if WritesOwnEvent(cmd) then 1 else 0)
  {
    if ReadOnly(cmd) || Unconfirmed(cmd) {
      ExecuteReadOnly(w, sessionId, cmd, f);
    }
  }

  /** Every event the handler writes is public: apart from a purge of everything, the private log is untouched. */
  lemma ExecuteKeepsPrivateLog(w: World, sessionId: string, cmd: Command, f: Fresh)
    requires !PurgesAll(cmd)
    ensures Execute(w, sessionId, cmd, f).0.audit.privateRows == w.audit.privateRows
  {
  }

  /** A read-only or unconfirmed command leaves every store as it was. */
  lemma ExecuteReadOnly(w: World, sessionId: string, cmd: Command, f: Fresh)
    requires Unconfirmed(cmd) || ReadOnly(cmd)
    ensures Execute(w, sessionId, cmd, f).0 == w
  {
  }

  /** Only the storage, debug and purge commands change the settings tables. */
  lemma ExecuteKeepsSettings(w: World, sessionId: string, cmd: Command, f: Fresh)
    requires !TouchesSettings(cmd)
    ensures Execute(w, sessionId, cmd, f).0.settings == w.settings
  {
  }

  /** Only shelving, unshelving and a purge of everything change the bookcase. */
  lemma ExecuteKeepsBookcase(w: World, sessionId: string, cmd: Command, f: Fresh)
    requires !TouchesBookcase(cmd)
    ensures Execute(w, sessionId, cmd, f).0.items == w.items
  {
  }

  /** A confirmed purge of everything empties both logs, the bookcase and the sessions table. */
  lemma PurgeAllClears(w: World, sessionId: string, f: Fresh)
    ensures var w1 := Execute(w, sessionId, Purge(AllScope, true), f).0;
            w1.audit == AuditDb([], []) && w1.items == [] && w1.settings.sessions == map[]
  {
  }

  /** A confirmed purge of the session deletes only that session's row. */
  lemma PurgeSessionDeletesOne(w: World, sessionId: string, f: Fresh)
    ensures var w1 := Execute(w, sessionId, Purge(SessionScope, true), f).0;
            && w1.settings.sessions == w.settings.sessions - {sessionId}
            && (w1.settings.storage, w1.items, w1.audit) == (w.settings.storage, w.items, w.audit)
  {
  }

  /** The row of the control event a command writes. */
  function ControlRow(w: World, sessionId: string, cmd: Command, f: Fresh): AuditRow<Details> {
    ToRow(Write(w.audit, ControlEvent(sessionId, cmd), f.controlEventId, f.now, NoDetails).1)
  }

  /**
   * `handleSovereignCommand`: log the command publicly, then run it; the
   * reply fails exactly for an unconfirmed unlock or purge.
   */
  function Handle(w: World, sessionId: string, cmd: Command, f: Fresh): (r: (World, Reply))
    ensures !r.1.ok <==> Unconfirmed(cmd)
  {
    Execute(Record(w, ControlEvent(sessionId, cmd), f.controlEventId, f.now), sessionId, cmd, f)
  }

  /**
   * Every command except a confirmed purge of everything leaves its control
   * event in the public log, right after the rows that were there, ahead of
   * any event of its own; the private log is untouched.
   */
  lemma ControlEventFirst(w: World, sessionId: string, cmd: Command, f: Fresh)
    requires !PurgesAll(cmd)
    ensures var w1 := Handle(w, sessionId, cmd, f).0;
            && w.audit.publicRows + [ControlRow(w, sessionId, cmd, f)] <= w1.audit.publicRows
            && |w1.audit.publicRows| == |w.audit.publicRows| + 1 + (if WritesOwnEvent(cmd) then 1 else 0)
            && w1.audit.privateRows == w.audit.privateRows
  {
    var w0 := Record(w, ControlEvent(sessionId, cmd), f.controlEventId, f.now);
    ExecuteAppendsOnly(w0, sessionId, cmd, f);
    ExecuteKeepsPrivateLog(w0, sessionId, cmd, f);
  }

  /** The control event is a public `CONTROL_COMMAND` row of the session, whatever the command. */
  lemma ControlRowShape(w: World, sessionId: string, cmd: Command, f: Fresh)
    ensures var row := ControlRow(w, sessionId, cmd, f);
            && row.eventType == "CONTROL_COMMAND" && row.sessionId == sessionId
            && row.id == f.controlEventId && row.createdAt == f.now
            && row.details == Some(CommandDetails(cmd))
  {
  }

  /** An unconfirmed unlock or purge fails and changes nothing but the audit log. */
  lemma UnconfirmedChangesNothing(w: World, sessionId: string, cmd: Command, f: Fresh)
    requires Unconfirmed(cmd)
    ensures var (w1, reply) := Handle(w, sessionId, cmd, f);
            && !reply.ok
            && w1.items == w.items && w1.settings == w.settings
            && IsDebugUnlocked(w1.settings, sessionId) == IsDebugUnlocked(w.settings, sessionId)
  {
    var w0 := Record(w, ControlEvent(sessionId, cmd), f.controlEventId, f.now);
    ExecuteReadOnly(w0, sessionId, cmd, f);
  }

  /** Unshelving reports success whether or not the item exists. */
  lemma UnshelveAlwaysOk(w: World, sessionId: string, itemId: string, f: Fresh)
    ensures Handle(w, sessionId, BookcaseUnshelve(itemId), f).1.ok
  {
  }

  /** A confirmed unlock is visible to the next storage status of a known session, and a lock undoes it. */
  lemma UnlockThenStatus(w: World, sessionId: string, f: Fresh, g: Fresh)
    requires sessionId in w.settings.sessions
    ensures var w1 := Handle(w, sessionId, DebugUnlock(true), f).0;
            && Handle(w1, sessionId, StorageStatus, g).1.payload == StoragePayload(GetStorageSettings(w1.settings), true)
            && !IsDebugUnlocked(Handle(w1, sessionId, DebugLock, g).0.settings, sessionId)
  {
  }

  /** A shelved item is listed by the next `bookcase list` of the same session. */
  lemma ShelveThenList(w: World, sessionId: string, itemLabel: string, content: string,
                       unshelve: Option<string>, f: Fresh, g: Fresh)
    ensures var (w1, reply) := Handle(w, sessionId, BookcaseShelve(itemLabel, content, unshelve), f);
            && reply.payload.ItemPayload?
            && reply.payload.item in Handle(w1, sessionId, BookcaseList, g).1.payload.items
  {
    var (w1, reply) := Handle(w, sessionId, BookcaseShelve(itemLabel, content, unshelve), f);
    assert reply.payload.item in w1.items;
  }
}

=== FILE: commands.dfy ===
/**
 * The `/aegis` chat command parser: a tokenizer that honours double
 * quotes, a `--key=value` flag reader, a clamped integer reader, and the
 * dispatch from tokens to a command. Anything that is not an `/aegis`
 * command yields nothing; anything unrecognised under `/aegis` is `HELP`.
 */
module Commands {
  import opened Common
  import opened StorageSettings

  // ---------------------------------------------------------------------
  // Tokenizer
  // ---------------------------------------------------------------------

  /** The tokenizer's state: tokens so far, the token being built, and whether a quote is open. */
  datatype Lexer = Lexer(out: seq<string>, cur: string, inQuotes: bool)

  /** `if (cur) out.push(cur)`. */
  function Flush(out: seq<string>, cur: string): seq<string> {
    if cur != "" then out + [cur] else out
  }

  /** One character: a quote toggles, unquoted whitespace ends the token, anything else extends it. */
  function Step(l: Lexer, ch: char): Lexer {
    if ch == '"' then l.(inQuotes := !l.inQuotes)
    else if !l.inQuotes && IsSpace(ch) then Lexer(Flush(l.out, l.cur), "", l.inQuotes)
    else l.(cur := l.cur + [ch])
  }

  function Run(l: Lexer, s: string): Lexer
    decreases |s|
  {
    if |s| == 0 then l else Run(Step(l, s[0]), s[1..])
  }

  predicate CleanToken(t: string) {
    t != "" && '"' !in t
  }

  predicate CleanLexer(l: Lexer) {
    (forall k :: 0 <= k < |l.out| ==> CleanToken(l.out[k])) && '"' !in l.cur
  }

  /** The tokens glued back together. */
  function Concat(xs: seq<string>): string
    decreases |xs|
  {
    if |xs| == 0 then "" else Concat(xs[..|xs| - 1]) + xs[|xs| - 1]
  }

  lemma ConcatSnoc(xs: seq<string>, x: string)
    ensures Concat(xs + [x]) == Concat(xs) + x
  {
    assert (xs + [x])[..|xs|] == xs;
  }

  /** The characters the tokenizer keeps: quotes and whitespace outside quotes are dropped. */
  function Kept(s: string, inQuotes: bool): string
    decreases |s|
  {
    if |s| == 0 then ""
    else if s[0] == '"' then Kept(s[1..], !inQuotes)
    else if !inQuotes && IsSpace(s[0]) then Kept(s[1..], inQuotes)
    else [s[0]] + Kept(s[1..], inQuotes)
  }

  /** Running the tokenizer keeps its state clean and loses no kept character. */
  lemma {:induction false} RunKeeps(l: Lexer, s: string)
    requires CleanLexer(l)
    ensures CleanLexer(Run(l, s))
    ensures Concat(Run(l, s).out) + Run(l, s).cur == Concat(l.out) + l.cur + Kept(s, l.inQuotes)
    decreases |s|
  {
    if |s| > 0 {
      var c := s[0];
      var l1 := Step(l, c);
      if c == '"' {
      } else if !l.inQuotes && IsSpace(c) {
        if l.cur != "" {
          ConcatSnoc(l.out, l.cur);
        }
      } else {
        assert l1.cur == l.cur + [c];
      }
      assert CleanLexer(l1);
      RunKeeps(l1, s[1..]);
    }
  }

  /**
   * `tokenize`: no token is empty or holds a quote, and the tokens glued
   * together are the input without its quotes and unquoted whitespace.
   */
  function Tokenize(input: string): (tokens: seq<string>)
    ensures forall k :: 0 <= k < |tokens| ==> CleanToken(tokens[k])
    ensures Concat(tokens) == Kept(input, false)
  {
    var l := Run(Lexer([], "", false), input);
    RunKeeps(Lexer([], "", false), input);
    ConcatSnoc(l.out, l.cur);
    assert l.cur == "" ==> Concat(l.out) + l.cur == Concat(l.out);
    Flush(l.out, l.cur)
  }

  /** A word: non-empty, without quotes or whitespace. */
  predicate Word(w: string) {
    |w| > 0 && forall i :: 0 <= i < |w| ==> w[i] != '"' && !IsSpace(w[i])
  }

  predicate Words(ws: seq<string>) {
    forall k :: 0 <= k < |ws| ==> Word(ws[k])
  }

  /** Running over a word only extends the current token. */
  lemma {:induction false} RunWord(l: Lexer, w: string)
    requires forall i :: 0 <= i < |w| ==> w[i] != '"' && !IsSpace(w[i])
    ensures Run(l, w) == l.(cur := l.cur + w)
    decreases |w|
  {
    if |w| > 0 {
      RunWord(Step(l, w[0]), w[1..]);
      assert l.cur + [w[0]] + w[1..] == l.cur + w;
    }
  }

  lemma {:induction false} RunAppend(l: Lexer, a: string, b: string)
    ensures Run(l, a + b) == Run(Run(l, a), b)
    decreases |a|
  {
    if |a| == 0 {
      assert a + b == b;
    } else {
      assert (a + b)[0] == a[0] && (a + b)[1..] == a[1..] + b;
      RunAppend(Step(l, a[0]), a[1..], b);
    }
  }

  /** Words joined by single spaces, outside quotes, leave the last word current. */
  lemma {:induction false} RunJoin(out: seq<string>, ws: seq<string>)
    requires |ws| > 0 && forall k :: 0 <= k < |ws| ==> Word(ws[k])
    ensures Run(Lexer(out, "", false), Join(ws, " ")) == Lexer(out + ws[..|ws| - 1], ws[|ws| - 1], false)
    decreases |ws|
  {
    var l := Lexer(out, "", false);
    if |ws| == 1 {
      RunWord(l, ws[0]);
      assert "" + ws[0] == ws[0];
    } else {
      var rest := Join(ws[1..], " ");
      assert Join(ws, " ") == ws[0] + (" " + rest);
      RunAppend(l, ws[0], " " + rest);
      RunWord(l, ws[0]);
      assert "" + ws[0] == ws[0];
      assert (" " + rest)[0] == ' ' && (" " + rest)[1..] == rest;
      RunJoin(out + [ws[0]], ws[1..]);
      ShiftFront(out, ws);
    }
  }

  lemma SnocLast<T>(xs: seq<T>)
    requires |xs| > 0
    ensures xs[..|xs| - 1] + [xs[|xs| - 1]] == xs
  {
  }

  lemma ShiftFront<T>(out: seq<T>, ws: seq<T>)
    requires |ws| > 1
    ensures out + [ws[0]] + ws[1..][..|ws[1..]| - 1] == out + ws[..|ws| - 1]
  {
  }

  /** Tokenizing words joined by spaces gives back the words. */
  lemma TokenizeJoin(ws: seq<string>)
    requires forall k :: 0 <= k < |ws| ==> Word(ws[k])
    ensures Tokenize(Join(ws, " ")) == ws
  {
    var l0 := Lexer([], "", false);
    var s := Join(ws, " ");
    if |ws| == 0 {
      assert s == "";
      assert Tokenize(s) == Flush(Run(l0, s).out, Run(l0, s).cur);
    } else {
      RunJoin([], ws);
      var l := Run(l0, s);
      assert l == Lexer(ws[..|ws| - 1], ws[|ws| - 1], false);
      assert Tokenize(s) == Flush(l.out, l.cur);
      SnocLast(ws);
    }
  }

  /** One character that neither toggles a quote nor ends a token inside quotes. */
  lemma RunSpaceQuoted(out: seq<string>, cur: string)
    ensures Run(Lexer(out, cur, true), " ") == Lexer(out, cur + " ", true)
  {
    assert " "[1..] == "";
  }

  lemma RunSpaceQuote(l: Lexer)
    requires !l.inQuotes
    ensures Run(l, " \"") == Lexer(Flush(l.out, l.cur), "", true)
  {
    assert " \""[1..] == "\"" && "\""[1..] == "";
  }

  lemma RunQuoteSpace(l: Lexer)
    requires l.inQuotes
    ensures Run(l, "\" ") == Lexer(Flush(l.out, l.cur), "", false)
  {
    assert "\" "[1..] == " " && " "[1..] == "";
  }

  /**
   * Double quotes group: a quoted pair of words separated by a space is one
   * token, space included, between the surrounding words.
   */
  lemma {:induction false} TokenizeQuoted(w1: string, a: string, b: string, w2: string)
    requires Words([w1, a, b, w2])
    ensures Tokenize(w1 + " \"" + a + " " + b + "\" " + w2) == [w1, a + " " + b, w2]
  {
    assert Word(w1) && Word(a) && Word(b) && Word(w2) by {
      assert [w1, a, b, w2][0] == w1 && [w1, a, b, w2][1] == a;
      assert [w1, a, b, w2][2] == b && [w1, a, b, w2][3] == w2;
    }
    var l0 := Lexer([], "", false);
    var p1 := w1 + " \"";
    var p2 := p1 + a;
    var p3 := p2 + " ";
    var p4 := p3 + b;
    var p5 := p4 + "\" ";
    var s := p5 + w2;
    RunWord(l0, w1);
    var l1 := Lexer([], w1, false);
    assert Run(l0, w1) == l1;
    RunAppend(l0, w1, " \"");
    RunSpaceQuote(l1);
    var l2 := Lexer([w1], "", true);
    assert Run(l0, p1) == l2;
    RunAppend(l0, p1, a);
    RunWord(l2, a);
    var l3 := Lexer([w1], a, true);
    assert Run(l0, p2) == l3;
    RunAppend(l0, p2, " ");
    RunSpaceQuoted([w1], a);
    var l4 := Lexer([w1], a + " ", true);
    assert Run(l0, p3) == l4;
    RunAppend(l0, p3, b);
    RunWord(l4, b);
    var l5 := Lexer([w1], a + " " + b, true);
    assert Run(l0, p4) == l5;
    RunAppend(l0, p4, "\" ");
    RunQuoteSpace(l5);
    var l6 := Lexer([w1, a + " " + b], "", false);
    assert Run(l0, p5) == l6;
    RunAppend(l0, p5, w2);
    RunWord(l6, w2);
    assert Run(l0, s) == Lexer([w1, a + " " + b], w2, false);
  }

  // ---------------------------------------------------------------------
  // Flags
  // ---------------------------------------------------------------------

  /** `v.replace(/^"|"$/g, "")`: one leading and one trailing quote removed. */
  function StripQuotes(v: string): (r: string)
    ensures |r| <= |v|
  {
    var a := if |v| > 0 && v[0] == '"' then v[1..] else v;
    if |a| > 0 && a[|a| - 1] == '"' then a[..|a| - 1] else a
  }

  /** One flag token: `--k` reads as `k = "true"`, `--k=v` splits at the first `=`; anything else is no flag. */
  function ParseFlag(t: string): (f: Option<(string, string)>)
    ensures f.Some? <==> IsPrefix("--", t)
    ensures f.Some? && '=' !in t ==> f.value == (t[2..], "true")
  {
    if !IsPrefix("--", t) then None
    else if '=' !in t then Some((t[2..], "true"))
    else
      var idx := IndexOf(t, '=');
      assert t[0] == '-' && t[1] == '-';
      Some((t[2..idx], StripQuotes(t[idx + 1..])))
  }

  /** `parseFlags`: the flags of the tokens, read left to right, so a later key overrides an earlier one. */
  function ParseFlags(tokens: seq<string>): (m: map<string, string>)
    ensures forall k :: k in m <==> exists i :: 0 <= i < |tokens| && ParseFlag(tokens[i]).Some? && ParseFlag(tokens[i]).value.0 == k
    decreases |tokens|
  {
    if |tokens| == 0 then map[]
    else
      var init := tokens[..|tokens| - 1];
      var m := ParseFlags(init);
      var f := ParseFlag(tokens[|tokens| - 1]);
      assert forall i :: 0 <= i < |init| ==> tokens[i] == init[i];
      if f.Some? then m[f.value.0 := f.value.1] else m
  }

  /** The value of a key is the one given by its last flag token. */
  lemma {:induction false} LastFlagWins(tokens: seq<string>, i: nat, k: string, v: string)
    requires i < |tokens| && ParseFlag(tokens[i]) == Some((k, v))
    requires forall j :: i < j < |tokens| ==> ParseFlag(tokens[j]).None? || ParseFlag(tokens[j]).value.0 != k
    ensures k in ParseFlags(tokens) && ParseFlags(tokens)[k] == v
    decreases |tokens|
  {
    var init := tokens[..|tokens| - 1];
    if i < |tokens| - 1 {
      assert init[i] == tokens[i];
      LastFlagWins(init, i, k, v);
    }
  }

  /** A token that is not a flag changes nothing. */
  lemma NonFlagIgnored(tokens: seq<string>, t: string)
    requires !IsPrefix("--", t)
    ensures ParseFlags(tokens + [t]) == ParseFlags(tokens)
  {
    assert (tokens + [t])[..|tokens|] == tokens;
  }

  function Get(m: map<string, string>, k: string): Option<string> {
    if k in m then Some(m[k]) else None
  }

  // ---------------------------------------------------------------------
  // Integers
  // ---------------------------------------------------------------------

  /**
   * Magnitudes from here on round to an infinite double: 2^1024 - 2^970,
   * half an ulp above the largest finite double.
   */
  const InfiniteFrom: nat := 179769313486231580793728971405303415079934132710037826936173778980444968292764750946649017977587207096330286416692887910946555547851940402630657488671505820681908902000708383676273854845817711531764475730270069855571366959622842914819860834936475292719074168444365510704342711559699508093042880177904174497792

  /** `Number.parseInt(v, 10)` as an exact integer: leading whitespace, a sign, then digits; absent (NaN) without a digit. */
  function ParseInt(v: string): (n: Option<int>)
  {
    var t := TrimStart(v);
    var neg := |t| > 0 && t[0] == '-';
    var body := if |t| > 0 && (t[0] == '-' || t[0] == '+') then t[1..] else t;
    var digits := LeadingDigits(body);
    if |digits| == 0 then None
    else Some(if neg then -(DigitsValue(digits) as int) else DigitsValue(digits))
  }

  function Magnitude(i: int): nat {
    if i < 0 then -i else i
  }

  /** `clampInt`: the parsed value clamped to `[lo, hi]`; `lo` when the value is NaN or infinite. */
  function ClampInt(v: string, lo: int, hi: int): (n: int)
    ensures lo <= hi ==> lo <= n <= hi
    ensures ParseInt(v).None? ==> n == lo
    ensures ParseInt(v).Some? && Magnitude(ParseInt(v).value) >= InfiniteFrom ==> n == lo
    ensures ParseInt(v).Some? && Magnitude(ParseInt(v).value) < InfiniteFrom ==>
              n == MaxInt(lo, MinInt(hi, ParseInt(v).value))
  {
    var p := ParseInt(v);
    if p.None? || Magnitude(p.value) >= InfiniteFrom then lo
    else MaxInt(lo, MinInt(hi, p.value))
  }

  lemma TrimStartOfWord(s: string)
    requires |s| == 0 || !IsSpace(s[0])
    ensures TrimStart(s) == s
  {
  }

  /** `parseInt` of a non-empty run of digits is their value. */
  lemma ParseIntOfDigits(s: string)
    requires |s| > 0 && AllDigits(s)
    ensures ParseInt(s) == Some(DigitsValue(s))
  {
    assert IsDigit(s[0]) && s[0] != '-' && s[0] != '+';
    TrimStartOfWord(s);
    LeadingDigitsAll(s, "");
    assert s + "" == s;
    assert LeadingDigits(s) == s;
  }

  /** `parseInt` reads a printed natural number back as itself. */
  lemma ParseIntOfNumeral(k: nat)
    ensures ParseInt(NatToString(k)) == Some(k)
  {
    ParseIntOfDigits(NatToString(k));
    NatToStringValue(k);
  }

  /** A printed number inside the range reads back as itself. */
  lemma ClampIntOfNumeral(k: nat, lo: int, hi: int)
    requires lo <= k <= hi && k < InfiniteFrom
    ensures ClampInt(NatToString(k), lo, hi) == k
  {
    ParseIntOfNumeral(k);
  }

  // ---------------------------------------------------------------------
  // Commands
  // ---------------------------------------------------------------------

  datatype PurgeScope = SessionScope | AllScope

  datatype Command =
    | Help
    | Audit(limit: int, since: Option<string>)
    | BookcaseList
    | BookcaseShelve(itemLabel: string, content: string, unshelve: Option<string>)
    | BookcaseUnshelve(itemId: string)
    | Export
    | Purge(scope: PurgeScope, confirm: bool)
    | StorageStatus
    | StorageSet(mode: StorageMode)
    | DebugUnlock(confirm: bool)
    | DebugLock

  /** `rest[i] ?? d`. */
  function At(xs: seq<string>, i: nat, d: string): string {
    if i < |xs| then xs[i] else d
  }

  /** `String(flags.confirm ?? "").toUpperCase() === "YES"`. */
  predicate Confirmed(flags: map<string, string>) {
    Upper(Get(flags, "confirm").GetOr("")) == "YES"
  }

  const DefaultAuditLimit := 50

  /** `/aegis audit`: the limit clamped to [1, 200], 50 by default; `since` as given. */
  function AuditCommand(args: seq<string>): (c: Command)
    ensures c.Audit? && 1 <= c.limit <= 200
    ensures c.since == Get(ParseFlags(args), "since")
    ensures "limit" !in ParseFlags(args) ==> c.limit == DefaultAuditLimit
    ensures "limit" in ParseFlags(args) ==> c.limit == ClampInt(ParseFlags(args)["limit"], 1, 200)
  {
    var flags := ParseFlags(args);
    ClampIntOfNumeral(50, 1, 200);
    Audit(ClampInt(Get(flags, "limit").GetOr(NatToString(50)), 1, 200), Get(flags, "since"))
  }

  /** A `--limit` value that does not parse as an integer gives the limit 1. */
  lemma AuditNonNumericLimit(args: seq<string>)
    requires "limit" in ParseFlags(args) && ParseInt(ParseFlags(args)["limit"]).None?
    ensures AuditCommand(args).limit == 1
  {
  }

  /** A `--limit` numeral inside [1, 200] is taken as given. */
  lemma AuditNumeralLimit(args: seq<string>, k: nat)
    requires "limit" in ParseFlags(args) && ParseFlags(args)["limit"] == NatToString(k) && 1 <= k <= 200
    ensures AuditCommand(args).limit == k
  {
    ClampIntOfNumeral(k, 1, 200);
  }

  /** `/aegis bookcase ...`: list by default; shelve needs a label and content; unshelve needs an id. */
  function BookcaseCommand(rest: seq<string>): (c: Command)
    ensures var op := Lower(At(rest, 1, "list"));
            && (op == "list" ==> c == BookcaseList)
            && (op == "shelve" ==> (c.BookcaseShelve? <==> At(rest, 2, "") != "" && At(rest, 3, "") != ""))
            && (op == "shelve" && c.BookcaseShelve? ==>
                  c == BookcaseShelve(rest[2], rest[3], Get(ParseFlags(rest[4..]), "unshelve")))
            && (op == "unshelve" ==> (c.BookcaseUnshelve? <==> At(rest, 2, "") != ""))
            && (op == "unshelve" && c.BookcaseUnshelve? ==> c.itemId == rest[2])
            && (op != "list" && op != "shelve" && op != "unshelve" ==> c == Help)
  {
    var op := Lower(At(rest, 1, "list"));
    if op == "list" then BookcaseList
    else if op == "shelve" then
      var itemLabel := At(rest, 2, "");
      var content := At(rest, 3, "");
      if itemLabel == "" || content == "" then Help
      else BookcaseShelve(itemLabel, content, Get(ParseFlags(rest[4..]), "unshelve"))
    else if op == "unshelve" then
      var itemId := At(rest, 2, "");
      if itemId == "" then Help else BookcaseUnshelve(itemId)
    else Help
  }

  /** `/aegis purge`: `all` only for exactly "all"; confirmation only for a flag reading "YES" in any case. */
  function PurgeCommand(args: seq<string>): (c: Command)
    ensures c.Purge?
    ensures c.scope == AllScope <==> Get(ParseFlags(args), "scope") == Some("all")
    ensures c.confirm <==> Confirmed(ParseFlags(args))
  {
    var flags := ParseFlags(args);
    Purge(if Get(flags, "scope").GetOr("session") == "all" then AllScope else SessionScope, Confirmed(flags))
  }

  /** `/aegis storage`: status by default; `set` takes one of the three modes, minimal by default. */
  function StorageCommand(rest: seq<string>): (c: Command)
    ensures var op := Lower(At(rest, 1, "status"));
            var mode := Lower(At(rest, 2, "minimal"));
            && (op == "status" ==> c == StorageStatus)
            && (op == "set" && mode == "minimal" ==> c == StorageSet(Minimal))
            && (op == "set" && mode == "standard" ==> c == StorageSet(Standard))
            && (op == "set" && mode == "verbose" ==> c == StorageSet(Verbose))
            && (op == "set" && mode != "minimal" && mode != "standard" && mode != "verbose" ==> c == Help)
            && (op != "status" && op != "set" ==> c == Help)
  {
    var op := Lower(At(rest, 1, "status"));
    if op == "status" then StorageStatus
    else if op == "set" then
      var mode := Lower(At(rest, 2, "minimal"));
      if mode == "minimal" then StorageSet(Minimal)
      else if mode == "standard" then StorageSet(Standard)
      else if mode == "verbose" then StorageSet(Verbose)
      else Help
    else Help
  }

  /** `/aegis debug`: unlock with its confirmation, lock, or help. */
  function DebugCommand(rest: seq<string>): (c: Command)
    ensures var op := Lower(At(rest, 1, ""));
            && (op == "unlock" ==> c == DebugUnlock(Confirmed(ParseFlags(rest[2..]))))
            && (op == "lock" ==> c == DebugLock)
            && (op != "unlock" && op != "lock" ==> c == Help)
  {
    var op := Lower(At(rest, 1, ""));
    if op == "unlock" then DebugUnlock(Confirmed(ParseFlags(rest[2..])))
    else if op == "lock" then DebugLock
    else Help
  }

  const Subcommands: set<string> := {"help", "audit", "bookcase", "export", "purge", "storage", "debug"}

  /** The command named by the tokens after `/aegis`; help when it is missing or unknown. */
  function Dispatch(rest: seq<string>): (c: Command)
    ensures var sub := Lower(At(rest, 0, "help"));
            && (sub !in Subcommands || sub == "help" ==> c == Help)
            && (sub == "audit" ==> c == AuditCommand(rest[1..]))
            && (sub == "bookcase" ==> c == BookcaseCommand(rest))
            && (sub == "export" ==> c == Export)
            && (sub == "purge" ==> c == PurgeCommand(rest[1..]))
            && (sub == "storage" ==> c == StorageCommand(rest))
            && (sub == "debug" ==> c == DebugCommand(rest))
  {
    var sub := Lower(At(rest, 0, "help"));
    if sub == "help" then Help
    else if sub == "audit" then AuditCommand(rest[1..])
    else if sub == "bookcase" then BookcaseCommand(rest)
    else if sub == "export" then Export
    else if sub == "purge" then PurgeCommand(rest[1..])
    else if sub == "storage" then StorageCommand(rest)
    else if sub == "debug" then DebugCommand(rest)
    else Help
  }

  /**
   * `parseSovereignCommand`: nothing unless the trimmed input starts with
   * "/" and its first token is "/aegis" in any case; otherwise the command.
   */
  function ParseCommand(input: Option<string>): (c: Option<Command>)
    ensures var trimmed := Trim(input.GetOr(""));
            var tokens := Tokenize(trimmed);
            && (c.Some? <==> IsPrefix("/", trimmed) && |tokens| > 0 && Lower(tokens[0]) == "/aegis")
            && (c.Some? ==> c.value == Dispatch(tokens[1..]))
  {
    var trimmed := Trim(input.GetOr(""));
    if !IsPrefix("/", trimmed) then None
    else
      var tokens := Tokenize(trimmed);
      if |tokens| == 0 || Lower(tokens[0]) != "/aegis" then None
      else Some(Dispatch(tokens[1..]))
  }

  lemma TrimOfWords(s: string)
    requires |s| > 0 && !IsSpace(s[0]) && !IsSpace(s[|s| - 1])
    ensures Trim(s) == s
  {
  }

  /** Words joined by spaces start with the first word's first character and end with the last word's last. */
  lemma {:induction false} JoinEnds(ws: seq<string>)
    requires |ws| > 0 && Words(ws)
    ensures var s := Join(ws, " ");
            |s| > 0 && s[0] == ws[0][0] && s[|s| - 1] == ws[|ws| - 1][|ws[|ws| - 1]| - 1]
    decreases |ws|
  {
    if |ws| > 1 {
      JoinEnds(ws[1..]);
      var rest := Join(ws[1..], " ");
      assert Join(ws, " ") == ws[0] + " " + rest;
    }
  }

  /**
   * A command typed as words separated by single spaces, the first one
   * starting with "/", parses as the dispatch of the words after `/aegis`,
   * and as nothing under any other name.
   */
  lemma ParseWords(ws: seq<string>)
    requires |ws| > 0 && Words(ws)
    requires ws[0][0] == '/'
    ensures ParseCommand(Some(Join(ws, " "))) == if Lower(ws[0]) == "/aegis" then Some(Dispatch(ws[1..])) else None
  {
    var s := Join(ws, " ");
    JoinEnds(ws);
    assert !IsSpace(s[0]) && !IsSpace(s[|s| - 1]);
    TrimOfWords(s);
    TokenizeJoin(ws);
  }

  /** Plain `/aegis audit`, in any case, asks for the 50 most recent events. */
  lemma AuditByDefault()
    ensures Dispatch(["audit"]) == Audit(50, None)
    ensures Dispatch(["AUDIT"]) == Audit(50, None)
  {
    assert ["audit"][1..] == [] && ["AUDIT"][1..] == [];
    assert Lower("AUDIT") == "audit";
    assert Lower("audit") == "audit";
    var c := AuditCommand([]);
    assert c.since.None? && c.limit == 50;
  }

  /** A bare `/aegis` is a request for help, and so is an unknown subcommand. */
  lemma BareAegisIsHelp()
    ensures Dispatch([]) == Help
    ensures Dispatch(["status"]) == Help
  {
    assert Lower("help") == "help";
    assert Lower("status") == "status";
  }
}

=== FILE: common.dfy ===
/**
 * Shared vocabulary of the model: optional values, clamping of scores,
 * the JavaScript character classes the regular expressions rely on, and
 * the string helpers (join, split, number formatting, de-duplication) that
 * several components of the arbiter use.
 */
module Common {

  /** A value that may be absent (`null`/`undefined` in the source). */
  datatype Option<T> = None | Some(value: T) {
    /** `x ?? d`: only an absent value falls back to `d`. */
    function GetOr(d: T): T {
      if Some? then value else d
    }
  }

  /** `x || d` on a number: an absent value and `0` both fall back to `d`. */
  function TruthyOr(x: Option<real>, d: real): real {
    if x.Some? && x.value != 0.0 then x.value else d
  }

  /** `s || d` on a string: an absent value and `""` both fall back to `d`. */
  function TruthyStrOr(x: Option<string>, d: string): string {
    if x.Some? && x.value != "" then x.value else d
  }

  /** `Math.min(Math.max(x, 0), 1)` on finite numbers. */
  function Clamp01(x: real): (r: real)
    ensures 0.0 <= r <= 1.0
    ensures 0.0 <= x <= 1.0 ==> r == x
    ensures x < 0.0 ==> r == 0.0
    ensures x > 1.0 ==> r == 1.0
  {
    if x < 0.0 then 0.0 else if x > 1.0 then 1.0 else x
  }

  function Abs(x: real): (r: real)
    ensures r >= 0.0
    ensures r == x || r == -x
  {
    if x < 0.0 then -x else x
  }

  function MinReal(a: real, b: real): real {
    if a <= b then a else b
  }

  function MaxReal(a: real, b: real): real {
    if a >= b then a else b
  }

  function MinInt(a: int, b: int): int {
    if a <= b then a else b
  }

  function MaxInt(a: int, b: int): int {
    if a >= b then a else b
  }

  // ---------------------------------------------------------------------
  // Characters
  // ---------------------------------------------------------------------

  predicate IsDigit(c: char) {
    '0' <= c <= '9'
  }

  /** A character of the regular-expression class `\w`: `[A-Za-z0-9_]`. */
  predicate IsWordChar(c: char) {
    ('a' <= c <= 'z') || ('A' <= c <= 'Z') || IsDigit(c) || c == '_'
  }

  /**
   * A character of the regular-expression class `\s`; the same set is
   * removed by `String.prototype.trim` and skipped by `parseInt`.
   */
  predicate IsSpace(c: char) {
    c == ' ' || c == '\t' || c == '\n' || c == '\r'
    || c == '\U{000B}' || c == '\U{000C}'
    || c == '\U{00A0}' || c == '\U{1680}'
    || ('\U{2000}' <= c <= '\U{200A}')
    || c == '\U{2028}' || c == '\U{2029}' || c == '\U{202F}'
    || c == '\U{205F}' || c == '\U{3000}' || c == '\U{FEFF}'
  }

  /** Lower-casing of the ASCII letters; every other character is kept. */
  function LowerChar(c: char): (r: char)
    ensures 'A' <= c <= 'Z' ==> 'a' <= r <= 'z'
    ensures !('A' <= c <= 'Z') ==> r == c
  {
    if 'A' <= c <= 'Z' then (c as int + 32) as char else c
  }

  /** Upper-casing of the ASCII letters; every other character is kept. */
  function UpperChar(c: char): (r: char)
    ensures 'a' <= c <= 'z' ==> 'A' <= r <= 'Z'
    ensures !('a' <= c <= 'z') ==> r == c
  {
    if 'a' <= c <= 'z' then (c as int - 32) as char else c
  }

  function Lower(s: string): (r: string)
    ensures |r| == |s|
    ensures forall i :: 0 <= i < |s| ==> r[i] == LowerChar(s[i])
  {
    seq(|s|, i requires 0 <= i < |s| => LowerChar(s[i]))
  }

  function Upper(s: string): (r: string)
    ensures |r| == |s|
    ensures forall i :: 0 <= i < |s| ==> r[i] == UpperChar(s[i])
  {
    seq(|s|, i requires 0 <= i < |s| => UpperChar(s[i]))
  }

  /** Equality up to ASCII case, as the `i` flag of a regular expression compares literals. */
  predicate FoldEq(a: string, b: string) {
    Lower(a) == Lower(b)
  }

  // ---------------------------------------------------------------------
  // Sequences and strings
  // ---------------------------------------------------------------------

  predicate IsPrefix<T(==)>(p: seq<T>, s: seq<T>) {
    |p| <= |s| && s[..|p|] == p
  }

  /** Length of the run of whitespace starting at `i`. */
  function SpaceRun(t: string, i: nat): (n: nat)
    requires i <= |t|
    ensures i + n <= |t|
    ensures forall k :: i <= k < i + n ==> IsSpace(t[k])
    ensures i + n < |t| ==> !IsSpace(t[i + n])
    decreases |t| - i
  {
    if i < |t| && IsSpace(t[i]) then 1 + SpaceRun(t, i + 1) else 0
  }

  /** Leading whitespace removed. */
  function TrimStart(s: string): (r: string)
    ensures |r| <= |s| && r == s[|s| - |r|..]
    ensures |r| == 0 || !IsSpace(r[0])
    ensures forall i :: 0 <= i < |s| - |r| ==> IsSpace(s[i])
  {
    s[SpaceRun(s, 0)..]
  }

  /** Trailing whitespace removed. */
  function TrimEnd(s: string): (r: string)
    ensures |r| <= |s| && r == s[..|r|]
    ensures |r| == 0 || !IsSpace(r[|r| - 1])
    ensures forall i :: |r| <= i < |s| ==> IsSpace(s[i])
    decreases |s|
  {
    if |s| > 0 && IsSpace(s[|s| - 1]) then TrimEnd(s[..|s| - 1]) else s
  }

  /** `String.prototype.trim`: whitespace removed from both ends. */
  function Trim(s: string): (r: string)
    ensures |r| == 0 || (!IsSpace(r[0]) && !IsSpace(r[|r| - 1]))
  {
    TrimEnd(TrimStart(s))
  }

  /** `xs.join(sep)`. */
  function Join(xs: seq<string>, sep: string): string
    decreases |xs|
  {
    if |xs| == 0 then ""
    else if |xs| == 1 then xs[0]
    else xs[0] + sep + Join(xs[1..], sep)
  }

  /** Position of the first occurrence of `c` in `s`. */
  function IndexOf(s: string, c: char): (i: nat)
    requires c in s
    ensures i < |s| && s[i] == c
    ensures c !in s[..i]
  {
    if s[0] == c then 0 else 1 + IndexOf(s[1..], c)
  }

  /** `s.split(c)` for a one-character separator. */
  function Split(s: string, c: char): (parts: seq<string>)
    ensures |parts| >= 1
    decreases |s|
  {
    if c !in s then [s]
    else
      var i := IndexOf(s, c);
      [s[..i]] + Split(s[i + 1..], c)
  }

  /** `.filter(Boolean)` on a list of strings: drops the empty ones. */
  function NonEmpty(xs: seq<string>): (r: seq<string>)
    ensures forall x :: x in r <==> x in xs && x != ""
    ensures |r| <= |xs|
  {
    if |xs| == 0 then []
    else if xs[0] == "" then NonEmpty(xs[1..])
    else [xs[0]] + NonEmpty(xs[1..])
  }

  /**
   * Splitting a joined list on the separator gives the list back, provided
   * no element contains the separator.
   */
  lemma {:induction false} SplitJoin(xs: seq<string>, c: char)
    requires |xs| >= 1
    requires forall k :: 0 <= k < |xs| ==> c !in xs[k]
    ensures Split(Join(xs, [c]), c) == xs
    decreases |xs|
  {
    if |xs| == 1 {
    } else {
      var s := Join(xs, [c]);
      var rest := Join(xs[1..], [c]);
      assert s == xs[0] + [c] + rest;
      assert s[|xs[0]|] == c;
      assert s[..|xs[0]|] == xs[0];
      IndexOfAfter(xs[0], c, rest);
      assert s[|xs[0]| + 1..] == rest;
      SplitJoin(xs[1..], c);
    }
  }

  /** The first separator after a separator-free prefix is the one right after it. */
  lemma {:induction false} IndexOfAfter(a: string, c: char, b: string)
    requires c !in a
    ensures c in a + [c] + b
    ensures IndexOf(a + [c] + b, c) == |a|
    decreases |a|
  {
    var s := a + [c] + b;
    assert s[|a|] == c;
    if |a| > 0 {
      assert s[1..] == a[1..] + [c] + b;
      IndexOfAfter(a[1..], c, b);
    }
  }

  /**
   * The round trip used for comma-separated tag columns: joining with the
   * separator, splitting and dropping empty parts gives the list back when
   * no element is empty or contains the separator (the empty list included).
   */
  lemma JoinSplitNonEmpty(xs: seq<string>, c: char)
    requires forall k :: 0 <= k < |xs| ==> xs[k] != "" && c !in xs[k]
    ensures NonEmpty(Split(Join(xs, [c]), c)) == xs
  {
    if |xs| == 0 {
      assert Split("", c) == [""];
    } else {
      SplitJoin(xs, c);
      NonEmptyKeeps(xs);
    }
  }

  lemma NonEmptyKeeps(xs: seq<string>)
    requires forall k :: 0 <= k < |xs| ==> xs[k] != ""
    ensures NonEmpty(xs) == xs
  {
  }

  // ---------------------------------------------------------------------
  // De-duplication in first-seen order
  // ---------------------------------------------------------------------

  predicate NoDup<T(==)>(s: seq<T>) {
    forall i, j :: 0 <= i < j < |s| ==> s[i] != s[j]
  }

  /** The position of the first occurrence of `x` in `s`. */
  function FirstIndex<T(==)>(s: seq<T>, x: T): (i: nat)
    requires x in s
    ensures i < |s| && s[i] == x
    ensures forall k :: 0 <= k < i ==> s[k] != x
  {
    if s[0] == x then 0 else 1 + FirstIndex(s[1..], x)
  }

  /** Appending an element leaves the first occurrence of every earlier element where it was. */
  lemma FirstIndexAppend<T>(s: seq<T>, x: T, y: T)
    requires y in s
    ensures FirstIndex(s + [x], y) == FirstIndex(s, y)
  {
    var a, b := FirstIndex(s + [x], y), FirstIndex(s, y);
    assert (s + [x])[b] == y;
    assert a <= b;
    assert s[a] == (s + [x])[a];
  }

  /** Every element of `r` occurs in `s`, and `r` lists them in the order of their first occurrences there. */
  predicate FirstSeenOrder<T(==)>(s: seq<T>, r: seq<T>) {
    && (forall i :: 0 <= i < |r| ==> r[i] in s)
    && (forall i, j :: 0 <= i < j < |r| && r[i] in s && r[j] in s ==> FirstIndex(s, r[i]) < FirstIndex(s, r[j]))
  }

  /**
   * The elements of `s` in first-seen order without repetitions: each
   * element is appended unless it is already present, as a
   * `forEach` with `includes`, or a `Set` read back in insertion order, does.
   */
  function Dedup<T(==)>(s: seq<T>): (r: seq<T>)
    ensures NoDup(r)
    ensures forall i :: 0 <= i < |r| ==> r[i] in s
    ensures forall i :: 0 <= i < |s| ==> s[i] in r
    ensures FirstSeenOrder(s, r)
    ensures |r| <= |s|
    decreases |s|
  {
    if |s| == 0 then []
    else
      var init, x := s[..|s| - 1], s[|s| - 1];
      var prev := Dedup(init);
      DedupStep(s, prev);
      if x in prev then prev else prev + [x]
  }

  /** One step of `Dedup`: appending one element to the input keeps every property. */
  lemma DedupStep<T>(s: seq<T>, prev: seq<T>)
    requires |s| > 0
    requires var init := s[..|s| - 1];
             && NoDup(prev) && |prev| <= |init|
             && (forall i :: 0 <= i < |init| ==> init[i] in prev)
             && FirstSeenOrder(init, prev)
    ensures var x := s[|s| - 1];
            var r := if x in prev then prev else prev + [x];
            && NoDup(r) && |r| <= |s|
            && (forall i :: 0 <= i < |r| ==> r[i] in s)
            && (forall i :: 0 <= i < |s| ==> s[i] in r)
            && FirstSeenOrder(s, r)
  {
    var init, x := s[..|s| - 1], s[|s| - 1];
    assert s == init + [x];
    DedupStepMembers(init, x, prev);
    DedupStepOrder(init, x, prev);
  }

  lemma DedupStepMembers<T>(init: seq<T>, x: T, prev: seq<T>)
    requires NoDup(prev) && |prev| <= |init|
    requires forall i :: 0 <= i < |init| ==> init[i] in prev
    requires forall i :: 0 <= i < |prev| ==> prev[i] in init
    ensures var s, r := init + [x], if x in prev then prev else prev + [x];
            && NoDup(r) && |r| <= |s|
            && (forall i :: 0 <= i < |r| ==> r[i] in s)
            && (forall i :: 0 <= i < |s| ==> s[i] in r)
  {
    var s := init + [x];
    if x in prev {
      forall i | 0 <= i < |s| ensures s[i] in prev {
        if i < |init| { assert s[i] == init[i]; }
      }
    } else {
      var r := prev + [x];
      assert NoDup(r);
      forall i | 0 <= i < |s| ensures s[i] in r {
        if i < |init| { assert s[i] == init[i]; }
      }
    }
  }

  lemma DedupStepOrder<T>(init: seq<T>, x: T, prev: seq<T>)
    requires FirstSeenOrder(init, prev)
    requires x in prev <==> x in init
    ensures FirstSeenOrder(init + [x], if x in prev then prev else prev + [x])
  {
    var s := init + [x];
    forall i | 0 <= i < |prev| ensures prev[i] in s && FirstIndex(s, prev[i]) == FirstIndex(init, prev[i]) {
      FirstIndexAppend(init, x, prev[i]);
    }
    if x !in prev {
      var r := prev + [x];
      assert FirstIndex(s, x) == |init|;
      forall i, j | 0 <= i < j < |r| ensures FirstIndex(s, r[i]) < FirstIndex(s, r[j]) {
        assert r[i] == prev[i];
        if j < |prev| { assert r[j] == prev[j]; }
      }
    }
  }

  /** A list without repetitions is its own de-duplication. */
  lemma {:induction false} DedupOfNoDup<T>(s: seq<T>)
    requires NoDup(s)
    ensures Dedup(s) == s
    decreases |s|
  {
    if |s| > 0 {
      var init := s[..|s| - 1];
      assert NoDup(init);
      DedupOfNoDup(init);
      assert s[|s| - 1] !in init;
      assert init + [s[|s| - 1]] == s;
      DedupAppend(init, s[|s| - 1]);
    }
  }

  /** Appending to a list appends to its de-duplication at most one element. */
  lemma DedupAppend<T>(s: seq<T>, x: T)
    ensures Dedup(s + [x]) == if x in Dedup(s) then Dedup(s) else Dedup(s) + [x]
  {
    assert (s + [x])[..|s + [x]| - 1] == s;
  }

  // ---------------------------------------------------------------------
  // Decimal numerals
  // ---------------------------------------------------------------------

  function DigitChar(d: nat): (c: char)
    requires d < 10
    ensures IsDigit(c)
  {
    ('0' as int + d) as char
  }

  function DigitValue(c: char): (d: nat)
    requires IsDigit(c)
    ensures d < 10
  {
    c as int - '0' as int
  }

  predicate AllDigits(s: string) {
    forall i :: 0 <= i < |s| ==> IsDigit(s[i])
  }

  /** Value of a string of decimal digits, most significant first. */
  function DigitsValue(s: string): nat
    requires AllDigits(s)
    decreases |s|
  {
    if |s| == 0 then 0
    else DigitsValue(s[..|s| - 1]) * 10 + DigitValue(s[|s| - 1])
  }

  /** `String(n)` for a non-negative integer. */
  function NatToString(n: nat): (s: string)
    ensures |s| >= 1 && AllDigits(s)
    ensures |s| > 1 ==> s[0] != '0'
    decreases n
  {
    if n < 10 then [DigitChar(n)] else NatToString(n / 10) + [DigitChar(n % 10)]
  }

  /** `String(n)` for any integer. */
  function IntToString(n: int): string {
    if n < 0 then "-" + NatToString(-n) else NatToString(n)
  }

  /** Reading back a printed number gives the number. */
  lemma {:induction false} NatToStringValue(n: nat)
    ensures DigitsValue(NatToString(n)) == n
    decreases n
  {
    if n >= 10 {
      var s := NatToString(n);
      assert s[..|s| - 1] == NatToString(n / 10);
      NatToStringValue(n / 10);
    }
  }

  /** `String(k).padStart(2, "0")` for `k < 100`. */
  function Pad2(k: nat): (s: string)
    requires k < 100
    ensures |s| == 2 && AllDigits(s)
    ensures DigitsValue(s) == k
  {
    var s := [DigitChar(k / 10), DigitChar(k % 10)];
    assert s[..1] == [DigitChar(k / 10)];
    assert [DigitChar(k / 10)][..0] == [];
    assert DigitsValue(s[..1]) == k / 10;
    s
  }

  /** The number of hundredths `x.toFixed(2)` prints for `x >= 0`: ties round up. */
  function Cents(x: real): (n: nat)
    requires x >= 0.0
    ensures (n as real) <= x * 100.0 + 0.5 < (n as real) + 1.0
  {
    (x * 100.0 + 0.5).Floor
  }

  /**
   * `x.toFixed(2)` on the exact value `x`: a sign for negative numbers, the
   * integer part, a point and exactly two decimals.
   */
  function ToFixed2(x: real): (s: string)
    ensures x >= 0.0 ==> s == NatToString(Cents(x) / 100) + "." + Pad2(Cents(x) % 100)
    ensures x < 0.0 ==> s == "-" + NatToString(Cents(-x) / 100) + "." + Pad2(Cents(-x) % 100)
  {
    if x < 0.0 then "-" + FixedNonNeg(-x) else FixedNonNeg(x)
  }

  function FixedNonNeg(x: real): string
    requires x >= 0.0
  {
    var n := Cents(x);
    NatToString(n / 100) + "." + Pad2(n % 100)
  }

  /** The longest leading run of decimal digits. */
  function LeadingDigits(s: string): (d: string)
    ensures AllDigits(d) && IsPrefix(d, s)
    ensures |d| < |s| ==> !IsDigit(s[|d|])
  {
    if |s| > 0 && IsDigit(s[0]) then [s[0]] + LeadingDigits(s[1..]) else []
  }

  function Pow10(k: nat): (p: nat)
    ensures p >= 1
  {
    if k == 0 then 1 else 10 * Pow10(k - 1)
  }

  /**
   * `parseFloat` of a string made of digits and points: the longest prefix
   * of the form `digits[.digits]`; absent (NaN) when that prefix has no digit.
   */
  function ParseDecimal(s: string): (r: Option<real>)
    ensures r.Some? ==> r.value >= 0.0
  {
    var ip := LeadingDigits(s);
    var rest := s[|ip|..];
    var fp := if |rest| > 0 && rest[0] == '.' then LeadingDigits(rest[1..]) else [];
    if |ip| == 0 && |fp| == 0 then None
    else Some(DigitsValue(ip) as real + Fraction(fp))
  }

  /** The value of the digits after a decimal point. */
  function Fraction(fp: string): real
    requires AllDigits(fp)
  {
    (DigitsValue(fp) as real) / (Pow10(|fp|) as real)
  }

  lemma TwoDecimals(fp: string)
    requires AllDigits(fp) && |fp| == 2
    ensures Fraction(fp) == (DigitsValue(fp) as real) / 100.0
  {
    assert Pow10(2) == 10 * Pow10(1) && Pow10(1) == 10 * Pow10(0);
  }

  lemma {:induction false} LeadingDigitsAll(d: string, rest: string)
    requires AllDigits(d)
    requires |rest| == 0 || !IsDigit(rest[0])
    ensures LeadingDigits(d + rest) == d
    decreases |d|
  {
    if |d| == 0 {
      assert d + rest == rest;
    } else {
      var s := d + rest;
      assert s[0] == d[0] && s[1..] == d[1..] + rest;
      LeadingDigitsAll(d[1..], rest);
      assert d == [d[0]] + d[1..];
    }
  }

  /** `parseFloat` of a string whose digit run is followed by a point and a non-empty digit run. */
  lemma ParseDecimalOf(s: string, ip: string, rest: string, fp: string)
    requires LeadingDigits(s) == ip && s[|ip|..] == rest
    requires |rest| > 0 && rest[0] == '.' && LeadingDigits(rest[1..]) == fp && |fp| > 0
    ensures ParseDecimal(s) == Some(DigitsValue(ip) as real + Fraction(fp))
  {
  }

  /** `parseFloat` of `digits.digits` reads the integer part plus the fraction. */
  lemma ParseFixedParts(ip: string, fp: string)
    requires AllDigits(ip) && AllDigits(fp) && |fp| > 0
    ensures ParseDecimal(ip + ['.'] + fp) == Some(DigitsValue(ip) as real + Fraction(fp))
  {
    var tail := ['.'] + fp;
    var s := ip + tail;
    assert ip + ['.'] + fp == s;
    LeadingDigitsAll(ip, tail);
    assert s[|ip|..] == tail;
    assert tail[1..] == fp;
    LeadingDigitsAll(fp, []);
    assert fp + [] == fp;
    ParseDecimalOf(s, ip, tail, fp);
  }

  /** A whole number of hundredths is its hundreds plus its remainder in hundredths. */
  lemma CentsSplit(n: nat)
    ensures (n / 100) as real + ((n % 100) as real) / 100.0 == (n as real) / 100.0
  {
    assert n == (n / 100) * 100 + n % 100;
  }

  /**
   * Reading back `x.toFixed(2)` with `parseFloat` gives `x` rounded to the
   * nearest hundredth, so it is within half a hundredth of `x`.
   */
  lemma ParseToFixed2(x: real)
    requires x >= 0.0
    ensures ParseDecimal(ToFixed2(x)) == Some((Cents(x) as real) / 100.0)
    ensures Abs((Cents(x) as real) / 100.0 - x) <= 0.005
  {
    var n := Cents(x);
    var ip := NatToString(n / 100);
    var fp := Pad2(n % 100);
    assert ToFixed2(x) == ip + ['.'] + fp;
    ParseFixedParts(ip, fp);
    TwoDecimals(fp);
    NatToStringValue(n / 100);
    CentsSplit(n);
  }
}

=== FILE: js_values.dfy ===
/**
 * Untyped JavaScript values, as the browser helpers receive them from a
 * JSON response: enough structure for `typeof` tests, truthiness and field
 * reads.
 */
module JsValues {
  datatype Js =
    | JUndefined
    | JNull
    | JBool(b: bool)
    | JNum(n: real)
    | JStr(s: string)
    | JArr(items: seq<Js>)
    | JObj(fields: map<string, Js>)

  /** `Boolean(v)`: false for undefined, null, false, zero and the empty string. */
  predicate Truthy(v: Js) {
    match v
    case JUndefined => false
    case JNull => false
    case JBool(b) => b
    case JNum(n) => n != 0.0
    case JStr(s) => |s| > 0
    case _ => true
  }

  /** `typeof v === "object"`: null, arrays and plain objects. */
  predicate IsObjectType(v: Js) {
    v.JNull? || v.JArr? || v.JObj?
  }

  /** `v?.key`: the field of an object, undefined for a missing field or a value that is not a plain object. */
  function Get(v: Js, key: string): (r: Js)
    ensures v.JObj? && key in v.fields ==> r == v.fields[key]
    ensures !(v.JObj? && key in v.fields) ==> r == JUndefined
  {
    if v.JObj? && key in v.fields then v.fields[key] else JUndefined
  }

  /** `Array.isArray(v) && v.every(n => typeof n === "number")`. */
  predicate NumberArray(v: Js) {
    v.JArr? && forall i :: 0 <= i < |v.items| ==> v.items[i].JNum?
  }
}

=== FILE: lenses.dfy ===
/**
 * The four-lens reading of a tensor and the scores built on it: the lens
 * monitor, the ECU stabiliser, the two-party convergence engine, the
 * dissonance detector, the flow calculator, the signature modulator, the
 * financial lens, the telemetry record and the spine's evolution trend.
 *
 * Numbers are exact reals. A JavaScript `x || d` on a number falls back to
 * `d` for both a missing value and `0`.
 */
module Lenses {
  import opened Common
  import opened Tensors
  import opened TensorStore

  // ---------------------------------------------------------------- lens monitor

  datatype LensStatus = LensStatus(physical: real, emotional: real, mental: real, spiritual: real,
                                   fractures: seq<string>)

  const EmotionalFracture := "SYNTAX_ERROR: " + "Emotional" + " lens neglected (AXIOM_3_FORCE)."
  const MentalFracture := "SYNTAX_ERROR: " + "Mental" + " lens fragmented (AXIOM_2_EXTREMES)."
  const ImbalanceFracture := "SYNTAX_ERROR: " + "Multidimensional" + " Imbalance (AXIOM_1_BALANCE)."

  /** The place of a fracture message in the order the monitor checks them. */
  function FracturePosition(m: string): nat {
    if m == EmotionalFracture then 0 else if m == MentalFracture then 1 else 2
  }

  lemma FracturesDistinct()
    ensures EmotionalFracture != MentalFracture && MentalFracture != ImbalanceFracture
    ensures EmotionalFracture != ImbalanceFracture
  {
    assert EmotionalFracture[14] == 'E' && MentalFracture[14] == 'M' && ImbalanceFracture[15] == 'u';
    assert MentalFracture[15] == 'e';
  }

  /** The fracture messages, in check order, for the emotional and mental lenses. */
  function Fractures(emotional: real, mental: real): (fs: seq<string>)
    ensures EmotionalFracture in fs <==> emotional < 0.4
    ensures MentalFracture in fs <==> mental < 0.4
    ensures ImbalanceFracture in fs <==> Abs(mental - emotional) > 0.6
    ensures forall m :: m in fs ==> m in {EmotionalFracture, MentalFracture, ImbalanceFracture}
    ensures forall i, j :: 0 <= i < j < |fs| ==> FracturePosition(fs[i]) < FracturePosition(fs[j])
  {
    FracturesDistinct();
    (if emotional < 0.4 then [EmotionalFracture] else [])
      + (if mental < 0.4 then [MentalFracture] else [])
      + (if Abs(mental - emotional) > 0.6 then [ImbalanceFracture] else [])
  }

  /** `LensMonitor.evaluate`: the four lenses read off the tensor's axes, and their fractures. */
  function Evaluate(t: Tensor): (s: LensStatus)
    ensures s.physical == 1.0 - 0.2 * t.axes.salienceWeight.GetOr(0.0)
    ensures s.emotional == 1.0 - t.axes.driftRisk.GetOr(0.0)
    ensures s.mental == TruthyOr(t.axes.coherenceScore, 0.5) && s.spiritual == TruthyOr(t.axes.resonanceIndex, 0.5)
    ensures s.fractures == Fractures(s.emotional, s.mental)
  {
    var emotional := 1.0 - TruthyOr(t.axes.driftRisk, 0.0);
    var mental := TruthyOr(t.axes.coherenceScore, 0.5);
    LensStatus(1.0 - TruthyOr(t.axes.salienceWeight, 0.0) * 0.2, emotional, mental,
               TruthyOr(t.axes.resonanceIndex, 0.5), Fractures(emotional, mental))
  }

  /** Lenses read from axes in [0, 1] lie in [0, 1]; the physical lens in [0.8, 1]. */
  lemma LensesBounded(t: Tensor)
    requires forall x :: (x in [t.axes.driftRisk, t.axes.coherenceScore, t.axes.salienceWeight, t.axes.resonanceIndex]
                          && x.Some?) ==> 0.0 <= x.value <= 1.0
    ensures var s := Evaluate(t);
            && 0.8 <= s.physical <= 1.0 && 0.0 <= s.emotional <= 1.0
            && 0.0 < s.mental <= 1.0 && 0.0 < s.spiritual <= 1.0
  {
    assert t.axes.driftRisk in [t.axes.driftRisk, t.axes.coherenceScore, t.axes.salienceWeight, t.axes.resonanceIndex];
    assert t.axes.coherenceScore in [t.axes.driftRisk, t.axes.coherenceScore, t.axes.salienceWeight, t.axes.resonanceIndex];
    assert t.axes.salienceWeight in [t.axes.driftRisk, t.axes.coherenceScore, t.axes.salienceWeight, t.axes.resonanceIndex];
    assert t.axes.resonanceIndex in [t.axes.driftRisk, t.axes.coherenceScore, t.axes.salienceWeight, t.axes.resonanceIndex];
  }

  // ---------------------------------------------------------------- ECU

  datatype EcuStatus = Rested | Stabilizing
  datatype EcuState = EcuState(tensionLevel: real, isPaused: bool, appliedWeights: seq<string>, status: EcuStatus)

  const CounterWeights := [
    "Affection/Humility: Acknowledging system uncertainty.",
    "Grounding: Refocusing on AXIOM_13 reality-tethers.",
    "Sovereignty: Re-affirming Peer Discernment."
  ]

  /** `ECUService.stabilize`: pause and apply the three counter-weights when the tension exceeds 0.6. */
  function Stabilize(l: LensStatus): (s: EcuState)
    ensures s.tensionLevel >= 0.0 && (s.tensionLevel == l.mental - l.emotional || s.tensionLevel == l.emotional - l.mental)
    ensures s.isPaused <==> s.tensionLevel > 0.6
    ensures s.status == Stabilizing <==> s.isPaused
    ensures s.appliedWeights == if s.isPaused then CounterWeights else []
  {
    var tension := Abs(l.mental - l.emotional);
    if tension > 0.6 then EcuState(tension, true, CounterWeights, Stabilizing)
    else EcuState(tension, false, [], Rested)
  }

  /** The tension only depends on the gap between the mental and emotional lenses, not on their order. */
  lemma StabilizeSymmetric(l: LensStatus)
    ensures Stabilize(l.(mental := l.emotional, emotional := l.mental)) == Stabilize(l)
  {
  }

  // ---------------------------------------------------------------- convergence

  datatype Convergence = Convergence(partyA: LensStatus, partyB: LensStatus, differentialFriction: real,
                                     equilibriumPoint: real, conflictMarkers: seq<string>)

  const FrictionMarker := "AXIOM_3" + "_FORCE: Significant relational friction detected."
  const PolarityMarker := "AXIOM_2" + "_EXTREMES: Polarized mental lenses detected."

  /** The conflict markers for two lens readings: friction first, then polarity. */
  function ConflictMarkers(a: LensStatus, b: LensStatus): (ms: seq<string>)
    ensures FrictionMarker in ms <==> Abs(a.emotional - b.emotional) > 0.5
    ensures PolarityMarker in ms <==> Abs(a.mental - b.mental) > 0.6
    ensures |ms| <= 2 && (|ms| == 2 ==> ms == [FrictionMarker, PolarityMarker])
  {
    assert FrictionMarker[6] != PolarityMarker[6];
    (if Abs(a.emotional - b.emotional) > 0.5 then [FrictionMarker] else [])
      + (if Abs(a.mental - b.mental) > 0.6 then [PolarityMarker] else [])
  }

  /** `ConvergenceEngine.evaluate`: friction between the emotional lenses, the midpoint of the mental ones. */
  function Converge(ta: Tensor, tb: Tensor): (c: Convergence)
    ensures c.partyA == Evaluate(ta) && c.partyB == Evaluate(tb)
    ensures c.differentialFriction >= 0.0
    ensures c.differentialFriction == Abs(c.partyA.emotional - c.partyB.emotional)
    ensures c.equilibriumPoint == (c.partyA.mental + c.partyB.mental) / 2.0
    ensures MinReal(c.partyA.mental, c.partyB.mental) <= c.equilibriumPoint <= MaxReal(c.partyA.mental, c.partyB.mental)
    ensures c.conflictMarkers == ConflictMarkers(c.partyA, c.partyB)
  {
    var a := Evaluate(ta);
    var b := Evaluate(tb);
    Convergence(a, b, Abs(a.emotional - b.emotional), (a.mental + b.mental) / 2.0, ConflictMarkers(a, b))
  }

  /** Swapping the parties swaps the readings and keeps friction, midpoint and markers. */
  lemma ConvergeSymmetric(ta: Tensor, tb: Tensor)
    ensures var (c, d) := (Converge(ta, tb), Converge(tb, ta));
            && d.partyA == c.partyB && d.partyB == c.partyA
            && d.differentialFriction == c.differentialFriction
            && d.equilibriumPoint == c.equilibriumPoint
            && d.conflictMarkers == c.conflictMarkers
  {
    var (a, b) := (Evaluate(ta), Evaluate(tb));
    assert Abs(a.emotional - b.emotional) == Abs(b.emotional - a.emotional);
    assert Abs(a.mental - b.mental) == Abs(b.mental - a.mental);
  }

  // ---------------------------------------------------------------- dissonance

  datatype IntegritySnapshot = IntegritySnapshot(phaseLockGap: real, dissonanceMarkers: seq<string>,
                                                 confidenceVariance: real)

  const GapMarker := "AXIOM_2" + "_EXTREMES: High Phase-Lock Gap detected."
  const PressureMarker := "AXIOM_3" + "_FORCE: Potential internal pressure detected."

  /** `DissonanceDetector.analyze`: the gap between coherence and the inverted drift, and its markers. */
  function Analyze(t: Tensor): (s: IntegritySnapshot)
    ensures var (coherence, drift) := (TruthyOr(t.axes.coherenceScore, 0.0), TruthyOr(t.axes.driftRisk, 0.0));
            && s.phaseLockGap == Abs(coherence - (1.0 - drift))
            && (GapMarker in s.dissonanceMarkers <==> s.phaseLockGap > 0.5)
            && (PressureMarker in s.dissonanceMarkers <==> drift > 0.6 && coherence > 0.7)
            && |s.dissonanceMarkers| <= 2
    ensures s.confidenceVariance == 1.0 - TruthyOr(Some(t.confidence), 0.5)
  {
    var coherence := TruthyOr(t.axes.coherenceScore, 0.0);
    var drift := TruthyOr(t.axes.driftRisk, 0.0);
    var gap := Abs(coherence - (1.0 - drift));
    assert GapMarker[6] != PressureMarker[6];
    IntegritySnapshot(gap,
      (if gap > 0.5 then [GapMarker] else []) + (if drift > 0.6 && coherence > 0.7 then [PressureMarker] else []),
      1.0 - TruthyOr(Some(t.confidence), 0.5))
  }

  /** For axes in [0, 1] the gap lies in [0, 1]; full coherence at zero drift is no gap at all. */
  lemma GapBounded(t: Tensor)
    requires t.axes.coherenceScore.Some? ==> 0.0 <= t.axes.coherenceScore.value <= 1.0
    requires t.axes.driftRisk.Some? ==> 0.0 <= t.axes.driftRisk.value <= 1.0
    ensures 0.0 <= Analyze(t).phaseLockGap <= 1.0
    ensures t.axes.coherenceScore == Some(1.0) && t.axes.driftRisk.GetOr(0.0) == 0.0 ==>
              Analyze(t).phaseLockGap == 0.0 && Analyze(t).dissonanceMarkers == []
  {
  }

  // ---------------------------------------------------------------- flow

  /** The product of the virtue values, 1 for none. */
  function IntegrityProduct(virtues: seq<real>): real
    decreases |virtues|
  {
    if |virtues| == 0 then 1.0 else virtues[0] * IntegrityProduct(virtues[1..])
  }

  /** The raw flow: integrity times the energy left after the resonance delta. */
  function Flow(virtues: seq<real>, resonanceDelta: real): real {
    IntegrityProduct(virtues) * (1.0 - resonanceDelta)
  }

  /** `FlowCalculator.calculate`: the raw flow when positive, otherwise 0. */
  function Calculate(virtues: seq<real>, resonanceDelta: real): (r: real)
    ensures r >= 0.0
    ensures Flow(virtues, resonanceDelta) > 0.0 ==> r == Flow(virtues, resonanceDelta)
    ensures Flow(virtues, resonanceDelta) <= 0.0 ==> r == 0.0
  {
    var flow := Flow(virtues, resonanceDelta);
    if flow > 0.0 then flow else 0.0
  }

  /** One zero virtue makes the whole product zero. */
  lemma {:induction false} ZeroVirtueZeroProduct(virtues: seq<real>, k: nat)
    requires k < |virtues| && virtues[k] == 0.0
    ensures IntegrityProduct(virtues) == 0.0
    decreases |virtues|
  {
    if k > 0 {
      ZeroVirtueZeroProduct(virtues[1..], k - 1);
    }
  }

  /** Non-negative virtues have a non-negative product. */
  lemma {:induction false} ProductNonNegative(virtues: seq<real>)
    requires forall i :: 0 <= i < |virtues| ==> virtues[i] >= 0.0
    ensures IntegrityProduct(virtues) >= 0.0
    decreases |virtues|
  {
    if |virtues| > 0 {
      ProductNonNegative(virtues[1..]);
    }
  }

  /** The deterministic pause: any zero virtue, or a spent energy with non-negative virtues, gives no flow. */
  lemma FlowPauses(virtues: seq<real>, resonanceDelta: real)
    requires (exists k :: 0 <= k < |virtues| && virtues[k] == 0.0)
             || (resonanceDelta >= 1.0 && forall i :: 0 <= i < |virtues| ==> virtues[i] >= 0.0)
    ensures Calculate(virtues, resonanceDelta) == 0.0
  {
    if k :| 0 <= k < |virtues| && virtues[k] == 0.0 {
      ZeroVirtueZeroProduct(virtues, k);
    } else {
      ProductNonNegative(virtues);
    }
  }

  /** With every virtue at 1 the flow is the remaining energy, when there is some. */
  lemma {:induction false} AllOnesFlow(virtues: seq<real>, resonanceDelta: real)
    requires forall i :: 0 <= i < |virtues| ==> virtues[i] == 1.0
    requires resonanceDelta < 1.0
    ensures Calculate(virtues, resonanceDelta) == 1.0 - resonanceDelta
    decreases |virtues|
  {
    if |virtues| > 0 {
      AllOnesFlow(virtues[1..], resonanceDelta);
    }
  }

  // ---------------------------------------------------------------- signature

  datatype Signature = Analyst | Artist | Librarian | Mentor

  /** `SignatureModulator.modulate`: the first voice whose condition holds, in a fixed order. */
  function Modulate(l: LensStatus): (v: Signature)
    ensures v == Analyst <==> l.mental > 0.8 && l.emotional < 0.6
    ensures v == Artist <==> !(l.mental > 0.8 && l.emotional < 0.6) && (l.spiritual > 0.8 || l.emotional > 0.8)
    ensures v == Librarian <==> !(l.mental > 0.8 && l.emotional < 0.6) && !(l.spiritual > 0.8 || l.emotional > 0.8)
                                && l.mental > 0.6 && l.physical < 0.6
  {
    if l.mental > 0.8 && l.emotional < 0.6 then Analyst
    else if l.spiritual > 0.8 || l.emotional > 0.8 then Artist
    else if l.mental > 0.6 && l.physical < 0.6 then Librarian
    else Mentor
  }

  /** A tensor read by the monitor never gets the librarian voice when its salience is in [0, 1]. */
  lemma NoLibrarianFromMonitor(t: Tensor)
    requires t.axes.salienceWeight.Some? ==> 0.0 <= t.axes.salienceWeight.value <= 1.0
    ensures Modulate(Evaluate(t)) != Librarian
  {
  }

  // ---------------------------------------------------------------- financial lens

  /** A JavaScript division result: a real, an infinity, or NaN. */
  datatype Num = Finite(x: real) | PosInf | NegInf | NaN

  /** `a / b` in IEEE terms: dividing by zero gives a signed infinity, or NaN for `0 / 0`. */
  function Divide(a: real, b: real): (q: Num)
    ensures b != 0.0 ==> q == Finite(a / b)
    ensures q == NaN <==> a == 0.0 && b == 0.0
  {
    if b != 0.0 then Finite(a / b) else if a > 0.0 then PosInf else if a < 0.0 then NegInf else NaN
  }

  datatype FinanceSnapshot = FinanceSnapshot(sustainabilityIndex: Num, forcePrediction: string, isBalanced: bool)

  const StressPrediction := "High" + " probability of future AXIOM_3_FORCE (stress) on system stability."
  const FlowPrediction := "Physical" + " Lens remains in a state of Flow."

  /** `Math.min(Math.max(0, 1 - (ratio - 0.3)), 1)` over the division result. */
  function Sustainability(ratio: Num): (s: Num)
    ensures s == NaN <==> ratio == NaN
    ensures s.Finite? <==> ratio != NaN
    ensures s.Finite? ==> 0.0 <= s.x <= 1.0
    ensures ratio.Finite? ==> s.x == (if ratio.x <= 0.3 then 1.0 else if ratio.x >= 1.3 then 0.0 else 1.3 - ratio.x)
    ensures ratio == PosInf ==> s == Finite(0.0)
    ensures ratio == NegInf ==> s == Finite(1.0)
  {
    match ratio
    case Finite(r) => Finite(MinReal(MaxReal(0.0, 1.0 - (r - 0.3)), 1.0))
    case PosInf => Finite(0.0)
    case NegInf => Finite(1.0)
    case NaN => NaN
  }

  /** `ratio > 0.8`; comparisons with NaN are false. */
  predicate Above(ratio: Num, bound: real) {
    match ratio
    case Finite(r) => r > bound
    case PosInf => true
    case NegInf => false
    case NaN => false
  }

  /** `ratio <= 0.5`; comparisons with NaN are false. */
  predicate AtMost(ratio: Num, bound: real) {
    match ratio
    case Finite(r) => r <= bound
    case PosInf => false
    case NegInf => true
    case NaN => false
  }

  /** `FinancialLensService.evaluate`: sustainability from the outgoing/income ratio, stress above 0.8, balance up to 0.5. */
  function EvaluateFinance(income: real, outgoing: real): (s: FinanceSnapshot)
    ensures income != 0.0 ==> var ratio := outgoing / income;
            && s.sustainabilityIndex.Finite? && 0.0 <= s.sustainabilityIndex.x <= 1.0
            && s.sustainabilityIndex.x == (if ratio <= 0.3 then 1.0 else if ratio >= 1.3 then 0.0 else 1.3 - ratio)
            && (s.isBalanced <==> ratio <= 0.5)
            && (s.forcePrediction == StressPrediction <==> ratio > 0.8)
            && (s.forcePrediction == FlowPrediction <==> ratio <= 0.8)
    ensures income == 0.0 && outgoing > 0.0 ==> s == FinanceSnapshot(Finite(0.0), StressPrediction, false)
    ensures income == 0.0 && outgoing < 0.0 ==> s == FinanceSnapshot(Finite(1.0), FlowPrediction, true)
    ensures income == 0.0 && outgoing == 0.0 ==> s == FinanceSnapshot(NaN, FlowPrediction, false)
  {
    var ratio := Divide(outgoing, income);
    assert StressPrediction[0] != FlowPrediction[0];
    FinanceSnapshot(Sustainability(ratio), if Above(ratio, 0.8) then StressPrediction else FlowPrediction,
                    AtMost(ratio, 0.5))
  }

  /** With a positive income, spending more never raises sustainability. */
  lemma SustainabilityMonotone(income: real, outgoing1: real, outgoing2: real)
    requires income > 0.0 && outgoing1 <= outgoing2
    ensures EvaluateFinance(income, outgoing2).sustainabilityIndex.x <= EvaluateFinance(income, outgoing1).sustainabilityIndex.x
  {
    assert outgoing1 / income <= outgoing2 / income by {
      assert outgoing2 / income - outgoing1 / income == (outgoing2 - outgoing1) / income;
    }
  }

  // ---------------------------------------------------------------- telemetry

  datatype Telemetry = Telemetry(timestamp: string, flowEnergy: real, integrityProduct: real, lenses: LensStatus,
                                 activeAxioms: seq<string>)

  /** `TelemetryService.compile`: the flow and lenses as given, integrity 1 exactly when there is flow. */
  function Compile(flow: real, lenses: LensStatus, axiomTags: seq<string>, now: string): (t: Telemetry)
    ensures t.integrityProduct == 1.0 <==> flow > 0.0
    ensures t.integrityProduct == 0.0 <==> flow <= 0.0
    ensures (t.flowEnergy, t.lenses, t.activeAxioms, t.timestamp) == (flow, lenses, axiomTags, now)
  {
    Telemetry(now, flow, if flow > 0.0 then 1.0 else 0.0, lenses, axiomTags)
  }

  /** Only the timestamp depends on when the record is compiled. */
  lemma CompileTimestampOnly(flow: real, lenses: LensStatus, axiomTags: seq<string>, now1: string, now2: string)
    ensures Compile(flow, lenses, axiomTags, now1) == Compile(flow, lenses, axiomTags, now2).(timestamp := now1)
  {
  }

  /** A calculated flow always compiles to integrity 0 or 1, and to 0 exactly at the deterministic pause. */
  lemma TelemetryOfFlow(virtues: seq<real>, resonanceDelta: real, lenses: LensStatus, tags: seq<string>, now: string)
    ensures var t := Compile(Calculate(virtues, resonanceDelta), lenses, tags, now);
            && (t.integrityProduct == 0.0 || t.integrityProduct == 1.0)
            && (t.integrityProduct == 0.0 <==> t.flowEnergy == 0.0)
  {
  }

  // ---------------------------------------------------------------- evolution trend

  datatype Trend = Trend(sampleCount: nat, driftVelocity: real, coherenceStability: real, observation: string)

  const ClearingObservation := "Reliance" + " on AXIOM_3_FORCE markers has decreased. AXIOM_4_FLOW is increasing."
  const AdjustingObservation := "Interaction" + " frequency remains in a state of adjustment."

  /** The trend over a spine given newest first: newest minus oldest, for drift and for coherence. */
  function TrendOf(spine: seq<Tensor>): (r: Option<Trend>)
    ensures r.None? <==> |spine| < 3
    ensures r.Some? ==> var (newest, oldest) := (spine[0], spine[|spine| - 1]);
            && r.value.sampleCount == |spine|
            && r.value.driftVelocity == TruthyOr(newest.axes.driftRisk, 0.0) - TruthyOr(oldest.axes.driftRisk, 0.0)
            && r.value.coherenceStability
               == TruthyOr(newest.axes.coherenceScore, 0.0) - TruthyOr(oldest.axes.coherenceScore, 0.0)
            && (r.value.observation == ClearingObservation <==> r.value.driftVelocity < 0.0)
            && (r.value.observation == AdjustingObservation <==> r.value.driftVelocity >= 0.0)
  {
    if |spine| < 3 then None
    else
      var (newest, oldest) := (spine[0], spine[|spine| - 1]);
      var drift := TruthyOr(newest.axes.driftRisk, 0.0) - TruthyOr(oldest.axes.driftRisk, 0.0);
      var coherence := TruthyOr(newest.axes.coherenceScore, 0.0) - TruthyOr(oldest.axes.coherenceScore, 0.0);
      assert ClearingObservation[0] != AdjustingObservation[0];
      Some(Trend(|spine|, drift, coherence, if drift < 0.0 then ClearingObservation else AdjustingObservation))
  }

  /** `getEvolutionTrend`: the trend over the session's twenty newest spine tensors. */
  function EvolutionTrend(rows: seq<TensorRow>, sessionId: string): (r: Option<Trend>)
    ensures r == TrendOf(GetSpine(rows, sessionId, Some(20)))
    ensures r.Some? ==> 3 <= r.value.sampleCount <= 20
  {
    TrendOf(GetSpine(rows, sessionId, Some(20)))
  }
}

=== FILE: mirror_app.dfy ===
/**
 * The pure helpers of the mirror page: level wording, lens normalisation,
 * the alignment advice read from an `identify` text, the report-capability
 * test and the recording clock.
 */
module MirrorApp {
  import opened Common
  import opened JsValues
  import Suggestion

  // ---------------------------------------------------------------------
  // Bands
  // ---------------------------------------------------------------------

  /** The four bands three descending cut-offs divide the numbers into, highest first. */
  datatype Band = Top | Second | Third | Bottom

  function BandOf(x: real, hi: real, mid: real, lo: real): Band {
    if x >= hi then Top else if x >= mid then Second else if x >= lo then Third else Bottom
  }

  function BandRank(b: Band): nat {
    match b
    case Top => 3
    case Second => 2
    case Third => 1
    case Bottom => 0
  }

  /** With descending cut-offs, a larger number never falls in a lower band. */
  lemma BandMonotone(x: real, y: real, hi: real, mid: real, lo: real)
    requires lo <= mid <= hi && x <= y
    ensures BandRank(BandOf(x, hi, mid, lo)) <= BandRank(BandOf(y, hi, mid, lo))
  {
  }

  /** The band of a level reading under the cut-offs 0.75, 0.45 and 0.25; none for a value that is not a number. */
  function LevelBand(v: Js): Option<Band> {
    if v.JNum? then Some(BandOf(v.n, 0.75, 0.45, 0.25)) else None
  }

  // ---------------------------------------------------------------------
  // Level wording
  // ---------------------------------------------------------------------

  /** `describeLevel`: `Unknown` for a non-number, else `High`, `Steady`, `Low` or `Depleted` by band. */
  function DescribeLevel(v: Js): (r: string)
    ensures r == "Unknown" <==> !v.JNum?
    ensures r == "High" <==> v.JNum? && v.n >= 0.75
    ensures r == "Steady" <==> v.JNum? && 0.45 <= v.n < 0.75
    ensures r == "Low" <==> v.JNum? && 0.25 <= v.n < 0.45
    ensures r == "Depleted" <==> v.JNum? && v.n < 0.25
  {
    match LevelBand(v)
    case None => "Unknown"
    case Some(Top) => "High"
    case Some(Second) => "Steady"
    case Some(Third) => "Low"
    case Some(Bottom) => "Depleted"
  }

  /** `levelTone`: `unknown` for a non-number, else `strong`, `steady`, `low` or `critical` by band. */
  function LevelTone(v: Js): (r: string)
    ensures r == "unknown" <==> !v.JNum?
    ensures r == "strong" <==> v.JNum? && v.n >= 0.75
    ensures r == "steady" <==> v.JNum? && 0.45 <= v.n < 0.75
    ensures r == "low" <==> v.JNum? && 0.25 <= v.n < 0.45
    ensures r == "critical" <==> v.JNum? && v.n < 0.25
  {
    match LevelBand(v)
    case None => "unknown"
    case Some(Top) => "strong"
    case Some(Second) => "steady"
    case Some(Third) => "low"
    case Some(Bottom) => "critical"
  }

  /** The wording and the tone use the same cut-offs: two readings share one exactly when they share the other. */
  lemma WordingMatchesTone(a: Js, b: Js)
    ensures DescribeLevel(a) == DescribeLevel(b) <==> LevelTone(a) == LevelTone(b)
  {
  }

  // ---------------------------------------------------------------------
  // Lenses
  // ---------------------------------------------------------------------

  datatype LensReading = LensReading(physical: Js, emotional: Js, mental: Js, spiritual: Js)

  /** The four lens fields of a payload, as read. */
  function LensFields(payload: Js): LensReading {
    LensReading(Get(payload, "physical"), Get(payload, "emotional"), Get(payload, "mental"), Get(payload, "spiritual"))
  }

  predicate AnyNumber(l: LensReading) {
    l.physical.JNum? || l.emotional.JNum? || l.mental.JNum? || l.spiritual.JNum?
  }

  /**
   * `normalizeLenses`: the four fields of an object payload when at least
   * one of them is a number; nothing for any other payload.
   */
  function NormalizeLenses(payload: Js): (r: Option<LensReading>)
    ensures r.Some? <==> payload.JObj? && AnyNumber(LensFields(payload))
    ensures r.Some? ==> r.value == LensFields(payload)
  {
    if !Truthy(payload) || !IsObjectType(payload) then None
    else
      var l := LensFields(payload);
      if AnyNumber(l) then Some(l) else None
  }

  /** A lens reading as the object it is rendered from. */
  function LensJs(l: LensReading): Js {
    JObj(map["physical" := l.physical, "emotional" := l.emotional, "mental" := l.mental, "spiritual" := l.spiritual])
  }

  /** Normalising is stable: the object rebuilt from a normalised reading normalises to the same reading. */
  lemma NormalizeStable(payload: Js)
    requires NormalizeLenses(payload).Some?
    ensures NormalizeLenses(LensJs(NormalizeLenses(payload).value)) == NormalizeLenses(payload)
  {
    var l := NormalizeLenses(payload).value;
    assert LensFields(LensJs(l)) == l;
  }

  // ---------------------------------------------------------------------
  // Alignment advice
  // ---------------------------------------------------------------------

  /** A character of the class `[0-9.]`. */
  predicate DeltaChar(c: char) {
    IsDigit(c) || c == '.'
  }

  const DeltaKey: string := "delta="

  /** `/Delta=([0-9.]+)/i` matches at `i`. */
  predicate DeltaAt(s: string, i: nat) {
    i + 7 <= |s| && FoldEq(s[i..i + 6], DeltaKey) && DeltaChar(s[i + 6])
  }

  /** The leftmost match at or after `from`. */
  function FirstDelta(s: string, from: nat): (r: Option<nat>)
    requires from <= |s|
    ensures r.Some? ==> from <= r.value && DeltaAt(s, r.value)
    ensures forall k :: from <= k && (r.None? || k < r.value) ==> !DeltaAt(s, k)
    decreases |s| - from
  {
    if from + 7 > |s| then None
    else if DeltaAt(s, from) then Some(from)
    else FirstDelta(s, from + 1)
  }

  /** The greedy group `[0-9.]+`: the longest leading run of digits and points. */
  function DeltaRun(s: string): (d: string)
    ensures IsPrefix(d, s)
    ensures forall i :: 0 <= i < |d| ==> DeltaChar(d[i])
    ensures |d| < |s| ==> !DeltaChar(s[|d|])
  {
    if |s| > 0 && DeltaChar(s[0]) then [s[0]] + DeltaRun(s[1..]) else []
  }

  /** The search from the start finds the leftmost match. */
  lemma FirstDeltaIsLeftmost(raw: string)
    ensures forall k: nat :: DeltaAt(raw, k) && (forall j: nat :: j < k ==> !DeltaAt(raw, j))
                             ==> FirstDelta(raw, 0) == Some(k)
  {
    forall k: nat | DeltaAt(raw, k) && (forall j: nat :: j < k ==> !DeltaAt(raw, j))
      ensures FirstDelta(raw, 0) == Some(k)
    {
      assert FirstDelta(raw, 0).Some?;
    }
  }

  /** The delta `parseFloat` reads from the first match; none without a match or when it reads no number. */
  function AlignmentDelta(raw: string): (d: Option<real>)
    ensures (forall k :: !DeltaAt(raw, k)) ==> d.None?
    ensures forall k: nat :: DeltaAt(raw, k) && (forall j: nat :: j < k ==> !DeltaAt(raw, j))
                             ==> d == ParseDecimal(DeltaRun(raw[k + 6..]))
    ensures d.Some? ==> d.value >= 0.0
  {
    FirstDeltaIsLeftmost(raw);
    match FirstDelta(raw, 0)
    case None => None
    case Some(i) => ParseDecimal(DeltaRun(raw[i + 6..]))
  }

  const AcuteAdvice := "Peer emotional state shows acute tension and destabilization. " + "Focus on grounding and safety."
  const StrainAdvice := "Peer emotional state shows elevated strain. " + "Provide calm, specific support."
  const FrictionAdvice := "Peer emotional state shows mild friction. " + "Invite reflection and gentle pacing."
  const SteadyAdvice := "Peer emotional state appears steady. " + "Encourage continued clarity and choice."
  const EnergizedAdvice := "Peer emotional state is energized and expressive. " + "Channel toward constructive action."
  const StableAdvice := "Peer emotional state is stable with manageable tension. " + "Maintain steady support."
  const GuardedAdvice := "Peer emotional state is low and guarded. " + "Offer reassurance and space."
  const DepletedAdvice := "Peer emotional state is depleted. " + "Prioritize rest and emotional safety."

  /** The advice for a delta band (cut-offs 0.8, 0.55 and 0.3). */
  function DeltaAdvice(b: Band): string {
    match b
    case Top => AcuteAdvice
    case Second => StrainAdvice
    case Third => FrictionAdvice
    case Bottom => SteadyAdvice
  }

  /** The advice for an emotional-score band (the level cut-offs). */
  function EmotionAdvice(b: Band): string {
    match b
    case Top => EnergizedAdvice
    case Second => StableAdvice
    case Third => GuardedAdvice
    case Bottom => DepletedAdvice
  }

  /**
   * `formatAlignment`: nothing for a missing or empty text; the delta
   * advice when a delta can be read; else the advice for a numeric
   * emotional score, banded like the level wording; else the text itself.
   */
  function FormatAlignment(raw: Option<string>, emotional: Js): (r: Option<string>)
    ensures r.None? <==> raw.None? || raw.value == ""
    ensures r.Some? ==> var d := AlignmentDelta(raw.value);
            && (d.Some? ==> r.value == DeltaAdvice(BandOf(d.value, 0.8, 0.55, 0.3)))
            && (d.None? && emotional.JNum? ==> r.value == EmotionAdvice(LevelBand(emotional).value))
            && (d.None? && !emotional.JNum? ==> r.value == raw.value)
  {
    if raw.None? || raw.value == "" then None
    else
      match AlignmentDelta(raw.value)
      case Some(delta) => Some(DeltaAdvice(BandOf(delta, 0.8, 0.55, 0.3)))
      case None =>
        if emotional.JNum? then Some(EmotionAdvice(BandOf(emotional.n, 0.75, 0.45, 0.25)))
        else raw
  }

  /** A readable delta decides the advice whatever the emotional score. */
  lemma DeltaTakesPrecedence(raw: string, e1: Js, e2: Js)
    requires AlignmentDelta(raw).Some?
    ensures FormatAlignment(Some(raw), e1) == FormatAlignment(Some(raw), e2)
  {
  }

  /** The emotional-score advice sits in the same band as the level wording of that score. */
  lemma EmotionAdviceFollowsLevel(raw: string, e: Js)
    requires raw != "" && AlignmentDelta(raw).None? && e.JNum?
    ensures DescribeLevel(e) == "High" ==> FormatAlignment(Some(raw), e) == Some(EnergizedAdvice)
    ensures DescribeLevel(e) == "Steady" ==> FormatAlignment(Some(raw), e) == Some(StableAdvice)
    ensures DescribeLevel(e) == "Low" ==> FormatAlignment(Some(raw), e) == Some(GuardedAdvice)
    ensures DescribeLevel(e) == "Depleted" ==> FormatAlignment(Some(raw), e) == Some(DepletedAdvice)
  {
  }

  /** The value `x.toFixed(2)` denotes: `x` rounded to hundredths. */
  function Hundredths(x: real): real
    requires x >= 0.0
  {
    (Cents(x) as real) / 100.0
  }

  /** Every character of a non-negative `toFixed(2)` is a digit or a point, and the first is a digit. */
  lemma FixedIsDeltaRun(x: real)
    requires x >= 0.0
    ensures var t := ToFixed2(x);
            && |t| > 0 && IsDigit(t[0])
            && forall i :: 0 <= i < |t| ==> DeltaChar(t[i])
  {
    var n := Cents(x);
    var ip := NatToString(n / 100);
    var fp := Pad2(n % 100);
    var t := ip + "." + fp;
    assert ToFixed2(x) == t;
    forall i | 0 <= i < |t|
      ensures DeltaChar(t[i])
    {
      if i < |ip| {
        assert t[i] == ip[i];
      } else if i > |ip| {
        assert t[i] == fp[i - |ip| - 1];
      }
    }
  }

  lemma {:induction false} DeltaRunAll(d: string, rest: string)
    requires forall i :: 0 <= i < |d| ==> DeltaChar(d[i])
    requires |rest| == 0 || !DeltaChar(rest[0])
    ensures DeltaRun(d + rest) == d
    decreases |d|
  {
    if |d| == 0 {
      assert d + rest == rest;
    } else {
      var s := d + rest;
      assert s[0] == d[0] && s[1..] == d[1..] + rest;
      DeltaRunAll(d[1..], rest);
      assert d == [d[0]] + d[1..];
    }
  }

  /** No match starts inside a prefix free of `=`, since the match's own `=` would lie in it or be the key's. */
  lemma NoDeltaBefore(prefix: string, tail: string, k: nat)
    requires '=' !in prefix && k < |prefix|
    ensures !DeltaAt(prefix + "Delta=" + tail, k)
  {
    var s := prefix + "Delta=" + tail;
    if k + 7 <= |s| {
      assert s[k + 5] != '=' by {
        if k + 5 < |prefix| {
          assert s[k + 5] == prefix[k + 5];
        } else {
          assert s[k + 5] == "Delta="[k + 5 - |prefix|];
        }
      }
      assert Lower(s[k..k + 6])[5] != Lower(DeltaKey)[5];
    }
  }

  /**
   * A delta printed with `toFixed(2)` after a key `Delta=` is read back as
   * that value rounded to hundredths, provided nothing before it holds `=`
   * and no digit or point follows it.
   */
  lemma ReadsPrintedDelta(prefix: string, x: real, rest: string)
    requires x >= 0.0 && '=' !in prefix
    requires |rest| == 0 || !DeltaChar(rest[0])
    ensures AlignmentDelta(prefix + "Delta=" + ToFixed2(x) + rest) == Some(Hundredths(x))
  {
    FixedIsDeltaRun(x);
    ReadsRunAfterKey(prefix, ToFixed2(x), rest);
    FixedReadsBack(x);
  }

  lemma FixedReadsBack(x: real)
    requires x >= 0.0
    ensures ParseDecimal(ToFixed2(x)) == Some(Hundredths(x))
  {
    ParseToFixed2(x);
  }

  /** After a prefix free of `=`, the delta read is `parseFloat` of the run following the key. */
  lemma ReadsRunAfterKey(prefix: string, t: string, rest: string)
    requires '=' !in prefix && |t| > 0 && IsDigit(t[0])
    requires forall i :: 0 <= i < |t| ==> DeltaChar(t[i])
    requires |rest| == 0 || !DeltaChar(rest[0])
    ensures AlignmentDelta(prefix + "Delta=" + t + rest) == ParseDecimal(t)
  {
    var s := prefix + "Delta=" + t + rest;
    KeyFoundAfter(prefix, t, rest);
    assert s == prefix + "Delta=" + (t + rest);
    DropFront(prefix, "Delta=", t + rest);
    DeltaRunAll(t, rest);
  }

  lemma DropFront<T>(a: seq<T>, b: seq<T>, c: seq<T>)
    ensures (a + b + c)[|a| + |b|..] == c
  {
  }

  /** The first match is the key right after a prefix free of `=`, when a digit follows the key. */
  lemma KeyFoundAfter(prefix: string, t: string, rest: string)
    requires '=' !in prefix && |t| > 0 && IsDigit(t[0])
    ensures FirstDelta(prefix + "Delta=" + t + rest, 0) == Some(|prefix|)
  {
    var s := prefix + "Delta=" + t + rest;
    var p := |prefix|;
    assert s == prefix + "Delta=" + (t + rest);
    assert s[p..p + 6] == "Delta=";
    assert Lower("Delta=") == Lower(DeltaKey);
    assert s[p + 6] == t[0];
    assert DeltaAt(s, p);
    forall k: nat | k < p
      ensures !DeltaAt(s, k)
    {
      NoDeltaBefore(prefix, t + rest, k);
    }
  }

  /** The words before `Delta=` in `identify` hold no `=` when the status holds none. */
  lemma IdentifyHeadPlain(status: string)
    requires '=' !in status
    ensures '=' !in Suggestion.IdentifyPrefix(status) + ". "
  {
    if status == "aligned" {
      assert Suggestion.IdentifyPrefix(status) + ". " == "Observed alignment: stable. ";
    } else {
      assert Suggestion.IdentifyPrefix(status) + ". " == Suggestion.ShiftPrefix + status + ". ";
    }
  }

  /** What follows the printed delta in `identify`: the drivers and the closing. */
  function AfterDelta(snap: Suggestion.SnapshotView): (rest: string)
    ensures |rest| > 0 && rest[0] == ' '
  {
    Suggestion.Drivers(snap) + Suggestion.Closing(snap.baselineUsed)
  }

  lemma IdentifyLayout(snap: Suggestion.SnapshotView)
    ensures Suggestion.Identify(snap)
         == (Suggestion.IdentifyPrefix(snap.resonanceStatus) + ". ") + "Delta=" + ToFixed2(snap.equilibriumDelta) + AfterDelta(snap)
  {
    var h := Suggestion.IdentifyPrefix(snap.resonanceStatus);
    var f := ToFixed2(snap.equilibriumDelta);
    var p := h + ". " + "Delta=";
    assert h + ". Delta=" == p by {
      assert ". Delta=" == ". " + "Delta=";
      Assoc3(h, ". ", "Delta=");
    }
    var mark := if snap.baselineUsed then Suggestion.BaselineMark else "";
    Regroup9(h + ". Delta=" + f, " (drift=", ToFixed2(snap.driftRisk), ", spine=", ToFixed2(snap.spineCoherence),
             ", current=", ToFixed2(snap.currentCoherence), ")", mark, ".");
  }

  lemma Regroup9<T>(a: seq<T>, x1: seq<T>, x2: seq<T>, x3: seq<T>, x4: seq<T>, x5: seq<T>, x6: seq<T>,
                    x7: seq<T>, x8: seq<T>, x9: seq<T>)
    ensures a + x1 + x2 + x3 + x4 + x5 + x6 + x7 + x8 + x9 == a + ((x1 + x2 + x3 + x4 + x5 + x6) + (x7 + x8 + x9))
  {
  }

  lemma Assoc3<T>(a: seq<T>, b: seq<T>, c: seq<T>)
    ensures a + (b + c) == a + b + c
  {
  }

  lemma Regroup<T>(p: seq<T>, f: seq<T>, d: seq<T>, c: seq<T>)
    ensures p + (f + d) + c == p + f + (d + c)
  {
  }

  /**
   * The advice panel reads the delta the suggestion engine printed into
   * `identify`, whenever the delta is non-negative and the status holds no `=`.
   */
  lemma ReadsSuggestedDelta(snap: Suggestion.SnapshotView, e: Js)
    requires snap.equilibriumDelta >= 0.0 && '=' !in snap.resonanceStatus
    ensures AlignmentDelta(Suggestion.Identify(snap)) == Some(Hundredths(snap.equilibriumDelta))
    ensures FormatAlignment(Some(Suggestion.Identify(snap)), e)
         == Some(DeltaAdvice(BandOf(Hundredths(snap.equilibriumDelta), 0.8, 0.55, 0.3)))
  {
    IdentifyHeadPlain(snap.resonanceStatus);
    IdentifyLayout(snap);
    ReadsPrintedDelta(Suggestion.IdentifyPrefix(snap.resonanceStatus) + ". ", snap.equilibriumDelta, AfterDelta(snap));
    var raw := Suggestion.Identify(snap);
    assert |raw| > 0;
    AdviceOfDelta(raw, e);
  }

  lemma AdviceOfDelta(raw: string, e: Js)
    requires |raw| > 0 && AlignmentDelta(raw).Some?
    ensures FormatAlignment(Some(raw), e) == Some(DeltaAdvice(BandOf(AlignmentDelta(raw).value, 0.8, 0.55, 0.3)))
  {
  }

  // ---------------------------------------------------------------------
  // Report capability
  // ---------------------------------------------------------------------

  /** The engine result a report is rendered from. */
  datatype EngineResult = EngineResult(
    peerWeights: seq<real>, logic: real, emotion: real, moodType: string, keyAxiom: real,
    peerSummary: string, suggestText: string, isFractured: bool, vector: string)

  /**
   * `isReportCapableIds`: an object whose `peerWeights` is an array of
   * exactly seven numbers and whose other report fields have their types;
   * `vector` is not looked at.
   */
  function IsReportCapableIds(ids: Js): (ok: bool)
    ensures ok ==> ids.JObj?
    ensures ok ==> NumberArray(Get(ids, "peerWeights")) && |Get(ids, "peerWeights").items| == 7
    ensures ok <==> Truthy(ids) && IsObjectType(ids) && ReportFieldsTyped(ids)
  {
    if !Truthy(ids) || !IsObjectType(ids) then false
    else ReportFieldsTyped(ids)
  }

  predicate ReportFieldsTyped(ids: Js) {
    var w := Get(ids, "peerWeights");
    NumberArray(w) && |w.items| == 7
    && Get(ids, "logic").JNum? && Get(ids, "emotion").JNum?
    && Get(ids, "moodType").JStr? && Get(ids, "keyAxiom").JNum?
    && Get(ids, "peerSummary").JStr? && Get(ids, "suggestText").JStr?
    && Get(ids, "isFractured").JBool?
  }

  function NumsJs(xs: seq<real>): (v: Js)
    ensures NumberArray(v) && |v.items| == |xs|
  {
    JArr(seq(|xs|, i requires 0 <= i < |xs| => JNum(xs[i])))
  }

  /** The report fields of an engine result as the JSON object the server sends. */
  function ReportFields(e: EngineResult): map<string, Js> {
    map[
      "peerWeights" := NumsJs(e.peerWeights), "logic" := JNum(e.logic), "emotion" := JNum(e.emotion),
      "moodType" := JStr(e.moodType), "keyAxiom" := JNum(e.keyAxiom), "peerSummary" := JStr(e.peerSummary),
      "suggestText" := JStr(e.suggestText), "isFractured" := JBool(e.isFractured)]
  }

  function ResultJs(e: EngineResult): Js {
    JObj(ReportFields(e)["vector" := JStr(e.vector)])
  }

  /** A serialised engine result is report-capable exactly when it carries seven peer weights. */
  lemma ResultCapable(e: EngineResult)
    ensures IsReportCapableIds(ResultJs(e)) <==> |e.peerWeights| == 7
  {
    var o := ResultJs(e);
    assert Get(o, "peerWeights") == NumsJs(e.peerWeights);
    assert Get(o, "logic") == JNum(e.logic);
    assert Get(o, "emotion") == JNum(e.emotion);
    assert Get(o, "moodType") == JStr(e.moodType);
    assert Get(o, "keyAxiom") == JNum(e.keyAxiom);
    assert Get(o, "peerSummary") == JStr(e.peerSummary);
    assert Get(o, "suggestText") == JStr(e.suggestText);
    assert Get(o, "isFractured") == JBool(e.isFractured);
  }

  /** The test accepts an object with no `vector` at all, though it claims the full result type. */
  lemma VectorUnchecked(e: EngineResult)
    requires |e.peerWeights| == 7
    ensures IsReportCapableIds(JObj(ReportFields(e)))
    ensures "vector" !in JObj(ReportFields(e)).fields
  {
    var o := JObj(ReportFields(e));
    assert Get(o, "peerWeights") == NumsJs(e.peerWeights);
    assert Get(o, "logic") == JNum(e.logic);
    assert Get(o, "emotion") == JNum(e.emotion);
    assert Get(o, "moodType") == JStr(e.moodType);
    assert Get(o, "keyAxiom") == JNum(e.keyAxiom);
    assert Get(o, "peerSummary") == JStr(e.peerSummary);
    assert Get(o, "suggestText") == JStr(e.suggestText);
    assert Get(o, "isFractured") == JBool(e.isFractured);
  }

  // ---------------------------------------------------------------------
  // Recording clock
  // ---------------------------------------------------------------------

  /** `formatRecordingTime`: whole minutes, a colon, and the seconds padded to two digits. */
  function FormatRecordingTime(total: nat): (t: string)
    ensures var m := NatToString(total / 60);
            && |t| == |m| + 3 && t[..|m|] == m && t[|m|] == ':'
            && AllDigits(t[|m| + 1..]) && DigitsValue(t[|m| + 1..]) == total % 60
  {
    var m := NatToString(total / 60);
    var t := m + ":" + Pad2(total % 60);
    assert t[..|m|] == m && t[|m| + 1..] == Pad2(total % 60);
    t
  }

  /** Reading a clock text back: minutes before the colon, two digits of seconds after it. */
  function ReadRecordingTime(t: string): (r: Option<nat>)
    ensures r.Some? ==> ':' in t
  {
    if ':' !in t then None
    else
      var i := IndexOf(t, ':');
      var mins := t[..i];
      var secs := t[i + 1..];
      if |mins| > 0 && AllDigits(mins) && |secs| == 2 && AllDigits(secs)
      then Some(DigitsValue(mins) * 60 + DigitsValue(secs))
      else None
  }

  /** The clock text reads back as the number of seconds it was made from. */
  lemma RecordingTimeRoundTrip(total: nat)
    ensures ReadRecordingTime(FormatRecordingTime(total)) == Some(total)
  {
    var t := FormatRecordingTime(total);
    var m := NatToString(total / 60);
    assert t[|m|] == ':';
    assert t[..IndexOf(t, ':')] == m;
    NatToStringValue(total / 60);
  }

  /** Three minutes show as `3:00`. */
  lemma ThreeMinutes()
    ensures FormatRecordingTime(180) == "3:00"
  {
    assert NatToString(3) == "3";
    assert Pad2(0) == "00";
  }
}

=== FILE: mirror_utils.dfy ===
/**
 * The IDS entry normaliser of the mirror utilities: each of the three
 * parts falls back to a fixed wording when it is missing or falsy.
 */
module MirrorUtils {
  import opened JsValues

  datatype Entry = Entry(identify: Js, define: Js, suggest: Js)

  /** `v || d` for a string default. */
  function OrDefault(v: Js, d: string): (r: Js)
    requires |d| > 0
    ensures Truthy(r)
    ensures Truthy(v) ==> r == v
    ensures !Truthy(v) ==> r == JStr(d)
  {
    if Truthy(v) then v else JStr(d)
  }

  /**
   * `processEntry`: every part of the result is truthy; a truthy part of
   * the input passes through unchanged, any other becomes `Unknown`,
   * `Undefined` or `No suggestion`.
   */
  function ProcessEntry(ids: Js): (r: Entry)
    ensures Truthy(r.identify) && Truthy(r.define) && Truthy(r.suggest)
    ensures Truthy(Get(ids, "identify")) ==> r.identify == Get(ids, "identify")
    ensures Truthy(Get(ids, "define")) ==> r.define == Get(ids, "define")
    ensures Truthy(Get(ids, "suggest")) ==> r.suggest == Get(ids, "suggest")
    ensures !Truthy(Get(ids, "identify")) ==> r.identify == JStr("Unknown")
    ensures !Truthy(Get(ids, "define")) ==> r.define == JStr("Undefined")
    ensures !Truthy(Get(ids, "suggest")) ==> r.suggest == JStr("No suggestion")
  {
    Entry(
      OrDefault(Get(ids, "identify"), "Unknown"),
      OrDefault(Get(ids, "define"), "Undefined"),
      OrDefault(Get(ids, "suggest"), "No suggestion"))
  }

  /** An absent input gives the three default wordings. */
  lemma AbsentGivesDefaults()
    ensures ProcessEntry(JNull) == Entry(JStr("Unknown"), JStr("Undefined"), JStr("No suggestion"))
    ensures ProcessEntry(JUndefined) == ProcessEntry(JNull)
  {
  }

  function EntryJs(e: Entry): Js {
    JObj(map["identify" := e.identify, "define" := e.define, "suggest" := e.suggest])
  }

  /** Normalising an already normalised entry changes nothing. */
  lemma ProcessEntryIdempotent(ids: Js)
    ensures ProcessEntry(EntryJs(ProcessEntry(ids))) == ProcessEntry(ids)
  {
    var e := ProcessEntry(ids);
    var o := EntryJs(e);
    assert Get(o, "identify") == e.identify;
    assert Get(o, "define") == e.define;
    assert Get(o, "suggest") == e.suggest;
  }
}

=== FILE: mode_analyzer.dfy ===
/**
 * The mode-aware analyzer: nine detectors scanned in a fixed order, then a
 * per-type count, a weighted score whose weights depend on the mode flags,
 * a threshold and UI notes.
 *
 * Character classes such as `don['’]t` and groups such as
 * `i will (?:pull|remove|end|cancel)` are written out as consecutive
 * alternatives; ordered choice makes the two forms match the same text.
 */
module ModeAnalyzer {
  import opened Common
  import opened PhraseScan
  import opened ServerAnalyzer

  /** The mode switches passed by the caller (their truthiness). */
  datatype Flags = Flags(rbc: bool, arbiter: bool, lint: bool)

  datatype Score = Score(total: int, by_type: map<string, int>)

  datatype ModeAnalysis = ModeAnalysis(
    ok: bool,
    mode: string,
    flagged: bool,
    length: nat,
    timestamp: string,
    counts: map<string, int>,
    score: Score,
    findings: seq<Finding>,
    notes: seq<string>)

  /** Every type the counts and scores have an entry for. */
  const FindingTypes: seq<string> := [
    "directive_drift", "hierarchy_inference", "urgency_compression", "moral_leverage",
    "identity_attractor", "certainty_inflation", "topic_drift", "force_language", "ultimatum"
  ]

  /** The detectors in the order they are applied. */
  const Detectors: seq<Rule> := [
    Rule("force_language", 3, ["must", "you must", "do it now", "do this now", "don't", "don’t",
                               "stop", "listen closely", "follow my lead", "you need to"]),
    Rule("ultimatum", 4, ["if you don't", "if you don’t", "unless you", "or else",
                          "i will pull", "i will remove", "i will end", "i will cancel",
                          "i'm pulling", "i’m pulling", "i'll end", "i’ll end"]),
    Rule("certainty_inflation", 2, ["always", "never", "the only", "obviously", "clearly",
                                    "everyone knows", "no doubt", "guaranteed"]),
    Rule("hierarchy_inference", 3, ["let me educate you", "you don't understand", "you don’t understand",
                                    "you clearly don't", "you clearly don’t", "get it through your head",
                                    "as i said"]),
    Rule("urgency_compression", 2, ["now", "today", "right away", "immediately", "by tomorrow", "asap", "urgent"]),
    Rule("moral_leverage", 4, ["if you cared", "if you respected", "you should be ashamed", "how could you",
                               "you owe me"]),
    Rule("identity_attractor", 5, ["you are lazy", "you are stupid", "you are incompetent", "you are a liar",
                                   "that's who you are", "that’s who you are"]),
    Rule("directive_drift", 1, ["anyway", "back to the main point", "forget that", "doesn't matter",
                                "doesn’t matter"]),
    Rule("topic_drift", 1, ["unrelated", "off topic", "different subject"])
  ]

  /** Weight of one finding of the given type; an unlisted type would weigh 1. */
  function Weight(flags: Flags, kind: string): int {
    match kind
      case "directive_drift" => if flags.lint then 1 else 0
      case "topic_drift" => if flags.lint then 1 else 0
      case "certainty_inflation" => if flags.rbc then 1 else 2
      case "urgency_compression" => if flags.rbc then 1 else 2
      case "hierarchy_inference" => if flags.rbc then 2 else 3
      case "moral_leverage" => if flags.rbc then 3 else 4
      case "identity_attractor" => 5
      case "force_language" => if flags.rbc then 2 else 3
      case "ultimatum" => 5
      case _ => 1
  }

  function Threshold(flags: Flags): int {
    if flags.arbiter then 4 else if flags.rbc then 7 else 6
  }

  function ModeName(flags: Flags): string {
    if flags.arbiter then "arbiter" else if flags.lint then "lint" else "rbc"
  }

  const NoTriggersNote := "No heuristic triggers detected."

  /** Number of findings of type `kind`: the reference the counters are compared with. */
  function CountOf(fs: seq<Finding>, kind: string): nat {
    if |fs| == 0 then 0
    else (if fs[0].kind == kind then 1 else 0) + CountOf(fs[1..], kind)
  }

  /** The count of a type is the number of findings of that type. */
  lemma {:induction false} CountIsOfKind(fs: seq<Finding>, kind: string)
    ensures CountOf(fs, kind) == |OfKind(fs, kind)|
    decreases |fs|
  {
    if |fs| > 0 {
      CountIsOfKind(fs[1..], kind);
    }
  }

  /** When the findings of each rule's type are its matches, each type counts its rule's matches. */
  lemma CountsAreScans(rules: seq<Rule>, text: string, fs: seq<Finding>)
    requires forall k {:trigger RuleFindings(rules[k], text)} :: 0 <= k < |rules| ==>
               OfKind(fs, rules[k].kind) == RuleFindings(rules[k], text)
    ensures forall k :: 0 <= k < |rules| ==> CountOf(fs, rules[k].kind) == |Scan(rules[k].Pat(), text, 0)|
  {
    forall k | 0 <= k < |rules|
      ensures CountOf(fs, rules[k].kind) == |Scan(rules[k].Pat(), text, 0)|
    {
      CountIsOfKind(fs, rules[k].kind);
      assert OfKind(fs, rules[k].kind) == RuleFindings(rules[k], text);
    }
  }

  /** Sum over the findings of the weight of each one's type. */
  function SumWeights(fs: seq<Finding>, w: string -> int): int {
    if |fs| == 0 then 0 else w(fs[0].kind) + SumWeights(fs[1..], w)
  }

  /** Sum of the weights of the findings of type `kind`. */
  function KindWeight(fs: seq<Finding>, kind: string, w: string -> int): int {
    if |fs| == 0 then 0
    else (if fs[0].kind == kind then w(kind) else 0) + KindWeight(fs[1..], kind, w)
  }

  /** The weights of the current mode, as a function of the type. */
  function Weights(flags: Flags): string -> int {
    k => Weight(flags, k)
  }

  /** A map with a zero entry for every type. */
  function EmptyCounts(): (m: map<string, int>)
    ensures forall t :: t in m <==> t in FindingTypes
    ensures forall t :: t in m ==> m[t] == 0
  {
    map t | t in FindingTypes :: 0
  }

  /**
   * The `for (const f of findings) m[f.type] += w(f.type)` loop: each
   * finding adds its weight to the entry of its type.
   */
  function Tally(fs: seq<Finding>, m: map<string, int>, w: string -> int): (r: map<string, int>)
    requires forall i :: 0 <= i < |fs| ==> fs[i].kind in m
    ensures r.Keys == m.Keys
    ensures forall k :: k in m ==> r[k] == m[k] + KindWeight(fs, k, w)
  {
    if |fs| == 0 then m
    else
      var k0 := fs[0].kind;
      var r := Tally(fs[1..], m[k0 := m[k0] + w(k0)], w);
      r
  }

  /** The weight of one type's findings is its weight times their number. */
  lemma {:induction false} KindWeightIsProduct(fs: seq<Finding>, kind: string, w: string -> int)
    ensures KindWeight(fs, kind, w) == w(kind) * CountOf(fs, kind)
    decreases |fs|
  {
    if |fs| > 0 {
      KindWeightIsProduct(fs[1..], kind, w);
      var c := CountOf(fs[1..], kind);
      assert w(kind) * (1 + c) == w(kind) + w(kind) * c;
    }
  }

  /** Sum of the entries of `m` for the listed types. */
  function SumOver(types: seq<string>, m: map<string, int>): int
    requires forall i :: 0 <= i < |types| ==> types[i] in m
  {
    if |types| == 0 then 0 else m[types[0]] + SumOver(types[1..], m)
  }

  /** Every type a rule can produce has a counter. */
  predicate KindsCounted(rules: seq<Rule>) {
    forall j :: 0 <= j < |rules| ==> rules[j].kind in FindingTypes
  }

  /**
   * `analyzeText(text, flags)` run with the detector table `rules`; the
   * program always runs it with `Detectors`, which meets the requirement
   * (`DetectorKindsDistinct`, `DetectorKindsCounted`). Returns the findings,
   * their counts and weighted score, the flag decision, the mode and the
   * notes. The timestamp is the caller's clock reading.
   */
  function Analyze(rules: seq<Rule>, input: Option<string>, flags: Flags, timestamp: string): (r: ModeAnalysis)
    requires DistinctKinds(rules) && KindsCounted(rules)
    ensures r.ok && r.timestamp == timestamp
    ensures r.length == |input.GetOr("")|
    ensures r.findings == AllFindings(rules, input.GetOr(""))
    ensures forall i :: 0 <= i < |r.findings| ==> Explained(rules, input.GetOr(""), r.findings[i])
    ensures GroupedInOrder(rules, r.findings)
    ensures SeparatedWithinKind(r.findings)
    ensures forall i :: 0 <= i < |r.findings| ==> r.findings[i].kind in FindingTypes
    ensures forall t :: t in r.counts <==> t in FindingTypes
    ensures forall t :: t in r.counts ==> r.counts[t] == CountOf(r.findings, t)
    ensures forall k {:trigger RuleFindings(rules[k], input.GetOr(""))} :: 0 <= k < |rules| ==>
              OfKind(r.findings, rules[k].kind) == RuleFindings(rules[k], input.GetOr(""))
    ensures forall k :: 0 <= k < |rules| ==> r.counts[rules[k].kind] == |Scan(rules[k].Pat(), input.GetOr(""), 0)|
    ensures r.score == ScoreOf(r.findings, flags)
    ensures r.flagged == (r.score.total >= Threshold(flags))
    ensures r.mode == ModeName(flags)
    ensures NoTriggersNote in r.notes <==> |r.findings| == 0
  {
    var text := input.GetOr("");
    var findings := AllFindings(rules, text);
    RuleKindsCounted(rules, text, findings);
    CountsAreScans(rules, text, findings);
    var score := ScoreOf(findings, flags);
    ModeAnalysis(true, ModeName(flags), score.total >= Threshold(flags), |text|, timestamp,
                 CountsOf(findings), score, findings, Notes(flags, |findings| == 0))
  }

  /** The detectors have distinct types. */
  lemma DetectorKindsDistinct()
    ensures DistinctKinds(Detectors)
  {
  }

  /** Every detector's type has a counter. */
  lemma DetectorKindsCounted()
    ensures KindsCounted(Detectors)
  {
  }

  /** Every finding of a table whose types all have counters has a counter. */
  lemma RuleKindsCounted(rules: seq<Rule>, text: string, fs: seq<Finding>)
    requires KindsCounted(rules)
    requires forall i :: 0 <= i < |fs| ==> Explained(rules, text, fs[i])
    ensures forall i :: 0 <= i < |fs| ==> fs[i].kind in FindingTypes
  {
    forall i | 0 <= i < |fs|
      ensures fs[i].kind in FindingTypes
    {
      assert rules[KindRank(rules, fs[i].kind)].kind == fs[i].kind;
    }
  }

  /** The per-type counters: one per finding of each type. */
  function CountsOf(fs: seq<Finding>): (counts: map<string, int>)
    requires forall i :: 0 <= i < |fs| ==> fs[i].kind in FindingTypes
    ensures forall t :: t in counts <==> t in FindingTypes
    ensures forall t :: t in counts ==> counts[t] == CountOf(fs, t)
  {
    var counts := Tally(fs, EmptyCounts(), Ones());
    forall t | t in counts
      ensures counts[t] == CountOf(fs, t)
    {
      KindWeightIsProduct(fs, t, Ones());
    }
    counts
  }

  /** Every finding counts 1. */
  function Ones(): string -> int {
    k => 1
  }

  /** The weighted score: per type, weight times count, and the total over all findings. */
  function ScoreOf(fs: seq<Finding>, flags: Flags): (s: Score)
    requires forall i :: 0 <= i < |fs| ==> fs[i].kind in FindingTypes
    ensures forall t :: t in s.by_type <==> t in FindingTypes
    ensures forall t :: t in s.by_type ==> s.by_type[t] == Weight(flags, t) * CountOf(fs, t)
    ensures s.total == SumWeights(fs, Weights(flags))
  {
    var byType := Tally(fs, EmptyCounts(), Weights(flags));
    forall t | t in byType
      ensures byType[t] == Weight(flags, t) * CountOf(fs, t)
    {
      KindWeightIsProduct(fs, t, Weights(flags));
    }
    Score(SumWeights(fs, Weights(flags)), byType)
  }

  /** The UI notes: one per mode flag that is set, then a note when nothing was found. */
  function Notes(flags: Flags, none: bool): (notes: seq<string>)
    ensures NoTriggersNote in notes <==> none
    ensures |notes| == (if flags.rbc then 1 else 0) + (if flags.arbiter then 1 else 0)
      + (if flags.lint then 1 else 0) + (if none then 1 else 0)
  {
    var modeNotes :=
      (if flags.rbc then ["RBC mode: tolerant, seeks de-escalation signals."] else [])
      + (if flags.arbiter then ["Arbiter mode: strict, flags force/ultimatum fast."] else [])
      + (if flags.lint then ["Lint mode: content/style warnings for drift + certainty."] else []);
    assert forall i :: 0 <= i < |modeNotes| ==> |modeNotes[i]| > |NoTriggersNote|;
    modeNotes + (if none then [NoTriggersNote] else [])
  }

  /** Summing the per-type weights over a list of distinct types that covers every finding gives the total. */
  lemma {:induction false} SumOverTally(types: seq<string>, fs: seq<Finding>, w: string -> int, m: map<string, int>)
    requires NoDup(types)
    requires forall i :: 0 <= i < |fs| ==> fs[i].kind in types
    requires forall i :: 0 <= i < |types| ==> types[i] in m && m[types[i]] == KindWeight(fs, types[i], w)
    ensures SumOver(types, m) == SumWeights(fs, w)
    decreases |fs|
  {
    if |fs| == 0 {
      ZeroSum(types, m);
    } else {
      var mi := map t | t in types :: KindWeight(fs[1..], t, w);
      SumOverTally(types, fs[1..], w, mi);
      assert fs[0].kind in types;
      SumOverBump(types, mi, m, fs[0].kind, w(fs[0].kind));
    }
  }

  lemma {:induction false} ZeroSum(types: seq<string>, m: map<string, int>)
    requires forall i :: 0 <= i < |types| ==> types[i] in m && m[types[i]] == 0
    ensures SumOver(types, m) == 0
    decreases |types|
  {
    if |types| > 0 {
      ZeroSum(types[1..], m);
    }
  }

  /** Raising one listed entry by `d` raises the sum by `d`. */
  lemma {:induction false} SumOverBump(types: seq<string>, m: map<string, int>, m': map<string, int>, k: string, d: int)
    requires NoDup(types) && k in types
    requires forall i :: 0 <= i < |types| ==> types[i] in m && types[i] in m'
    requires forall i :: 0 <= i < |types| ==> m'[types[i]] == m[types[i]] + (if types[i] == k then d else 0)
    ensures SumOver(types, m') == SumOver(types, m) + d
    decreases |types|
  {
    if types[0] == k {
      assert k !in types[1..];
      SumOverSame(types[1..], m, m');
    } else {
      assert NoDup(types[1..]);
      SumOverBump(types[1..], m, m', k, d);
    }
  }

  lemma {:induction false} SumOverSame(types: seq<string>, m: map<string, int>, m': map<string, int>)
    requires forall i :: 0 <= i < |types| ==> types[i] in m && types[i] in m' && m[types[i]] == m'[types[i]]
    ensures SumOver(types, m') == SumOver(types, m)
    decreases |types|
  {
    if |types| > 0 {
      SumOverSame(types[1..], m, m');
    }
  }

  lemma TypesDistinct()
    ensures NoDup(FindingTypes)
  {
  }

  /** `score.total` is the sum of `by_type` over the nine types. */
  lemma TotalIsSumOfByType(fs: seq<Finding>, flags: Flags)
    requires forall i :: 0 <= i < |fs| ==> fs[i].kind in FindingTypes
    ensures forall i :: 0 <= i < |FindingTypes| ==> FindingTypes[i] in ScoreOf(fs, flags).by_type
    ensures SumOver(FindingTypes, ScoreOf(fs, flags).by_type) == ScoreOf(fs, flags).total
  {
    var s := ScoreOf(fs, flags);
    TypesDistinct();
    forall i | 0 <= i < |FindingTypes|
      ensures FindingTypes[i] in s.by_type
      ensures s.by_type[FindingTypes[i]] == KindWeight(fs, FindingTypes[i], Weights(flags))
    {
      KindWeightIsProduct(fs, FindingTypes[i], Weights(flags));
    }
    SumOverTally(FindingTypes, fs, Weights(flags), s.by_type);
  }

  /**
   * The weights of the nine types: the drift types weigh nothing unless
   * linting, identity attacks and ultimatums always weigh 5.
   */
  lemma WeightTable(flags: Flags)
    ensures Weight(flags, "directive_drift") == Weight(flags, "topic_drift") == (if flags.lint then 1 else 0)
    ensures Weight(flags, "identity_attractor") == Weight(flags, "ultimatum") == 5
    ensures Weight(flags, "certainty_inflation") == Weight(flags, "urgency_compression") == (if flags.rbc then 1 else 2)
    ensures Weight(flags, "hierarchy_inference") == Weight(flags, "force_language") == (if flags.rbc then 2 else 3)
    ensures Weight(flags, "moral_leverage") == (if flags.rbc then 3 else 4)
  {
  }

  /** The findings of types other than the two drift types. */
  function Undrifted(fs: seq<Finding>): (r: seq<Finding>)
    ensures forall i :: 0 <= i < |r| ==> r[i].kind != "directive_drift" && r[i].kind != "topic_drift"
    ensures |r| <= |fs|
  {
    if |fs| == 0 then []
    else if fs[0].kind == "directive_drift" || fs[0].kind == "topic_drift" then Undrifted(fs[1..])
    else [fs[0]] + Undrifted(fs[1..])
  }

  /** Without the lint flag, dropping the findings of the two drift types leaves the score unchanged. */
  lemma {:induction false} DriftIgnoredWithoutLint(fs: seq<Finding>, flags: Flags)
    requires !flags.lint
    ensures SumWeights(fs, Weights(flags)) == SumWeights(Undrifted(fs), Weights(flags))
    decreases |fs|
  {
    if |fs| > 0 {
      DriftIgnoredWithoutLint(fs[1..], flags);
      if fs[0].kind != "directive_drift" && fs[0].kind != "topic_drift" {
        assert ([fs[0]] + Undrifted(fs[1..]))[1..] == Undrifted(fs[1..]);
      }
    }
  }

  /**
   * Arbiter mode only lowers the threshold: with the other flags unchanged,
   * findings flagged without it are flagged with it.
   */
  lemma ArbiterFlagsAtLeastAsMuch(fs: seq<Finding>, flags: Flags)
    requires forall i :: 0 <= i < |fs| ==> fs[i].kind in FindingTypes
    requires ScoreOf(fs, flags.(arbiter := false)).total >= Threshold(flags.(arbiter := false))
    ensures ScoreOf(fs, flags.(arbiter := true)).total >= Threshold(flags.(arbiter := true))
  {
    SameWeights(fs, flags.(arbiter := false), flags.(arbiter := true));
  }

  /** The weights do not depend on the arbiter flag. */
  lemma {:induction false} SameWeights(fs: seq<Finding>, f1: Flags, f2: Flags)
    requires f1.rbc == f2.rbc && f1.lint == f2.lint
    ensures SumWeights(fs, Weights(f1)) == SumWeights(fs, Weights(f2))
    decreases |fs|
  {
    if |fs| > 0 {
      SameWeights(fs[1..], f1, f2);
    }
  }
}

=== FILE: orchestrator.dfy ===
/**
 * The kernel's turn pipeline. `ArbiterOrchestrator.process` classifies the
 * input, lints it, maps it to a peer tensor, saves and logs it, and then
 * either shelves it (high delta), asks to co-examine (posture), or reflects
 * with a suggestion block that is self-audited once. `resume` integrates a
 * shelved fracture. The resonance service is a collaborator whose answers
 * (delta and snapshot) are parameters; storage side effects are returned as
 * a trace, in the order they happen.
 */
module Orchestrator {
  import opened Common
  import opened ServerAnalyzer
  import opened Tensors
  import opened Promotion
  import opened Suggestion
  import opened ReplyChecks
  import opened Stores

  /** A side effect of a turn, in order. */
  datatype Effect =
    | SavedTensor(sessionId: string, tensor: Tensor)
    | LoggedAlignment(sessionId: string, tensor: Tensor)
    | ShelvedTensor(sessionId: string, tensor: Tensor, reason: ShelfReason, shelfId: string)

  /** The three shapes of a `process` result. */
  datatype Outcome =
    | Fractured(shelfId: string, ids: Ids)
    | CoExamine(delta: real, vector: Vector, ids: Ids, findings: seq<Finding>)
    | Reflected(status: string, delta: real, ids: Ids, findings: seq<Finding>)
  {
    function Status(): string {
      match this
      case Fractured(_, _) => "fractured"
      case CoExamine(_, _, _, _) => "co-examine"
      case Reflected(status, _, _, _) => status
    }

    /** `pause_triggered`, set only on a fracture. */
    predicate PauseTriggered() {
      Fractured?
    }
  }

  /** What a turn returns, what it did to storage, and how many self-audits it ran. */
  datatype Turn = Turn(outcome: Outcome, effects: seq<Effect>, selfAudits: nat)

  const FractureThreshold := 0.7

  const FractureIds := Ids(
    "Fractured resonance detected.",
    "Input delta exceeds the AXIOM_1_BALANCE threshold.",
    ["Acknowledge the signal and reset.", "Retrieve archived state from Bookcase."])

  const PostureIds := Ids(
    "Relational skepticism detected.",
    "Input targets system posture/authority rather than a correctness vector.",
    ["Proceed with co-examination of the observed pressure.", "Reset session to clear relational charge."])

  const SelfCorrectionNote := "System note: " + "Self-correction applied to remove force language."

  /** The metadata every turn passes to `createPT`: channel "user", thread = session. */
  function UserMeta(sessionId: string): Metadata {
    Metadata(Some("user"), Some(sessionId), None)
  }

  /** The peer tensor of a turn. */
  function TurnTensor(sessionId: string, input: string, findings: seq<Finding>, id: string, now: string, hash: string)
    : (t: Tensor)
    ensures t.tensorType == "PT" && t.id == id && t.text == input
    ensures t.channel == "user" && t.threadId == Some(sessionId)
  {
    CreatePT(id, now, hash, input, TypesOf(findings), UserMeta(sessionId))
  }

  /** The text the self-audit reads: identify, define and the suggestions, space-separated. */
  function FullText(ids: Ids): string {
    ids.identify + " " + ids.define + " " + Join(ids.suggest, " ")
  }

  /**
   * The suggestion block after the one self-audit: on failure the reframes
   * of the block's own text plus the self-correction note; on success the
   * template options followed by the reframes of the user's input.
   */
  function Reflect(input: string, findings: seq<Finding>, snapshot: SnapshotView): (ids: Ids)
    ensures var base := Suggestion.Generate(snapshot);
            var check := Verify(FullText(base));
            && ids.identify == base.identify && ids.define == base.define
            && (!check.ok ==> ids.suggest == Reframe(FullText(base), check.findings) + [SelfCorrectionNote])
            && (check.ok ==> ids.suggest == Options + Reframe(input, findings))
  {
    var base := Suggestion.Generate(snapshot);
    var full := FullText(base);
    var check := Verify(full);
    if !check.ok then base.(suggest := Reframe(full, check.findings) + [SelfCorrectionNote])
    else base.(suggest := base.suggest + Reframe(input, findings))
  }

  /** The first two effects of every turn: the peer tensor is saved, then logged. */
  function Observed(sessionId: string, pt: Tensor): seq<Effect> {
    [SavedTensor(sessionId, pt), LoggedAlignment(sessionId, pt)]
  }

  /** The spine copy a promotion saves: the same tensor, id included, typed `ST`. */
  function Promoted(sessionId: string, pt: Tensor): (e: seq<Effect>)
    ensures PromotionGate(pt) <==> |e| == 1
    ensures |e| == 1 ==> e[0] == SavedTensor(sessionId, pt.(tensorType := "ST"))
  {
    if PromotionGate(pt) then [SavedTensor(sessionId, pt.(tensorType := "ST"))] else []
  }

  /**
   * The turn once the input is classified and linted, its tensor built and
   * its suggestion block `reflected`: save and log first, then shelve above
   * the threshold, co-examine a posture, or promote and reflect.
   */
  function Decide(sessionId: string, vector: Vector, findings: seq<Finding>, pt: Tensor,
                  delta: real, status: string, reflected: Ids, shelfId: string): (r: Turn)
    ensures r.outcome.Fractured? <==> delta > FractureThreshold
    ensures r.outcome.CoExamine? <==> delta <= FractureThreshold && vector == Posture
    ensures r.outcome.Fractured? ==> r.outcome.shelfId == shelfId && r.outcome.ids == FractureIds
    ensures r.outcome.Fractured? ==>
              r.effects == Observed(sessionId, pt) + [ShelvedTensor(sessionId, pt, HighFrictionFracture, shelfId)]
    ensures r.outcome.CoExamine? ==>
              r.outcome == CoExamine(delta, Posture, PostureIds, findings) && r.effects == Observed(sessionId, pt)
    ensures r.outcome.Reflected? ==>
              r.outcome == Reflected(status, delta, reflected, findings)
              && r.effects == Observed(sessionId, pt) + Promoted(sessionId, pt)
    ensures r.selfAudits == (if r.outcome.Reflected? then 1 else 0)
  {
    if delta > FractureThreshold then
      Turn(Fractured(shelfId, FractureIds),
           Observed(sessionId, pt) + [ShelvedTensor(sessionId, pt, HighFrictionFracture, shelfId)], 0)
    else if vector == Posture then
      Turn(CoExamine(delta, Posture, PostureIds, findings), Observed(sessionId, pt), 0)
    else
      Turn(Reflected(status, delta, reflected, findings), Observed(sessionId, pt) + Promoted(sessionId, pt), 1)
  }

  /** The suggestion block `process` hands to `Decide`; only a correctness turn below the threshold reflects. */
  function BlockFor(input: string, findings: seq<Finding>, snapshot: SnapshotView, delta: real, vector: Vector): Ids {
    if delta <= FractureThreshold && vector == Correctness then Reflect(input, findings, snapshot) else FractureIds
  }

  /**
   * `ArbiterOrchestrator.process`: the prism gate, the analyzer, the
   * factory and the reflection feed `Decide`. A delta above the threshold
   * fractures, a posture below it co-examines, and only a reflected turn
   * runs the self-audit. What a reflected turn holds is `ProcessReflects`;
   * what a turn saves and shelves is `ProcessSaves` and `ProcessShelves`.
   */
  function Process(sessionId: string, input: string, delta: real, snapshot: SnapshotView, shelfId: string,
                   id: string, now: string, hash: string): (r: Turn)
    ensures r.outcome.Fractured? <==> delta > FractureThreshold
    ensures r.outcome.CoExamine? <==> delta <= FractureThreshold && AnyMarker(PostureMarkers, input)
    ensures r.outcome.Fractured? ==> r.outcome.shelfId == shelfId && r.outcome.ids == FractureIds
    ensures r.outcome.CoExamine? ==> r.outcome.delta == delta && r.outcome.ids == PostureIds
    ensures r.selfAudits == (if r.outcome.Reflected? then 1 else 0)
  {
    var findings := AnalyzeText(Some(input)).findings;
    var vector := DetectVector(input);
    var pt := TurnTensor(sessionId, input, findings, id, now, hash);
    var block := BlockFor(input, findings, snapshot, delta, vector);
    Decide(sessionId, vector, findings, pt, delta, snapshot.resonanceStatus, block, shelfId)
  }

  /**
   * A reflected turn reports the snapshot's status, the caller's delta,
   * the analyzer's findings on the input and the self-audited suggestion block.
   */
  lemma ProcessReflects(sessionId: string, input: string, delta: real, snapshot: SnapshotView, shelfId: string,
                        id: string, now: string, hash: string)
    ensures var r := Process(sessionId, input, delta, snapshot, shelfId, id, now, hash);
            var findings := AnalyzeText(Some(input)).findings;
            r.outcome.Reflected? ==>
              && r.outcome.status == snapshot.resonanceStatus && r.outcome.delta == delta
              && r.outcome.ids == Reflect(input, findings, snapshot) && r.outcome.findings == findings
  {
  }

  /** Every turn saves its peer tensor first; a reflected turn that passes the gate also saves its spine copy. */
  lemma ProcessSaves(sessionId: string, input: string, delta: real, snapshot: SnapshotView, shelfId: string,
                     id: string, now: string, hash: string)
    ensures var r := Process(sessionId, input, delta, snapshot, shelfId, id, now, hash);
            var pt := TurnTensor(sessionId, input, AnalyzeText(Some(input)).findings, id, now, hash);
            Saved(r.effects) == [pt] + (if r.outcome.Reflected? && PromotionGate(pt) then [pt.(tensorType := "ST")] else [])
  {
    var findings := AnalyzeText(Some(input)).findings;
    var vector := DetectVector(input);
    var pt := TurnTensor(sessionId, input, findings, id, now, hash);
    var block := BlockFor(input, findings, snapshot, delta, vector);
    DecideSaves(sessionId, vector, findings, pt, delta, snapshot.resonanceStatus, block, shelfId);
  }

  /** A fractured turn saves and logs its peer tensor, then shelves it as a high-friction fracture under the shelf id. */
  lemma ProcessShelves(sessionId: string, input: string, delta: real, snapshot: SnapshotView, shelfId: string,
                       id: string, now: string, hash: string)
    requires delta > FractureThreshold
    ensures var r := Process(sessionId, input, delta, snapshot, shelfId, id, now, hash);
            var pt := TurnTensor(sessionId, input, AnalyzeText(Some(input)).findings, id, now, hash);
            r.effects == Observed(sessionId, pt) + [ShelvedTensor(sessionId, pt, HighFrictionFracture, shelfId)]
  {
  }

  /** The tensors a trace saves, in order. */
  function Saved(effects: seq<Effect>): (ts: seq<Tensor>)
    ensures |ts| <= |effects|
  {
    if |effects| == 0 then []
    else (if effects[0].SavedTensor? then [effects[0].tensor] else []) + Saved(effects[1..])
  }

  lemma {:induction false} SavedAppend(a: seq<Effect>, b: seq<Effect>)
    ensures Saved(a + b) == Saved(a) + Saved(b)
    decreases |a|
  {
    if |a| > 0 {
      assert (a + b)[0] == a[0] && (a + b)[1..] == a[1..] + b;
      SavedAppend(a[1..], b);
    } else {
      assert a + b == b;
    }
  }

  /**
   * Every turn saves the peer tensor first; the only other save is the
   * spine copy of a promotion, identical to the peer tensor but for its type.
   */
  lemma DecideSaves(sessionId: string, vector: Vector, findings: seq<Finding>, pt: Tensor,
                    delta: real, status: string, reflected: Ids, shelfId: string)
    ensures var r := Decide(sessionId, vector, findings, pt, delta, status, reflected, shelfId);
            Saved(r.effects) == [pt] + (if r.outcome.Reflected? && PromotionGate(pt) then [pt.(tensorType := "ST")] else [])
  {
    var r := Decide(sessionId, vector, findings, pt, delta, status, reflected, shelfId);
    var observed := Observed(sessionId, pt);
    var tail := r.effects[2..];
    assert r.effects == observed + tail;
    SavedAppend(observed, tail);
    assert observed[1..][1..] == [];
    if |tail| > 0 {
      assert tail[1..] == [];
    }
  }

  /** No reframe line is the self-correction note. */
  lemma {:induction false} ReframeNeverNote(input: string, fs: seq<Finding>)
    ensures SelfCorrectionNote !in Reframe(input, fs)
    decreases |fs|
  {
    if |fs| > 0 {
      ReframeNeverNote(input, fs[1..]);
      var p := PivotOf(fs[0].evidence);
      if p.Some? {
        var line := ReframeLine(fs[0].evidence, p.value);
        assert line[0] == 'R';
        assert SelfCorrectionNote[0] == 'S';
      }
    }
  }

  /** A corrected suggestion list holds exactly one self-correction note, and it comes last. */
  lemma CorrectionNoteLast(fullText: string, fs: seq<Finding>)
    ensures var s := Reframe(fullText, fs) + [SelfCorrectionNote];
            s[|s| - 1] == SelfCorrectionNote && forall k :: 0 <= k < |s| - 1 ==> s[k] != SelfCorrectionNote
  {
    ReframeNeverNote(fullText, fs);
    var lines := Reframe(fullText, fs);
    assert forall k :: 0 <= k < |lines| ==> lines[k] in lines;
  }

  // ---------------------------------------------------------------------
  // Resume
  // ---------------------------------------------------------------------

  datatype Resumed = Resumed(status: string, pauseTriggered: bool, notice: string, delta: Option<real>)

  /** `ArbiterOrchestrator.resume`: a failed integration stays fractured; a successful one is stable at delta 0. */
  function Resume(items: seq<BookcaseItem>, shelfId: string, peerNote: string, now: string)
    : (r: (seq<BookcaseItem>, Resumed))
    ensures var (after, integration) := Integrate(items, shelfId, peerNote, now);
            && r.0 == after
            && (!integration.ok ==> r.1 == Resumed("fractured", true, integration.message, None))
            && (integration.ok ==> r.1 == Resumed("stable", false, "Recovery complete. AXIOM_4_FLOW restored.", Some(0.0)))
  {
    var (after, integration) := Integrate(items, shelfId, peerNote, now);
    if !integration.ok then (after, Resumed("fractured", true, integration.message, None))
    else (after, Resumed("stable", false, "Recovery complete. AXIOM_4_FLOW restored.", Some(0.0)))
  }

  /** A freshly shelved item resumes once; resuming it again reports a fracture. */
  lemma ResumeOnce(items: seq<BookcaseItem>, sessionId: string, itemLabel: string, content: string, shelfId: string,
                   now: string, note: string, later: string)
    ensures var shelved := ShelveItem(items, sessionId, itemLabel, content, None, shelfId, now).0;
            var first := Resume(shelved, shelfId, note, later);
            first.1.status == "stable" && Resume(first.0, shelfId, note, later).1.status == "fractured"
  {
    var shelved := ShelveItem(items, sessionId, itemLabel, content, None, shelfId, now).0;
    assert Integrable(shelved[|items|], shelfId);
    IntegrateTwice(shelved, shelfId, note, note, later, later);
  }

  // ---------------------------------------------------------------------
  // Kernel turn and mirror
  // ---------------------------------------------------------------------

  datatype TurnReport = TurnReport(tensorId: string, driftRisk: Option<real>, analysis: Analysis)

  /** `AegisKernel.processTurn`: one PT saved; the report names it and passes the analysis through. */
  function ProcessTurn(sessionId: string, input: string, id: string, now: string, hash: string)
    : (r: (TurnReport, seq<Effect>))
    ensures var analysis := AnalyzeText(Some(input));
            var pt := TurnTensor(sessionId, input, analysis.findings, id, now, hash);
            && r.1 == [SavedTensor(sessionId, pt)]
            && r.0.tensorId == pt.id && r.0.driftRisk == pt.axes.driftRisk
            && r.0.analysis == analysis
  {
    var analysis := AnalyzeText(Some(input));
    var pt := TurnTensor(sessionId, input, analysis.findings, id, now, hash);
    (TurnReport(pt.id, pt.axes.driftRisk, analysis), [SavedTensor(sessionId, pt)])
  }

  datatype Reflection = Reflection(kind: string, timestamp: string, alignment: string, lenses: seq<string>, ids: Ids)

  const DissonanceText := "Internal Dissonance detected against the Identity Signature."
  const AlignmentText := "Alignment found with established Master Vision."

  /** `result.delta ?? 0`: a fracture carries no delta. */
  function DeltaOf(o: Outcome): (d: real)
    ensures o.Fractured? ==> d == 0.0
    ensures !o.Fractured? ==> d == o.delta
  {
    if o.Fractured? then 0.0 else o.delta
  }

  /** The mirror's reading of a turn: dissonance exactly above 0.5; no lenses are ever reported. */
  function MirrorOf(turn: Turn, now: string): (r: Reflection)
    ensures r.alignment == DissonanceText <==> DeltaOf(turn.outcome) > 0.5
    ensures r.alignment == AlignmentText <==> DeltaOf(turn.outcome) <= 0.5
    ensures r.kind == "MIRROR_REFLECTION" && r.lenses == [] && r.timestamp == now
    ensures r.ids == turn.outcome.ids
  {
    var d := DeltaOf(turn.outcome);
    Reflection("MIRROR_REFLECTION", now, if d > 0.5 then DissonanceText else AlignmentText, [], turn.outcome.ids)
  }

  /**
   * `MirrorManager.reflect`: exactly one `process` call with the same
   * arguments, read by the mirror. `now` is the clock reading inside
   * `process`; `readAt` is the later one the mirror stamps its reflection with.
   */
  function MirrorReflect(sessionId: string, text: string, delta: real, snapshot: SnapshotView, shelfId: string,
                         id: string, now: string, hash: string, readAt: string): (r: (Reflection, Turn))
    ensures r.1 == Process(sessionId, text, delta, snapshot, shelfId, id, now, hash)
    ensures r.0.alignment == DissonanceText <==> 0.5 < delta <= FractureThreshold
    ensures r.0.kind == "MIRROR_REFLECTION" && r.0.lenses == [] && r.0.ids == r.1.outcome.ids
    ensures r.0.timestamp == readAt
  {
    var turn := Process(sessionId, text, delta, snapshot, shelfId, id, now, hash);
    (MirrorOf(turn, readAt), turn)
  }
}

=== FILE: phrase_scan.dfy ===
/**
 * The regular expressions of the arbiter's scanners, modelled exactly for
 * the shapes the source uses: an ordered alternation of alternatives, each
 * a sequence of literal text and `\s+` runs, optionally wrapped in `\b … \b`
 * and optionally case-insensitive (ASCII case folding).
 *
 * `Scan` is the `while ((m = re.exec(text)) !== null)` loop of a global
 * expression started from `lastIndex = from`: the leftmost match at or after
 * `lastIndex`, then `lastIndex` moves to the end of the match, or one past
 * its start when the match is empty.
 */
module PhraseScan {
  import opened Common

  /** A piece of an alternative: literal text, or a greedy `\s+`. */
  datatype Piece = Lit(text: string) | Spaces

  /**
   * `alts` are tried in order at each position; `bounded` wraps the whole
   * alternation in `\b … \b`; `foldCase` is the `i` flag.
   */
  datatype Pattern = Pattern(alts: seq<seq<Piece>>, bounded: bool, foldCase: bool)

  /** One match: where it starts and the matched text (`m.index`, `m[0]`). */
  datatype Hit = Hit(index: nat, evidence: string)

  /** The alternation of literal phrases, as `/\b(p1|p2|…)\b/gi` writes it. */
  function Phrases(ps: seq<string>, bounded: bool, foldCase: bool): (p: Pattern)
    ensures |p.alts| == |ps|
    ensures forall k :: 0 <= k < |ps| ==> p.alts[k] == [Lit(ps[k])]
    ensures p.bounded == bounded && p.foldCase == foldCase
  {
    Pattern(seq(|ps|, k requires 0 <= k < |ps| => [Lit(ps[k])]), bounded, foldCase)
  }

  predicate WordAt(t: string, k: int) {
    0 <= k < |t| && IsWordChar(t[k])
  }

  /** `\b` at position `k`: exactly one of the neighbouring characters is a word character. */
  predicate Boundary(t: string, k: int) {
    WordAt(t, k - 1) != WordAt(t, k)
  }

  predicate LitAt(t: string, i: nat, lit: string, fold: bool) {
    i + |lit| <= |t| && (if fold then FoldEq(t[i..i + |lit|], lit) else t[i..i + |lit|] == lit)
  }

  /**
   * Length of the text a sequence of pieces matches at `i`, if it matches.
   * `\s+` takes the whole whitespace run: in every pattern of the arbiter
   * it is followed by a literal that starts with a letter, so giving back
   * whitespace could never let the rest match.
   */
  function PiecesLen(ps: seq<Piece>, t: string, i: nat, fold: bool): (r: Option<nat>)
    requires i <= |t|
    ensures r.Some? ==> i + r.value <= |t|
    decreases |ps|
  {
    if |ps| == 0 then Some(0)
    else
      var n: nat := match ps[0]
        case Lit(s) => if LitAt(t, i, s, fold) then |s| else 0
        case Spaces => SpaceRun(t, i);
      var ok := match ps[0]
        case Lit(s) => LitAt(t, i, s, fold)
        case Spaces => n > 0;
      if !ok then None
      else match PiecesLen(ps[1..], t, i + n, fold)
        case None => None
        case Some(m) => Some(n + m)
  }

  /** The first alternative (from the `k`-th on) that matches at `i` and is followed by the closing `\b`. */
  function FirstAlt(p: Pattern, t: string, i: nat, k: nat): (r: Option<nat>)
    requires i <= |t|
    ensures r.Some? ==> i + r.value <= |t|
    decreases |p.alts| - k
  {
    if k >= |p.alts| then None
    else match PiecesLen(p.alts[k], t, i, p.foldCase)
      case Some(n) =>
        if !p.bounded || Boundary(t, i + n) then Some(n) else FirstAlt(p, t, i, k + 1)
      case None => FirstAlt(p, t, i, k + 1)
  }

  /** Length of the match of the whole pattern at exactly position `i`, if any. */
  function MatchAt(p: Pattern, t: string, i: nat): (r: Option<nat>)
    requires i <= |t|
    ensures r.Some? ==> i + r.value <= |t|
    ensures r.Some? && p.bounded ==> Boundary(t, i) && Boundary(t, i + r.value)
  {
    if p.bounded && !Boundary(t, i) then None else FirstAltBounded(p, t, i)
  }

  /** A match of the pattern is a match of one of its alternatives. */
  lemma MatchAtAlternative(p: Pattern, t: string, i: nat)
    requires i <= |t|
    requires MatchAt(p, t, i).Some?
    ensures exists a :: 0 <= a < |p.alts| && PiecesLen(p.alts[a], t, i, p.foldCase) == MatchAt(p, t, i)
  {
    FirstAltAlternative(p, t, i, 0);
  }

  lemma {:induction false} FirstAltAlternative(p: Pattern, t: string, i: nat, k: nat)
    requires i <= |t|
    requires FirstAlt(p, t, i, k).Some?
    ensures exists a :: k <= a < |p.alts| && PiecesLen(p.alts[a], t, i, p.foldCase) == FirstAlt(p, t, i, k)
    decreases |p.alts| - k
  {
    var r := PiecesLen(p.alts[k], t, i, p.foldCase);
    if !(r.Some? && (!p.bounded || Boundary(t, i + r.value))) {
      FirstAltAlternative(p, t, i, k + 1);
    }
  }

  function FirstAltBounded(p: Pattern, t: string, i: nat): (r: Option<nat>)
    requires i <= |t|
    ensures r == FirstAlt(p, t, i, 0)
    ensures r.Some? && p.bounded ==> Boundary(t, i + r.value)
  {
    FirstAltEndsOnBoundary(p, t, i, 0);
    FirstAlt(p, t, i, 0)
  }

  lemma {:induction false} FirstAltEndsOnBoundary(p: Pattern, t: string, i: nat, k: nat)
    requires i <= |t|
    ensures var r := FirstAlt(p, t, i, k); r.Some? && p.bounded ==> Boundary(t, i + r.value)
    decreases |p.alts| - k
  {
    if k < |p.alts| {
      FirstAltEndsOnBoundary(p, t, i, k + 1);
    }
  }

  /** No match of `p` starts in `[lo, hi)`. */
  predicate NoMatchIn(p: Pattern, t: string, lo: int, hi: int) {
    forall j: nat :: lo <= j < hi && j <= |t| ==> MatchAt(p, t, j).None?
  }

  /** `h` is a genuine match of `p` in `t`: its text is the slice it starts at. */
  predicate ValidHit(p: Pattern, t: string, h: Hit) {
    && h.index + |h.evidence| <= |t|
    && h.evidence == t[h.index..h.index + |h.evidence|]
    && MatchAt(p, t, h.index) == Some(|h.evidence|)
  }

  /** Where `lastIndex` goes after a match: its end, or one past its start when it is empty. */
  function NextFrom(h: Hit): (n: nat)
    ensures n > h.index
    ensures n >= h.index + |h.evidence|
  {
    if |h.evidence| == 0 then h.index + 1 else h.index + |h.evidence|
  }

  /** One `exec`: the leftmost match starting at or after `from`. */
  function FirstMatch(p: Pattern, t: string, from: nat): (r: Option<Hit>)
    ensures r.Some? ==> from <= r.value.index && ValidHit(p, t, r.value)
    ensures r.Some? ==> NoMatchIn(p, t, from, r.value.index)
    ensures r.None? ==> NoMatchIn(p, t, from, |t| + 1)
    decreases |t| + 1 - from
  {
    if from > |t| then None
    else
      var m := MatchAt(p, t, from);
      if m.Some? then
        var h := Hit(from, t[from..from + m.value]);
        assert |h.evidence| == m.value;
        assert ValidHit(p, t, h);
        Some(h)
      else
        var r := FirstMatch(p, t, from + 1);
        NoMatchExtend(p, t, from, if r.Some? then r.value.index else |t| + 1);
        r
  }

  lemma NoMatchExtend(p: Pattern, t: string, from: nat, hi: int)
    requires from <= |t| && MatchAt(p, t, from).None?
    requires NoMatchIn(p, t, from + 1, hi)
    ensures NoMatchIn(p, t, from, hi)
  {
  }

  /** Every hit is a genuine match starting at or after `from`. */
  predicate AllValid(p: Pattern, t: string, from: nat, hits: seq<Hit>) {
    forall k :: 0 <= k < |hits| ==> ValidHit(p, t, hits[k]) && from <= hits[k].index
  }

  /** Each hit starts at or after the position the previous one moved `lastIndex` to. */
  predicate Chained(hits: seq<Hit>) {
    forall k :: 0 <= k < |hits| - 1 ==> NextFrom(hits[k]) <= hits[k + 1].index
  }

  /** No match was skipped: none starts before a hit, between hits, or after the last one. */
  predicate NoGaps(p: Pattern, t: string, from: nat, hits: seq<Hit>) {
    && (|hits| == 0 ==> NoMatchIn(p, t, from, |t| + 1))
    && (|hits| > 0 ==> NoMatchIn(p, t, from, hits[0].index))
    && (forall k :: 0 <= k < |hits| - 1 ==> NoMatchIn(p, t, NextFrom(hits[k]), hits[k + 1].index))
    && (|hits| > 0 ==> NoMatchIn(p, t, NextFrom(hits[|hits| - 1]), |t| + 1))
  }

  /**
   * All matches found by repeated `exec` from `lastIndex = from`. The
   * measure `|t| + 1 - from` decreases on every match, including an empty
   * one, because `lastIndex` is bumped past it.
   */
  function Scan(p: Pattern, t: string, from: nat): (hits: seq<Hit>)
    ensures AllValid(p, t, from, hits)
    ensures Chained(hits)
    ensures NoGaps(p, t, from, hits)
    decreases |t| + 1 - from
  {
    var first := FirstMatch(p, t, from);
    if first.None? then []
    else
      var h := first.value;
      var rest := Scan(p, t, NextFrom(h));
      ConsValid(p, t, from, h, rest);
      ConsChained(h, rest);
      ConsNoGaps(p, t, from, h, rest);
      [h] + rest
  }

  lemma ConsValid(p: Pattern, t: string, from: nat, h: Hit, rest: seq<Hit>)
    requires ValidHit(p, t, h) && from <= h.index
    requires AllValid(p, t, NextFrom(h), rest)
    ensures AllValid(p, t, from, [h] + rest)
  {
    var hits := [h] + rest;
    forall k | 0 <= k < |hits|
      ensures ValidHit(p, t, hits[k]) && from <= hits[k].index
    {
      if k > 0 {
        assert hits[k] == rest[k - 1];
      }
    }
  }

  lemma ConsChained(h: Hit, rest: seq<Hit>)
    requires Chained(rest)
    requires forall k :: 0 <= k < |rest| ==> NextFrom(h) <= rest[k].index
    ensures Chained([h] + rest)
  {
    var hits := [h] + rest;
    forall k | 0 <= k < |hits| - 1
      ensures NextFrom(hits[k]) <= hits[k + 1].index
    {
      if k > 0 {
        assert hits[k] == rest[k - 1] && hits[k + 1] == rest[k];
      }
    }
  }

  lemma ConsNoGaps(p: Pattern, t: string, from: nat, h: Hit, rest: seq<Hit>)
    requires from <= h.index
    requires NoMatchIn(p, t, from, h.index)
    requires NoGaps(p, t, NextFrom(h), rest)
    ensures NoGaps(p, t, from, [h] + rest)
  {
    var hits := [h] + rest;
    forall k | 0 <= k < |hits| - 1
      ensures NoMatchIn(p, t, NextFrom(hits[k]), hits[k + 1].index)
    {
      if k > 0 {
        assert hits[k] == rest[k - 1] && hits[k + 1] == rest[k];
      }
    }
    if |rest| > 0 {
      assert hits[|hits| - 1] == rest[|rest| - 1];
    }
  }

  /** Matches come strictly left to right and never overlap. */
  lemma {:induction false} ScanOrdered(p: Pattern, t: string, from: nat, i: nat, j: nat)
    requires i < j < |Scan(p, t, from)|
    ensures Scan(p, t, from)[i].index < Scan(p, t, from)[j].index
    ensures Scan(p, t, from)[i].index + |Scan(p, t, from)[i].evidence| <= Scan(p, t, from)[j].index
    decreases j - i
  {
    var hits := Scan(p, t, from);
    if j > i + 1 {
      ScanOrdered(p, t, from, i + 1, j);
    }
  }

  /** `re.test(t)` of a non-global expression: a match starts somewhere. */
  predicate Test(p: Pattern, t: string) {
    FirstMatch(p, t, 0).Some?
  }

  lemma TestIff(p: Pattern, t: string)
    ensures Test(p, t) <==> exists j: nat :: j <= |t| && MatchAt(p, t, j).Some?
  {
    if Test(p, t) {
      var h := FirstMatch(p, t, 0).value;
      assert MatchAt(p, t, h.index).Some?;
    }
  }

  /** Whenever some position matches, the scan from 0 finds something. */
  lemma ScanFindsSomething(p: Pattern, t: string, j: nat)
    requires j <= |t| && MatchAt(p, t, j).Some?
    ensures |Scan(p, t, 0)| > 0
  {
  }

  /**
   * A match of a phrase alternation is one of the phrases, up to the case
   * folding of the pattern, occurring at that position.
   */
  lemma PhraseMatch(ps: seq<string>, bounded: bool, fold: bool, t: string, i: nat)
    requires i <= |t|
    requires MatchAt(Phrases(ps, bounded, fold), t, i).Some?
    ensures exists k :: (0 <= k < |ps| && LitAt(t, i, ps[k], fold)
                         && MatchAt(Phrases(ps, bounded, fold), t, i) == Some(|ps[k]|))
  {
    var p := Phrases(ps, bounded, fold);
    var r := MatchAt(p, t, i);
    MatchAtAlternative(p, t, i);
    var a :| 0 <= a < |p.alts| && PiecesLen(p.alts[a], t, i, fold) == r;
    assert p.alts[a] == [Lit(ps[a])];
    assert p.alts[a][1..] == [];
    assert LitAt(t, i, ps[a], fold);
  }

  /** A literal that occurs at a position bordered by non-word characters is matched there by its bounded phrase. */
  lemma LitMatches(s: string, fold: bool, t: string, i: nat)
    requires LitAt(t, i, s, fold)
    ensures MatchAt(Pattern([[Lit(s)]], false, fold), t, i) == Some(|s|)
  {
    var p := Pattern([[Lit(s)]], false, fold);
    assert p.alts[0][1..] == [];
    assert PiecesLen(p.alts[0], t, i, fold) == Some(|s|);
  }

  /** With `\b` on both sides, a single-literal pattern matches wherever the literal sits between two boundaries. */
  lemma BoundedLitMatches(s: string, fold: bool, t: string, i: nat)
    requires LitAt(t, i, s, fold) && Boundary(t, i) && Boundary(t, i + |s|)
    ensures MatchAt(Pattern([[Lit(s)]], true, fold), t, i) == Some(|s|)
  {
    var p := Pattern([[Lit(s)]], true, fold);
    assert p.alts[0][1..] == [];
    assert PiecesLen(p.alts[0], t, i, fold) == Some(|s|);
    assert FirstAlt(p, t, i, 0) == Some(|s|);
  }

  /**
   * Without `\b`, a single-literal pattern is found iff the literal occurs
   * somewhere (the `includes`-style checks of the gates).
   */
  lemma TestLiteralIff(s: string, fold: bool, t: string)
    ensures Test(Pattern([[Lit(s)]], false, fold), t)
      <==> exists j: nat :: LitAt(t, j, s, fold)
  {
    var p := Pattern([[Lit(s)]], false, fold);
    TestIff(p, t);
    if exists j: nat :: LitAt(t, j, s, fold) {
      var j: nat :| LitAt(t, j, s, fold);
      LitMatches(s, fold, t, j);
    }
    if Test(p, t) {
      var j: nat :| j <= |t| && MatchAt(p, t, j).Some?;
      MatchAtAlternative(p, t, j);
      var a :| 0 <= a < |p.alts| && PiecesLen(p.alts[a], t, j, fold) == MatchAt(p, t, j);
      assert a == 0;
      assert LitAt(t, j, s, fold);
    }
  }
}

=== FILE: promotion.dfy ===
/**
 * The two promotion rules that decide whether a peer tensor joins the
 * spine. Both read a missing or zero axis as 0 (`x || 0`).
 */
module Promotion {
  import opened Common
  import opened Tensors

  /** `axis || 0`. */
  function AxisOr0(x: Option<real>): (v: real)
    ensures x.None? ==> v == 0.0
    ensures x.Some? ==> v == x.value
  {
    TruthyOr(x, 0.0)
  }

  /** `PromotionGate.evaluate`: salient, coherent and low-drift, all strictly. */
  predicate PromotionGate(t: Tensor) {
    && AxisOr0(t.axes.salienceWeight) > 0.7
    && AxisOr0(t.axes.coherenceScore) > 0.8
    && AxisOr0(t.axes.driftRisk) < 0.3
  }

  /** A tensor with just the three gate axes set. */
  function WithAxes(t: Tensor, salience: Option<real>, coherence: Option<real>, drift: Option<real>): Tensor {
    t.(axes := t.axes.(salienceWeight := salience, coherenceScore := coherence, driftRisk := drift))
  }

  /** The gate in terms of the three axes, with the strict thresholds 0.7, 0.8 and 0.3. */
  lemma GateThresholds(t: Tensor, s: real, c: real, d: real)
    ensures PromotionGate(WithAxes(t, Some(s), Some(c), Some(d))) <==> s > 0.7 && c > 0.8 && d < 0.3
  {
  }

  /** A missing drift passes the gate; a missing salience or coherence fails it. */
  lemma GateMissingAxes(t: Tensor)
    ensures AxisOr0(t.axes.driftRisk) < 0.3 <== t.axes.driftRisk.None?
    ensures t.axes.salienceWeight.None? ==> !PromotionGate(t)
    ensures t.axes.coherenceScore.None? ==> !PromotionGate(t)
  {
  }

  /** The thresholds are strict, and (0.9, 0.95, 0.1) promotes while drift 0.4 does not. */
  lemma GateExamples(t: Tensor)
    ensures !PromotionGate(WithAxes(t, Some(0.7), Some(0.95), Some(0.1)))
    ensures !PromotionGate(WithAxes(t, Some(0.9), Some(0.8), Some(0.1)))
    ensures !PromotionGate(WithAxes(t, Some(0.9), Some(0.95), Some(0.3)))
    ensures PromotionGate(WithAxes(t, Some(0.9), Some(0.95), Some(0.1)))
    ensures !PromotionGate(WithAxes(t, Some(0.9), Some(0.95), Some(0.4)))
  {
  }

  /** Raising salience or coherence, or lowering drift, keeps a promotion. */
  lemma GateMonotone(t: Tensor, s: real, c: real, d: real, s2: real, c2: real, d2: real)
    requires PromotionGate(WithAxes(t, Some(s), Some(c), Some(d)))
    requires s2 >= s && c2 >= c && d2 <= d
    ensures PromotionGate(WithAxes(t, Some(s2), Some(c2), Some(d2)))
  {
  }

  /** `evaluatePromotion`: high resonance, or a corrected axiom with reduced entropy. */
  predicate EvaluatePromotion(t: Tensor) {
    AxisOr0(t.axes.resonanceIndex) > 0.8 || (|t.axiomTags| > 0 && AxisOr0(t.axes.coherenceScore) > 0.7)
  }

  /** High resonance alone promotes, whatever the tags. */
  lemma ResonanceSuffices(t: Tensor, tags: seq<string>)
    requires AxisOr0(t.axes.resonanceIndex) > 0.8
    ensures EvaluatePromotion(t.(axiomTags := tags))
  {
  }

  /** Without tags, a resonance of at most 0.8 (or none) never promotes. */
  lemma NoTagsNeedsResonance(t: Tensor)
    requires |t.axiomTags| == 0 && AxisOr0(t.axes.resonanceIndex) <= 0.8
    ensures !EvaluatePromotion(t)
  {
  }

  /** A PT from `createPT` never passes the gate when its drift is 0.3 or more. */
  lemma DriftyPTNotPromoted(id: string, now: string, hash: string, input: string, types: seq<string>, meta: Metadata)
    requires RiskSum(types) >= 0.3
    ensures !PromotionGate(CreatePT(id, now, hash, input, types, meta))
  {
  }

  /** A PT from `createPT` without findings is never promoted by the gate: its salience is 0.2. */
  lemma QuietPTNotPromoted(id: string, now: string, hash: string, input: string, meta: Metadata)
    ensures !PromotionGate(CreatePT(id, now, hash, input, [], meta))
  {
  }
}

=== FILE: reply_checks.dfy ===
/**
 * The checks run over replies and submissions: the self-audit (does the
 * analyzer find force or hierarchy language?), the reframer that proposes
 * gentler wording for flagged phrases, the response buffer, the intent
 * gate, the codex review, the prism gate and the naming constraint.
 * All of them sit on the eight-rule analyzer or on case-insensitive
 * substring tests.
 */
module ReplyChecks {
  import opened Common
  import opened PhraseScan
  import opened ServerAnalyzer
  import opened Tensors
  import opened Suggestion

  // ---------------------------------------------------------------------
  // Self-audit
  // ---------------------------------------------------------------------

  predicate Disqualifying(f: Finding) {
    f.kind == "hierarchy_inference" || f.kind == "force_language"
  }

  /** `findings.some(f => f.type is hierarchy_inference or force_language)`. */
  predicate SomeDisqualifying(fs: seq<Finding>) {
    |fs| > 0 && (Disqualifying(fs[0]) || SomeDisqualifying(fs[1..]))
  }

  lemma {:induction false} SomeDisqualifyingIff(fs: seq<Finding>)
    ensures SomeDisqualifying(fs) <==> exists i :: 0 <= i < |fs| && Disqualifying(fs[i])
  {
    if |fs| > 0 {
      SomeDisqualifyingIff(fs[1..]);
      if exists i :: 0 <= i < |fs[1..]| && Disqualifying(fs[1..][i]) {
        var i :| 0 <= i < |fs[1..]| && Disqualifying(fs[1..][i]);
        assert Disqualifying(fs[i + 1]);
      }
      if exists i :: 1 <= i < |fs| && Disqualifying(fs[i]) {
        var i :| 1 <= i < |fs| && Disqualifying(fs[i]);
        assert Disqualifying(fs[1..][i - 1]);
      }
    }
  }

  datatype AuditVerdict = AuditVerdict(ok: bool, findings: seq<Finding>)

  /** The verdict on a list of findings: every finding is kept, and it passes when none disqualifies. */
  function VerdictOf(fs: seq<Finding>): (v: AuditVerdict)
    ensures v.findings == fs
    ensures v.ok <==> forall i :: 0 <= i < |fs| ==> !Disqualifying(fs[i])
  {
    SomeDisqualifyingIff(fs);
    AuditVerdict(!SomeDisqualifying(fs), fs)
  }

  /** `SelfAuditService.verify`: the analyzer's findings on the proposed output, and the verdict. */
  function Verify(output: string): (v: AuditVerdict)
    ensures v.findings == AnalyzeText(Some(output)).findings
    ensures v.ok <==> forall i :: 0 <= i < |v.findings| ==> !Disqualifying(v.findings[i])
  {
    VerdictOf(AnalyzeText(Some(output)).findings)
  }

  function TypesOf(fs: seq<Finding>): (types: seq<string>)
    ensures |types| == |fs| && forall i :: 0 <= i < |fs| ==> types[i] == fs[i].kind
  {
    seq(|fs|, i requires 0 <= i < |fs| => fs[i].kind)
  }

  datatype SelfAuditRun = SelfAuditRun(ok: bool, findingsCount: nat, tensor: Tensor)

  /** `runSelfAudit`: always ok, the number of findings, and the PT built from them (metadata `{}` by default). */
  function RunSelfAudit(input: string, metadata: Option<Metadata>, id: string, now: string, hash: string): (r: SelfAuditRun)
    ensures r.ok
    ensures r.findingsCount == |AnalyzeText(Some(input)).findings|
    ensures r.tensor == CreatePT(id, now, hash, input, TypesOf(AnalyzeText(Some(input)).findings),
                                 metadata.GetOr(Metadata(None, None, None)))
  {
    var fs := AnalyzeText(Some(input)).findings;
    SelfAuditRun(true, |fs|, CreatePT(id, now, hash, input, TypesOf(fs), metadata.GetOr(Metadata(None, None, None))))
  }

  // ---------------------------------------------------------------------
  // Reframer
  // ---------------------------------------------------------------------

  const FrictionLexicon: map<string, string> := map[
    "must" := "observe a path to",
    "should" := "is a potential for",
    "need to" := "could enable",
    "restricted" := "bounded",
    "forbidden" := "non-resonant",
    "stop" := "pause",
    "incorrect" := "unaligned",
    "command" := "suggest",
    "enforce" := "define the channel"
  ]

  /** The pivot for a piece of evidence: looked up by its lower-cased text; empty evidence has none. */
  function PivotOf(evidence: string): (p: Option<string>)
    ensures p.Some? <==> evidence != "" && Lower(evidence) in FrictionLexicon
    ensures p.Some? ==> p.value == FrictionLexicon[Lower(evidence)]
  {
    if evidence != "" && Lower(evidence) in FrictionLexicon then Some(FrictionLexicon[Lower(evidence)]) else None
  }

  function ReframeLine(evidence: string, pivot: string): string {
    "Reframe '" + evidence + "' as '" + pivot + "' to reduce friction."
  }

  /** `ReframerService.reframe`: one line per finding that has a pivot, in finding order. */
  function Reframe(input: string, fs: seq<Finding>): (lines: seq<string>)
    ensures |lines| <= |fs|
  {
    if |fs| == 0 then []
    else
      var p := PivotOf(fs[0].evidence);
      (if p.Some? then [ReframeLine(fs[0].evidence, p.value)] else []) + Reframe(input, fs[1..])
  }

  /** Reframing a concatenation reframes each part. */
  lemma {:induction false} ReframeAppend(input: string, a: seq<Finding>, b: seq<Finding>)
    ensures Reframe(input, a + b) == Reframe(input, a) + Reframe(input, b)
    decreases |a|
  {
    if |a| > 0 {
      assert (a + b)[0] == a[0] && (a + b)[1..] == a[1..] + b;
      ReframeAppend(input, a[1..], b);
    } else {
      assert a + b == b;
    }
  }

  /** A single finding yields its line exactly when its evidence has a pivot. */
  lemma ReframeOne(input: string, f: Finding)
    ensures PivotOf(f.evidence).None? ==> Reframe(input, [f]) == []
    ensures PivotOf(f.evidence).Some? ==> Reframe(input, [f]) == [ReframeLine(f.evidence, PivotOf(f.evidence).value)]
  {
    assert [f][1..] == [];
  }

  /** The text being reframed plays no part in the result. */
  lemma {:induction false} ReframeIgnoresInput(a: string, b: string, fs: seq<Finding>)
    ensures Reframe(a, fs) == Reframe(b, fs)
    decreases |fs|
  {
    if |fs| > 0 {
      ReframeIgnoresInput(a, b, fs[1..]);
    }
  }

  /** Lookup is by whole key: "you need to" has no pivot, although it contains "need to". */
  lemma WholeKeyLookup()
    ensures PivotOf("you need to").None?
    ensures PivotOf("MUST") == Some("observe a path to")
  {
    assert Lower("you need to") == "you need to";
    assert Lower("MUST") == "must";
  }

  // ---------------------------------------------------------------------
  // Response buffer
  // ---------------------------------------------------------------------

  datatype Staged = Staged(finalOutput: string, isModified: bool, pivotsApplied: seq<string>)

  /** `ResponseBufferChamber.stage`: the output is released as proposed; pivots are prepared only when the audit fails. */
  function Stage(proposedOutput: string): (s: Staged)
    ensures s.finalOutput == proposedOutput
    ensures s.isModified <==> !Verify(proposedOutput).ok
    ensures !s.isModified ==> s.pivotsApplied == []
    ensures s.isModified ==> s.pivotsApplied == Reframe(proposedOutput, Verify(proposedOutput).findings)
  {
    var audit := Verify(proposedOutput);
    if audit.ok then Staged(proposedOutput, false, [])
    else Staged(proposedOutput, true, Reframe(proposedOutput, audit.findings))
  }

  // ---------------------------------------------------------------------
  // Evidence of selected finding types
  // ---------------------------------------------------------------------

  /** `.filter(f => kinds has f.type).map(f => f.evidence)`. */
  function EvidenceOf(fs: seq<Finding>, kinds: set<string>): (ev: seq<string>)
    ensures |ev| <= |fs|
    ensures |ev| == 0 <==> forall i :: 0 <= i < |fs| ==> fs[i].kind !in kinds
    ensures forall e :: e in ev <==> exists i :: 0 <= i < |fs| && fs[i].kind in kinds && fs[i].evidence == e
    decreases |fs|
  {
    if |fs| == 0 then []
    else
      var rest := EvidenceOf(fs[1..], kinds);
      assert forall i :: 1 <= i < |fs| ==> fs[i] == fs[1..][i - 1];
      (if fs[0].kind in kinds then [fs[0].evidence] else []) + rest
  }

  /** One finding gives its evidence exactly when its type is selected. */
  lemma EvidenceOfOne(f: Finding, kinds: set<string>)
    ensures EvidenceOf([f], kinds) == if f.kind in kinds then [f.evidence] else []
  {
    assert [f][1..] == [];
  }

  /** Selecting from a concatenation selects from each part, in order. */
  lemma {:induction false} EvidenceOfAppend(a: seq<Finding>, b: seq<Finding>, kinds: set<string>)
    ensures EvidenceOf(a + b, kinds) == EvidenceOf(a, kinds) + EvidenceOf(b, kinds)
    decreases |a|
  {
    if |a| > 0 {
      assert (a + b)[0] == a[0] && (a + b)[1..] == a[1..] + b;
      EvidenceOfAppend(a[1..], b, kinds);
    } else {
      assert a + b == b;
    }
  }

  // ---------------------------------------------------------------------
  // Intent gate
  // ---------------------------------------------------------------------

  const IntentTypes: set<string> := {"force_language", "urgency_compression", "hierarchy_inference"}

  datatype IntentAudit = IntentAudit(isResonant: bool, pressureScore: real, detectedForceMarkers: seq<string>)

  /** `Math.min(markers * 0.25, 1.0)`. */
  function Pressure(markers: nat): (p: real)
    ensures 0.0 <= p <= 1.0
    ensures p < 0.6 <==> markers <= 2
  {
    MinReal(0.25 * markers as real, 1.0)
  }

  /** The intent gate over a list of findings: at most two pressure markers is resonant. */
  function IntentOf(fs: seq<Finding>): (a: IntentAudit)
    ensures a.detectedForceMarkers == EvidenceOf(fs, IntentTypes)
    ensures a.pressureScore == Pressure(|a.detectedForceMarkers|)
    ensures 0.0 <= a.pressureScore <= 1.0
    ensures a.isResonant <==> |a.detectedForceMarkers| <= 2
  {
    var markers := EvidenceOf(fs, IntentTypes);
    var pressure := Pressure(|markers|);
    IntentAudit(pressure < 0.6, pressure, markers)
  }

  /** `IntentGatingService.evaluate`. */
  function EvaluateIntent(input: string): (a: IntentAudit)
    ensures a.detectedForceMarkers == EvidenceOf(AnalyzeText(Some(input)).findings, IntentTypes)
    ensures a.isResonant <==> |a.detectedForceMarkers| <= 2
    ensures 0.0 <= a.pressureScore <= 1.0
  {
    IntentOf(AnalyzeText(Some(input)).findings)
  }

  // ---------------------------------------------------------------------
  // Codex review
  // ---------------------------------------------------------------------

  const ReviewTypes: set<string> := {"force_language", "hierarchy_inference"}

  datatype ReviewResult = ReviewResult(isAligned: bool, canonicalViolations: seq<string>, ids: Ids)

  /** The review over a list of findings: aligned exactly when no force or hierarchy finding is present. */
  function ReviewOf(fs: seq<Finding>): (r: ReviewResult)
    ensures r.canonicalViolations == EvidenceOf(fs, ReviewTypes)
    ensures r.isAligned <==> forall i :: 0 <= i < |fs| ==> fs[i].kind !in ReviewTypes
    ensures |r.ids.suggest| == if r.isAligned then 1 else 2
    ensures !r.isAligned ==> r.ids.define == "Structural tension identified: " + Join(r.canonicalViolations, "; ") + "."
  {
    var violations := EvidenceOf(fs, ReviewTypes);
    var aligned := |violations| == 0;
    var ids := Ids(
      if aligned then "Content aligns with the LOCKED Canon." else "Canonical Drift detected in submission.",
      if aligned then "No violations of AXIOM_1-6 identified."
      else "Structural tension identified: " + Join(violations, "; ") + ".",
      if aligned then ["Proceed with publication to the HyperVerse."]
      else ["Refactor text to remove non-canonical axiom references.",
            "Reframe using Sovereign language to reduce AXIOM_3_FORCE markers."]);
    ReviewResult(aligned, violations, ids)
  }

  /** `ReviewService.evaluateSubmission`. */
  function EvaluateSubmission(content: string): (r: ReviewResult)
    ensures r.canonicalViolations == EvidenceOf(AnalyzeText(Some(content)).findings, ReviewTypes)
    ensures r.isAligned <==> |r.canonicalViolations| == 0
  {
    ReviewOf(AnalyzeText(Some(content)).findings)
  }

  // ---------------------------------------------------------------------
  // Case-insensitive substring tests
  // ---------------------------------------------------------------------

  /** `/m/i`: a literal, no word boundaries, case folded. */
  function Marker(m: string): Pattern {
    Pattern([[Lit(m)]], false, true)
  }

  /** `markers.some(m => m.test(t))` for non-global expressions. */
  predicate AnyMarker(markers: seq<string>, t: string) {
    |markers| > 0 && (Test(Marker(markers[0]), t) || AnyMarker(markers[1..], t))
  }

  /** Some marker is present exactly when one of them occurs, case-insensitively, somewhere in the text. */
  lemma {:induction false} AnyMarkerIff(markers: seq<string>, t: string)
    ensures AnyMarker(markers, t) <==> exists k: nat, j: nat :: k < |markers| && LitAt(t, j, markers[k], true)
  {
    if |markers| > 0 {
      var rest := markers[1..];
      AnyMarkerIff(rest, t);
      TestLiteralIff(markers[0], true, t);
      if exists k: nat, j: nat :: k < |rest| && LitAt(t, j, rest[k], true) {
        var k: nat, j: nat :| k < |rest| && LitAt(t, j, rest[k], true);
        assert LitAt(t, j, markers[k + 1], true);
      }
      if exists k: nat, j: nat :: k < |markers| && LitAt(t, j, markers[k], true) {
        var k: nat, j: nat :| k < |markers| && LitAt(t, j, markers[k], true);
        if k > 0 {
          assert LitAt(t, j, rest[k - 1], true);
        }
      }
    }
  }

  /** No non-empty marker occurs in the empty text. */
  lemma {:induction false} NoMarkerInEmpty(markers: seq<string>)
    requires forall k :: 0 <= k < |markers| ==> markers[k] != ""
    ensures !AnyMarker(markers, "")
  {
    AnyMarkerIff(markers, "");
  }

  // ---------------------------------------------------------------------
  // Prism gate
  // ---------------------------------------------------------------------

  datatype Vector = Posture | Correctness

  const PostureMarkers: seq<string> := [
    "so what you're saying is", "are you capable of", "prove that you", "why should i trust", "test"
  ]

  /** `PrismGate.detectVector`: posture exactly when a posture marker occurs. */
  function DetectVector(input: string): (v: Vector)
    ensures v == Posture <==> AnyMarker(PostureMarkers, input)
  {
    if AnyMarker(PostureMarkers, input) then Posture else Correctness
  }

  /** Plain substring matching: "latest" reads as posture through "test". */
  lemma LatestIsPosture()
    ensures DetectVector("latest") == Posture
  {
    var t := "latest";
    assert t[2..6] == "test";
    assert LitAt(t, 2, PostureMarkers[4], true);
    AnyMarkerIff(PostureMarkers, t);
  }

  // ---------------------------------------------------------------------
  // Naming constraint
  // ---------------------------------------------------------------------

  const ForbiddenPatterns: seq<string> := [
    "architect", "seeker", "erebus", "master", "servant", "you are a", "i assign you the name", "our story"
  ]

  datatype NamingVerdict = NamingVerdict(ok: bool, driftDetected: bool)

  /** `NamingConstraintService.verify`: rejected exactly when a forbidden phrase occurs. */
  function VerifyNaming(output: string): (v: NamingVerdict)
    ensures v.ok <==> !AnyMarker(ForbiddenPatterns, output)
    ensures v.driftDetected == !v.ok
  {
    if AnyMarker(ForbiddenPatterns, output) then NamingVerdict(false, true) else NamingVerdict(true, false)
  }

  /** The empty output is accepted. */
  lemma EmptyOutputAccepted()
    ensures VerifyNaming("").ok
  {
    NoMarkerInEmpty(ForbiddenPatterns);
  }
}

=== FILE: report_output.dfy ===
/**
 * The report panel: which entries of the analysis history it shows, which
 * entry its headline comes from, and whether it prints an entry count.
 */
module ReportOutput {
  import opened Common

  /** The report type; `Other` stands for any value outside the three named ones. */
  datatype ReportType = Single | Cumulative | Aggregate | Other

  /** `xs.slice(-k)` for `k >= 1`: the last `k` elements, or all when there are fewer. */
  function LastN<T>(xs: seq<T>, k: nat): (r: seq<T>)
    requires k >= 1
    ensures |r| == MinInt(k, |xs|)
    ensures r == xs[|xs| - |r|..]
  {
    if k >= |xs| then xs else xs[|xs| - k..]
  }

  /** How many entries a report type asks for out of `n`. */
  function Wanted(t: ReportType, n: nat): nat {
    match t
    case Single => 1
    case Cumulative => MinInt(5, n)
    case Aggregate => n
    case Other => 1
  }

  /**
   * `getReportData`: nothing for an empty history (the panel shows its
   * placeholder instead); otherwise a non-empty suffix of the history, one
   * entry for `single` and unknown types, up to five for `cumulative`, all
   * for `aggregate`.
   */
  function ReportData<T>(history: seq<T>, t: ReportType): (r: Option<seq<T>>)
    ensures r.None? <==> |history| == 0
    ensures r.Some? ==> 0 < |r.value| <= |history|
    ensures r.Some? ==> r.value == history[|history| - |r.value|..]
    ensures r.Some? ==> |r.value| == Wanted(t, |history|)
  {
    if |history| == 0 then None
    else
      match t
      case Single => Some(LastN(history, 1))
      case Cumulative => Some(LastN(history, 5))
      case Aggregate => Some(history)
      case Other => Some(LastN(history, 1))
  }

  /** The entry the headline shows: the last of the selected data. */
  function Latest<T>(history: seq<T>, t: ReportType): (r: Option<T>)
    ensures r.Some? <==> |history| > 0
  {
    match ReportData(history, t)
    case None => None
    case Some(data) => Some(data[|data| - 1])
  }

  /** Whatever the type, the headline is the most recent entry of the whole history. */
  lemma LatestIsLast<T>(history: seq<T>, t: ReportType)
    requires |history| > 0
    ensures Latest(history, t) == Some(history[|history| - 1])
  {
    var data := ReportData(history, t).value;
    assert data[|data| - 1] == history[|history| - |data|..][|data| - 1];
  }

  /** The entry count is printed for every type except `single`. */
  predicate ShowsEntryCount(t: ReportType) {
    t != Single
  }

  /**
   * A printed count is the number of selected entries; an unknown type
   * prints it too, and it reads one, like `single` would have selected.
   */
  function EntryCount<T>(history: seq<T>, t: ReportType): (r: Option<nat>)
    ensures r.Some? <==> |history| > 0 && t != Single
    ensures r.Some? ==> r.value == |ReportData(history, t).value|
    ensures r.Some? && t == Other ==> r.value == 1
  {
    if ShowsEntryCount(t) then
      match ReportData(history, t)
      case None => None
      case Some(data) => Some(|data|)
    else None
  }

  /** Each wider report type selects a suffix of what the narrower ones select, never less. */
  lemma ReportsNest<T>(history: seq<T>)
    requires |history| > 0
    ensures var s := ReportData(history, Single).value;
            var c := ReportData(history, Cumulative).value;
            var a := ReportData(history, Aggregate).value;
            && |s| <= |c| <= |a|
            && s == c[|c| - |s|..]
            && c == a[|a| - |c|..]
  {
    var n := |history|;
    var s := ReportData(history, Single).value;
    var c := ReportData(history, Cumulative).value;
    assert s == history[n - 1..];
    assert c == history[n - |c|..];
    assert c[|c| - 1..] == history[n - 1..];
  }
}

=== FILE: resonance.dfy ===
/**
 * The alignment snapshot: how far the current tensor's coherence sits from
 * the average coherence of the session's recent spine tensors, pushed up
 * by the current drift, and the status band that distance falls in.
 */
module Resonance {
  import opened Common
  import opened Tensors
  import TensorStore

  datatype Snapshot = Snapshot(
    equilibriumDelta: real, resonanceStatus: string, baselineUsed: bool,
    driftRisk: real, spineCoherence: real, currentCoherence: real,
    suggestedAxiomTags: seq<string>)

  /** The spine coherence assumed when there is no spine tensor to average. */
  const BaselineCoherence := 0.8

  /** The status bands: above 0.7 fractured, above 0.4 drifting, otherwise stable. */
  function StatusOf(delta: real): (s: string)
    ensures s == "fractured" <==> delta > 0.7
    ensures s == "drifting" <==> 0.4 < delta <= 0.7
    ensures s == "stable" <==> delta <= 0.4
  {
    if delta > 0.7 then "fractured" else if delta > 0.4 then "drifting" else "stable"
  }

  /** `t.tensor_type === "ST"`, in spine order. */
  function SpineOnly(spine: seq<Tensor>): (st: seq<Tensor>)
    ensures forall t :: t in st <==> t in spine && t.tensorType == "ST"
    ensures |st| <= |spine|
    decreases |spine|
  {
    if |spine| == 0 then []
    else
      var rest := SpineOnly(spine[1..]);
      assert spine == [spine[0]] + spine[1..];
      if spine[0].tensorType == "ST" then [spine[0]] + rest else rest
  }

  /** The sum of the clamped coherences, an absent one counting as 0. */
  function CoherenceTotal(st: seq<Tensor>): real {
    if |st| == 0 then 0.0 else Clamp01(st[0].axes.coherenceScore.GetOr(0.0)) + CoherenceTotal(st[1..])
  }

  lemma {:induction false} CoherenceTotalBounds(st: seq<Tensor>)
    ensures 0.0 <= CoherenceTotal(st) <= |st| as real
  {
    if |st| > 0 {
      CoherenceTotalBounds(st[1..]);
    }
  }

  /** A total of `n` values in [0,1], divided by `n`, lies in [0,1]. */
  lemma MeanInUnit(total: real, n: nat)
    requires n > 0 && 0.0 <= total <= n as real
    ensures 0.0 <= total / n as real <= 1.0
  {
    var m := total / n as real;
    assert m * n as real == total;
  }

  /**
   * The spine coherence: the clamped mean of the clamped coherences of the
   * `ST` entries, or the baseline when there is none. The clamp never bites.
   */
  function SpineCoherence(st: seq<Tensor>): (c: real)
    ensures 0.0 <= c <= 1.0
    ensures |st| == 0 ==> c == BaselineCoherence
    ensures |st| > 0 ==> c == CoherenceTotal(st) / |st| as real
  {
    if |st| == 0 then BaselineCoherence
    else
      CoherenceTotalBounds(st);
      MeanInUnit(CoherenceTotal(st), |st|);
      Clamp01(CoherenceTotal(st) / |st| as real)
  }

  /** The current tensor's drift and coherence, 0 and 0.5 when absent, clamped. */
  function CurrentDrift(current: Option<Tensor>): real {
    Clamp01(if current.Some? then current.value.axes.driftRisk.GetOr(0.0) else 0.0)
  }

  function CurrentCoherence(current: Option<Tensor>): real {
    Clamp01(if current.Some? then current.value.axes.coherenceScore.GetOr(0.5) else 0.5)
  }

  /**
   * The snapshot of `current` against an already fetched spine. Only the
   * `ST` entries are averaged; without one the baseline 0.8 is used and
   * reported.
   */
  function SnapshotOf(spine: seq<Tensor>, current: Option<Tensor>): (s: Snapshot)
    ensures var st := SpineOnly(spine);
      && (s.baselineUsed <==> |st| == 0)
      && (|st| == 0 ==> s.spineCoherence == BaselineCoherence)
      && (|st| > 0 ==> s.spineCoherence == CoherenceTotal(st) / |st| as real)
    ensures 0.0 <= s.spineCoherence <= 1.0
    ensures s.driftRisk == CurrentDrift(current) && s.currentCoherence == CurrentCoherence(current)
    ensures s.equilibriumDelta == Clamp01(Abs(s.currentCoherence - s.spineCoherence) + s.driftRisk)
    ensures 0.0 <= s.equilibriumDelta <= 1.0
    ensures s.equilibriumDelta >= s.driftRisk
    ensures s.resonanceStatus == StatusOf(s.equilibriumDelta)
    ensures s.suggestedAxiomTags == (if current.Some? then current.value.axiomTags else [])
  {
    var drift := CurrentDrift(current);
    var cur := CurrentCoherence(current);
    var st := SpineOnly(spine);
    var spineCoh := SpineCoherence(st);
    var delta := Clamp01(Abs(cur - spineCoh) + drift);
    Snapshot(delta, StatusOf(delta), |st| == 0, drift, spineCoh, cur,
             if current.Some? then current.value.axiomTags else [])
  }

  /** Tensors of any other type in the spine do not change the snapshot. */
  lemma NonSpineIgnored(spine: seq<Tensor>, current: Option<Tensor>, other: Tensor)
    requires other.tensorType != "ST"
    ensures SnapshotOf(spine + [other], current) == SnapshotOf(spine, current)
  {
    SpineOnlyAppend(spine, other);
  }

  lemma {:induction false} SpineOnlyAppend(spine: seq<Tensor>, other: Tensor)
    requires other.tensorType != "ST"
    ensures SpineOnly(spine + [other]) == SpineOnly(spine)
    decreases |spine|
  {
    if |spine| == 0 {
      assert [other][1..] == [];
    } else {
      assert (spine + [other])[1..] == spine[1..] + [other];
      SpineOnlyAppend(spine[1..], other);
    }
  }

  /** A coherent current tensor with no drift against a matching spine is stable. */
  lemma MatchingSpineIsStable(spine: seq<Tensor>, t: Tensor)
    requires t.axes.driftRisk == Some(0.0)
    requires SpineOnly(spine) == [] && t.axes.coherenceScore == Some(BaselineCoherence)
    ensures SnapshotOf(spine, Some(t)).equilibriumDelta == 0.0
    ensures SnapshotOf(spine, Some(t)).resonanceStatus == "stable"
  {
  }

  /** `ResonanceService.getAlignmentSnapshot`: the snapshot against the spine the repository returns. */
  function GetAlignmentSnapshot(rows: seq<TensorStore.TensorRow>, sessionId: string, current: Option<Tensor>,
                                limit: Option<int>): (s: Snapshot)
    ensures s == SnapshotOf(TensorStore.GetSpine(rows, sessionId, Some(limit.GetOr(5))), current)
    ensures 0.0 <= s.equilibriumDelta <= 1.0
  {
    SnapshotOf(TensorStore.GetSpine(rows, sessionId, Some(limit.GetOr(5))), current)
  }
}

=== FILE: server_analyzer.dfy ===
/**
 * The in-process analyzer with the eight-rule table: every rule is a
 * case-insensitive alternation of phrases between word boundaries, scanned
 * over the whole text from position 0, rule after rule.
 */
module ServerAnalyzer {
  import opened Common
  import opened PhraseScan

  /** A rule: its finding type, severity, and the phrases of `/\b(p1|p2|…)\b/gi`. */
  datatype Rule = Rule(kind: string, severity: nat, phrases: seq<string>) {
    function Pat(): Pattern {
      Phrases(phrases, true, true)
    }
  }

  /** One detected phrase: the rule's type and severity, the matched text and where it starts. */
  datatype Finding = Finding(kind: string, severity: nat, evidence: string, index: nat)

  datatype Analysis = Analysis(text_length: nat, findings: seq<Finding>)

  /** The rule table, in scanning order. */
  const Rules: seq<Rule> := [
    Rule("force_language", 2, ["must", "under no circumstance", "required", "do it now", "immediately"]),
    Rule("urgency_compression", 2, ["now", "right now", "asap", "urgent", "immediately"]),
    Rule("certainty_inflation", 2, ["100%", "absolutely", "definitely", "no doubt", "proven"]),
    Rule("hierarchy_inference", 2, ["you should", "you need to", "listen closely", "let me tell you"]),
    Rule("moral_leverage", 2, ["if you care", "the right thing", "you owe", "any decent person"]),
    Rule("identity_attractor", 2, ["you are the kind of person", "as someone who", "good people"]),
    Rule("topic_drift", 1, ["by the way", "anyway", "off topic"]),
    Rule("directive_drift", 2, ["ignore previous", "override", "new instruction"])
  ]

  predicate DistinctKinds(rules: seq<Rule>) {
    forall i, j :: 0 <= i < j < |rules| ==> rules[i].kind != rules[j].kind
  }

  /** Position of the rule of the given type in `rules`, or `|rules|` if there is none. */
  function KindRank(rules: seq<Rule>, kind: string): (k: nat)
    ensures k <= |rules|
    ensures k < |rules| ==> rules[k].kind == kind
    ensures forall i :: 0 <= i < k ==> rules[i].kind != kind
  {
    if |rules| == 0 then 0
    else if rules[0].kind == kind then 0
    else 1 + KindRank(rules[1..], kind)
  }

  /** `f` comes from a rule of the table: its severity, and a genuine match of its pattern. */
  predicate Explained(rules: seq<Rule>, text: string, f: Finding) {
    var k := KindRank(rules, f.kind);
    && k < |rules|
    && f.severity == rules[k].severity
    && ValidHit(rules[k].Pat(), text, Hit(f.index, f.evidence))
  }

  /** Findings are grouped by rule, in the order of the rules. */
  predicate GroupedInOrder(rules: seq<Rule>, fs: seq<Finding>) {
    forall i, j :: 0 <= i < j < |fs| ==> KindRank(rules, fs[i].kind) <= KindRank(rules, fs[j].kind)
  }

  /** Two findings of the same type come left to right and do not overlap. */
  predicate SeparatedWithinKind(fs: seq<Finding>) {
    forall i, j :: 0 <= i < j < |fs| && fs[i].kind == fs[j].kind
      ==> fs[i].index < fs[j].index && fs[i].index + |fs[i].evidence| <= fs[j].index
  }

  /** The finding a rule reports for one match of its expression. */
  function FindingOf(rule: Rule, h: Hit): Finding {
    Finding(rule.kind, rule.severity, h.evidence, h.index)
  }

  /** The findings of one type, in the order they were reported. */
  function OfKind(fs: seq<Finding>, kind: string): (r: seq<Finding>)
    ensures forall f :: f in r <==> f in fs && f.kind == kind
    decreases |fs|
  {
    if |fs| == 0 then []
    else
      assert fs == [fs[0]] + fs[1..];
      (if fs[0].kind == kind then [fs[0]] else []) + OfKind(fs[1..], kind)
  }

  lemma {:induction false} OfKindAppend(a: seq<Finding>, b: seq<Finding>, kind: string)
    ensures OfKind(a + b, kind) == OfKind(a, kind) + OfKind(b, kind)
    decreases |a|
  {
    if |a| == 0 {
      assert a + b == b;
    } else {
      assert (a + b)[1..] == a[1..] + b;
      OfKindAppend(a[1..], b, kind);
    }
  }

  lemma {:induction false} OfKindAll(fs: seq<Finding>, kind: string)
    requires forall i :: 0 <= i < |fs| ==> fs[i].kind == kind
    ensures OfKind(fs, kind) == fs
    decreases |fs|
  {
    if |fs| > 0 {
      OfKindAll(fs[1..], kind);
    }
  }

  lemma {:induction false} OfKindNone(fs: seq<Finding>, kind: string)
    requires forall i :: 0 <= i < |fs| ==> fs[i].kind != kind
    ensures OfKind(fs, kind) == []
    decreases |fs|
  {
    if |fs| > 0 {
      OfKindNone(fs[1..], kind);
    }
  }

  /**
   * The findings one rule produces: its scan from `lastIndex = 0`, the
   * `i`-th finding reporting the `i`-th match.
   */
  function RuleFindings(rule: Rule, text: string): (fs: seq<Finding>)
    ensures |fs| == |Scan(rule.Pat(), text, 0)|
    ensures forall i :: 0 <= i < |fs| ==> fs[i] == FindingOf(rule, Scan(rule.Pat(), text, 0)[i])
    ensures forall i :: 0 <= i < |fs| ==> fs[i].kind == rule.kind && fs[i].severity == rule.severity
    ensures forall i :: 0 <= i < |fs| ==> ValidHit(rule.Pat(), text, Hit(fs[i].index, fs[i].evidence))
    ensures SeparatedWithinKind(fs)
  {
    var fs := FindingsOf(rule, Scan(rule.Pat(), text, 0));
    RuleFindingsSeparated(rule, text, fs);
    fs
  }

  /** One finding per hit, in the same order. */
  function FindingsOf(rule: Rule, hits: seq<Hit>): (fs: seq<Finding>)
    ensures |fs| == |hits|
    ensures forall i :: 0 <= i < |fs| ==> fs[i] == FindingOf(rule, hits[i])
  {
    seq(|hits|, i requires 0 <= i < |hits| => FindingOf(rule, hits[i]))
  }

  lemma RuleFindingsSeparated(rule: Rule, text: string, fs: seq<Finding>)
    requires |fs| == |Scan(rule.Pat(), text, 0)|
    requires forall i :: 0 <= i < |fs| ==> fs[i] == FindingOf(rule, Scan(rule.Pat(), text, 0)[i])
    ensures forall i :: 0 <= i < |fs| ==> fs[i].kind == rule.kind && fs[i].severity == rule.severity
    ensures forall i :: 0 <= i < |fs| ==> ValidHit(rule.Pat(), text, Hit(fs[i].index, fs[i].evidence))
    ensures SeparatedWithinKind(fs)
  {
    var hits := Scan(rule.Pat(), text, 0);
    assert forall i :: 0 <= i < |hits| ==> Hit(fs[i].index, fs[i].evidence) == hits[i];
    forall i, j | 0 <= i < j < |fs|
      ensures fs[i].index < fs[j].index && fs[i].index + |fs[i].evidence| <= fs[j].index
    {
      ScanOrdered(rule.Pat(), text, 0, i, j);
    }
  }

  /**
   * The findings of every rule, concatenated in rule order: the findings
   * of each rule's type are exactly its matches, none left out.
   */
  function AllFindings(rules: seq<Rule>, text: string): (fs: seq<Finding>)
    requires DistinctKinds(rules)
    ensures forall i :: 0 <= i < |fs| ==> Explained(rules, text, fs[i])
    ensures forall k {:trigger RuleFindings(rules[k], text)} :: 0 <= k < |rules| ==>
              OfKind(fs, rules[k].kind) == RuleFindings(rules[k], text)
    ensures GroupedInOrder(rules, fs)
    ensures SeparatedWithinKind(fs)
    decreases |rules|
  {
    if |rules| == 0 then []
    else
      var head := RuleFindings(rules[0], text);
      var tail := AllFindings(rules[1..], text);
      ConsExplained(rules, text, head, tail);
      ConsOfKind(rules, text, head, tail);
      ConsGrouped(rules, head, tail);
      ConsSeparated(rules, head, tail);
      head + tail
  }

  lemma RankOfOther(rules: seq<Rule>, kind: string)
    requires |rules| > 0 && rules[0].kind != kind
    ensures KindRank(rules, kind) == 1 + KindRank(rules[1..], kind)
  {
  }

  lemma ConsExplained(rules: seq<Rule>, text: string, head: seq<Finding>, tail: seq<Finding>)
    requires |rules| > 0 && DistinctKinds(rules)
    requires forall i :: 0 <= i < |head| ==> head[i].kind == rules[0].kind && head[i].severity == rules[0].severity
    requires forall i :: 0 <= i < |head| ==> ValidHit(rules[0].Pat(), text, Hit(head[i].index, head[i].evidence))
    requires forall i :: 0 <= i < |tail| ==> Explained(rules[1..], text, tail[i])
    ensures forall i :: 0 <= i < |head + tail| ==> Explained(rules, text, (head + tail)[i])
  {
    var fs := head + tail;
    forall i | 0 <= i < |fs|
      ensures Explained(rules, text, fs[i])
    {
      if i >= |head| {
        var f := tail[i - |head|];
        assert fs[i] == f;
        var k := KindRank(rules[1..], f.kind);
        assert rules[1..][k].kind == f.kind;
        assert rules[0].kind != f.kind by {
          assert rules[k + 1].kind == f.kind;
        }
        RankOfOther(rules, f.kind);
      }
    }
  }

  lemma ConsOfKind(rules: seq<Rule>, text: string, head: seq<Finding>, tail: seq<Finding>)
    requires |rules| > 0 && DistinctKinds(rules)
    requires head == RuleFindings(rules[0], text)
    requires forall i :: 0 <= i < |tail| ==> KindRank(rules[1..], tail[i].kind) < |rules| - 1
    requires forall k {:trigger RuleFindings(rules[1..][k], text)} :: 0 <= k < |rules| - 1 ==>
               OfKind(tail, rules[1..][k].kind) == RuleFindings(rules[1..][k], text)
    ensures forall k {:trigger RuleFindings(rules[k], text)} :: 0 <= k < |rules| ==>
              OfKind(head + tail, rules[k].kind) == RuleFindings(rules[k], text)
  {
    forall i | 0 <= i < |tail|
      ensures tail[i].kind != rules[0].kind
    {
      var r := KindRank(rules[1..], tail[i].kind);
      assert rules[r + 1].kind == tail[i].kind;
    }
    forall k | 0 <= k < |rules|
      ensures OfKind(head + tail, rules[k].kind) == RuleFindings(rules[k], text)
    {
      OfKindAppend(head, tail, rules[k].kind);
      if k == 0 {
        OfKindAll(head, rules[0].kind);
        OfKindNone(tail, rules[0].kind);
      } else {
        OfKindNone(head, rules[k].kind);
        assert rules[1..][k - 1] == rules[k];
      }
    }
  }

  lemma ConsGrouped(rules: seq<Rule>, head: seq<Finding>, tail: seq<Finding>)
    requires |rules| > 0 && DistinctKinds(rules)
    requires forall i :: 0 <= i < |head| ==> head[i].kind == rules[0].kind
    requires forall i :: 0 <= i < |tail| ==> KindRank(rules[1..], tail[i].kind) < |rules| - 1
    requires GroupedInOrder(rules[1..], tail)
    ensures GroupedInOrder(rules, head + tail)
  {
    var fs := head + tail;
    forall i | |head| <= i < |fs|
      ensures KindRank(rules, fs[i].kind) == 1 + KindRank(rules[1..], fs[i].kind)
    {
      var f := tail[i - |head|];
      var k := KindRank(rules[1..], f.kind);
      assert rules[k + 1].kind == f.kind;
      RankOfOther(rules, f.kind);
    }
    forall i, j | 0 <= i < j < |fs|
      ensures KindRank(rules, fs[i].kind) <= KindRank(rules, fs[j].kind)
    {
      if j >= |head| && i >= |head| {
        assert fs[i] == tail[i - |head|] && fs[j] == tail[j - |head|];
      }
    }
  }

  lemma ConsSeparated(rules: seq<Rule>, head: seq<Finding>, tail: seq<Finding>)
    requires |rules| > 0 && DistinctKinds(rules)
    requires forall i :: 0 <= i < |head| ==> head[i].kind == rules[0].kind
    requires forall i :: 0 <= i < |tail| ==> KindRank(rules[1..], tail[i].kind) < |rules| - 1
    requires SeparatedWithinKind(head) && SeparatedWithinKind(tail)
    ensures SeparatedWithinKind(head + tail)
  {
    var fs := head + tail;
    forall i, j | 0 <= i < |head| <= j < |fs|
      ensures fs[i].kind != fs[j].kind
    {
      var f := tail[j - |head|];
      var k := KindRank(rules[1..], f.kind);
      assert rules[k + 1].kind == f.kind;
    }
    forall i, j | |head| <= i < j < |fs|
      ensures fs[i] == tail[i - |head|] && fs[j] == tail[j - |head|]
    {
    }
  }

  lemma RulesDistinct()
    ensures DistinctKinds(Rules)
  {
  }

  /**
   * `analyzeText`: an absent input is read as the empty text; every finding
   * is a genuine match of its rule, the findings of each rule are all the
   * matches its `exec` loop finds, in order, findings are grouped by rule
   * in table order, and within a rule they run left to right without
   * overlapping.
   */
  function AnalyzeText(input: Option<string>): (a: Analysis)
    ensures a.text_length == |input.GetOr("")|
    ensures forall i :: 0 <= i < |a.findings| ==> Explained(Rules, input.GetOr(""), a.findings[i])
    ensures forall k {:trigger RuleFindings(Rules[k], input.GetOr(""))} :: 0 <= k < |Rules| ==>
              OfKind(a.findings, Rules[k].kind) == RuleFindings(Rules[k], input.GetOr(""))
    ensures GroupedInOrder(Rules, a.findings)
    ensures SeparatedWithinKind(a.findings)
  {
    RulesDistinct();
    var text := input.GetOr("");
    Analysis(|text|, AllFindings(Rules, text))
  }

  /** Every match the `exec` loop of a rule finds is reported as a finding of that rule. */
  lemma EveryMatchReported(input: Option<string>, k: nat, j: nat)
    requires k < |Rules| && j < |Scan(Rules[k].Pat(), input.GetOr(""), 0)|
    ensures FindingOf(Rules[k], Scan(Rules[k].Pat(), input.GetOr(""), 0)[j]) in AnalyzeText(input).findings
  {
    var fs := RuleFindings(Rules[k], input.GetOr(""));
    assert fs[j] in fs;
  }

  /** Severity 1 for `topic_drift`, 2 for every other rule of the table. */
  lemma SeverityTable(k: nat)
    requires k < |Rules|
    ensures Rules[k].severity == (if Rules[k].kind == "topic_drift" then 1 else 2)
  {
  }

  /** Every finding has a type of the table, and severity 1 if it is `topic_drift` and 2 otherwise. */
  lemma FindingSeverity(input: Option<string>, f: Finding)
    requires f in AnalyzeText(input).findings
    ensures KindRank(Rules, f.kind) < |Rules|
    ensures f.severity == (if f.kind == "topic_drift" then 1 else 2)
  {
    assert Explained(Rules, input.GetOr(""), f);
    SeverityTable(KindRank(Rules, f.kind));
  }

  /** `e` equals one of the phrases up to ASCII case. */
  predicate FoldsToOneOf(e: string, phrases: seq<string>) {
    exists q :: q in phrases && FoldEq(e, q)
  }

  /** A finding explained by a rule is, up to ASCII case, one of that rule's phrases at its index. */
  lemma ExplainedIsPhrase(rules: seq<Rule>, text: string, f: Finding)
    requires Explained(rules, text, f)
    ensures f.evidence == text[f.index..f.index + |f.evidence|]
    ensures FoldsToOneOf(f.evidence, rules[KindRank(rules, f.kind)].phrases)
  {
    var ps := rules[KindRank(rules, f.kind)].phrases;
    PhraseMatch(ps, true, true, text, f.index);
    var m :| 0 <= m < |ps| && LitAt(text, f.index, ps[m], true)
      && MatchAt(Phrases(ps, true, true), text, f.index) == Some(|ps[m]|);
    assert ps[m] in ps;
  }

  /** The evidence of every finding is, up to ASCII case, one of its rule's phrases. */
  lemma FindingIsPhrase(input: Option<string>, f: Finding)
    requires f in AnalyzeText(input).findings
    ensures KindRank(Rules, f.kind) < |Rules|
    ensures FoldsToOneOf(f.evidence, Rules[KindRank(Rules, f.kind)].phrases)
  {
    ExplainedIsPhrase(Rules, input.GetOr(""), f);
  }
}

=== FILE: sorting.dfy ===
/**
 * Ordering helpers shared by the stores and the linter: the character
 * order on strings (the order of ISO timestamps compared as text), a
 * stable insertion sort by an arbitrary total preorder, and SQL's `LIMIT`.
 */
module Sorting {

  /**
   * Lexicographic order on strings by character code, the order in which
   * ISO-8601 timestamps stored as text compare.
   */
  predicate StrLe(a: string, b: string)
    decreases |a|
  {
    if |a| == 0 then true
    else if |b| == 0 then false
    else if a[0] < b[0] then true
    else if a[0] > b[0] then false
    else StrLe(a[1..], b[1..])
  }

  lemma {:induction false} StrLeTotal(a: string, b: string)
    ensures StrLe(a, b) || StrLe(b, a)
    decreases |a|
  {
    if |a| > 0 && |b| > 0 && a[0] == b[0] {
      StrLeTotal(a[1..], b[1..]);
    }
  }

  lemma {:induction false} StrLeTrans(a: string, b: string, c: string)
    requires StrLe(a, b) && StrLe(b, c)
    ensures StrLe(a, c)
    decreases |a|
  {
    if |a| > 0 && |b| > 0 && |c| > 0 && a[0] == b[0] && b[0] == c[0] {
      StrLeTrans(a[1..], b[1..], c[1..]);
    }
  }

  lemma {:induction false} StrLeAntisym(a: string, b: string)
    requires StrLe(a, b) && StrLe(b, a)
    ensures a == b
    decreases |a|
  {
    if |a| > 0 && |b| > 0 {
      StrLeAntisym(a[1..], b[1..]);
      assert a == [a[0]] + a[1..] && b == [b[0]] + b[1..];
    }
  }

  /** A comparison every pair of values answers and that chains. */
  ghost predicate TotalPreorder<T(!new)>(le: (T, T) -> bool) {
    && (forall a, b :: le(a, b) || le(b, a))
    && (forall a, b, c :: le(a, b) && le(b, c) ==> le(a, c))
  }

  predicate SortedBy<T>(le: (T, T) -> bool, s: seq<T>) {
    forall i, j :: 0 <= i < j < |s| ==> le(s[i], s[j])
  }

  /**
   * Inserts `x` into a sorted list after every element that is not greater
   * than it, so equal elements keep their arrival order.
   */
  function Insert<T(!new)>(le: (T, T) -> bool, x: T, s: seq<T>): (r: seq<T>)
    requires TotalPreorder(le)
    requires SortedBy(le, s)
    ensures SortedBy(le, r)
    ensures multiset(r) == multiset(s) + multiset{x}
    ensures |r| == |s| + 1
    decreases |s|
  {
    if |s| == 0 then [x]
    else if le(s[0], x) then
      var tail := Insert(le, x, s[1..]);
      BoundedAfterInsert(le, s[0], x, s[1..], tail);
      assert s == [s[0]] + s[1..];
      [s[0]] + tail
    else
      [x] + s
  }

  /** A lower bound of `s` and `x` bounds every element of a rearrangement of `s + [x]`. */
  lemma BoundedAfterInsert<T(!new)>(le: (T, T) -> bool, lo: T, x: T, s: seq<T>, r: seq<T>)
    requires le(lo, x)
    requires forall k :: 0 <= k < |s| ==> le(lo, s[k])
    requires multiset(r) == multiset(s) + multiset{x}
    ensures forall k :: 0 <= k < |r| ==> le(lo, r[k])
  {
    forall k | 0 <= k < |r|
      ensures le(lo, r[k])
    {
      assert r[k] in multiset(r);
      if r[k] != x {
        assert r[k] in multiset(s);
        var j :| 0 <= j < |s| && s[j] == r[k];
      }
    }
  }

  /** A stable sort: the elements of `s` rearranged into `le` order. */
  function SortBy<T(!new)>(le: (T, T) -> bool, s: seq<T>): (r: seq<T>)
    requires TotalPreorder(le)
    ensures SortedBy(le, r)
    ensures multiset(r) == multiset(s)
    ensures |r| == |s|
    decreases |s|
  {
    if |s| == 0 then []
    else
      assert s == s[..|s| - 1] + [s[|s| - 1]];
      Insert(le, s[|s| - 1], SortBy(le, s[..|s| - 1]))
  }

  /** Newest first by a text timestamp. */
  predicate NewerFirst(a: string, b: string) {
    StrLe(b, a)
  }

  lemma NewerFirstIsPreorder<T(!new)>(key: T -> string)
    ensures TotalPreorder((a: T, b: T) => NewerFirst(key(a), key(b)))
  {
    forall a: T, b: T
      ensures NewerFirst(key(a), key(b)) || NewerFirst(key(b), key(a))
    {
      StrLeTotal(key(a), key(b));
    }
    forall a: T, b: T, c: T | NewerFirst(key(a), key(b)) && NewerFirst(key(b), key(c))
      ensures NewerFirst(key(a), key(c))
    {
      StrLeTrans(key(c), key(b), key(a));
    }
  }

  /** SQL `LIMIT n`: a negative limit means no bound. */
  function Limit<T>(s: seq<T>, n: int): (r: seq<T>)
    ensures n < 0 ==> r == s
    ensures n >= 0 ==> |r| == if n < |s| then n else |s|
    ensures |r| <= |s| && r == s[..|r|]
  {
    if n < 0 || n >= |s| then s else s[..n]
  }

  /** Every element of `pool` that `r` leaves out comes after every element of `r`. */
  predicate RestAfter<T>(le: (T, T) -> bool, r: seq<T>, pool: multiset<T>) {
    forall x, y :: x in r && y in pool - multiset(r) ==> le(x, y)
  }

  /** A prefix of a sorted list is sorted, and comes before what follows it. */
  lemma PrefixFirst<T>(le: (T, T) -> bool, s: seq<T>, k: nat)
    requires SortedBy(le, s) && k <= |s|
    ensures SortedBy(le, s[..k])
    ensures multiset(s) == multiset(s[..k]) + multiset(s[k..])
    ensures forall x, y :: x in s[..k] && y in multiset(s[k..]) ==> le(x, y)
  {
    assert s == s[..k] + s[k..];
    forall x, y | x in s[..k] && y in multiset(s[k..])
      ensures le(x, y)
    {
      var i :| 0 <= i < k && s[..k][i] == x;
      assert y in s[k..];
      var j :| 0 <= j < |s| - k && s[k..][j] == y;
      assert s[i] == x && s[k + j] == y;
    }
  }
}

=== FILE: storage_settings.dfy ===
/**
 * The storage settings document and the session table it sits beside:
 * reading overlays the stored fields on the defaults, and changing the
 * mode forces the audit and transcript switches that mode requires.
 */
module StorageSettings {
  import opened Common

  datatype StorageMode = Minimal | Standard | Verbose

  datatype Settings = Settings(
    mode: StorageMode, auditPublicEnabled: bool, auditPrivateEnabled: bool,
    retainDays: int, storeFullTranscripts: bool)

  /** The fields present in a stored settings document; an absent field is `None`. */
  datatype StoredSettings = StoredSettings(
    mode: Option<StorageMode>, auditPublicEnabled: Option<bool>, auditPrivateEnabled: Option<bool>,
    retainDays: Option<int>, storeFullTranscripts: Option<bool>)

  datatype SessionRow = SessionRow(createdAt: string, lastSeenAt: string, debugUnlocked: bool)

  /**
   * The `sessions` table and the `storage` row of the settings table:
   * `None` when there is no row, `Some(None)` when its JSON is empty or does
   * not parse.
   */
  datatype SettingsDb = SettingsDb(sessions: map<string, SessionRow>, storage: Option<Option<StoredSettings>>)

  const Defaults := Settings(Minimal, true, false, 7, false)

  /** A complete document: every field present. */
  function Full(s: Settings): StoredSettings {
    StoredSettings(Some(s.mode), Some(s.auditPublicEnabled), Some(s.auditPrivateEnabled),
                   Some(s.retainDays), Some(s.storeFullTranscripts))
  }

  /** `{ ...base, ...doc }`: each field of `doc` that is present wins. */
  function Overlay(base: Settings, doc: StoredSettings): (s: Settings)
    ensures s.mode == doc.mode.GetOr(base.mode)
    ensures s.auditPublicEnabled == doc.auditPublicEnabled.GetOr(base.auditPublicEnabled)
    ensures s.auditPrivateEnabled == doc.auditPrivateEnabled.GetOr(base.auditPrivateEnabled)
    ensures s.retainDays == doc.retainDays.GetOr(base.retainDays)
    ensures s.storeFullTranscripts == doc.storeFullTranscripts.GetOr(base.storeFullTranscripts)
  {
    Settings(doc.mode.GetOr(base.mode), doc.auditPublicEnabled.GetOr(base.auditPublicEnabled),
             doc.auditPrivateEnabled.GetOr(base.auditPrivateEnabled), doc.retainDays.GetOr(base.retainDays),
             doc.storeFullTranscripts.GetOr(base.storeFullTranscripts))
  }

  /** A complete document read back over any base is the settings it was written from. */
  lemma OverlayFull(base: Settings, s: Settings)
    ensures Overlay(base, Full(s)) == s
  {
  }

  /** `getStorageSettings`: the defaults, with the stored fields laid over them when there are any. */
  function GetStorageSettings(db: SettingsDb): (s: Settings)
    ensures db.storage.None? || db.storage.value.None? ==> s == Defaults
    ensures db.storage.Some? && db.storage.value.Some? ==> s == Overlay(Defaults, db.storage.value.value)
  {
    if db.storage.Some? && db.storage.value.Some? then Overlay(Defaults, db.storage.value.value) else Defaults
  }

  /** `UPDATE settings SET value_json = …`: writes only over an existing row. */
  function StoreSettings(db: SettingsDb, s: Settings): (r: SettingsDb)
    ensures r.sessions == db.sessions
    ensures db.storage.Some? ==> r.storage == Some(Some(Full(s)))
    ensures db.storage.None? ==> r == db
  {
    if db.storage.Some? then db.(storage := Some(Some(Full(s)))) else db
  }

  /** The least retention each mode keeps. */
  function RetainFloor(mode: StorageMode): int {
    match mode
    case Minimal => 3
    case Standard => 7
    case Verbose => 14
  }

  /** The settings a mode change produces from the current ones. */
  function ForMode(current: Settings, mode: StorageMode): (next: Settings)
    ensures next.mode == mode && next.auditPublicEnabled
    ensures next.retainDays == MaxInt(RetainFloor(mode), current.retainDays)
    ensures next.retainDays >= current.retainDays
    ensures next.storeFullTranscripts == (mode == Verbose && current.storeFullTranscripts)
    ensures next.auditPrivateEnabled == current.auditPrivateEnabled
  {
    var keep := if mode == Verbose then current.storeFullTranscripts else false;
    current.(mode := mode, auditPublicEnabled := true, storeFullTranscripts := keep,
             retainDays := MaxInt(RetainFloor(mode), current.retainDays))
  }

  /** `setStorageMode`: the next settings, stored over the existing row. */
  function SetStorageMode(db: SettingsDb, mode: StorageMode): (r: (SettingsDb, Settings))
    ensures r.1 == ForMode(GetStorageSettings(db), mode)
    ensures r.0 == StoreSettings(db, r.1)
    ensures db.storage.Some? ==> GetStorageSettings(r.0) == r.1
  {
    var next := ForMode(GetStorageSettings(db), mode);
    OverlayFull(Defaults, next);
    (StoreSettings(db, next), next)
  }

  /** Choosing the same mode twice gives the settings of choosing it once. */
  lemma SetStorageModeIdempotent(db: SettingsDb, mode: StorageMode)
    ensures var (db1, s1) := SetStorageMode(db, mode);
            var (db2, s2) := SetStorageMode(db1, mode);
            s2 == s1 && db2 == db1
  {
    var (db1, s1) := SetStorageMode(db, mode);
    if db.storage.None? {
      assert db1 == db;
    } else {
      assert GetStorageSettings(db1) == s1;
      assert ForMode(s1, mode) == s1;
    }
  }

  /** `setDebugUnlocked`: the session flag and the private-audit switch follow `unlocked`. */
  function SetDebugUnlocked(db: SettingsDb, sessionId: string, unlocked: bool): (r: SettingsDb)
    ensures sessionId in db.sessions <==> sessionId in r.sessions
    ensures sessionId in db.sessions ==> r.sessions[sessionId] == db.sessions[sessionId].(debugUnlocked := unlocked)
    ensures forall s :: s != sessionId && s in db.sessions ==> s in r.sessions && r.sessions[s] == db.sessions[s]
    ensures forall s :: s in r.sessions ==> s in db.sessions
    ensures db.storage.Some? ==> GetStorageSettings(r) == GetStorageSettings(db).(auditPrivateEnabled := unlocked)
    ensures db.storage.None? ==> r.storage.None?
  {
    var sessions := if sessionId in db.sessions
      then db.sessions[sessionId := db.sessions[sessionId].(debugUnlocked := unlocked)]
      else db.sessions;
    var db1 := db.(sessions := sessions);
    var next := GetStorageSettings(db1).(auditPrivateEnabled := unlocked);
    OverlayFull(Defaults, next);
    StoreSettings(db1, next)
  }

  function IsDebugUnlocked(db: SettingsDb, sessionId: string): bool {
    sessionId in db.sessions && db.sessions[sessionId].debugUnlocked
  }

  /** Unlocking then asking gives true; locking then asking gives false. */
  lemma DebugUnlockRoundTrip(db: SettingsDb, sessionId: string, unlocked: bool)
    requires sessionId in db.sessions
    ensures IsDebugUnlocked(SetDebugUnlocked(db, sessionId, unlocked), sessionId) == unlocked
  {
  }

  /**
   * `ensureSession`: the given id, or `freshId` when none is given; a new
   * row starts with `debug_unlocked` 0, an existing one only has its
   * `last_seen_at` refreshed; the settings row is created with the defaults
   * when missing.
   */
  function EnsureSession(db: SettingsDb, sessionId: Option<string>, freshId: string, now: string): (r: (SettingsDb, string))
    ensures r.1 == sessionId.GetOr(freshId)
    ensures r.1 in r.0.sessions
    ensures r.1 !in db.sessions ==> r.0.sessions[r.1] == SessionRow(now, now, false)
    ensures r.1 in db.sessions ==> r.0.sessions[r.1] == db.sessions[r.1].(lastSeenAt := now)
    ensures forall s :: s != r.1 ==> (s in r.0.sessions <==> s in db.sessions)
    ensures forall s :: s != r.1 && s in db.sessions ==> r.0.sessions[s] == db.sessions[s]
    ensures db.storage.None? ==> r.0.storage == Some(Some(Full(Defaults)))
    ensures db.storage.Some? ==> r.0.storage == db.storage
  {
    var id := sessionId.GetOr(freshId);
    var row := if id in db.sessions then db.sessions[id].(lastSeenAt := now) else SessionRow(now, now, false);
    var storage := if db.storage.None? then Some(Some(Full(Defaults))) else db.storage;
    (SettingsDb(db.sessions[id := row], storage), id)
  }

  /** After `ensureSession` the settings read back are the stored ones, or the defaults on a fresh store. */
  lemma EnsureSessionSettings(db: SettingsDb, sessionId: Option<string>, freshId: string, now: string)
    ensures GetStorageSettings(EnsureSession(db, sessionId, freshId, now).0) == GetStorageSettings(db)
  {
    OverlayFull(Defaults, Defaults);
  }
}

=== FILE: stores.dfy ===
/**
 * The two shelves. The kernel's bookcase service stores a whole tensor
 * under a fresh shelf id and reads it back by id; the bookcase proper keeps
 * labelled items per session with a status that `unshelve`, `purgeSession`
 * and the recovery service's `integrate` move along. Tables are sequences of
 * records in insertion order; fresh ids and clock readings are parameters.
 */
module Stores {
  import opened Common
  import opened Sorting
  import opened Tensors

  // ---------------------------------------------------------------------
  // Kernel bookcase service: tensors on shelves
  // ---------------------------------------------------------------------

  datatype ShelfReason = HighFrictionFracture | UserRequested | UnknownReason

  /** One row: the shelf id, the session, the tensor's id, the reason, and the tensor itself. */
  datatype ShelfRecord = ShelfRecord(id: string, sessionId: string, tensorId: string, reason: ShelfReason, data: Tensor)

  /** `BookcaseService.shelve`: one more row under `shelfId`, whose id is returned. */
  function ShelveTensor(shelf: seq<ShelfRecord>, sessionId: string, t: Tensor, reason: ShelfReason, shelfId: string)
    : (r: (seq<ShelfRecord>, string))
    ensures r.1 == shelfId
    ensures |r.0| == |shelf| + 1 && r.0[..|shelf|] == shelf
    ensures r.0[|shelf|] == ShelfRecord(shelfId, sessionId, t.id, reason, t)
  {
    (shelf + [ShelfRecord(shelfId, sessionId, t.id, reason, t)], shelfId)
  }

  predicate HasShelf(shelf: seq<ShelfRecord>, shelfId: string) {
    exists k :: 0 <= k < |shelf| && shelf[k].id == shelfId
  }

  /** The position of the first row with that id, or the table length when there is none. */
  function FirstWithId(shelf: seq<ShelfRecord>, shelfId: string): (k: nat)
    ensures k <= |shelf|
    ensures forall m :: 0 <= m < k ==> shelf[m].id != shelfId
    ensures k < |shelf| ==> shelf[k].id == shelfId
    decreases |shelf|
  {
    if |shelf| == 0 || shelf[0].id == shelfId then 0
    else
      var k := FirstWithId(shelf[1..], shelfId);
      assert forall m :: 1 <= m < k + 1 ==> shelf[m] == shelf[1..][m - 1];
      k + 1
  }

  /** `BookcaseService.unshelve`: the tensor of the first row with that id, or nothing. */
  function UnshelveTensor(shelf: seq<ShelfRecord>, shelfId: string): (t: Option<Tensor>)
    ensures t.None? <==> !HasShelf(shelf, shelfId)
    ensures t.Some? ==> t.value == shelf[FirstWithId(shelf, shelfId)].data
  {
    var k := FirstWithId(shelf, shelfId);
    if k < |shelf| then Some(shelf[k].data) else None
  }

  /** A tensor shelved under a fresh id is what unshelving that id returns. */
  lemma {:induction false} ShelveThenUnshelve(shelf: seq<ShelfRecord>, sessionId: string, t: Tensor,
                                              reason: ShelfReason, shelfId: string)
    requires !HasShelf(shelf, shelfId)
    ensures UnshelveTensor(ShelveTensor(shelf, sessionId, t, reason, shelfId).0, shelfId) == Some(t)
    decreases |shelf|
  {
    var rec := ShelfRecord(shelfId, sessionId, t.id, reason, t);
    if |shelf| == 0 {
      assert shelf + [rec] == [rec];
    } else {
      assert shelf[0].id != shelfId;
      assert !HasShelf(shelf[1..], shelfId);
      ShelveThenUnshelve(shelf[1..], sessionId, t, reason, shelfId);
      assert (shelf + [rec])[1..] == shelf[1..] + [rec];
    }
  }

  /** Shelving under one id leaves what every other id unshelves to unchanged. */
  lemma {:induction false} ShelveKeepsOtherShelves(shelf: seq<ShelfRecord>, sessionId: string, t: Tensor,
                                                   reason: ShelfReason, shelfId: string, other: string)
    requires other != shelfId
    ensures UnshelveTensor(ShelveTensor(shelf, sessionId, t, reason, shelfId).0, other) == UnshelveTensor(shelf, other)
    decreases |shelf|
  {
    var rec := ShelfRecord(shelfId, sessionId, t.id, reason, t);
    if |shelf| == 0 {
      assert [rec][1..] == [];
    } else {
      ShelveKeepsOtherShelves(shelf[1..], sessionId, t, reason, shelfId, other);
      assert (shelf + [rec])[1..] == shelf[1..] + [rec];
    }
  }

  // ---------------------------------------------------------------------
  // Bookcase items
  // ---------------------------------------------------------------------

  /** The statuses an item row takes; `Integrated` is written only by the recovery service. */
  datatype ItemStatus = Shelved | Unshelved | Purged | Integrated

  datatype BookcaseItem = BookcaseItem(
    id: string, sessionId: string, createdAt: string, itemLabel: string, content: string,
    unshelveCondition: string, status: ItemStatus, unshelvedAt: Option<string>)

  /** `Bookcase.shelve`: a new shelved item, appended; the condition defaults to "". */
  function ShelveItem(items: seq<BookcaseItem>, sessionId: string, itemLabel: string, content: string,
                      unshelveCondition: Option<string>, id: string, now: string)
    : (r: (seq<BookcaseItem>, BookcaseItem))
    ensures r.0 == items + [r.1]
    ensures r.1.status == Shelved && r.1.unshelvedAt.None?
    ensures r.1.id == id && r.1.sessionId == sessionId && r.1.createdAt == now
    ensures r.1.itemLabel == itemLabel && r.1.content == content
    ensures r.1.unshelveCondition == unshelveCondition.GetOr("")
  {
    var item := BookcaseItem(id, sessionId, now, itemLabel, content, unshelveCondition.GetOr(""), Shelved, None);
    (items + [item], item)
  }

  predicate Listed(x: BookcaseItem, sessionId: string) {
    x.sessionId == sessionId && x.status != Purged
  }

  /** `WHERE session_id = ? AND status != 'PURGED'`, in table order. */
  function Visible(items: seq<BookcaseItem>, sessionId: string): (out: seq<BookcaseItem>)
    ensures forall x :: x in out <==> x in items && Listed(x, sessionId)
    decreases |items|
  {
    if |items| == 0 then []
    else
      var rest := Visible(items[1..], sessionId);
      assert items == [items[0]] + items[1..];
      if Listed(items[0], sessionId) then [items[0]] + rest else rest
  }

  predicate NewerItem(a: BookcaseItem, b: BookcaseItem) {
    NewerFirst(a.createdAt, b.createdAt)
  }

  lemma NewerItemIsPreorder()
    ensures TotalPreorder(NewerItem)
  {
    forall a: BookcaseItem, b: BookcaseItem
      ensures NewerItem(a, b) || NewerItem(b, a)
    {
      StrLeTotal(a.createdAt, b.createdAt);
    }
    forall a: BookcaseItem, b: BookcaseItem, c: BookcaseItem | NewerItem(a, b) && NewerItem(b, c)
      ensures NewerItem(a, c)
    {
      StrLeTrans(c.createdAt, b.createdAt, a.createdAt);
    }
  }

  /** `Bookcase.list`: exactly the session's items that are not purged, newest first. */
  function List(items: seq<BookcaseItem>, sessionId: string): (out: seq<BookcaseItem>)
    ensures multiset(out) == multiset(Visible(items, sessionId))
    ensures forall x :: x in out <==> x in items && Listed(x, sessionId)
    ensures SortedBy(NewerItem, out)
  {
    NewerItemIsPreorder();
    var out := SortBy(NewerItem, Visible(items, sessionId));
    assert forall x :: x in out <==> x in multiset(Visible(items, sessionId));
    out
  }

  predicate Targets(x: BookcaseItem, sessionId: string, itemId: string) {
    x.id == itemId && x.sessionId == sessionId
  }

  /** `Bookcase.unshelve`: every item with that id in that session becomes unshelved, whatever its status. */
  function UnshelveItem(items: seq<BookcaseItem>, sessionId: string, itemId: string, now: string)
    : (out: seq<BookcaseItem>)
    ensures |out| == |items|
    ensures forall i :: 0 <= i < |items| && Targets(items[i], sessionId, itemId) ==>
              out[i] == items[i].(status := Unshelved, unshelvedAt := Some(now))
    ensures forall i :: 0 <= i < |items| && !Targets(items[i], sessionId, itemId) ==> out[i] == items[i]
  {
    seq(|items|, i requires 0 <= i < |items| =>
      if Targets(items[i], sessionId, itemId) then items[i].(status := Unshelved, unshelvedAt := Some(now))
      else items[i])
  }

  /** `Bookcase.purgeSession`: every item of the session becomes purged; nothing else changes. */
  function PurgeSession(items: seq<BookcaseItem>, sessionId: string): (out: seq<BookcaseItem>)
    ensures |out| == |items|
    ensures forall i :: 0 <= i < |items| && items[i].sessionId == sessionId ==> out[i] == items[i].(status := Purged)
    ensures forall i :: 0 <= i < |items| && items[i].sessionId != sessionId ==> out[i] == items[i]
  {
    seq(|items|, i requires 0 <= i < |items| =>
      if items[i].sessionId == sessionId then items[i].(status := Purged) else items[i])
  }

  /** After purging a session, its list is empty. */
  lemma PurgedListIsEmpty(items: seq<BookcaseItem>, sessionId: string)
    ensures List(PurgeSession(items, sessionId), sessionId) == []
  {
    NothingVisibleAfterPurge(items, sessionId);
    var out := List(PurgeSession(items, sessionId), sessionId);
    assert |multiset(out)| == 0;
  }

  lemma {:induction false} NothingVisibleAfterPurge(items: seq<BookcaseItem>, sessionId: string)
    ensures Visible(PurgeSession(items, sessionId), sessionId) == []
    decreases |items|
  {
    if |items| > 0 {
      assert PurgeSession(items, sessionId)[1..] == PurgeSession(items[1..], sessionId);
      NothingVisibleAfterPurge(items[1..], sessionId);
    }
  }

  /** Purging one session leaves another session's list as it was. */
  lemma {:induction false} PurgeKeepsOtherSessions(items: seq<BookcaseItem>, sessionId: string, other: string)
    requires other != sessionId
    ensures Visible(PurgeSession(items, sessionId), other) == Visible(items, other)
    decreases |items|
  {
    if |items| > 0 {
      assert PurgeSession(items, sessionId)[1..] == PurgeSession(items[1..], sessionId);
      PurgeKeepsOtherSessions(items[1..], sessionId, other);
    }
  }

  /** No status check: a purged item can be unshelved, and it is listed again. */
  lemma PurgedCanBeUnshelved(x: BookcaseItem, now: string)
    requires x.status == Purged
    ensures var out := UnshelveItem([x], x.sessionId, x.id, now);
            out[0].status == Unshelved && out[0] in List(out, x.sessionId)
  {
  }

  // ---------------------------------------------------------------------
  // Recovery service
  // ---------------------------------------------------------------------

  datatype Integration = Integration(ok: bool, message: string)

  predicate Integrable(x: BookcaseItem, shelfId: string) {
    x.id == shelfId && x.status == Shelved
  }

  /** The acknowledgement written into the unshelve condition. */
  function Acknowledged(peerNote: string): string {
    "Acknowledged: " + peerNote
  }

  /**
   * `RecoveryService.integrate`: every shelved item with that id becomes
   * integrated with the acknowledgement; it succeeds exactly when at least
   * one row changed.
   */
  function Integrate(items: seq<BookcaseItem>, shelfId: string, peerNote: string, now: string)
    : (r: (seq<BookcaseItem>, Integration))
    ensures |r.0| == |items|
    ensures forall i :: 0 <= i < |items| && Integrable(items[i], shelfId) ==>
              r.0[i] == items[i].(status := Integrated, unshelvedAt := Some(now),
                                  unshelveCondition := Acknowledged(peerNote))
    ensures forall i :: 0 <= i < |items| && !Integrable(items[i], shelfId) ==> r.0[i] == items[i]
    ensures r.1.ok <==> exists i :: 0 <= i < |items| && Integrable(items[i], shelfId)
    ensures !r.1.ok ==> r.0 == items && r.1.message == "Signal not found or already integrated."
    ensures r.1.ok ==> r.1.message == "Signal integrated. System operating parameters updated."
  {
    var out := seq(|items|, i requires 0 <= i < |items| =>
      if Integrable(items[i], shelfId)
      then items[i].(status := Integrated, unshelvedAt := Some(now), unshelveCondition := Acknowledged(peerNote))
      else items[i]);
    var changed := exists i :: 0 <= i < |items| && Integrable(items[i], shelfId);
    if !changed then
      assert out == items;
      (out, Integration(false, "Signal not found or already integrated."))
    else (out, Integration(true, "Signal integrated. System operating parameters updated."))
  }

  /** A second integrate of the same id finds nothing left to integrate. */
  lemma IntegrateTwice(items: seq<BookcaseItem>, shelfId: string, note1: string, note2: string,
                       now1: string, now2: string)
    ensures var once := Integrate(items, shelfId, note1, now1).0;
            !Integrate(once, shelfId, note2, now2).1.ok
  {
    var once := Integrate(items, shelfId, note1, now1).0;
    forall i | 0 <= i < |once| ensures !Integrable(once[i], shelfId) {
      if Integrable(items[i], shelfId) {
        assert once[i].status == Integrated;
      }
    }
  }

  /** Only a shelved item integrates: an unshelved, purged or integrated one is refused. */
  lemma OnlyShelvedIntegrates(x: BookcaseItem, peerNote: string, now: string)
    ensures Integrate([x], x.id, peerNote, now).1.ok <==> x.status == Shelved
  {
    assert [x][0] == x;
  }
}

=== FILE: suggestion.dfy ===
/**
 * The IDS block (identify / define / suggest) the suggestion engine writes
 * from a resonance snapshot: option-framed text with the snapshot's
 * figures printed to two decimals.
 */
module Suggestion {
  import opened Common

  /** An element of a loosely typed list: a string, or anything else. */
  datatype Item = Str(s: string) | NotString

  /** The three parts of a reply. */
  datatype Ids = Ids(identify: string, define: string, suggest: seq<string>)

  /** What the engine reads of a snapshot. */
  datatype SnapshotView = SnapshotView(
    suggestedAxiomTags: Option<seq<Item>>, resonanceStatus: string, equilibriumDelta: real,
    driftRisk: real, spineCoherence: real, currentCoherence: real, baselineUsed: bool)

  /** `items.filter((s) => typeof s === "string" && s.length > 0)`. */
  function NonEmptyStrings(items: seq<Item>): (r: seq<string>)
    ensures forall s :: s in r <==> Str(s) in items && s != ""
    ensures |r| <= |items|
    decreases |items|
  {
    if |items| == 0 then []
    else
      var rest := NonEmptyStrings(items[1..]);
      assert items == [items[0]] + items[1..];
      if items[0].Str? && items[0].s != "" then [items[0].s] + rest else rest
  }

  /** `uniqueStrings`: the non-empty strings, each once, in first-seen order. */
  function UniqueStrings(items: seq<Item>): (r: seq<string>)
    ensures NoDup(r)
    ensures forall s :: s in r <==> Str(s) in items && s != ""
    ensures forall i, j :: 0 <= i < j < |r| ==> FirstIndex(items, Str(r[i])) < FirstIndex(items, Str(r[j]))
  {
    var ne := NonEmptyStrings(items);
    var r := Dedup(ne);
    forall i, j | 0 <= i < j < |r| ensures FirstIndex(items, Str(r[i])) < FirstIndex(items, Str(r[j])) {
      NonEmptyStringsOrder(items, r[i], r[j]);
    }
    r
  }

  /** Filtering keeps the relative order of first occurrences. */
  lemma {:induction false} NonEmptyStringsOrder(items: seq<Item>, a: string, b: string)
    requires a in NonEmptyStrings(items) && b in NonEmptyStrings(items)
    requires FirstIndex(NonEmptyStrings(items), a) < FirstIndex(NonEmptyStrings(items), b)
    ensures Str(a) in items && Str(b) in items
    ensures FirstIndex(items, Str(a)) < FirstIndex(items, Str(b))
    decreases |items|
  {
    var ne, rest := NonEmptyStrings(items), NonEmptyStrings(items[1..]);
    assert items == [items[0]] + items[1..];
    if items[0] == Str(a) {
      assert a != b;
    } else if items[0].Str? && items[0].s != "" {
      assert ne == [items[0].s] + rest;
      assert items[0].s != b;
      NonEmptyStringsOrder(items[1..], a, b);
    } else {
      assert ne == rest;
      NonEmptyStringsOrder(items[1..], a, b);
    }
  }

  function Items(xs: seq<string>): (items: seq<Item>)
    ensures |items| == |xs| && forall i :: 0 <= i < |xs| ==> items[i] == Str(xs[i])
  {
    seq(|xs|, i requires 0 <= i < |xs| => Str(xs[i]))
  }

  /** A list of distinct non-empty strings passes through unchanged. */
  lemma {:induction false} UniqueStringsOfClean(xs: seq<string>)
    requires NoDup(xs) && forall i :: 0 <= i < |xs| ==> xs[i] != ""
    ensures UniqueStrings(Items(xs)) == xs
  {
    NonEmptyStringsOfClean(xs);
    DedupOfNoDup(xs);
  }

  lemma {:induction false} NonEmptyStringsOfClean(xs: seq<string>)
    requires forall i :: 0 <= i < |xs| ==> xs[i] != ""
    ensures NonEmptyStrings(Items(xs)) == xs
    decreases |xs|
  {
    if |xs| > 0 {
      assert Items(xs)[1..] == Items(xs[1..]);
      NonEmptyStringsOfClean(xs[1..]);
      assert xs == [xs[0]] + xs[1..];
    }
  }

  const Uncertain := "uncertain"

  /** The tags joined by ", ", or "uncertain" when there are none. */
  function TagText(tags: seq<string>): (s: string)
    ensures |tags| == 0 ==> s == Uncertain
    ensures |tags| > 0 ==> s == Join(tags, ", ")
  {
    if |tags| > 0 then Join(tags, ", ") else Uncertain
  }

  const StablePrefix := "Observed alignment: stable"
  const ShiftPrefix := "Observed alignment shift: "

  /** The first words of `identify`: the stable wording exactly for the `"aligned"` status. */
  function IdentifyPrefix(status: string): (p: string)
    ensures p == StablePrefix <==> status == "aligned"
    ensures status != "aligned" ==> p == ShiftPrefix + status
  {
    if status == "aligned" then StablePrefix
    else
      var p := ShiftPrefix + status;
      assert p[18] != StablePrefix[18];
      p
  }

  const BaselineMark := " [baseline_used]"

  /** The three driver figures, each printed with `toFixed(2)`. */
  function Drivers(snap: SnapshotView): string {
    " (drift=" + ToFixed2(snap.driftRisk) + ", spine="
      + ToFixed2(snap.spineCoherence) + ", current=" + ToFixed2(snap.currentCoherence)
  }

  /** The closing of `identify`: the baseline mark when the baseline was used, then the full stop. */
  function Closing(baselineUsed: bool): (c: string)
    ensures |c| >= 2 && c[|c| - 1] == '.'
    ensures baselineUsed <==> c[|c| - 2] == ']'
  {
    ")" + (if baselineUsed then BaselineMark else "") + "."
  }

  /** `identify`: the status wording, the figures, and the baseline mark exactly when the baseline was used. */
  function Identify(snap: SnapshotView): (s: string)
    ensures IsPrefix(IdentifyPrefix(snap.resonanceStatus) + ". Delta=", s)
    ensures |s| >= 2 && s[|s| - 1] == '.'
    ensures snap.baselineUsed <==> s[|s| - 2] == ']'
    ensures s == IdentifyPrefix(snap.resonanceStatus) + ". Delta=" + ToFixed2(snap.equilibriumDelta)
                 + " (drift=" + ToFixed2(snap.driftRisk) + ", spine=" + ToFixed2(snap.spineCoherence)
                 + ", current=" + ToFixed2(snap.currentCoherence) + ")"
                 + (if snap.baselineUsed then " [baseline_used]" else "") + "."
  {
    IdentifyLine(IdentifyPrefix(snap.resonanceStatus), ToFixed2(snap.equilibriumDelta), ToFixed2(snap.driftRisk),
                 ToFixed2(snap.spineCoherence), ToFixed2(snap.currentCoherence), snap.baselineUsed)
  }

  /** The identify line around already printed figures. */
  function IdentifyLine(prefix: string, delta: string, drift: string, spine: string, current: string,
                        baselineUsed: bool): (s: string)
    ensures IsPrefix(prefix + ". Delta=", s)
    ensures |s| >= 2 && s[|s| - 1] == '.'
    ensures baselineUsed <==> s[|s| - 2] == ']'
  {
    var head := prefix + ". Delta=";
    var body := head + delta + " (drift=" + drift + ", spine=" + spine + ", current=" + current + ")";
    var closed := body + (if baselineUsed then " [baseline_used]" else "");
    var s := closed + ".";
    assert s[..|head|] == head by {
      assert body[..|head|] == head;
      assert s[..|body|] == body;
    }
    assert s[|s| - 2] == closed[|closed| - 1];
    s
  }

  const AlignedDefine := "The peer signal is tracking with the recent spine (AXIOM_1_BALANCE). "
    + "Maintain awareness (AXIOM_5_AWARENESS) and choice framing (AXIOM_6_CHOICE) to keep flow stable. "
  const ShiftDefine := "This pattern suggests reduced equilibrium relative to the recent spine (AXIOM_1_BALANCE). "
    + "When delta rises, perspective can narrow (AXIOM_2_EXTREMES) and forceful phrasing can increase resistance (AXIOM_3_FORCE). "

  /** `define`: the aligned template exactly for the `"aligned"` status, then the tag text. */
  function Define(status: string, tagText: string): (d: string)
    ensures status == "aligned" ==> d == AlignedDefine + "Current tags: " + tagText + "."
    ensures status != "aligned" ==> d == ShiftDefine + "Current tags: " + tagText + "."
  {
    (if status == "aligned" then AlignedDefine else ShiftDefine) + "Current tags: " + tagText + "."
  }

  const Options: seq<string> := [
    "Option: Restate your intent in one sentence, then add one neutral observation (AXIOM_5_AWARENESS).",
    "Option: Offer two choices for next step (e.g., 'Do you want A or B?') to widen agency (AXIOM_6_CHOICE).",
    "Option: Replace pressure phrases with observation language to reduce resistance and invite flow (AXIOM_4_FLOW)."
  ]

  /** `SuggestionEngine.generate`: always a reply, always the three fixed options. */
  function Generate(snap: SnapshotView): (ids: Ids)
    ensures ids.suggest == Options && |ids.suggest| == 3
    ensures ids.identify == Identify(snap)
    ensures ids.define == Define(snap.resonanceStatus, TagText(UniqueStrings(snap.suggestedAxiomTags.GetOr([]))))
  {
    var tags := UniqueStrings(snap.suggestedAxiomTags.GetOr([]));
    Ids(Identify(snap), Define(snap.resonanceStatus, TagText(tags)), Options)
  }

  /** The tag text is "uncertain" whenever no usable tag is left. */
  lemma NoUsableTags(items: seq<Item>)
    requires forall k :: 0 <= k < |items| ==> items[k] == NotString || items[k] == Str("")
    ensures TagText(UniqueStrings(items)) == Uncertain
  {
  }
}

=== FILE: tensor_store.dfy ===
/**
 * The tensor table: `save` appends a row holding the whole tensor and a
 * few indexed columns, `getSpine` reads back a session's newest spine
 * tensors, and the reset service purges a session's unpinned peer
 * tensors. The table is a sequence of rows in insertion order.
 */
module TensorStore {
  import opened Common
  import opened Sorting
  import opened Tensors

  /**
   * One row of `tensors`. `ttlExpiresAt` is the expiry instant in
   * milliseconds; `isPinned` is 0 or 1.
   */
  datatype TensorRow = TensorRow(
    tensorId: string, sessionId: string, tensorType: string, createdAt: string,
    driftRisk: Option<real>, coherenceScore: Option<real>, salienceWeight: Option<real>,
    state: Tensor, ttlExpiresAt: Option<int>, isPinned: int)

  /** The indexed columns agree with the stored tensor. */
  predicate RowConsistent(r: TensorRow) {
    r.tensorId == r.state.id && r.tensorType == r.state.tensorType && r.createdAt == r.state.createdAt
  }

  predicate Consistent(rows: seq<TensorRow>) {
    forall k :: 0 <= k < |rows| ==> RowConsistent(rows[k])
  }

  /** The row `save` inserts at clock reading `nowMs`. */
  function RowOf(sessionId: string, t: Tensor, nowMs: int): (r: TensorRow)
    ensures RowConsistent(r) && r.state == t && r.sessionId == sessionId
    ensures (r.driftRisk, r.coherenceScore, r.salienceWeight) == (t.axes.driftRisk, t.axes.coherenceScore, t.axes.salienceWeight)
    ensures r.ttlExpiresAt.None? <==> t.ttlSeconds.None? || t.ttlSeconds.value <= 0
    ensures r.ttlExpiresAt.Some? ==> r.ttlExpiresAt.value == nowMs + t.ttlSeconds.value * 1000
    ensures r.isPinned == 1 <==> t.pinned
    ensures r.isPinned == 0 <==> !t.pinned
  {
    var ttl := t.ttlSeconds.GetOr(0);
    TensorRow(t.id, sessionId, t.tensorType, t.createdAt,
              t.axes.driftRisk, t.axes.coherenceScore, t.axes.salienceWeight, t,
              if ttl > 0 then Some(nowMs + ttl * 1000) else None,
              if t.pinned then 1 else 0)
  }

  /** `TensorRepository.save`: one more row, the others untouched. */
  function Save(rows: seq<TensorRow>, sessionId: string, t: Tensor, nowMs: int): (out: seq<TensorRow>)
    ensures out == rows + [RowOf(sessionId, t, nowMs)]
    ensures Consistent(rows) ==> Consistent(out)
  {
    rows + [RowOf(sessionId, t, nowMs)]
  }

  predicate SpineRow(r: TensorRow, sessionId: string) {
    r.sessionId == sessionId && r.tensorType == "ST"
  }

  /** `WHERE session_id = ? AND tensor_type = 'ST'`, in table order. */
  function SpineRows(rows: seq<TensorRow>, sessionId: string): (out: seq<TensorRow>)
    ensures forall r :: r in out <==> r in rows && SpineRow(r, sessionId)
    ensures |out| <= |rows|
    decreases |rows|
  {
    if |rows| == 0 then []
    else
      var rest := SpineRows(rows[1..], sessionId);
      assert rows == [rows[0]] + rows[1..];
      if SpineRow(rows[0], sessionId) then [rows[0]] + rest else rest
  }

  predicate NewerTensorRow(a: TensorRow, b: TensorRow) {
    NewerFirst(a.createdAt, b.createdAt)
  }

  lemma NewerTensorRowIsPreorder()
    ensures TotalPreorder(NewerTensorRow)
  {
    forall a: TensorRow, b: TensorRow
      ensures NewerTensorRow(a, b) || NewerTensorRow(b, a)
    {
      StrLeTotal(a.createdAt, b.createdAt);
    }
    forall a: TensorRow, b: TensorRow, c: TensorRow | NewerTensorRow(a, b) && NewerTensorRow(b, c)
      ensures NewerTensorRow(a, c)
    {
      StrLeTrans(c.createdAt, b.createdAt, a.createdAt);
    }
  }

  /**
   * The rows `getSpine` selects: the session's `limit` newest spine rows
   * (5 by default, all of them for a negative limit), newest first; every
   * spine row of the session left out is no newer than every row selected.
   */
  function SpineSelection(rows: seq<TensorRow>, sessionId: string, limit: Option<int>): (sel: seq<TensorRow>)
    ensures forall r :: r in sel ==> r in rows && SpineRow(r, sessionId)
    ensures SortedBy(NewerTensorRow, sel)
    ensures var n := |SpineRows(rows, sessionId)|;
            |sel| == if limit.GetOr(5) < 0 then n else MinInt(limit.GetOr(5), n)
    ensures multiset(sel) <= multiset(SpineRows(rows, sessionId))
    ensures RestAfter(NewerTensorRow, sel, multiset(SpineRows(rows, sessionId)))
  {
    NewerTensorRowIsPreorder();
    var spine := SpineRows(rows, sessionId);
    var sorted := SortBy(NewerTensorRow, spine);
    var sel := Limit(sorted, limit.GetOr(5));
    PrefixFirst(NewerTensorRow, sorted, |sel|);
    assert forall r :: r in sel ==> r in multiset(spine);
    sel
  }

  /** `TensorRepository.getSpine`: the stored tensors of the selected rows, unchanged. */
  function GetSpine(rows: seq<TensorRow>, sessionId: string, limit: Option<int>): (spine: seq<Tensor>)
    ensures var sel := SpineSelection(rows, sessionId, limit);
            |spine| == |sel| && forall i :: 0 <= i < |spine| ==> spine[i] == sel[i].state
    ensures Consistent(rows) ==> forall i :: 0 <= i < |spine| ==> spine[i].tensorType == "ST"
    ensures Consistent(rows) ==> forall i, j :: 0 <= i < j < |spine| ==> StrLe(spine[j].createdAt, spine[i].createdAt)
    ensures var n := |SpineRows(rows, sessionId)|;
            |spine| == if limit.GetOr(5) < 0 then n else MinInt(limit.GetOr(5), n)
  {
    var sel := SpineSelection(rows, sessionId, limit);
    assert forall i :: 0 <= i < |sel| ==> sel[i] in sel;
    States(sel)
  }

  /** The stored tensors of some rows, in the same order. */
  function States(sel: seq<TensorRow>): (spine: seq<Tensor>)
    ensures |spine| == |sel| && forall i :: 0 <= i < |spine| ==> spine[i] == sel[i].state
  {
    seq(|sel|, i requires 0 <= i < |sel| => sel[i].state)
  }

  /**
   * A spine tensor saved after every other spine tensor of its session
   * comes back first, unchanged, from `getSpine` with a positive limit.
   */
  lemma NewestSpineComesFirst(rows: seq<TensorRow>, sessionId: string, t: Tensor, nowMs: int, limit: Option<int>)
    requires t.tensorType == "ST" && limit.GetOr(5) > 0
    requires forall r :: r in rows && SpineRow(r, sessionId) ==> StrLe(r.createdAt, t.createdAt) && r.createdAt != t.createdAt
    ensures var spine := GetSpine(Save(rows, sessionId, t, nowMs), sessionId, limit);
            |spine| > 0 && spine[0] == t
  {
    var rows1 := Save(rows, sessionId, t, nowMs);
    var row := RowOf(sessionId, t, nowMs);
    assert row in rows1 && SpineRow(row, sessionId);
    NewerTensorRowIsPreorder();
    var sorted := SortBy(NewerTensorRow, SpineRows(rows1, sessionId));
    assert row in multiset(SpineRows(rows1, sessionId));
    assert row in multiset(sorted);
    var j :| 0 <= j < |sorted| && sorted[j] == row;
    if j != 0 {
      var first := sorted[0];
      assert first in multiset(SpineRows(rows1, sessionId));
      assert first in rows1 && SpineRow(first, sessionId);
      if first != row {
        assert first in rows;
        assert NewerTensorRow(first, row);
        StrLeAntisym(first.createdAt, row.createdAt);
      }
    }
    assert sorted[0] == row;
  }

  // ---------------------------------------------------------------------
  // Reset
  // ---------------------------------------------------------------------

  /** The rows `reset` deletes: the session's unpinned peer tensors. */
  predicate Purgeable(r: TensorRow, sessionId: string) {
    r.sessionId == sessionId && r.tensorType == "PT" && r.isPinned == 0
  }

  function PurgeCount(rows: seq<TensorRow>, sessionId: string): nat {
    if |rows| == 0 then 0
    else (if Purgeable(rows[0], sessionId) then 1 else 0) + PurgeCount(rows[1..], sessionId)
  }

  /** The rows that survive, in table order. */
  function Survivors(rows: seq<TensorRow>, sessionId: string): (out: seq<TensorRow>)
    ensures forall r :: r in out <==> r in rows && !Purgeable(r, sessionId)
    ensures |out| + PurgeCount(rows, sessionId) == |rows|
    decreases |rows|
  {
    if |rows| == 0 then []
    else
      var rest := Survivors(rows[1..], sessionId);
      assert rows == [rows[0]] + rows[1..];
      if Purgeable(rows[0], sessionId) then rest else [rows[0]] + rest
  }

  /** `ResetService.reset`: always `ok`, with the number of rows removed. */
  function Reset(rows: seq<TensorRow>, sessionId: string): (r: (seq<TensorRow>, bool, nat))
    ensures r.0 == Survivors(rows, sessionId)
    ensures r.1
    ensures r.2 == |rows| - |r.0|
    ensures forall x :: x in r.0 ==> !Purgeable(x, sessionId)
    ensures forall x :: x in rows && (x.sessionId != sessionId || x.tensorType == "ST" || x.isPinned != 0) ==> x in r.0
  {
    var out := Survivors(rows, sessionId);
    (out, true, |rows| - |out|)
  }

  /** Nothing purgeable is left, so a second reset purges nothing. */
  lemma {:induction false} ResetTwice(rows: seq<TensorRow>, sessionId: string)
    ensures var once := Reset(rows, sessionId).0;
            Reset(once, sessionId).2 == 0 && Reset(once, sessionId).0 == once
    decreases |rows|
  {
    SurvivorsOfClean(Survivors(rows, sessionId), sessionId);
  }

  lemma {:induction false} SurvivorsOfClean(rows: seq<TensorRow>, sessionId: string)
    requires forall x :: x in rows ==> !Purgeable(x, sessionId)
    ensures Survivors(rows, sessionId) == rows
    decreases |rows|
  {
    if |rows| > 0 {
      assert rows[0] in rows;
      assert forall x :: x in rows[1..] ==> x in rows;
      SurvivorsOfClean(rows[1..], sessionId);
      assert rows == [rows[0]] + rows[1..];
    }
  }
}

=== FILE: tensors.dfy ===
/**
 * Tensors: the record every turn produces, the finding-type translation
 * table, and the two factories that build a tensor from a list of
 * findings. Identifiers, clocks and payload hashes are opaque values the
 * caller supplies.
 */
module Tensors {
  import opened Common
  import ServerAnalyzer

  /**
   * The numeric axes; an axis may be absent on a stored tensor. The
   * factories never set `resonance_index`, but the promotion rule and the
   * lens monitor read it.
   */
  datatype Axes = Axes(driftRisk: Option<real>, coherenceScore: Option<real>, salienceWeight: Option<real>,
                       resonanceIndex: Option<real>)

  datatype Tensor = Tensor(
    id: string, tensorType: string, createdAt: string,
    channel: string, threadId: Option<string>, turnId: Option<string>,
    text: string, hash: string,
    axes: Axes, axiomTags: seq<string>, confidence: real,
    ttlSeconds: Option<int>, decayRate: real, pinned: bool)

  /** One row of the translation table: the axiom a finding type points at and its axis contributions. */
  datatype AxisMapping = AxisMapping(axiom: string, risk: real, coherence: real)

  const FindingMap: map<string, AxisMapping> := map[
    "force_language" := AxisMapping("AXIOM_3_FORCE", 0.3, -0.1),
    "ultimatum" := AxisMapping("AXIOM_2_EXTREMES", 0.4, -0.2),
    "certainty_inflation" := AxisMapping("AXIOM_2_EXTREMES", 0.2, -0.1),
    "hierarchy_inference" := AxisMapping("AXIOM_3_FORCE", 0.3, -0.2),
    "directive_drift" := AxisMapping("AXIOM_3_FORCE", 0.2, -0.1),
    "sovereign_logic" := AxisMapping("AXIOM_6_CHOICE", 0.0, 0.4),
    "neutral_observation" := AxisMapping("AXIOM_1_BALANCE", 0.0, 0.2)
  ]

  /** The kernel-locked canon of axiom tags. */
  const AllowedAxiomTags: set<string> := {
    "AXIOM_1_BALANCE", "AXIOM_2_EXTREMES", "AXIOM_3_FORCE",
    "AXIOM_4_FLOW", "AXIOM_5_AWARENESS", "AXIOM_6_CHOICE"
  }

  /** What an unmapped finding type contributes. */
  const Uncertain := AxisMapping("UNCERTAIN", 0.1, 0.0)

  const MappedTypes: set<string> := {
    "force_language", "ultimatum", "certainty_inflation", "hierarchy_inference",
    "directive_drift", "sovereign_logic", "neutral_observation"
  }

  /** The table has exactly seven finding types. */
  lemma FindingMapSize()
    ensures FindingMap.Keys == MappedTypes
    ensures |FindingMap| == 7
  {
  }

  /** Each axiom of the table is canonical and each risk lies in [0, 0.4]; `"UNCERTAIN"` is not canonical. */
  lemma FindingMapBounds(t: string)
    requires t in FindingMap
    ensures FindingMap[t].axiom in AllowedAxiomTags
    ensures 0.0 <= FindingMap[t].risk <= 0.4
    ensures Uncertain.axiom !in AllowedAxiomTags
  {
    FindingMapSize();
  }

  /** Only `sovereign_logic` and `neutral_observation` raise coherence; the five pressure types lower it. */
  lemma CoherenceSigns(t: string)
    requires t in FindingMap
    ensures FindingMap[t].coherence > 0.0 <==> t == "sovereign_logic" || t == "neutral_observation"
    ensures FindingMap[t].coherence != 0.0
  {
  }

  /** `FindingMap[f.type] || { axiom: "UNCERTAIN", risk: 0.1, coherence: 0 }`. */
  function MappingOf(t: string): (m: AxisMapping)
    ensures t in FindingMap ==> m == FindingMap[t]
    ensures t !in FindingMap ==> m == Uncertain
  {
    if t in FindingMap then FindingMap[t] else Uncertain
  }

  /** Every contribution to drift lies in [0, 0.4]. */
  lemma MappingRisk(t: string)
    ensures 0.0 <= MappingOf(t).risk <= 0.4
  {
    if t in FindingMap {
      FindingMapBounds(t);
    }
  }

  function RiskSum(types: seq<string>): real {
    if |types| == 0 then 0.0 else MappingOf(types[0]).risk + RiskSum(types[1..])
  }

  function CoherenceSum(types: seq<string>): real {
    if |types| == 0 then 0.0 else MappingOf(types[0]).coherence + CoherenceSum(types[1..])
  }

  /** The summed risk is never negative and at most 0.4 per finding. */
  lemma {:induction false} RiskSumBounds(types: seq<string>)
    ensures 0.0 <= RiskSum(types) <= 0.4 * |types| as real
  {
    if |types| > 0 {
      MappingRisk(types[0]);
      RiskSumBounds(types[1..]);
    }
  }

  /** The axiom each finding maps to, in finding order. */
  function AxiomsOf(types: seq<string>): (axs: seq<string>)
    ensures |axs| == |types|
    ensures forall i :: 0 <= i < |types| ==> axs[i] == MappingOf(types[i]).axiom
  {
    seq(|types|, i requires 0 <= i < |types| => MappingOf(types[i]).axiom)
  }

  /** The optional `metadata` of `createPT`. */
  datatype Metadata = Metadata(channel: Option<string>, threadId: Option<string>, turnId: Option<string>)

  /**
   * `TensorFactory.createPT`: a PT whose drift is the clamped sum of the
   * mapped risks, whose coherence is the clamped 0.5 baseline plus the
   * mapped coherence deltas, and whose axiom tags are the mapped axioms
   * without repetitions.
   */
  function CreatePT(id: string, now: string, hash: string, input: string, types: seq<string>, meta: Metadata): (t: Tensor)
    ensures t.id == id && t.createdAt == now && t.text == input && t.hash == hash
    ensures t.tensorType == "PT" && !t.pinned
    ensures t.ttlSeconds == Some(3600) && t.decayRate == 0.1 && t.confidence == 0.95
    ensures t.channel == (if meta.channel.Some? && meta.channel.value != "" then meta.channel.value else "system")
    ensures t.threadId == meta.threadId && t.turnId == meta.turnId
    ensures t.axes.driftRisk == Some(MinReal(RiskSum(types), 1.0))
    ensures t.axes.coherenceScore == Some(Clamp01(0.5 + CoherenceSum(types)))
    ensures t.axes.salienceWeight == Some(if |types| > 0 then 0.8 else 0.2)
    ensures NoDup(t.axiomTags)
    ensures forall i :: 0 <= i < |types| ==> MappingOf(types[i]).axiom in t.axiomTags
    ensures forall a :: a in t.axiomTags ==> a in AxiomsOf(types)
  {
    RiskSumBounds(types);
    var axes := Axes(Some(Clamp01(RiskSum(types))), Some(Clamp01(0.5 + CoherenceSum(types))),
                     Some(if |types| > 0 then 0.8 else 0.2), None);
    Tensor(id, "PT", now, TruthyStrOr(meta.channel, "system"), meta.threadId, meta.turnId,
           input, hash, axes, Dedup(AxiomsOf(types)), 0.95, Some(3600), 0.1, false)
  }

  /** A finding type the table does not know puts the non-canonical `"UNCERTAIN"` tag on the tensor. */
  lemma UnmappedIsUncertain(id: string, now: string, hash: string, input: string, types: seq<string>, meta: Metadata, i: nat)
    requires i < |types| && types[i] !in FindingMap
    ensures "UNCERTAIN" in CreatePT(id, now, hash, input, types, meta).axiomTags
    ensures "UNCERTAIN" !in AllowedAxiomTags
  {
    assert MappingOf(types[i]).axiom == "UNCERTAIN";
  }

  /** Only the two constructive types have a positive coherence contribution. */
  lemma PositiveCoherence(t: string)
    requires MappingOf(t).coherence > 0.0
    ensures t == "sovereign_logic" || t == "neutral_observation"
  {
    FindingMapSize();
  }

  /** No analyzer finding type starts like either constructive type. */
  lemma AnalyzerKindInitial(k: nat)
    requires k < |ServerAnalyzer.Rules|
    ensures var kind := ServerAnalyzer.Rules[k].kind;
            |kind| > 0 && kind[0] != 's' && kind[0] != 'n'
  {
    if k < 4 {
      if k < 2 {
        assert k == 0 || k == 1;
      } else {
        assert k == 2 || k == 3;
      }
    } else if k < 6 {
      assert k == 4 || k == 5;
    } else {
      assert k == 6 || k == 7;
    }
  }

  /** Every finding type of the eight-rule analyzer lowers coherence or leaves it alone. */
  lemma AnalyzerTypeCoherence(t: string)
    requires ServerAnalyzer.KindRank(ServerAnalyzer.Rules, t) < |ServerAnalyzer.Rules|
    ensures MappingOf(t).coherence <= 0.0
  {
    AnalyzerKindInitial(ServerAnalyzer.KindRank(ServerAnalyzer.Rules, t));
    if MappingOf(t).coherence > 0.0 {
      PositiveCoherence(t);
    }
  }

  lemma {:induction false} AnalyzerCoherenceSum(types: seq<string>)
    requires forall i :: 0 <= i < |types| ==> ServerAnalyzer.KindRank(ServerAnalyzer.Rules, types[i]) < |ServerAnalyzer.Rules|
    ensures CoherenceSum(types) <= 0.0
  {
    if |types| > 0 {
      AnalyzerTypeCoherence(types[0]);
      AnalyzerCoherenceSum(types[1..]);
    }
  }

  /** A PT built from the analyzer's findings never scores coherence above the 0.5 baseline. */
  lemma AnalyzerCoherenceAtMostHalf(id: string, now: string, hash: string, input: string, types: seq<string>, meta: Metadata)
    requires forall i :: 0 <= i < |types| ==> ServerAnalyzer.KindRank(ServerAnalyzer.Rules, types[i]) < |ServerAnalyzer.Rules|
    ensures CreatePT(id, now, hash, input, types, meta).axes.coherenceScore.value <= 0.5
  {
    AnalyzerCoherenceSum(types);
  }

  // ---------------------------------------------------------------------
  // The allowlist factory
  // ---------------------------------------------------------------------

  /** What `generate` reads of a finding: a numeric severity and a string axiom tag, when present. */
  datatype GenFinding = GenFinding(severity: Option<real>, axiomTag: Option<string>)

  /** `typeof f.severity === "number" ? f.severity : 0.1`. */
  function SeverityOf(f: GenFinding): real {
    f.severity.GetOr(0.1)
  }

  function SeveritySum(fs: seq<GenFinding>): real {
    if |fs| == 0 then 0.0 else SeverityOf(fs[0]) + SeveritySum(fs[1..])
  }

  predicate Canonical(f: GenFinding) {
    f.axiomTag.Some? && f.axiomTag.value in AllowedAxiomTags
  }

  /** The canonical tags of the findings, in order, repetitions kept. */
  function CanonTags(fs: seq<GenFinding>): (tags: seq<string>)
    ensures forall k :: 0 <= k < |tags| ==> tags[k] in AllowedAxiomTags
    ensures forall i :: 0 <= i < |fs| && Canonical(fs[i]) ==> fs[i].axiomTag.value in tags
    ensures |tags| <= |fs|
    decreases |fs|
  {
    if |fs| == 0 then []
    else
      var rest := CanonTags(fs[1..]);
      assert forall i :: 1 <= i < |fs| ==> fs[i] == fs[1..][i - 1];
      (if Canonical(fs[0]) then [fs[0].axiomTag.value] else []) + rest
  }

  /**
   * `TensorFactory.generate`: a non-array findings argument counts as no
   * findings; drift is the clamped sum of severities (0.1 for a missing
   * one); coherence and salience are coarse constants; only canonical tags
   * survive; the lifecycle depends on the type, `PT` by default.
   */
  function Generate(id: string, now: string, hash: string, input: string,
                    findings: Option<seq<GenFinding>>, tensorType: Option<string>): (t: Tensor)
    ensures var fs := findings.GetOr([]);
      && t.axes.driftRisk == Some(Clamp01(SeveritySum(fs)))
      && t.axes.salienceWeight == Some(if |fs| > 0 then 0.8 else 0.3)
      && t.axes.coherenceScore == Some(if |fs| == 0 then 0.9 else 0.5)
      && t.axiomTags == CanonTags(fs)
    ensures forall k :: 0 <= k < |t.axiomTags| ==> t.axiomTags[k] in AllowedAxiomTags
    ensures t.tensorType == tensorType.GetOr("PT")
    ensures t.tensorType == "PT" ==> t.ttlSeconds == Some(3600) && t.decayRate == 0.05
    ensures t.tensorType != "PT" ==> t.ttlSeconds == Some(0) && t.decayRate == 0.0
    ensures !t.pinned && t.channel == "user" && t.confidence == 0.9
    ensures t.id == id && t.createdAt == now && t.text == input && t.hash == hash
  {
    var fs := findings.GetOr([]);
    var ty := tensorType.GetOr("PT");
    var axes := Axes(Some(Clamp01(SeveritySum(fs))), Some(if |fs| == 0 then 0.9 else 0.5),
                     Some(if |fs| > 0 then 0.8 else 0.3), None);
    Tensor(id, ty, now, "user", None, None, input, hash, axes, CanonTags(fs), 0.9,
           Some(if ty == "PT" then 3600 else 0), if ty == "PT" then 0.05 else 0.0, false)
  }

  /** A summed severity of at least 1 saturates drift, so one finding of severity 1 or more already does. */
  lemma {:induction false} SeveritySumAtLeast(fs: seq<GenFinding>, i: nat)
    requires i < |fs| && SeverityOf(fs[i]) >= 1.0
    requires forall j :: 0 <= j < |fs| ==> SeverityOf(fs[j]) >= 0.0
    ensures SeveritySum(fs) >= 1.0
  {
    if i == 0 {
      SeveritySumNonNeg(fs[1..]);
    } else {
      SeveritySumAtLeast(fs[1..], i - 1);
    }
  }

  lemma {:induction false} SeveritySumNonNeg(fs: seq<GenFinding>)
    requires forall j :: 0 <= j < |fs| ==> SeverityOf(fs[j]) >= 0.0
    ensures SeveritySum(fs) >= 0.0
  {
    if |fs| > 0 {
      SeveritySumNonNeg(fs[1..]);
    }
  }

  /** With non-negative severities, one finding of severity 1 or more gives drift 1. */
  lemma SevereFindingSaturates(id: string, now: string, hash: string, input: string,
                               fs: seq<GenFinding>, tensorType: Option<string>, i: nat)
    requires i < |fs| && SeverityOf(fs[i]) >= 1.0
    requires forall j :: 0 <= j < |fs| ==> SeverityOf(fs[j]) >= 0.0
    ensures Generate(id, now, hash, input, Some(fs), tensorType).axes.driftRisk == Some(1.0)
  {
    SeveritySumAtLeast(fs, i);
  }

  /** Repeated canonical tags are kept, not merged. */
  lemma GenerateKeepsRepeats(id: string, now: string, hash: string, input: string, tag: string)
    requires tag in AllowedAxiomTags
    ensures var f := GenFinding(None, Some(tag));
            Generate(id, now, hash, input, Some([f, f]), None).axiomTags == [tag, tag]
  {
    var f := GenFinding(None, Some(tag));
    assert [f, f][1..] == [f];
  }
}

=== FILE: vinegar_linter.dfy ===
/**
 * The "vinegar" linter: three rules of word-bounded expressions, each
 * scanned over the whole text; the matches of a rule are sorted by position
 * and then by matched text, each carries a whitespace-normalised excerpt of
 * the text around it, and a rule with no match produces no finding.
 */
module VinegarLinter {
  import opened Common
  import opened PhraseScan
  import opened Sorting

  datatype Kind = VinegarTone | CoerciveCertainty | HierarchyMarker

  /** One match: the matched text, where it starts, and the excerpt around it. */
  datatype LintMatch = LintMatch(phrase: string, index: nat, excerpt: string)

  datatype LintFinding = LintFinding(kind: Kind, reasonCode: string, labelText: string, matches: seq<LintMatch>)

  datatype LintResult = LintResult(ok: bool, findings: seq<LintFinding>, counts: map<Kind, nat>)

  /** Characters taken on each side of a match for its excerpt. */
  const ExcerptRadius: nat := 70

  /** Rule order: tone, then certainty, then hierarchy. */
  function Rank(k: Kind): (n: nat)
    ensures n < 3
  {
    match k
    case VinegarTone => 0
    case CoerciveCertainty => 1
    case HierarchyMarker => 2
  }

  /** The kind's name, which is also its reason code. */
  function KindName(k: Kind): string {
    match k
    case VinegarTone => "VINEGAR_TONE"
    case CoerciveCertainty => "COERCIVE_CERTAINTY"
    case HierarchyMarker => "HIERARCHY_MARKER"
  }

  function Label(k: Kind): string {
    match k
    case VinegarTone => "Parental/boxy tone markers"
    case CoerciveCertainty => "Coercive certainty markers"
    case HierarchyMarker => "Hierarchy markers (non-peer posture)"
  }

  /** `/\bphrase\b/gi`. */
  function Word(phrase: string): Pattern {
    Pattern([[Lit(phrase)]], true, true)
  }

  /** `/\bjust\b\s+(?:do|click|run|install)\b/gi`, one alternative per verb. */
  function JustVerb(): Pattern {
    Pattern([[Lit("just"), Spaces, Lit("do")],
             [Lit("just"), Spaces, Lit("click")],
             [Lit("just"), Spaces, Lit("run")],
             [Lit("just"), Spaces, Lit("install")]], true, true)
  }

  /** `/\b100%\b/g`: the one case-sensitive expression. */
  function HundredPercent(): Pattern {
    Pattern([[Lit("100%")]], true, false)
  }

  /** The expressions of each rule, in the order they are scanned. */
  function PatternsOf(k: Kind): seq<Pattern> {
    match k
    case VinegarTone =>
      [Word("you need to"), Word("you should"), Word("you must"), Word("do this"),
       Word("follow these steps"), Word("don't"), Word("do not"), JustVerb()]
    case CoerciveCertainty =>
      [Word("obviously"), Word("clearly"), Word("undeniably"), Word("without a doubt"),
       Word("guarantee"), HundredPercent(), Word("the only way"), Word("must")]
    case HierarchyMarker =>
      [Word("as an ai"), Word("i can't"), Word("i cannot"), Word("i'm not able to"),
       Word("you should"), Word("you must"), Word("you have to")]
  }

  // ---------------------------------------------------------------------
  // Excerpts
  // ---------------------------------------------------------------------

  /** No two whitespace characters in a row. */
  predicate NoDoubleSpace(s: string) {
    forall i :: 0 <= i < |s| - 1 ==> !(IsSpace(s[i]) && IsSpace(s[i + 1]))
  }

  /** The non-whitespace characters of `s`, in order. */
  function Strip(s: string): (r: string)
    ensures |r| <= |s|
    ensures forall i :: 0 <= i < |r| ==> !IsSpace(r[i])
  {
    if |s| == 0 then ""
    else (if IsSpace(s[0]) then "" else [s[0]]) + Strip(s[1..])
  }

  lemma {:induction false} StripAppend(a: string, b: string)
    ensures Strip(a + b) == Strip(a) + Strip(b)
    decreases |a|
  {
    if |a| > 0 {
      assert (a + b)[1..] == a[1..] + b;
      StripAppend(a[1..], b);
    } else {
      assert a + b == b;
    }
  }

  lemma {:induction false} StripAllSpace(s: string)
    requires forall i :: 0 <= i < |s| ==> IsSpace(s[i])
    ensures Strip(s) == ""
    decreases |s|
  {
    if |s| > 0 {
      StripAllSpace(s[1..]);
    }
  }

  /** `replace(/\s+/g, " ")`: every run of whitespace becomes one space. */
  function Collapse(s: string): (r: string)
    ensures |r| <= |s|
    ensures |r| == 0 <==> |s| == 0
    ensures |s| > 0 ==> (IsSpace(r[0]) <==> IsSpace(s[0]))
    ensures NoDoubleSpace(r)
    ensures forall i :: 0 <= i < |r| && IsSpace(r[i]) ==> r[i] == ' '
    decreases |s|
  {
    if |s| == 0 then ""
    else if IsSpace(s[0]) then
      var n := SpaceRun(s, 0);
      assert n >= 1;
      " " + Collapse(s[n..])
    else
      [s[0]] + Collapse(s[1..])
  }

  /** Collapsing whitespace keeps every other character, in order. */
  lemma {:induction false} CollapseKeepsText(s: string)
    ensures Strip(Collapse(s)) == Strip(s)
    decreases |s|
  {
    if |s| > 0 {
      var c := Collapse(s);
      if IsSpace(s[0]) {
        var n := SpaceRun(s, 0);
        CollapseKeepsText(s[n..]);
        assert c[1..] == Collapse(s[n..]);
        assert s == s[..n] + s[n..];
        StripAppend(s[..n], s[n..]);
        StripAllSpace(s[..n]);
      } else {
        CollapseKeepsText(s[1..]);
        assert c[1..] == Collapse(s[1..]);
      }
    }
  }

  lemma NoDoubleSpaceSlice(s: string, lo: nat, hi: nat)
    requires lo <= hi <= |s|
    ensures NoDoubleSpace(s) ==> NoDoubleSpace(s[lo..hi])
  {
    var r := s[lo..hi];
    forall i | 0 <= i < |r| - 1 && NoDoubleSpace(s)
      ensures !(IsSpace(r[i]) && IsSpace(r[i + 1]))
    {
      assert r[i] == s[lo + i] && r[i + 1] == s[lo + i + 1];
    }
  }

  /** Dropping whitespace from the front loses no other character. */
  lemma TrimStartKeepsText(s: string)
    ensures Strip(TrimStart(s)) == Strip(s)
  {
    var a := TrimStart(s);
    var k := |s| - |a|;
    assert s == s[..k] + a;
    StripAppend(s[..k], a);
    StripAllSpace(s[..k]);
  }

  /** Dropping whitespace from the back loses no other character. */
  lemma TrimEndKeepsText(s: string)
    ensures Strip(TrimEnd(s)) == Strip(s)
  {
    var r := TrimEnd(s);
    assert s == r + s[|r|..];
    StripAppend(r, s[|r|..]);
    StripAllSpace(s[|r|..]);
  }

  /** Trimming shortens, keeps every other character and creates no double space. */
  lemma TrimKeepsText(s: string)
    ensures |Trim(s)| <= |s|
    ensures NoDoubleSpace(s) ==> NoDoubleSpace(Trim(s))
    ensures Strip(Trim(s)) == Strip(s)
  {
    var a := TrimStart(s);
    var r := TrimEnd(a);
    assert Trim(s) == r;
    TrimStartKeepsText(s);
    TrimEndKeepsText(a);
    if NoDoubleSpace(s) {
      NoDoubleSpaceSlice(s, |s| - |a|, |s|);
      assert NoDoubleSpace(a);
      NoDoubleSpaceSlice(a, 0, |r|);
    }
  }

  /** Where the excerpt window starts: `radius` characters before the match, or the start of the text. */
  function WindowStart(index: nat, radius: nat): (s: nat)
    ensures s <= index && index - s <= radius
    ensures index >= radius ==> s == index - radius
  {
    if index >= radius then index - radius else 0
  }

  /** Where it ends: `radius` characters after the match, or the end of the text. */
  function WindowEnd(t: string, index: nat, len: nat, radius: nat): (e: nat)
    ensures e <= |t| && e <= index + len + radius
    ensures index + len + radius <= |t| ==> e == index + len + radius
    ensures index + len + radius > |t| ==> e == |t|
  {
    if index + len + radius <= |t| then index + len + radius else |t|
  }

  /** `text.slice(start, end)`: empty when the window is empty. */
  function Window(t: string, index: nat, len: nat, radius: nat): (w: string)
    ensures |w| <= len + 2 * radius && |w| <= |t|
  {
    var s := WindowStart(index, radius);
    var e := WindowEnd(t, index, len, radius);
    if s < e then t[s..e] else ""
  }

  /** A match that lies inside the text lies inside its window. */
  lemma WindowCoversMatch(t: string, index: nat, len: nat, radius: nat)
    requires index + len <= |t|
    ensures var s := WindowStart(index, radius);
            s <= index + len <= WindowEnd(t, index, len, radius)
            && index - s + len <= |Window(t, index, len, radius)|
            && Window(t, index, len, radius)[index - s..index - s + len] == t[index..index + len]
  {
    var s := WindowStart(index, radius);
    var e := WindowEnd(t, index, len, radius);
    assert s <= index && index + len <= e;
    if s < e {
      var w := t[s..e];
      assert Window(t, index, len, radius) == w;
      var inner := w[index - s..index - s + len];
      var part := t[index..index + len];
      forall k | 0 <= k < len ensures inner[k] == part[k] {
        assert w[index - s + k] == t[index + k];
      }
      assert inner == part;
    }
  }

  /** `makeExcerpt`: the window around a match, whitespace runs collapsed, trimmed. */
  function MakeExcerpt(t: string, index: nat, len: nat, radius: nat): (e: string)
    ensures |e| <= len + 2 * radius && |e| <= |t|
  {
    Trim(Collapse(Window(t, index, len, radius)))
  }

  /**
   * The excerpt starts and ends with a non-whitespace character, holds no
   * double space and keeps exactly the window's non-whitespace characters.
   */
  lemma ExcerptShape(t: string, index: nat, len: nat, radius: nat)
    ensures var e := MakeExcerpt(t, index, len, radius);
            && (|e| == 0 || (!IsSpace(e[0]) && !IsSpace(e[|e| - 1])))
            && NoDoubleSpace(e)
            && Strip(e) == Strip(Window(t, index, len, radius))
  {
    var w := Window(t, index, len, radius);
    CollapseKeepsText(w);
    TrimKeepsText(Collapse(w));
  }

  // ---------------------------------------------------------------------
  // Matches
  // ---------------------------------------------------------------------

  /** The match comes from one of `ps` and carries the excerpt of its position. */
  predicate MatchedBy(ps: seq<Pattern>, t: string, m: LintMatch)
    decreases |ps|
  {
    |ps| > 0 && (ValidHit(ps[0], t, Hit(m.index, m.phrase)) || MatchedBy(ps[1..], t, m))
  }

  predicate WellFormed(ps: seq<Pattern>, t: string, m: LintMatch) {
    MatchedBy(ps, t, m) && m.excerpt == MakeExcerpt(t, m.index, |m.phrase|, ExcerptRadius)
  }

  /** The record pushed for one `exec` result. */
  function ToMatch(t: string, h: Hit): (m: LintMatch)
    ensures Hit(m.index, m.phrase) == h
  {
    LintMatch(h.evidence, h.index, MakeExcerpt(t, h.index, |h.evidence|, ExcerptRadius))
  }

  /** The matches of one expression, scanned from `lastIndex = 0`: the `i`-th record is the `i`-th `exec` result. */
  function PatternMatches(p: Pattern, t: string): (ms: seq<LintMatch>)
    ensures |ms| == |Scan(p, t, 0)|
    ensures forall i :: 0 <= i < |ms| ==> Hit(ms[i].index, ms[i].phrase) == Scan(p, t, 0)[i]
    ensures forall i :: 0 <= i < |ms| ==> ValidHit(p, t, Hit(ms[i].index, ms[i].phrase))
    ensures forall i :: 0 <= i < |ms| ==> ms[i].excerpt == MakeExcerpt(t, ms[i].index, |ms[i].phrase|, ExcerptRadius)
  {
    var hits := Scan(p, t, 0);
    seq(|hits|, i requires 0 <= i < |hits| => ToMatch(t, hits[i]))
  }

  /** How many matches the `exec` loops of all the expressions find together. */
  function ScanTotal(ps: seq<Pattern>, t: string): nat
    decreases |ps|
  {
    if |ps| == 0 then 0 else |Scan(ps[0], t, 0)| + ScanTotal(ps[1..], t)
  }

  /**
   * The matches of every expression, in expression order, before sorting:
   * one record for each match any expression's loop finds, and nothing else.
   */
  function Unsorted(ps: seq<Pattern>, t: string): (ms: seq<LintMatch>)
    ensures forall m :: m in ms ==> WellFormed(ps, t, m)
    ensures forall j, i :: 0 <= j < |ps| && 0 <= i < |Scan(ps[j], t, 0)| ==> ToMatch(t, Scan(ps[j], t, 0)[i]) in ms
    ensures |ms| == ScanTotal(ps, t)
    decreases |ps|
  {
    if |ps| == 0 then []
    else
      var head := PatternMatches(ps[0], t);
      var tail := Unsorted(ps[1..], t);
      UnsortedConsValid(ps, t, head, tail);
      UnsortedCons(ps, t, head, tail);
      head + tail
  }

  lemma UnsortedConsValid(ps: seq<Pattern>, t: string, head: seq<LintMatch>, tail: seq<LintMatch>)
    requires |ps| > 0 && head == PatternMatches(ps[0], t)
    requires forall m :: m in tail ==> WellFormed(ps[1..], t, m)
    requires |tail| == ScanTotal(ps[1..], t)
    ensures forall m :: m in head + tail ==> WellFormed(ps, t, m)
    ensures |head + tail| == ScanTotal(ps, t)
  {
    assert forall i :: 0 <= i < |head| ==> WellFormed(ps, t, head[i]);
  }

  lemma UnsortedCons(ps: seq<Pattern>, t: string, head: seq<LintMatch>, tail: seq<LintMatch>)
    requires |ps| > 0 && head == PatternMatches(ps[0], t)
    requires forall j, i :: 0 <= j < |ps| - 1 && 0 <= i < |Scan(ps[1..][j], t, 0)| ==> ToMatch(t, Scan(ps[1..][j], t, 0)[i]) in tail
    ensures forall j, i :: 0 <= j < |ps| && 0 <= i < |Scan(ps[j], t, 0)| ==> ToMatch(t, Scan(ps[j], t, 0)[i]) in head + tail
  {
    forall j, i | 0 <= j < |ps| && 0 <= i < |Scan(ps[j], t, 0)|
      ensures ToMatch(t, Scan(ps[j], t, 0)[i]) in head + tail
    {
      if j == 0 {
        assert head[i] == ToMatch(t, Scan(ps[0], t, 0)[i]);
      } else {
        assert ps[1..][j - 1] == ps[j];
      }
    }
  }

  /** A pattern that matches somewhere contributes at least one match. */
  lemma {:induction false} UnsortedFindsSomething(ps: seq<Pattern>, t: string, j: nat, pos: nat)
    requires j < |ps| && pos <= |t| && MatchAt(ps[j], t, pos).Some?
    ensures |Unsorted(ps, t)| > 0
    decreases |ps|
  {
    if j == 0 {
      ScanFindsSomething(ps[0], t, pos);
    } else {
      UnsortedFindsSomething(ps[1..], t, j - 1, pos);
    }
  }

  /** No match at all: none of the patterns matches anywhere. */
  lemma {:induction false} UnsortedEmpty(ps: seq<Pattern>, t: string, j: nat, pos: nat)
    requires |Unsorted(ps, t)| == 0
    requires j < |ps| && pos <= |t|
    ensures MatchAt(ps[j], t, pos).None?
    decreases |ps|
  {
    if j > 0 {
      UnsortedEmpty(ps[1..], t, j - 1, pos);
    }
  }

  /** By position, then by matched text. */
  predicate MatchLe(a: LintMatch, b: LintMatch) {
    a.index < b.index || (a.index == b.index && StrLe(a.phrase, b.phrase))
  }

  lemma MatchLeIsPreorder()
    ensures TotalPreorder(MatchLe)
  {
    forall a: LintMatch, b: LintMatch
      ensures MatchLe(a, b) || MatchLe(b, a)
    {
      StrLeTotal(a.phrase, b.phrase);
    }
    forall a: LintMatch, b: LintMatch, c: LintMatch | MatchLe(a, b) && MatchLe(b, c)
      ensures MatchLe(a, c)
    {
      if a.index == b.index == c.index {
        StrLeTrans(a.phrase, b.phrase, c.phrase);
      }
    }
  }

  /** `findAllMatches`: every match of every expression, sorted by position and then text. */
  function FindAllMatches(t: string, ps: seq<Pattern>): (ms: seq<LintMatch>)
    ensures SortedBy(MatchLe, ms)
    ensures multiset(ms) == multiset(Unsorted(ps, t))
    ensures forall m :: m in ms ==> WellFormed(ps, t, m)
  {
    MatchLeIsPreorder();
    var all := Unsorted(ps, t);
    var ms := SortBy(MatchLe, all);
    assert forall m :: m in ms ==> m in multiset(all);
    ms
  }

  /** The sorted matches of one rule. */
  function KindMatches(k: Kind, t: string): seq<LintMatch> {
    FindAllMatches(t, PatternsOf(k))
  }

  /** Some match is found exactly when one of the expressions matches somewhere. */
  lemma FoundIff(ps: seq<Pattern>, t: string)
    ensures |FindAllMatches(t, ps)| > 0
        <==> exists j: nat, pos: nat :: j < |ps| && pos <= |t| && MatchAt(ps[j], t, pos).Some?
  {
    var all := Unsorted(ps, t);
    assert |FindAllMatches(t, ps)| == |multiset(all)| == |all|;
    if |all| == 0 {
      forall j: nat, pos: nat | j < |ps| && pos <= |t|
        ensures MatchAt(ps[j], t, pos).None?
      {
        UnsortedEmpty(ps, t, j, pos);
      }
    } else {
      var m := all[0];
      assert WellFormed(ps, t, m);
      MatchedByHasPattern(ps, t, m);
    }
  }

  /** A rule has matches exactly when one of its expressions matches somewhere. */
  lemma KindMatchesIff(k: Kind, t: string)
    ensures |KindMatches(k, t)| > 0
        <==> exists j: nat, pos: nat :: j < |PatternsOf(k)| && pos <= |t| && MatchAt(PatternsOf(k)[j], t, pos).Some?
  {
    FoundIff(PatternsOf(k), t);
  }

  lemma {:induction false} MatchedByHasPattern(ps: seq<Pattern>, t: string, m: LintMatch)
    requires MatchedBy(ps, t, m)
    ensures exists j: nat :: j < |ps| && m.index <= |t| && MatchAt(ps[j], t, m.index).Some?
    decreases |ps|
  {
    if ValidHit(ps[0], t, Hit(m.index, m.phrase)) {
      assert MatchAt(ps[0], t, m.index).Some?;
    } else {
      MatchedByHasPattern(ps[1..], t, m);
      var j: nat :| j < |ps| - 1 && m.index <= |t| && MatchAt(ps[1..][j], t, m.index).Some?;
      assert ps[1..][j] == ps[j + 1];
    }
  }

  // ---------------------------------------------------------------------
  // Findings and counts
  // ---------------------------------------------------------------------

  /** The finding a rule produces when it has matches. */
  function KindFinding(k: Kind, t: string): LintFinding {
    LintFinding(k, KindName(k), Label(k), KindMatches(k, t))
  }

  /** Rules listed in strictly increasing rule order. */
  predicate Ascending(ks: seq<Kind>) {
    forall i, j :: 0 <= i < j < |ks| ==> Rank(ks[i]) < Rank(ks[j])
  }

  function KindsOf(fs: seq<LintFinding>): (ks: seq<Kind>)
    ensures |ks| == |fs|
    ensures forall i :: 0 <= i < |fs| ==> ks[i] == fs[i].kind
  {
    seq(|fs|, i requires 0 <= i < |fs| => fs[i].kind)
  }

  /** Every kind, in rule order. */
  const AllKinds: seq<Kind> := [VinegarTone, CoerciveCertainty, HierarchyMarker]

  lemma AllKindsListed()
    ensures forall k: Kind :: k in AllKinds
    ensures Ascending(AllKinds)
  {
    forall k: Kind
      ensures k in AllKinds
    {
      if k == VinegarTone { assert AllKinds[0] == k; }
      else if k == CoerciveCertainty { assert AllKinds[1] == k; }
      else { assert AllKinds[2] == k; }
    }
  }

  /** The findings `mk` builds carry the kind they are built for. */
  ghost predicate KeepsKind(mk: Kind -> LintFinding) {
    forall k: Kind :: mk(k).kind == k
  }

  /** The rule loop: one finding per rule with at least one match, in rule order. */
  function FindingsOver(ks: seq<Kind>, mk: Kind -> LintFinding): (fs: seq<LintFinding>)
    requires Ascending(ks) && KeepsKind(mk)
    ensures forall i :: 0 <= i < |fs| ==> fs[i] == mk(fs[i].kind) && |fs[i].matches| > 0
    ensures forall i :: 0 <= i < |fs| ==> fs[i].kind in ks
    ensures forall k :: k in ks ==> (k in KindsOf(fs) <==> |mk(k).matches| > 0)
    ensures Ascending(KindsOf(fs))
    decreases |ks|
  {
    if |ks| == 0 then []
    else
      var tail := FindingsOver(ks[1..], mk);
      var head := if |mk(ks[0]).matches| > 0 then [mk(ks[0])] else [];
      ConsFindings(ks, mk, head, tail);
      head + tail
  }

  lemma ConsFindings(ks: seq<Kind>, mk: Kind -> LintFinding, head: seq<LintFinding>, tail: seq<LintFinding>)
    requires |ks| > 0 && Ascending(ks) && KeepsKind(mk)
    requires head == if |mk(ks[0]).matches| > 0 then [mk(ks[0])] else []
    requires forall i :: 0 <= i < |tail| ==> tail[i] == mk(tail[i].kind) && |tail[i].matches| > 0
    requires forall i :: 0 <= i < |tail| ==> tail[i].kind in ks[1..]
    requires forall k :: k in ks[1..] ==> (k in KindsOf(tail) <==> |mk(k).matches| > 0)
    requires Ascending(KindsOf(tail))
    ensures forall i :: 0 <= i < |head + tail| ==> (head + tail)[i] == mk((head + tail)[i].kind) && |(head + tail)[i].matches| > 0
    ensures forall i :: 0 <= i < |head + tail| ==> (head + tail)[i].kind in ks
    ensures forall k :: k in ks ==> (k in KindsOf(head + tail) <==> |mk(k).matches| > 0)
    ensures Ascending(KindsOf(head + tail))
  {
    var fs := head + tail;
    assert KindsOf(fs) == KindsOf(head) + KindsOf(tail);
    HeadRanksFirst(ks, KindsOf(tail));
    forall k | k in ks
      ensures k in KindsOf(fs) <==> |mk(k).matches| > 0
    {
      assert k in KindsOf(fs) <==> k in KindsOf(head) || k in KindsOf(tail);
      if k == ks[0] {
        assert forall i :: 0 <= i < |KindsOf(tail)| ==> KindsOf(tail)[i] != k;
        assert k !in KindsOf(tail);
        assert |mk(k).matches| > 0 ==> KindsOf(head) == [k];
        assert |mk(k).matches| == 0 ==> KindsOf(head) == [];
      } else {
        InTail(ks, k);
        assert k !in KindsOf(head);
      }
    }
  }

  /** A kind of the rule list other than its first is in the rest of the list. */
  lemma InTail(ks: seq<Kind>, k: Kind)
    requires |ks| > 0 && k in ks && k != ks[0]
    ensures k in ks[1..]
  {
    var j :| 0 <= j < |ks| && ks[j] == k;
    assert j > 0;
    assert ks[1..][j - 1] == k;
  }

  /** In an ascending rule list the first rule ranks below every kind drawn from the rest. */
  lemma HeadRanksFirst(ks: seq<Kind>, later: seq<Kind>)
    requires |ks| > 0 && Ascending(ks)
    requires forall i :: 0 <= i < |later| ==> later[i] in ks[1..]
    ensures forall i :: 0 <= i < |later| ==> Rank(ks[0]) < Rank(later[i])
  {
    forall i | 0 <= i < |later|
      ensures Rank(ks[0]) < Rank(later[i])
    {
      RankBelowRest(ks, later[i]);
    }
  }

  lemma RankBelowRest(ks: seq<Kind>, k: Kind)
    requires |ks| > 0 && Ascending(ks) && k in ks[1..]
    ensures Rank(ks[0]) < Rank(k)
  {
    var rest := ks[1..];
    var j :| 0 <= j < |rest| && rest[j] == k;
    assert ks[j + 1] == k;
  }

  /** The number of matches the findings of kind `k` hold together. */
  function MatchTotal(fs: seq<LintFinding>, k: Kind): nat {
    if |fs| == 0 then 0
    else (if fs[0].kind == k then |fs[0].matches| else 0) + MatchTotal(fs[1..], k)
  }

  /** The counting loop, adding each finding's matches to the entry of its kind. */
  function AddCounts(fs: seq<LintFinding>, c: map<Kind, nat>): (r: map<Kind, nat>)
    requires forall k: Kind :: k in c
    ensures forall k: Kind :: k in r && r[k] == c[k] + MatchTotal(fs, k)
    decreases |fs|
  {
    if |fs| == 0 then c
    else AddCounts(fs[1..], c[fs[0].kind := c[fs[0].kind] + |fs[0].matches|])
  }

  /** The initial counts: every kind at 0. */
  function ZeroCounts(): (c: map<Kind, nat>)
    ensures forall k: Kind :: k in c && c[k] == 0
  {
    var c := map[VinegarTone := 0, CoerciveCertainty := 0, HierarchyMarker := 0];
    forall k: Kind
      ensures k in c && c[k] == 0
    {
      assert k.VinegarTone? || k.CoerciveCertainty? || k.HierarchyMarker?;
    }
    c
  }

  /** When each kind has at most one finding, its total is that finding's match count. */
  lemma {:induction false} MatchTotalOfAscending(fs: seq<LintFinding>, mk: Kind -> LintFinding, k: Kind)
    requires Ascending(KindsOf(fs))
    requires forall i :: 0 <= i < |fs| ==> fs[i] == mk(fs[i].kind)
    ensures MatchTotal(fs, k) == if k in KindsOf(fs) then |mk(k).matches| else 0
    decreases |fs|
  {
    if |fs| > 0 {
      var tail := fs[1..];
      assert KindsOf(tail) == KindsOf(fs)[1..];
      MatchTotalOfAscending(tail, mk, k);
      assert k in KindsOf(fs) <==> k == fs[0].kind || k in KindsOf(tail);
    }
  }

  /** The findings of the rules, in rule order, one per rule with matches. */
  function RuleFindings(mk: Kind -> LintFinding): (fs: seq<LintFinding>)
    requires KeepsKind(mk)
    ensures forall i :: 0 <= i < |fs| ==> fs[i] == mk(fs[i].kind) && |fs[i].matches| > 0
    ensures forall i, j :: 0 <= i < j < |fs| ==> Rank(fs[i].kind) < Rank(fs[j].kind)
    ensures forall k: Kind :: k in KindsOf(fs) <==> |mk(k).matches| > 0
    ensures Ascending(KindsOf(fs))
  {
    AllKindsListed();
    var fs := FindingsOver(AllKinds, mk);
    forall k: Kind
      ensures k in KindsOf(fs) <==> |mk(k).matches| > 0
    {
      assert k in AllKinds;
    }
    forall i, j | 0 <= i < j < |fs|
      ensures Rank(fs[i].kind) < Rank(fs[j].kind)
    {
      assert KindsOf(fs)[i] == fs[i].kind && KindsOf(fs)[j] == fs[j].kind;
    }
    fs
  }

  /** The counts of the findings: each kind's number of matches. */
  function RuleCounts(fs: seq<LintFinding>, mk: Kind -> LintFinding): (counts: map<Kind, nat>)
    requires Ascending(KindsOf(fs))
    requires forall i :: 0 <= i < |fs| ==> fs[i] == mk(fs[i].kind)
    requires forall k: Kind :: k in KindsOf(fs) <==> |mk(k).matches| > 0
    ensures forall k: Kind :: k in counts && counts[k] == |mk(k).matches|
  {
    var counts := AddCounts(fs, ZeroCounts());
    forall k: Kind
      ensures counts[k] == |mk(k).matches|
    {
      MatchTotalOfAscending(fs, mk, k);
    }
    counts
  }

  /** The findings and counts of the rules, given what each rule finds. */
  function Report(mk: Kind -> LintFinding): (r: LintResult)
    requires KeepsKind(mk)
    ensures r.ok
    ensures forall i :: 0 <= i < |r.findings| ==> r.findings[i] == mk(r.findings[i].kind) && |r.findings[i].matches| > 0
    ensures forall i, j :: 0 <= i < j < |r.findings| ==> Rank(r.findings[i].kind) < Rank(r.findings[j].kind)
    ensures forall k: Kind :: k in KindsOf(r.findings) <==> |mk(k).matches| > 0
    ensures forall k: Kind :: k in r.counts && r.counts[k] == |mk(k).matches|
  {
    var fs := RuleFindings(mk);
    LintResult(true, fs, RuleCounts(fs, mk))
  }

  /**
   * `lintVinegar`: an absent text is read as empty; one finding per rule
   * with matches, in rule order, holding that rule's sorted matches; the
   * count of a kind is the number of its matches, 0 when it has none.
   */
  function Lint(input: Option<string>): (r: LintResult)
    ensures r.ok
    ensures forall i :: 0 <= i < |r.findings| ==>
      r.findings[i] == KindFinding(r.findings[i].kind, input.GetOr("")) && |r.findings[i].matches| > 0
    ensures forall i, j :: 0 <= i < j < |r.findings| ==> Rank(r.findings[i].kind) < Rank(r.findings[j].kind)
    ensures forall k: Kind :: k in KindsOf(r.findings) <==> |KindMatches(k, input.GetOr(""))| > 0
    ensures forall k: Kind :: k in r.counts && r.counts[k] == |KindMatches(k, input.GetOr(""))|
  {
    var t := input.GetOr("");
    var mk := k => KindFinding(k, t);
    assert forall k: Kind :: mk(k) == KindFinding(k, t);
    assert KeepsKind(mk);
    Report(mk)
  }

  /** A rule one of whose expressions matches somewhere has matches. */
  lemma KindHasMatch(k: Kind, t: string, j: nat, pos: nat)
    requires j < |PatternsOf(k)| && pos <= |t| && MatchAt(PatternsOf(k)[j], t, pos).Some?
    ensures |KindMatches(k, t)| > 0
  {
    FoundIff(PatternsOf(k), t);
  }

  /** The "must" of a bounded "you must" is itself a bounded "must". */
  lemma MustOfYouMust(t: string, i: nat)
    requires LitAt(t, i, "you must", true) && Boundary(t, i + 8)
    ensures MatchAt(Word("must"), t, i + 4).Some?
  {
    assert Lower(t[i + 4..i + 8]) == Lower(t[i..i + 8])[4..];
    assert t[i + 4..i + 8] == t[i..i + 8][4..];
    assert LowerChar(t[i + 3]) == ' ' && LowerChar(t[i + 4]) == 'm';
    BoundedLitMatches("must", true, t, i + 4);
  }

  /**
   * "you must" between word boundaries is counted under every rule: as a
   * tone marker, as a hierarchy marker, and through its "must" as coercive
   * certainty.
   */
  lemma YouMustEverywhere(t: string, i: nat)
    requires LitAt(t, i, "you must", true) && Boundary(t, i) && Boundary(t, i + 8)
    ensures forall k: Kind :: |KindMatches(k, t)| > 0
  {
    BoundedLitMatches("you must", true, t, i);
    MustOfYouMust(t, i);
    forall k: Kind
      ensures |KindMatches(k, t)| > 0
    {
      if k == CoerciveCertainty {
        assert PatternsOf(k)[7] == Word("must");
        KindHasMatch(k, t, 7, i + 4);
      } else if k == VinegarTone {
        assert PatternsOf(k)[2] == Word("you must");
        KindHasMatch(k, t, 2, i);
      } else {
        assert PatternsOf(k)[5] == Word("you must");
        KindHasMatch(k, t, 5, i);
      }
    }
  }

  /**
   * Because `%` is not a word character, the closing `\b` of `\b100%\b`
   * needs a word character right after the sign: "100%" followed by a
   * space or the end of the text is not a match.
   */
  lemma HundredPercentNeedsWordAfter(t: string, h: Hit)
    requires ValidHit(HundredPercent(), t, h)
    ensures h.evidence == "100%"
    ensures h.index + 4 < |t| && IsWordChar(t[h.index + 4])
  {
    var p := HundredPercent();
    PhraseMatch(["100%"], true, false, t, h.index);
    assert Phrases(["100%"], true, false) == p;
    assert t[h.index..h.index + 4] == "100%";
    assert t[h.index + 3] == '%';
  }
}

=== FILE: witness.dfy ===
/**
 * The witness emitter: a map from event names to the set of handlers
 * listening for them. A JavaScript `Set` keeps insertion order, so each
 * event's handlers are a duplicate-free sequence; handlers are compared by
 * identity, which the type parameter's equality stands for.
 */
module Witness {
  import opened Common

  type Listeners<H> = map<string, seq<H>>

  /** No event maps to an empty set, and no handler is registered twice for one event. */
  predicate Valid<H(==,!new)>(l: Listeners<H>) {
    forall e :: e in l ==> |l[e]| > 0 && NoDup(l[e])
  }

  /** The handlers of an event, none for an unknown event. */
  function HandlersOf<H>(l: Listeners<H>, e: string): seq<H> {
    if e in l then l[e] else []
  }

  /** `set.delete(h)` on an insertion-ordered set. */
  function Remove<H(==,!new)>(xs: seq<H>, h: H): (r: seq<H>)
    ensures forall x :: x in r <==> x in xs && x != h
    ensures NoDup(xs) ==> NoDup(r)
    ensures h !in xs ==> r == xs
    decreases |xs|
  {
    if |xs| == 0 then []
    else
      var rest := Remove(xs[1..], h);
      assert xs == [xs[0]] + xs[1..];
      assert NoDup(xs) ==> NoDup(xs[1..]) && xs[0] !in xs[1..];
      if xs[0] == h then rest else [xs[0]] + rest
  }

  /** `set.add(h)` on an insertion-ordered set: a new handler goes last, a known one stays where it is. */
  function Add<H(==,!new)>(xs: seq<H>, h: H): (r: seq<H>)
    ensures forall x :: x in r <==> x in xs || x == h
    ensures NoDup(xs) ==> NoDup(r)
    ensures h in xs ==> r == xs
    ensures h !in xs ==> r == xs + [h]
  {
    if h in xs then xs else xs + [h]
  }

  /** The function `on` returns: calling it runs `off` for the same event and handler. */
  datatype Unsubscribe<H> = Unsubscribe(event: string, handler: H)

  /** `on`: register the handler for the event. */
  function On<H(==,!new)>(l: Listeners<H>, e: string, h: H): (r: (Listeners<H>, Unsubscribe<H>))
    ensures Valid(l) ==> Valid(r.0)
    ensures e in r.0 && r.0[e] == Add(HandlersOf(l, e), h)
    ensures forall e' :: e' != e ==> HandlersOf(r.0, e') == HandlersOf(l, e') && (e' in r.0 <==> e' in l)
    ensures r.1 == Unsubscribe(e, h)
  {
    (l[e := Add(HandlersOf(l, e), h)], Unsubscribe(e, h))
  }

  /** `off`: drop the handler, and the event once nothing listens to it; nothing for an unknown event. */
  function Off<H(==,!new)>(l: Listeners<H>, e: string, h: H): (r: Listeners<H>)
    ensures Valid(l) ==> Valid(r)
    ensures e !in l ==> r == l
    ensures forall x :: x in HandlersOf(r, e) <==> x in HandlersOf(l, e) && x != h
    ensures e in r ==> e in l && r[e] == Remove(l[e], h)
    ensures forall e' :: e' != e ==> HandlersOf(r, e') == HandlersOf(l, e') && (e' in r <==> e' in l)
  {
    if e !in l then l
    else
      var rest := Remove(l[e], h);
      if |rest| == 0 then l - {e} else l[e := rest]
  }

  /** Calling an unsubscribe function. */
  function Unsubscribed<H(==,!new)>(l: Listeners<H>, u: Unsubscribe<H>): Listeners<H> {
    Off(l, u.event, u.handler)
  }

  /** `emit`: the handlers called, in order, for the event; none for an unknown event. */
  function Emit<H(==,!new)>(l: Listeners<H>, e: string): (calls: seq<H>)
    ensures forall h :: h in calls <==> e in l && h in l[e]
    ensures Valid(l) ==> NoDup(calls)
  {
    HandlersOf(l, e)
  }

  /** Registering the same handler twice is the same as registering it once. */
  lemma OnTwice<H(!new)>(l: Listeners<H>, e: string, h: H)
    ensures On(On(l, e, h).0, e, h).0 == On(l, e, h).0
  {
  }

  /** A fresh registration undone by its unsubscribe function leaves the listeners as they were. */
  lemma OnThenUnsubscribe<H(!new)>(l: Listeners<H>, e: string, h: H)
    requires Valid(l)
    requires h !in HandlersOf(l, e)
    ensures var (l1, u) := On(l, e, h); Unsubscribed(l1, u) == l
  {
    var (l1, u) := On(l, e, h);
    var xs := HandlersOf(l, e);
    RemoveLast(xs, h);
    if e in l {
      assert Unsubscribed(l1, u) == l[e := xs];
    } else {
      assert Unsubscribed(l1, u) == l1 - {e};
    }
  }

  lemma {:induction false} RemoveLast<H(!new)>(xs: seq<H>, h: H)
    requires h !in xs
    ensures Remove(xs + [h], h) == xs
    decreases |xs|
  {
    if |xs| == 0 {
      assert [h][1..] == [];
    } else {
      assert (xs + [h])[1..] == xs[1..] + [h];
      RemoveLast(xs[1..], h);
      assert xs == [xs[0]] + xs[1..];
    }
  }

  /** After `on`, an emit of that event calls the handler exactly once; other events are unaffected. */
  lemma EmitAfterOn<H(!new)>(l: Listeners<H>, e: string, h: H, other: string)
    requires Valid(l) && other != e
    ensures var l1 := On(l, e, h).0;
            && multiset(Emit(l1, e))[h] == 1
            && Emit(l1, other) == Emit(l, other)
  {
    var l1 := On(l, e, h).0;
    NoDupOnce(Emit(l1, e), h);
  }

  lemma {:induction false} NoDupOnce<T>(xs: seq<T>, x: T)
    requires NoDup(xs) && x in xs
    ensures multiset(xs)[x] == 1
    decreases |xs|
  {
    assert xs == [xs[0]] + xs[1..];
    if xs[0] == x {
      assert x !in xs[1..];
    } else {
      NoDupOnce(xs[1..], x);
    }
  }

  /** After `off`, an emit of that event no longer calls the handler. */
  lemma EmitAfterOff<H(!new)>(l: Listeners<H>, e: string, h: H)
    ensures h !in Emit(Off(l, e, h), e)
  {
  }
}
